=== FILE: README.md ===
# A verified model of the video and image editor's decision logic

The editor is a Spring service with Python helper scripts. It calls out to ffmpeg, ffprobe,
ImageMagick, Whisper and an encoder for the heavy work. What it decides for itself is modelled
here, with each external tool turned into a parameter:

- **Size-target compression** (`scripts/compress_media.py` and `CompressionService`):
  - parsing "NKB"/"NMB" targets;
  - telling images from videos;
  - the JPEG quality binary search and the video bitrate search, as methods with loop
    invariants over an uninterpreted encoder `size` function;
  - the ±10% and ±15% acceptance rules;
  - the exit statuses of the script and the service.
- **The editing timeline** (`TimelineState`, the segment DTOs and `VideoEditingService`):
  - per-layer overlap detection;
  - sorted keyframe lists that replace keyframes within 0.0001 s;
  - validated setters with their defaults;
  - adding videos, choosing audio layers, and segment updates with their rollback;
  - transition placement;
  - filters and cascade deletes.
- **Subtitles and clips** (`SubtitleService`, `PodcastClipService`, `scripts/whisper_subtitle.py`):
  - clamping transcriptions into the audio;
  - merge and replace-by-id updates;
  - 8-second render batches and the windows clipped to them;
  - virality scoring and 30–40 s clip selection;
  - Whisper's 3-word chunking.
- **Validators and status machines**:
  - aspect-ratio configuration and canvas arithmetic;
  - media conversion whitelists and output names;
  - the speed service's statuses;
  - filter-job lifecycle and clamps;
  - the monthly text-to-speech quota;
  - password, e-mail and domain rules;
  - the two image editors' creation and export checks.
- **Mapping helpers**:
  - text gravity, capitalisation, zIndex ordering and multi-colour text coverage in the two
    image renderers;
  - content-type tables and ownership rules of the serving routes;
  - global-element file-name conflicts;
  - voice filters.

Every module is one `.dfy` file. The shared modules are:

- `Wrappers`: Option, Result, Error and Outcome;
- `Text`: Java and Python string helpers, ASCII only;
- `Sorting`: a stable insertion sort by a real key;
- `Lists`;
- `JavaNum`: Java `int` wrap-around, truncating casts and division.

Times, sizes and scales are exact reals. Java's 32-bit integers are written out where wrap-around
matters. Errors carry the exception class and a short reason.

## Model

| member | source | states |
|---|---|---|
| CompressMedia.UnitFactor | scripts/compress_media.py:26-33 | the unit is accepted in any letter case exactly when it is KB or MB, and is worth 1024 or 1024 * 1024 bytes |
| CompressMedia.ParseTargetSize | scripts/compress_media.py:24-33 | a parsed target is a whole number of kibibytes and starts with a digit; every rejection is a ValueError |
| CompressMedia.ParseSpelled | scripts/compress_media.py:26-33 | digits followed by KB or MB in any case, with at most one final newline (Python's `$`), parse to the number times the unit's factor |
| CompressMedia.ParsedIsSpelled | scripts/compress_media.py:26-30 | anything that parses is digits, a unit and at most one final newline |
| CompressMedia.ParseTargetSizeExact | scripts/compress_media.py:24-33 | the parser accepts exactly the spelled targets, with value n * 1024 or n * 1024 * 1024, and raises on every other string |
| CompressMedia.ParseTargetSizeRoundTrip | scripts/compress_media.py:24-33 | writing a size as decimal digits and a unit, with or without a final newline, parses back to that many kibibytes or mebibytes |
| CompressMedia.ParseTargetSizeRejects | scripts/compress_media.py:26-30 | an empty target, one that does not start with a digit, and one with no unit are all rejected |
| CompressMedia.Suffix | scripts/compress_media.py:65 | `Path.suffix` is empty or a dot and at least one more character at the end of the path, with no '/' in it |
| CompressMedia.IsImage | scripts/compress_media.py:60-77 | a file is an image exactly when its lower-cased suffix is one of the five image extensions and its lower-cased format name contains one of the six image format names |
| CompressMedia.HasImageFormat | scripts/compress_media.py:71-77 | the format loop answers true exactly when some image format name occurs in the lower-cased format name |
| CompressMedia.DotFileIsNotImage | scripts/compress_media.py:65-69 | a file named only ".png" has no suffix, so it is not taken for an image |
| CompressMedia.UpperCaseSuffixIsImage | scripts/compress_media.py:65-66 | an upper-case ".JPG" suffix counts as an image extension |
| CompressMedia.Fallback | scripts/compress_media.py:139-147 | after the loop the call keeps the scratch file only when it still exists and is within 15% of the target; otherwise it raises |
| CompressMedia.QualityWidthVanishes | scripts/compress_media.py:111-134 | the bound on the quality window's width reaches zero by the sixth attempt |
| CompressMedia.NarrowQualityShrinks | scripts/compress_media.py:118-131 | a miss keeps the new window inside the old one and no wider than the next attempt's bound |
| CompressMedia.RunsPast | scripts/compress_media.py:117-134 | no attempt before the current one ended the quality search |
| CompressMedia.AttemptFacts | scripts/compress_media.py:111-134 | while the quality search runs, its window is non-empty, inside [5, 95] and within the width bound, so it stops before a seventh attempt |
| CompressMedia.RunsOn | scripts/compress_media.py:117-134 | a quality attempt that neither hits nor empties the window leads to the next one, the window after the miss |
| CompressMedia.RunsBriefly | scripts/compress_media.py:115-134 | the quality search never gets past its sixth attempt, so its ten-attempt limit is never reached |
| CompressMedia.WindowsInRange | scripts/compress_media.py:112-118 | every quality tried is `(min + max) // 2` of a window inside [5, 95] |
| CompressMedia.WindowInRange | scripts/compress_media.py:112-118 | one attempt's window and quality lie inside [5, 95] |
| CompressMedia.QualityLoop | scripts/compress_media.py:111-137 | the quality loop ends on a hit or a closed window within six attempts, each attempt's window is the search's, and the last scratch file is still on disk |
| CompressMedia.QualitySearch | scripts/compress_media.py:111-147 | a hit within 10% is kept; otherwise the loop closed its window and the last file is kept exactly when it is within 15%, else the call raises |
| CompressMedia.CompressImage | scripts/compress_media.py:105-147 | an input within 110% of the target is saved once without a search, and any other input ends in a hit, the 15% fallback or an error |
| CompressMedia.InitialBitrate | scripts/compress_media.py:164-170 | the first bitrate is 90% of the target spread over the duration, less 128 kbps of audio, and never below 100 kbps |
| CompressMedia.NarrowBitrate | scripts/compress_media.py:226-231 | a file too large sets the ceiling 50 below the tried bitrate and tries halfway down to the floor; one too small sets the floor 50 above it and tries halfway up to the ceiling; an open window keeps floor and bitrate at or above 100 |
| CompressMedia.Kbps | scripts/compress_media.py:186-203 | `int()` of a bitrate rounds toward zero |
| CompressMedia.BitrateFloor | scripts/compress_media.py:164-234 | every bitrate the video search reaches, and its floor, is at least 100 kbps |
| CompressMedia.BitrateRunsOn | scripts/compress_media.py:222-234 | an attempt that encodes, misses and leaves the window open leads to the next attempt at the narrowed window |
| CompressMedia.BitrateRunsPast | scripts/compress_media.py:186-234 | all bitrates up to the current attempt are at least 100 kbps and all earlier attempts encoded and missed |
| CompressMedia.BitratesAt | scripts/compress_media.py:186-192 | entry k of the tried bitrates is the bitrate of attempt k |
| CompressMedia.TriedBitrates | scripts/compress_media.py:164-234 | the first bitrate tried is the initial one, each is its attempt's, all are at least 100, and all but the last missed by more than 10% |
| CompressMedia.EncodeAttempt | scripts/compress_media.py:211-245 | one attempt raises on an encoder failure, is kept when within 10%, stops on a closed window, and otherwise goes on at the narrowed window; the scratch file is gone afterwards in every case |
| CompressMedia.BitrateLoop | scripts/compress_media.py:186-245 | the video loop stops at its first failure, hit or closed window, or after five attempts, and never leaves a scratch file behind |
| CompressMedia.CompressVideo | scripts/compress_media.py:154-254 | an input within 110% of the target is copied; otherwise at most five bitrates are tried, from the initial one, each at least 100 and each the narrowing of the last; it ends in a hit, an encoder error or a miss, never in the 15% fallback |
| CompressMedia.CompressVideoKeepingLast | scripts/compress_media.py:186-254 | with the last scratch file kept, a search that stops without a hit ends in the 15% fallback exactly when the last size is within 15% |
| CompressMedia.Run | scripts/compress_media.py:256-288 | exit status 0 exactly when the arguments are four, the target parses, the input exists, ffprobe answers, an image finds its output folder and Pillow opens, converts and saves it, a video has a positive duration and is either already close to the target or finds its output folder, the compression returns and the output's size can be read; a video never ends in the 15% fallback |
| CompressionService.CheckTarget | src/main/java/com/example/videoeditor/service/CompressionService.java:57-60 | a target passes exactly when it is present and is digits followed by an upper-case KB or MB; anything else is an IllegalArgumentException |
| CompressionService.JavaFormParses | src/main/java/com/example/videoeditor/service/CompressionService.java:57-60 | every target the service accepts is one the script parses, to the digits' value times 1024 or 1024 * 1024 |
| CompressionService.ScriptAcceptsMore | src/main/java/com/example/videoeditor/service/CompressionService.java:57 | the script is more lenient than the service: "5kb" and "5KB" with a newline parse there and are refused here |
| CompressionService.Upload | src/main/java/com/example/videoeditor/service/CompressionService.java:50-105 | an upload succeeds exactly when the file is non-empty, the target is well formed, both folders exist and the copy is non-empty; the new row is UPLOADED, owned by the caller, with the original path and no processed file |
| CompressionService.Compress | src/main/java/com/example/videoeditor/service/CompressionService.java:107-196 | a missing row, a foreign owner, a missing input or script, or an output folder that cannot be created leave the row as it was, the last as an IO failure; a non-zero exit marks it FAILED with the script's output, a missing output marks it FAILED, and otherwise it is SUCCESS with the processed name and path; owner, target and original path never change |
| CompressionService.UpdateTargetSize | src/main/java/com/example/videoeditor/service/CompressionService.java:211-233 | the update succeeds exactly when the new target is well formed and the row exists, belongs to the caller and is UPLOADED, and then only the target changes; a non-UPLOADED row is an IllegalStateException, every other refusal an IllegalArgumentException |
| CompressionService.StoredTargetsParse | src/main/java/com/example/videoeditor/service/CompressionService.java:57-59 | every target the service stores, on upload or update, is one the script parses |
| Timeline.Empty | src/main/java/com/example/videoeditor/dto/TimelineState.java:13-24 | a new timeline has empty video, text, audio, image, filter and transition lists |
| Timeline.Read | src/main/java/com/example/videoeditor/dto/TimelineState.java:35-78 | the video, text and audio getters turn a null list into an empty one and return any other list as it is; the other lists are returned unchanged |
| Timeline.ReadStore | src/main/java/com/example/videoeditor/dto/TimelineState.java:35-78 | storing a timeline and reading it back gives the same timeline, and a second read changes nothing |
| Timeline.OverlapsSymmetric | src/main/java/com/example/videoeditor/dto/TimelineState.java:138-140 | the strict overlap test `start < otherEnd && end > otherStart` is symmetric, so touching intervals never clash |
| Timeline.IsTimelinePositionAvailable | src/main/java/com/example/videoeditor/dto/TimelineState.java:136-160 | a position is available exactly when no video or text segment on the layer overlaps it strictly and, for a negative layer only, no audio segment on that layer does |
| Timeline.AvailabilityIgnoresImagesAndUpperAudio | src/main/java/com/example/videoeditor/dto/TimelineState.java:136-160 | image segments never affect availability, and audio segments do not affect it on a layer of 0 or more |
| Timeline.SegmentsByLayer | src/main/java/com/example/videoeditor/dto/TimelineState.java:116-124 | the result holds exactly the video segments on that layer and is no longer than the list |
| Timeline.SegmentsByLayerAppend | src/main/java/com/example/videoeditor/dto/TimelineState.java:116-124 | the layer filter keeps the segments' original order: filtering a concatenation concatenates the filtered halves |
| Timeline.GetMaxLayer | src/main/java/com/example/videoeditor/dto/TimelineState.java:126-134 | the result is at least 0, no video layer exceeds it, and it is 0 or the layer of some segment |
| Timeline.FitsBySamePlacement | src/main/java/com/example/videoeditor/dto/TimelineState.java:136-150 | whether a video segment fits depends only on its layer and timeline span |
| Timeline.AppendFittingKeepsDisjoint | src/main/java/com/example/videoeditor/dto/TimelineState.java:136-150 | appending a video segment that clashes with no video or text segment on its layer keeps every layer free of overlaps |
| Timeline.AppendAvailableKeepsDisjoint | src/main/java/com/example/videoeditor/dto/TimelineState.java:136-160 | appending a video segment at a position the check reported available keeps every layer free of overlaps |
| Timeline.RemoveAtKeepsDisjoint | src/main/java/com/example/videoeditor/dto/TimelineState.java:136-150 | removing a video segment keeps the layers free of overlaps, and the removed segment fits among the rest |
| Timeline.SamePlacementSameDisjoint | src/main/java/com/example/videoeditor/dto/TimelineState.java:136-150 | disjointness depends only on the segments' layers and spans, not on their other fields |
| Keyframes.NewKeyframe | src/main/java/com/example/videoeditor/dto/Keyframe.java:13-17 | the constructor keeps time and value, and a null interpolation type becomes "linear" |
| Keyframes.Kept | src/main/java/com/example/videoeditor/dto/VideoSegment.java:59 | `removeIf` keeps exactly the keyframes more than 0.0001 away from the time |
| Keyframes.Added | src/main/java/com/example/videoeditor/dto/VideoSegment.java:57-62 | after an add the list is sorted by time and is a permutation of the new keyframe and the old keyframes not within 0.0001 of it |
| Keyframes.AddedMembers | src/main/java/com/example/videoeditor/dto/VideoSegment.java:57-62 | the members after an add are the new keyframe and the old ones not near it |
| Keyframes.FirstNear | src/main/java/com/example/videoeditor/dto/VideoSegment.java:68-74 | the update loop stops at the first keyframe within 0.0001 of the time, and finds none exactly when no keyframe is that near |
| Keyframes.Replaced | src/main/java/com/example/videoeditor/dto/VideoSegment.java:64-78 | the list after an in-place update keeps its length, holds the new keyframe at the first near index and leaves every other entry as it was |
| Keyframes.Add | src/main/java/com/example/videoeditor/dto/VideoSegment.java:57-62 | the property's list is created if absent, other properties keep their lists, and the new list is sorted and holds the keyframe and the old ones not near it |
| Keyframes.Remove | src/main/java/com/example/videoeditor/dto/VideoSegment.java:80-85 | every keyframe within 0.0001 of the time leaves the property's list and nothing else changes; an absent property is a no-op |
| Keyframes.UpdateInPlace | src/main/java/com/example/videoeditor/dto/VideoSegment.java:64-78 | as written: the first near keyframe is overwritten in place, length and all other entries kept; with no list or no near keyframe nothing changes |
| Keyframes.Update | src/main/java/com/example/videoeditor/dto/VideoSegment.java:64-78 | corrected: the same change as the in-place update, with the list kept in time order; the list holds the new keyframe, keeps its length and is a permutation of the in-place result |
| Keyframes.UpdateAgreesWhenSorted | src/main/java/com/example/videoeditor/dto/VideoSegment.java:71-72 | whenever the in-place write leaves the list sorted, the corrected update gives exactly the same list |
| Keyframes.TwoAddsKeepBoth | src/main/java/com/example/videoeditor/dto/VideoSegment.java:57-62 | two adds at least 0.0001 apart keep both keyframes, in time order |
| Keyframes.UpdateInPlaceCanUnsort | src/main/java/com/example/videoeditor/dto/VideoSegment.java:64-78 | counterexample: adds at 1.0 and 1.0001, then updates at 1.00009 and 1.00011, leave the list out of time order |
| Keyframes.KeptSorted | src/main/java/com/example/videoeditor/dto/VideoSegment.java:59-61 | removing near keyframes keeps a sorted list sorted |
| Keyframes.KeptIdempotent | src/main/java/com/example/videoeditor/dto/VideoSegment.java:80-85 | removing at the same time twice is removing once |
| Keyframes.KeptInsert | src/main/java/com/example/videoeditor/dto/VideoSegment.java:57-62 | inserting a keyframe near the time and then removing at that time leaves the list as removing alone does |
| Keyframes.AddedIsInsert | src/main/java/com/example/videoeditor/dto/VideoSegment.java:57-62 | the added list is the sorted filtered list with the new keyframe inserted in time order |
| Keyframes.RemoveUndoesAdd | src/main/java/com/example/videoeditor/dto/VideoSegment.java:57-85 | on a sorted list, adding a keyframe and removing at its time is the same as only removing at that time |
| Keyframes.AddedIdempotent | src/main/java/com/example/videoeditor/dto/VideoSegment.java:57-62 | adding the same keyframe twice is adding it once |
| Sorting.SortBy | src/main/java/com/example/videoeditor/dto/VideoSegment.java:61 | sorting by time yields a sorted permutation of the list |
| Sorting.SortByStable | src/main/java/com/example/videoeditor/dto/VideoSegment.java:61 | the sort is stable: keyframes with equal times keep their relative order |
| Sorting.InsertKeepsSorted | src/main/java/com/example/videoeditor/dto/VideoSegment.java:60-61 | inserting into a sorted list keeps it sorted and adds only the inserted element |
| JavaNum.IntCast | src/main/java/com/example/videoeditor/dto/ImageSegment.java:105-106 | Java's `(int)` cast of a double truncates toward zero and saturates at the int range |
| VideoSegments.New | src/main/java/com/example/videoeditor/dto/VideoSegment.java:13-31 | a new video segment has the given id, layer 0, speed 1.0, position (0, 0), scale and opacity 1.0, all crops 0, no keyframes and no audio id |
| VideoSegments.AddKeyframe | src/main/java/com/example/videoeditor/dto/VideoSegment.java:57-62 | only the keyframes change; the property's list is created if absent, is sorted, holds the keyframe and no other keyframe within 0.0001 of it, keeps every earlier keyframe farther than that, and other properties keep their lists |
| VideoSegments.UpdateKeyframe | src/main/java/com/example/videoeditor/dto/VideoSegment.java:64-78 | corrected (see Findings): only the keyframes change; the property holds the same keyframes as the in-place overwrite, re-sorted, so it keeps its length and every keyframe but the replaced one, and holds the new keyframe in time order when a near one existed; nothing changes otherwise |
| VideoSegments.RemoveKeyframe | src/main/java/com/example/videoeditor/dto/VideoSegment.java:80-85 | only the keyframes change; the property's list loses exactly the keyframes within 0.0001 of the time |
| ImageSegments.New | src/main/java/com/example/videoeditor/dto/ImageSegment.java:9-27 | a new image segment keeps its aspect ratio, has scale and opacity 1.0, all crops 0 and no keyframes |
| ImageSegments.EffectiveSize | src/main/java/com/example/videoeditor/dto/ImageSegment.java:105-106 | a positive custom size wins; otherwise the natural size times the scale (1.0 when null), cast to int, which for a non-negative size and scale lies between 0 and the exact product |
| ImageSegments.EffectiveSizeUnscaled | src/main/java/com/example/videoeditor/dto/ImageSegment.java:105-106 | without a custom size and with a null or 1.0 scale the effective size is the natural size |
| ImageSegments.EffectiveSizeCustom | src/main/java/com/example/videoeditor/dto/ImageSegment.java:105 | with a positive custom width the scale plays no part |
| ImageSegments.AddKeyframe | src/main/java/com/example/videoeditor/dto/ImageSegment.java:47-52 | only the keyframes change; the list is sorted, holds the keyframe and no other within 0.0001 of it, keeps every earlier keyframe farther than that, other properties untouched |
| ImageSegments.RemoveKeyframe | src/main/java/com/example/videoeditor/dto/ImageSegment.java:54-59 | only the keyframes change; the property's list loses exactly the keyframes within 0.0001 of the time; an absent property is a no-op |
| AudioSegments.New | src/main/java/com/example/videoeditor/dto/AudioSegment.java:9-16 | a new audio segment has the given id, volume 1.0 and no keyframes |
| AudioSegments.AddKeyframe | src/main/java/com/example/videoeditor/dto/AudioSegment.java:29-35 | only the keyframes change; the list is sorted, holds the keyframe and no other within 0.0001 of it, keeps every earlier keyframe farther than that, other properties untouched |
| AudioSegments.AddKeyframeToNewProperty | src/main/java/com/example/videoeditor/dto/AudioSegment.java:30-33 | adding to a property with no list creates exactly the one-element list |
| AudioSegments.RemoveKeyframe | src/main/java/com/example/videoeditor/dto/AudioSegment.java:37-42 | only the keyframes change; the property's list loses exactly the keyframes within 0.0001 of the time |
| TextStyle.NonNegativeReal | src/main/java/com/example/videoeditor/dto/TextSegment.java:63-68 | a null value becomes the reset value, a non-negative one is kept, a negative one is an IllegalArgumentException |
| TextStyle.NonNegativeInt | src/main/java/com/example/videoeditor/dto/TextSegment.java:107-112 | a null value becomes the reset value, a non-negative one is kept, a negative one is an IllegalArgumentException |
| TextStyle.Opacity | src/main/java/com/example/videoeditor/dto/TextSegment.java:99-104 | a null value becomes the reset value, one in [0, 1] is kept, anything else is an IllegalArgumentException |
| TextStyle.SetAlignment | src/main/java/com/example/videoeditor/dto/TextSegment.java:91-96 | the alignment is set exactly when it is "left", "right" or "center"; null or anything else is refused |
| TextStyle.SetBackgroundOpacity | src/main/java/com/example/videoeditor/dto/TextSegment.java:99-104 | accepted exactly when null or in [0, 1]; null stores the reset value |
| TextStyle.SetTextBorderOpacity | src/main/java/com/example/videoeditor/dto/TextSegment.java:147-152 | accepted exactly when null or in [0, 1]; null stores the reset value |
| TextStyle.SetBackgroundBorderWidth | src/main/java/com/example/videoeditor/dto/TextSegment.java:107-112 | accepted exactly when null or non-negative; null stores the reset value |
| TextStyle.SetBackgroundH | src/main/java/com/example/videoeditor/dto/TextSegment.java:115-120 | accepted exactly when null or non-negative; null stores the reset value |
| TextStyle.SetBackgroundW | src/main/java/com/example/videoeditor/dto/TextSegment.java:123-128 | accepted exactly when null or non-negative; null stores the reset value |
| TextStyle.SetBackgroundBorderRadius | src/main/java/com/example/videoeditor/dto/TextSegment.java:131-136 | accepted exactly when null or non-negative; null stores the reset value |
| TextStyle.SetTextBorderWidth | src/main/java/com/example/videoeditor/dto/TextSegment.java:139-144 | accepted exactly when null or non-negative; null stores the reset value |
| TextStyle.SetLetterSpacing | src/main/java/com/example/videoeditor/dto/TextSegment.java:78-83 | accepted exactly when null or non-negative; null stores the reset value |
| TextStyle.SetLineSpacing | src/main/java/com/example/videoeditor/dto/TextSegment.java:63-68 | accepted exactly when null or non-negative; null stores the reset value |
| TextStyle.ApplyOkIff | src/main/java/com/example/videoeditor/dto/TextSegment.java:63-152 | a setter call succeeds exactly when its argument passes that setter's check, whatever the current style |
| TextStyle.ApplyKeepsValid | src/main/java/com/example/videoeditor/dto/TextSegment.java:63-152 | a successful setter call keeps every style field in its valid range |
| TextStyle.ApplyAllKeepsValid | src/main/java/com/example/videoeditor/dto/TextSegment.java:63-152 | any sequence of setter calls, failed ones leaving the style as it was, keeps the style valid |
| TextStyle.ApplyIdempotent | src/main/java/com/example/videoeditor/dto/TextSegment.java:63-152 | repeating a successful setter call changes nothing more |
| TextStyle.ApplyAcceptanceIndependentOfStyle | src/main/java/com/example/videoeditor/dto/TextSegment.java:63-152 | whether a setter accepts its argument does not depend on the current style |
| TextSegments.New | src/main/java/com/example/videoeditor/dto/TextSegment.java:10-43 | a new text segment is not a subtitle, is on layer 0, uses ARIAL in white on transparent, is left-aligned with line spacing 1.2, and its style is valid |
| TextSegments.SettersKeepDefaultsValid | src/main/java/com/example/videoeditor/dto/TextSegment.java:63-152 | from the defaults, any sequence of setter calls leaves a valid style |
| TextSegments.NullResetsAreDefaults | src/main/java/com/example/videoeditor/dto/TextSegment.java:63-152 | passing null to a setter restores that field's declared default: 1.2, 0.0, 1.0 or 0 |
| TextSegments.SetStyle | src/main/java/com/example/videoeditor/dto/TextSegment.java:63-152 | a setter call on a segment succeeds exactly when the style setter does, and then changes only the style |
| TextSegments.AddKeyframe | src/main/java/com/example/videoeditor/dto/TextSegment.java:163-168 | only the keyframes change; the list is sorted, holds the keyframe and no other within 0.0001 of it, keeps every earlier keyframe farther than that, other properties untouched |
| TextSegments.UpdateKeyframe | src/main/java/com/example/videoeditor/dto/TextSegment.java:170-184 | corrected (see Findings): only the keyframes change; the property holds the same keyframes as the in-place overwrite, re-sorted, so it keeps its length and every keyframe but the replaced one, and holds the new keyframe in time order when a near one existed; otherwise nothing changes |
| TextSegments.RemoveKeyframe | src/main/java/com/example/videoeditor/dto/TextSegment.java:186-191 | only the keyframes change; the property's list loses exactly the keyframes within 0.0001 of the time |
| SubtitleDto.New | src/main/java/com/example/videoeditor/dto/SubtitleDTO.java:13-41 | a new subtitle is a subtitle, uses Arial, is centred, has no timeline times yet and a valid style |
| SubtitleDto.SettersKeepDefaultsValid | src/main/java/com/example/videoeditor/dto/SubtitleDTO.java:44-112 | from the subtitle defaults, any sequence of setter calls leaves a valid style |
| SubtitleDto.NullResetsAreDefaults | src/main/java/com/example/videoeditor/dto/SubtitleDTO.java:44-112 | null restores the subtitle defaults: 50 for the background height and width, 15 for the radius, 1.2 and 0.0 for the spacings |
| SubtitleDto.SetStyle | src/main/java/com/example/videoeditor/dto/SubtitleDTO.java:44-112 | a setter call on a subtitle succeeds exactly when the style setter does, and then changes only the style |
| TimelineAdd.LowestLayer | src/main/java/com/example/videoeditor/service/VideoEditingService.java:430-446 | a layer at or below -1 and below every audio layer in use, where the downward search must stop |
| TimelineAdd.FreeLayerFrom | src/main/java/com/example/videoeditor/service/VideoEditingService.java:432-445 | searching down from a layer finds a free layer at or below it, and every layer passed on the way is taken |
| TimelineAdd.AvailableAudioLayer | src/main/java/com/example/videoeditor/service/VideoEditingService.java:430-446 | the chosen audio layer is the highest of -1, -2, ... where the interval overlaps no audio segment: it is free and every layer above it down from -1 is taken |
| TimelineAdd.AvailableLayerKeepsAudioDisjoint | src/main/java/com/example/videoeditor/service/VideoEditingService.java:389-419 | an audio segment placed on the chosen layer keeps the audio layers free of overlaps |
| TimelineAdd.LastEndOnLayer | src/main/java/com/example/videoeditor/service/VideoEditingService.java:310-318 | corrected: the default start is at least 0, no earlier than the end of every video segment on the layer, and is 0 or such an end |
| TimelineAdd.LastEndOnLayerAsWritten | src/main/java/com/example/videoeditor/service/VideoEditingService.java:310-318 | as written: the boxed layers are compared by identity, so the scan agrees with the corrected one on layers -128 to 127 and finds nothing, giving 0, on any other layer |
| TimelineAdd.VideoPlacement | src/main/java/com/example/videoeditor/service/VideoEditingService.java:307-331 | layer defaults to 0, the start to the end of the layer's last segment, the source range to the whole video, and the timeline end to start plus the clip length |
| TimelineAdd.AddVideoToTimeline | src/main/java/com/example/videoeditor/service/VideoEditingService.java:292-428 | corrected (see Findings): the call succeeds exactly when the position is available and 0 <= start < end <= duration; an overlap is reported first; on success exactly one video segment with the placement's fields is appended and, when asked, one audio segment on the first free audio layer with the same span, linked by id; nothing else changes |
| TimelineAdd.AddVideoAsWritten | src/main/java/com/example/videoeditor/service/VideoEditingService.java:310-318 | the code as written agrees with the corrected call whenever a start time is given or the layer lies in the Integer cache |
| TimelineAdd.BoxedLayerMisplaces | src/main/java/com/example/videoeditor/service/VideoEditingService.java:313 | with a clip on layer 200 over [0, 5], a new 5-second clip for layer 200 with no start is refused as an overlap by the code as written, while the corrected call places it at 5 |
| TimelineAdd.AddVideoKeepsDisjoint | src/main/java/com/example/videoeditor/service/VideoEditingService.java:333-339 | adding a video keeps every layer free of overlaps, audio layers included |
| TimelineAdd.AppendsAfterLastOnLayer | src/main/java/com/example/videoeditor/service/VideoEditingService.java:310-318 | without a start, the new clip starts no earlier than the end of every clip on its layer |
| TimelineAdd.AddAudioToTimeline | src/main/java/com/example/videoeditor/service/VideoEditingService.java:988-1059 | the call succeeds exactly when the layer is negative, the file exists, 0 <= start < end <= duration and the position is free; a missing file is an IOException; on success only one audio segment with the requested fields and volume 1.0 is appended |
| TimelineAdd.AddAudioKeepsAudioDisjoint | src/main/java/com/example/videoeditor/service/VideoEditingService.java:988-1059 | an added audio segment keeps the audio layers free of overlaps |
| TimelineAdd.AddImageToTimeline | src/main/java/com/example/videoeditor/service/VideoEditingService.java:1348-1415 | the call succeeds exactly when the file exists and the position, with a default 5-second span, is available; on success one image segment and one filter per requested entry are appended and the other lists are unchanged |
| TimelineAdd.ImagesMayOverlap | src/main/java/com/example/videoeditor/service/VideoEditingService.java:1348-1415 | the placement check ignores images, so the same image request succeeds a second time on top of the first |
| SegmentUpdates.CheckCrops | src/main/java/com/example/videoeditor/service/VideoEditingService.java:572-594 | the crop checks pass exactly when every given crop is in [0, 100] and the crops in effect afterwards sum below 100 left plus right and top plus bottom; failures are IllegalArgumentExceptions |
| SegmentUpdates.AddAll | src/main/java/com/example/videoeditor/service/VideoEditingService.java:600-606 | keyframes added in order leave other properties untouched and the last one present in the property's list |
| SegmentUpdates.AddList | src/main/java/com/example/videoeditor/service/VideoEditingService.java:600-606 | one property's keyframes are added until the first out of the segment's bounds; the call completes exactly when all are in bounds, and other properties keep their lists |
| SegmentUpdates.AddEntriesAll | src/main/java/com/example/videoeditor/service/VideoEditingService.java:596-622 | adding whole entries never removes a property and leaves properties not mentioned untouched |
| SegmentUpdates.AddEntries | src/main/java/com/example/videoeditor/service/VideoEditingService.java:596-622 | the keyframe loop throws an IllegalArgumentException exactly when some keyframe is out of bounds, and finishes every requested property otherwise; properties not mentioned keep their lists |
| SegmentUpdates.Cleared | src/main/java/com/example/videoeditor/service/VideoEditingService.java:607-620 | a static property is cleared exactly when its keyframes were all added |
| SegmentUpdates.StretchedSpan | src/main/java/com/example/videoeditor/service/VideoEditingService.java:660-664 | a timeline span shorter than the clip is stretched to the clip's length; a long enough span is kept |
| SegmentUpdates.ClampedStart | src/main/java/com/example/videoeditor/service/VideoEditingService.java:641-644 | a new clip start is clamped at 0, and no start keeps the current one |
| SegmentUpdates.ClampedEnd | src/main/java/com/example/videoeditor/service/VideoEditingService.java:645-652 | a new clip end is capped at the source video's duration, and no end keeps the current one |
| SegmentUpdates.UpdateVideoSegment | src/main/java/com/example/videoeditor/service/VideoEditingService.java:529-701 | only the video list and transitions change and the list keeps its length; an unknown id is a RuntimeException with no change; a crop failure changes nothing; a success leaves the segment last; the layers stay free of overlaps in every outcome |
| SegmentUpdates.CommitVideoKeepsDisjoint | src/main/java/com/example/videoeditor/service/VideoEditingService.java:667-687 | the re-placement keeps the layers free of overlaps whether it commits or rolls back |
| SegmentUpdates.KeyframesOnlyKeepsDisjoint | src/main/java/com/example/videoeditor/service/VideoEditingService.java:596-622 | a throw in the keyframe loop leaves the added keyframes but no placement change, so the layers stay free of overlaps |
| SegmentUpdates.VideoAfterKeyframesKeepsDisjoint | src/main/java/com/example/videoeditor/service/VideoEditingService.java:623-701 | the field changes, re-placement and rollback after the keyframe loop keep the layers free of overlaps |
| SegmentUpdates.CommitVideoRollback | src/main/java/com/example/videoeditor/service/VideoEditingService.java:676-687 | on an overlap the segment goes back with its old times, clip range, layer and crops |
| SegmentUpdates.VideoRollbackKeepsPosition | src/main/java/com/example/videoeditor/service/VideoEditingService.java:676-687 | the overlap rollback restores times, layer and crops but keeps a new position and opacity |
| SegmentUpdates.CommitVideoPlaces | src/main/java/com/example/videoeditor/service/VideoEditingService.java:667-698 | a committed segment sits where nothing else on its layer is, and when it moved its transitions lie inside its new span |
| SegmentUpdates.UpdateVideoPlaces | src/main/java/com/example/videoeditor/service/VideoEditingService.java:529-701 | after a successful update the segment is free on its layer, its span is at least as long as its clip, its crops are valid and, when it moved, its transitions lie inside its span |
| SegmentUpdates.UpdateImageSegment | src/main/java/com/example/videoeditor/service/VideoEditingService.java:1417-1564 | only the image list and transitions change and the list keeps its length; an unknown id is a RuntimeException with no change; a crop failure changes nothing; a success leaves the image last |
| SegmentUpdates.CommitImageRollback | src/main/java/com/example/videoeditor/service/VideoEditingService.java:1533-1549 | on an overlap the image goes back with its old span, layer and crops |
| SegmentUpdates.ImageRollbackRestores | src/main/java/com/example/videoeditor/service/VideoEditingService.java:1533-1549 | the overlap rollback restores span, layer and crops and keeps a new size and position |
| SegmentUpdates.CommitImagePlaces | src/main/java/com/example/videoeditor/service/VideoEditingService.java:1533-1562 | a committed image sits at an available position, and when it moved its transitions lie inside its new span |
| SegmentUpdates.UpdateImagePlaces | src/main/java/com/example/videoeditor/service/VideoEditingService.java:1417-1564 | after a successful update the image is at an available position with valid crops and the requested size, and when it moved its transitions lie inside its span |
| AudioUpdates.Abs | src/main/java/com/example/videoeditor/service/VideoEditingService.java:1151 | `Math.abs` is non-negative and equals the value or its negation |
| AudioUpdates.AudioFieldChanges | src/main/java/com/example/videoeditor/service/VideoEditingService.java:1105-1163 | when the field stage passes, a given timeline start is non-negative, a given layer is negative and set, a given volume is in [0, 1] and set, and a given clip range is inside the file and set; every rejection is a RuntimeException |
| AudioUpdates.AudioClipChanges | src/main/java/com/example/videoeditor/service/VideoEditingService.java:1128-1163 | a new clip start lies in [0, duration) and a new end after the start and within the duration; without timeline times the span equals the clip, with them it matches the clip within 0.001 |
| AudioUpdates.FinalCheck | src/main/java/com/example/videoeditor/service/VideoEditingService.java:1165-1173 | the final check passes exactly when the span matches the clip within 0.001 and is positive |
| AudioUpdates.UpdateAudioSegment | src/main/java/com/example/videoeditor/service/VideoEditingService.java:1062-1192 | only the audio list changes and it keeps its length; an unknown id is a RuntimeException with no change; a success leaves the segment last |
| AudioUpdates.CommitAudioPlaces | src/main/java/com/example/videoeditor/service/VideoEditingService.java:1175-1189 | a committed audio segment is moved to the end of the list at a position that is free on its layer |
| AudioUpdates.UpdateAudioValidates | src/main/java/com/example/videoeditor/service/VideoEditingService.java:1062-1192 | after a successful update the segment is free on its layer, its span is positive and matches its clip within 0.001, and every given layer, volume and clip bound is in range and in place |
| AudioUpdates.AfterKeyframesRollback | src/main/java/com/example/videoeditor/service/VideoEditingService.java:1175-1189 | an overlap can only come from the re-placement, which puts back the clip range, span and layer the segment had |
| AudioUpdates.AudioRollbackRestores | src/main/java/com/example/videoeditor/service/VideoEditingService.java:1182-1189 | the overlap rollback restores clip range, span and layer and keeps a new volume |
| AudioUpdates.FieldChangesDeriveSpan | src/main/java/com/example/videoeditor/service/VideoEditingService.java:1155-1162 | without timeline times, a new start shifts the timeline start by the same amount and the span becomes the clip's length |
| AudioUpdates.UpdateAudioDerivesSpan | src/main/java/com/example/videoeditor/service/VideoEditingService.java:1155-1162 | without timeline times, a successful update shifts the timeline start with the clip start and makes the span equal to the clip |
| AudioUpdates.AudioAppendKeepsDisjoint | src/main/java/com/example/videoeditor/service/VideoEditingService.java:1175-1180 | appending an audio segment that overlaps nothing on its layer keeps the audio layers free of overlaps |
| AudioUpdates.AudioRemoveAtKeepsDisjoint | src/main/java/com/example/videoeditor/service/VideoEditingService.java:1175 | removing an audio segment keeps the audio layers free of overlaps, and the removed one fits among the rest |
| AudioUpdates.AvailableFits | src/main/java/com/example/videoeditor/service/VideoEditingService.java:1176-1179 | on a negative layer, an available position overlaps no audio segment on that layer |
| AudioUpdates.UpdateAudioCanBreakLayers | src/main/java/com/example/videoeditor/service/VideoEditingService.java:1119-1126 | as written: a request that sets layer -2 and then fails the volume check leaves segment "a" on layer -2 over the same span as "b", with no rollback |
| AudioUpdates.UpdateAudioSegmentChecked | src/main/java/com/example/videoeditor/service/VideoEditingService.java:1062-1192 | corrected: the same errors as the code, but every rejection other than the overlap leaves the timeline unchanged |
| AudioUpdates.CommitAudioKeepsLayers | src/main/java/com/example/videoeditor/service/VideoEditingService.java:1175-1189 | the re-placement keeps the audio layers negative and free of overlaps whether it commits or rolls back |
| AudioUpdates.AfterKeyframesKeepsLayers | src/main/java/com/example/videoeditor/service/VideoEditingService.java:1105-1189 | when the update succeeds or fails only on the overlap, the audio layers stay negative and free of overlaps |
| AudioUpdates.CheckedUpdateKeepsAudioLayers | src/main/java/com/example/videoeditor/service/VideoEditingService.java:1062-1192 | the corrected update keeps every audio layer negative and free of overlaps, whatever the request |
| Transitions.FindSegment | src/main/java/com/example/videoeditor/service/VideoEditingService.java:1987-1998 | a segment is found exactly when a video, image or text segment has the id; audio segments are never found |
| Transitions.FindSegmentSpan | src/main/java/com/example/videoeditor/service/VideoEditingService.java:1987-1998 | the search looks at video segments first, then images, then texts, and returns the span of the segment with the id |
| Transitions.PlacedWithin | src/main/java/com/example/videoeditor/service/VideoEditingService.java:1810-1816 | a transition no longer than its segment, placed at the segment's start or end, lies inside the segment |
| Transitions.Place | src/main/java/com/example/videoeditor/service/VideoEditingService.java:1810-1816 | a start transition begins with its segment and an end transition ends with it; only the start time is set, and a short enough transition lies inside the segment |
| Transitions.CheckPlacement | src/main/java/com/example/videoeditor/service/VideoEditingService.java:1790-1808 | the checks pass exactly when the transition is at start or end, its segment exists on its layer, and its duration is positive and no longer than the segment |
| Transitions.AddTransition | src/main/java/com/example/videoeditor/service/VideoEditingService.java:1776-1846 | the transition is added exactly when the checks pass and it overlaps no transition of the same segment, layer and start/end kind; only the transition list changes, by one at its end; errors are RuntimeExceptions |
| Transitions.AppendKeepsTransitionsDisjoint | src/main/java/com/example/videoeditor/service/VideoEditingService.java:1819-1844 | appending a transition that clashes with none keeps the list free of clashes |
| Transitions.AddTransitionKeepsDisjoint | src/main/java/com/example/videoeditor/service/VideoEditingService.java:1776-1846 | a successful add keeps the list free of clashes and the new transition inside its segment |
| Transitions.AddTransitionTwiceClashes | src/main/java/com/example/videoeditor/service/VideoEditingService.java:1819-1829 | adding the same request twice fails the second time |
| Transitions.MovedToEnd | src/main/java/com/example/videoeditor/service/VideoEditingService.java:1932-1946 | the remove-then-add moves the transition to the end of the list and keeps the rest in order |
| Transitions.MovedToEndPermutes | src/main/java/com/example/videoeditor/service/VideoEditingService.java:1932-1946 | moving a transition to the end keeps the same transitions |
| Transitions.UpdateTransition | src/main/java/com/example/videoeditor/service/VideoEditingService.java:1848-1951 | only the transition list changes and it keeps its length; an unknown id is a RuntimeException with no change; every failure is a RuntimeException |
| Transitions.UpdateTransitionRollsBack | src/main/java/com/example/videoeditor/service/VideoEditingService.java:1894-1946 | a failed update leaves the same transitions, with the changed one restored |
| Transitions.UpdateTransitionPlaces | src/main/java/com/example/videoeditor/service/VideoEditingService.java:1848-1951 | after a successful update the transition is last, at start or end of an existing segment on its layer, with a positive duration, inside the segment, and clashing with no other |
| Transitions.UpdateTransitionKeepsDisjoint | src/main/java/com/example/videoeditor/service/VideoEditingService.java:1848-1951 | an update keeps the transition list free of clashes, whether it succeeds or fails |
| Transitions.MovedToEndKeepsDisjoint | src/main/java/com/example/videoeditor/service/VideoEditingService.java:1932-1946 | moving a transition to the end, unchanged or changed so that it clashes with none of the rest, keeps the list free of clashes |
| Transitions.PutBackFits | src/main/java/com/example/videoeditor/service/VideoEditingService.java:1940-1941 | in a list free of clashes, a transition clashes with none of the others, so putting it back is safe |
| Transitions.RemoveAtKeepsTransitionsDisjoint | src/main/java/com/example/videoeditor/service/VideoEditingService.java:1974-1984 | removing a transition keeps the list free of clashes |
| Transitions.RemoveTransition | src/main/java/com/example/videoeditor/service/VideoEditingService.java:1974-1984 | removal succeeds exactly when a transition has the id, removes every one with the id, keeps the others, and changes nothing else |
| Transitions.RetimeTransitions | src/main/java/com/example/videoeditor/service/VideoEditingService.java:2000-2030 | the segment's transitions are moved in list order, the others kept; the run fails exactly when one is longer than the new span, after moving it and those before it |
| Transitions.RetimedWithin | src/main/java/com/example/videoeditor/service/VideoEditingService.java:2000-2030 | when the retiming succeeds, each of the segment's transitions lies inside the new span on its new layer |
| Filters.NeedFilterable | src/main/java/com/example/videoeditor/service/VideoEditingService.java:3859-3876 | a filter target passes exactly when a video or image segment has the id |
| Filters.ApplyFilter | src/main/java/com/example/videoeditor/service/VideoEditingService.java:3855-3886 | applying succeeds exactly when a video or image segment has the id; the new filter is last, every filter with the same segment and name is removed, the rest are kept, and only the filter list changes |
| Filters.ApplyFilterLeavesOne | src/main/java/com/example/videoeditor/service/VideoEditingService.java:3882-3883 | after applying, exactly one filter has the segment and name, and it carries the new value |
| Filters.ApplyFilterKeepsUnique | src/main/java/com/example/videoeditor/service/VideoEditingService.java:3882-3883 | applying keeps at most one filter per segment and name |
| Filters.KeepKeepsUnique | src/main/java/com/example/videoeditor/service/VideoEditingService.java:3882 | removing filters keeps at most one per segment and name |
| Filters.RemoveFilter | src/main/java/com/example/videoeditor/service/VideoEditingService.java:3888-3898 | removal succeeds exactly when some filter belongs to the segment, and removes all of that segment's filters and nothing else |
| Filters.FiltersForSegment | src/main/java/com/example/videoeditor/service/VideoEditingService.java:3900-3918 | the query succeeds exactly when a segment of any kind has the id, and returns exactly that segment's filters |
| Filters.UpdateFilter | src/main/java/com/example/videoeditor/service/VideoEditingService.java:3920-3958 | the update succeeds exactly when a video or image segment has the id and a filter of that segment has the filter id; one filter gets the new name and value, the others and their order stay |
| Filters.UpdateFilterCanDuplicateName | src/main/java/com/example/videoeditor/service/VideoEditingService.java:3945-3952 | unlike applying, renaming a filter to a name its segment already has leaves two filters of that name |
| Filters.DeleteVideo | src/main/java/com/example/videoeditor/service/VideoEditingService.java:3961-3973 | deleting succeeds exactly when a video segment has the id, and removes that segment and its filters and nothing else |
| Filters.DeleteImage | src/main/java/com/example/videoeditor/service/VideoEditingService.java:3976-3988 | deleting succeeds exactly when an image segment has the id, and removes that segment and its filters and nothing else |
| Filters.DeleteAudio | src/main/java/com/example/videoeditor/service/VideoEditingService.java:3991-4001 | deleting succeeds exactly when an audio segment has the id, and removes only that segment |
| Filters.DeleteText | src/main/java/com/example/videoeditor/service/VideoEditingService.java:4004-4014 | deleting succeeds exactly when a text segment has the id, and removes only that segment |
| Filters.DeleteCascades | src/main/java/com/example/videoeditor/service/VideoEditingService.java:3961-3988 | deleting a video or image keeps filters unique and leaves none for the deleted id |
| SubtitleService.FromEntry | src/main/java/com/example/videoeditor/service/SubtitleService.java:175-199 | a surviving entry gives a subtitle with start max(0, start), end min(duration, end), trimmed text, the request's or default font and colours, and a valid style, lying inside [0, duration] |
| SubtitleService.TrimIdempotent | src/main/java/com/example/videoeditor/service/SubtitleService.java:178-183 | the stored text is already trimmed: trimming it again changes nothing |
| SubtitleService.StripIsTrimmed | src/main/java/com/example/videoeditor/service/SubtitleService.java:183 | a trimmed text neither starts nor ends with a character trimming drops |
| SubtitleService.Transcript | src/main/java/com/example/videoeditor/service/SubtitleService.java:169-203 | the loop gives at most one subtitle per entry, each inside [0, duration] with trimmed, non-blank text |
| SubtitleService.EntryIsClean | src/main/java/com/example/videoeditor/service/SubtitleService.java:178-183 | a subtitle built from an entry that survives lies inside the audio and has trimmed, non-blank text |
| SubtitleService.TranscriptCount | src/main/java/com/example/videoeditor/service/SubtitleService.java:169-203 | the loop gives exactly one subtitle per surviving entry |
| SubtitleService.ClampKeepsInside | src/main/java/com/example/videoeditor/service/SubtitleService.java:175-176 | an entry already inside [0, duration] survives with its own times |
| SubtitleService.ClampIdempotent | src/main/java/com/example/videoeditor/service/SubtitleService.java:175-183 | a generated subtitle, fed back as an entry, survives with the same times and text |
| SubtitleService.Generate | src/main/java/com/example/videoeditor/service/SubtitleService.java:111-220 | generation succeeds exactly when the row exists and is the caller's, the input exists, ffprobe gives a positive duration and the transcriber returns entries; success stores SUCCESS with every subtitle inside the audio; an owner's failure leaves FAILED, or PROCESSING when ffprobe threw |
| SubtitleService.IfGiven | src/main/java/com/example/videoeditor/service/SubtitleService.java:251-273 | a field the request leaves null is not touched; a given one goes through its setter |
| SubtitleService.MergeBackground | src/main/java/com/example/videoeditor/dto/SubtitleDTO.java:51-91 | opacity, alignment and the background's size and radius setters pass exactly when each given value is in range, and replace only the given fields |
| SubtitleService.MergeBorders | src/main/java/com/example/videoeditor/dto/SubtitleDTO.java:44-112 | the border widths, text-border opacity and spacings pass exactly when each given value is in range, and replace only the given fields |
| SubtitleService.MergeStyle | src/main/java/com/example/videoeditor/dto/SubtitleDTO.java:44-112 | the validated style setters pass exactly when every given value is in range; the merge replaces the given fields and keeps the rest |
| SubtitleService.IndexOfId | src/main/java/com/example/videoeditor/service/SubtitleService.java:246-247 | the loop finds the first subtitle with the id, or none when no subtitle has it |
| SubtitleService.Given | src/main/java/com/example/videoeditor/service/SubtitleService.java:252-253 | a merged field is the request's value when given and the stored one otherwise |
| SubtitleService.Merge | src/main/java/com/example/videoeditor/service/SubtitleService.java:248-279 | corrected (see Findings): merging only the keys a request sends, the merge succeeds exactly when every sent style value is valid and the merged times are set with the end after the start; each sent field replaces the stored one and the rest stay |
| SubtitleService.MergeIdempotent | src/main/java/com/example/videoeditor/service/SubtitleService.java:248-279 | merging the same request twice gives what merging once gave |
| SubtitleService.Editable | src/main/java/com/example/videoeditor/service/SubtitleService.java:224-234 | an edit may proceed exactly when the row exists and is the caller's; otherwise an IllegalArgumentException |
| SubtitleService.UpdateSingle | src/main/java/com/example/videoeditor/service/SubtitleService.java:222-298 | corrected (see Findings): for the owner's row with subtitles, the update succeeds exactly when a subtitle has the id and the merge of the keys sent succeeds; only the first such subtitle changes, to the merge, and the row is marked SUCCESS; a row without subtitles is an IllegalStateException |
| SubtitleService.Body | src/main/java/com/example/videoeditor/dto/SubtitleDTO.java:15-37 | the body Jackson builds carries the text and times as sent and every style field set, to the sent value or the DTO's initialiser; it passes the setters exactly when the keys sent do |
| SubtitleService.MergeOfBody | src/main/java/com/example/videoeditor/service/SubtitleService.java:251-273 | merging the body as built is merging the keys sent and then resetting every style field left out to the subtitle default; both succeed together |
| SubtitleService.TextEditResetsStyle | src/main/java/com/example/videoeditor/controller/SubtitleController.java:79 | a yellow subtitle at y = 400 whose text alone is edited comes back white at y = 0; merging the keys sent keeps yellow at 400 |
| SubtitleService.UpdateSingleAsWritten | src/main/java/com/example/videoeditor/service/SubtitleService.java:222-298 | as written: the update succeeds exactly when the corrected one does, and the edited subtitle is the corrected merge with every style field left out of the request reset to its default; the others stay |
| SubtitleService.CheckReplacement | src/main/java/com/example/videoeditor/service/SubtitleService.java:320-328 | a replacement passes exactly when its text is not blank and its end comes after its start |
| SubtitleService.CheckAll | src/main/java/com/example/videoeditor/service/SubtitleService.java:320-329 | the checks pass exactly when every replacement passes |
| SubtitleService.LastIndexOfId | src/main/java/com/example/videoeditor/service/SubtitleService.java:336-339 | the last entry with the id is found, or none when no entry has it |
| SubtitleService.LastWithId | src/main/java/com/example/videoeditor/service/SubtitleService.java:336-339 | the map keeps, for each id, the last entry of the request with that id |
| SubtitleService.ReplaceById | src/main/java/com/example/videoeditor/service/SubtitleService.java:341-346 | the replaced list keeps its length and order of ids, and each subtitle is replaced by the request's last entry with its id, when there is one |
| SubtitleService.UpdateMultiple | src/main/java/com/example/videoeditor/service/SubtitleService.java:300-354 | the update succeeds exactly when the row is the caller's, the request is non-empty, every entry passes and the row has subtitles; it stores the replaced list and SUCCESS |
| SubtitleService.ReplaceByIdKeepsOthers | src/main/java/com/example/videoeditor/service/SubtitleService.java:341-346 | a subtitle whose id the request does not mention is left as it was |
| SubtitleService.UpdateAll | src/main/java/com/example/videoeditor/service/SubtitleService.java:356-389 | the update succeeds exactly when the row is the caller's and has subtitles; on every subtitle only the font, font colour and background colour change, each to the request's value when its key is present |
| SubtitleService.RenderBatches | src/main/java/com/example/videoeditor/service/SubtitleService.java:771-780 | the batches cover [0, total) in order without gaps, each 8 seconds long but the last, which ends at the total; none when the total is not positive |
| SubtitleService.BatchOverlay | src/main/java/com/example/videoeditor/service/SubtitleService.java:836-899 | a subtitle is overlaid on a batch exactly when it overlaps the batch, has text, ends after it starts and its image was written; it shows over a non-empty window inside the batch |
| SubtitleService.BatchOverlays | src/main/java/com/example/videoeditor/service/SubtitleService.java:836-899 | the batch's overlays are computed exactly when every subtitle has times, and each lies inside the batch |
| SubtitleService.StoredListsAreTimed | src/main/java/com/example/videoeditor/service/SubtitleService.java:836 | the lists generation stores always have times, so the batch filter never meets a missing time |
| SubtitleService.MaxScale | src/main/java/com/example/videoeditor/service/SubtitleService.java:1163-1174 | the scale used is at least the subtitle's scale (1.0 when null) and every scale keyframe, and is one of them |
| SubtitleService.ScaleDown | src/main/java/com/example/videoeditor/service/SubtitleService.java:1230-1238 | the shrink factor is 1.0 for a framed text within the limit, never below 0.5, and at most 1.0 for a positive limit |
| PodcastClipService.Upload | src/main/java/com/example/videoeditor/service/PodcastClipService.java:72-120 | a non-empty URL wins and must match the YouTube pattern, giving a youtube_<uuid>.mp4 name; otherwise a non-empty file saved non-empty keeps its name; with neither, or a bad URL, an IllegalArgumentException |
| PodcastClipService.Hits | src/main/java/com/example/videoeditor/service/PodcastClipService.java:440-445 | no more hits than keywords |
| PodcastClipService.ViralityScore | src/main/java/com/example/videoeditor/service/PodcastClipService.java:434-453 | the score lies in [0, 100], is at least 15 with a question mark and at least 20 for three sentences or fewer |
| PodcastClipService.ViralityIgnoresCase | src/main/java/com/example/videoeditor/service/PodcastClipService.java:436 | the score of a text and of its lower-cased form are the same |
| PodcastClipService.WindowEnd | src/main/java/com/example/videoeditor/service/PodcastClipService.java:399-416 | the inner loop stops at the first segment that brings the span to 30 seconds, or at the last segment |
| PodcastClipService.WindowStopsAtThirty | src/main/java/com/example/videoeditor/service/PodcastClipService.java:399-416 | a window ends short of 30 seconds only at the last segment |
| PodcastClipService.WindowClip | src/main/java/com/example/videoeditor/service/PodcastClipService.java:418-427 | a window spanning 30 to 40 seconds gives a qualifying candidate from its first segment's start to its last segment's end |
| PodcastClipService.Windows | src/main/java/com/example/videoeditor/service/PodcastClipService.java:394-416 | the outer loop's windows partition the segments: the first starts at the first segment, each ends where the inner loop stops and the next starts right after it, and the last ends at the last segment |
| PodcastClipService.Fitting | src/main/java/com/example/videoeditor/service/PodcastClipService.java:418 | a window is kept exactly when it is one of the windows and spans 30 to 40 seconds; order is kept |
| PodcastClipService.ClipAt | src/main/java/com/example/videoeditor/service/PodcastClipService.java:418-427 | the candidate of a fitting window starts at its first segment's start, ends at its last segment's end and carries the score of its text and its own id |
| PodcastClipService.Clips | src/main/java/com/example/videoeditor/service/PodcastClipService.java:418-427 | one candidate per fitting window, in window order |
| PodcastClipService.Candidates | src/main/java/com/example/videoeditor/service/PodcastClipService.java:394-428 | the candidates are exactly the clips of the fitting windows of the partition, one per window and in window order; there are no more candidates than segments, and every one spans 30 to 40 seconds with a score in [0, 100] |
| PodcastClipService.CandidateIsWindow | src/main/java/com/example/videoeditor/service/PodcastClipService.java:394-428 | every candidate is the clip of a window of the partition that spans 30 to 40 seconds |
| PodcastClipService.Top | src/main/java/com/example/videoeditor/service/PodcastClipService.java:430-431 | the top list has min(15, candidates) clips, ordered by descending score, all drawn from the candidates; the sort is stable, so among clips of equal score it keeps the earliest ones |
| PodcastClipService.TopIsTop | src/main/java/com/example/videoeditor/service/PodcastClipService.java:430-431 | no candidate left out scores above a selected one |
| PodcastClipService.PrefixBeatsSuffix | src/main/java/com/example/videoeditor/service/PodcastClipService.java:430-431 | in a list sorted by descending score, every clip of a prefix scores at least every clip after it |
| PodcastClipService.LeftOver | src/main/java/com/example/videoeditor/service/PodcastClipService.java:431 | a candidate the prefix does not account for lies after it |
| PodcastClipService.SelectViralClips | src/main/java/com/example/videoeditor/service/PodcastClipService.java:383-432 | the result is the top fifteen of the candidates: at most fifteen qualifying clips, each a candidate, highest score first |
| PodcastClipService.SelectedClipsAreWindows | src/main/java/com/example/videoeditor/service/PodcastClipService.java:383-432 | every selected clip comes from a fitting window of the partition, and no candidate left out scores above it |
| PodcastClipService.ClipSubtitle | src/main/java/com/example/videoeditor/service/PodcastClipService.java:497-533 | a segment gives a subtitle exactly when it overlaps the clip, the overlap is non-empty and its text is not blank; the subtitle lies inside the clip in clip-relative time, with trimmed text, a valid style and the podcast look: white Arial on a black box with a black text border, at (0, 450), scaled by 1.2 |
| PodcastClipService.ClipSubtitles | src/main/java/com/example/videoeditor/service/PodcastClipService.java:494-538 | a clip gets at most one subtitle per segment, each inside the clip and with the podcast look |
| PodcastClipService.GenerateClips | src/main/java/com/example/videoeditor/service/PodcastClipService.java:455-492 | the clips are generated exactly when every id has at least eight characters; one entry per clip, in order, keeping its id, times and score, with the path of its index |
| PodcastClipService.SubtitleBatches | src/main/java/com/example/videoeditor/service/PodcastClipService.java:589-597 | the batches cover the subtitles in order without gaps, three at a time with a shorter last one; none when there are no subtitles |
| WhisperSubtitle.PointIncreases | scripts/whisper_subtitle.py:73-74 | with a positive duration, a later word boundary lies later |
| WhisperSubtitle.PointEnds | scripts/whisper_subtitle.py:46-48 | the first word boundary is the clamped start and the last one the segment's end |
| WhisperSubtitle.Merged | scripts/whisper_subtitle.py:57-62 | a merged lone word is appended to the previous chunk's words with the same start; as written the end stays, extended it reaches the word's end |
| WhisperSubtitle.ChunkLoop | scripts/whisper_subtitle.py:51-84 | every chunk the loop emits over subtitles of positive duration has a positive duration |
| WhisperSubtitle.MergedText | scripts/whisper_subtitle.py:60 | the merged text is the old text, a space and the word |
| WhisperSubtitle.MergeStep | scripts/whisper_subtitle.py:57-62 | a lone last word after a full chunk joins that chunk, and the chunks still hold every word in order |
| WhisperSubtitle.AppendPartial | scripts/whisper_subtitle.py:67-84 | a full chunk of three words keeps all words so far in order and the chunks contiguous |
| WhisperSubtitle.FinalStep | scripts/whisper_subtitle.py:53-84 | the last chunk, of one to three words, ends the segment with every word emitted in order |
| WhisperSubtitle.ChunkLoopFresh | scripts/whisper_subtitle.py:51-84 | from any word on, the loop finishes the segment with all its words in order, contiguous chunks of three but the last, and the last ending at the segment's end unless a lone word was merged |
| WhisperSubtitle.ChunkLoopPrefix | scripts/whisper_subtitle.py:53-84 | subtitles emitted before the current segment's chunks are never changed |
| WhisperSubtitle.ChunkLoopFromStart | scripts/whisper_subtitle.py:53-62 | a segment's first chunk is always appended, never merged into an earlier segment's subtitle |
| WhisperSubtitle.SegmentChunks | scripts/whisper_subtitle.py:35-84 | a segment's pass emits only chunks of positive duration |
| WhisperSubtitle.Subtitles | scripts/whisper_subtitle.py:14-89 | every subtitle the script returns has a positive duration |
| WhisperSubtitle.BoundariesIncrease | scripts/whisper_subtitle.py:46-74 | a segment ending after time zero has strictly increasing word boundaries from its clamped start to its end |
| WhisperSubtitle.SegmentAppends | scripts/whisper_subtitle.py:35-84 | a segment's chunks follow the earlier subtitles, which stay as they were |
| WhisperSubtitle.SubtitlesConcatenate | scripts/whisper_subtitle.py:14-89 | the subtitles are each segment's own chunks in segment order; no merge crosses segments |
| WhisperSubtitle.AsWrittenEndsEarly | scripts/whisper_subtitle.py:57-62 | as written: for a segment of 4, 7, 10, ... words the last subtitle ends at the start of its last word, before the segment ends |
| WhisperSubtitle.FourWords | scripts/whisper_subtitle.py:57-62 | four words over four seconds: as written one subtitle ending at 3.0, extended one ending at 4.0 |
| WhisperSubtitle.OwnTiles | scripts/whisper_subtitle.py:35-84 | corrected: a segment's chunks hold its words in order, in threes with a last group of two to four, and tile the span from the clamped start to the end |
| AspectRatioService.Ratio | src/main/java/com/example/videoeditor/service/AspectRatioService.java:392-403 | a ratio parses exactly when splitting on ':' gives two parts that both parse as positive ints |
| AspectRatioService.ParseDigits | src/main/java/com/example/videoeditor/service/AspectRatioService.java:397-398 | a digit string parses to its value exactly when that value fits an int |
| AspectRatioService.SplitSides | src/main/java/com/example/videoeditor/service/AspectRatioService.java:394 | "a:b" and "a:b:" split into two parts and "a:b:c" into three, as Java's split drops trailing empty parts |
| AspectRatioService.RatioOfDigits | src/main/java/com/example/videoeditor/service/AspectRatioService.java:392-403 | "a:b" is valid exactly when both values are positive ints, a trailing ':' changes nothing, and three parts are refused |
| AspectRatioService.RatioOfDecimals | src/main/java/com/example/videoeditor/service/AspectRatioService.java:392-403 | any positive int pair written as "w:h" parses back to itself |
| AspectRatioService.Upload | src/main/java/com/example/videoeditor/service/AspectRatioService.java:52-90 | the upload succeeds exactly when the file is non-empty, the folder exists and the saved copy is non-empty, storing UPLOADED under the owner's original folder; an empty file is an IllegalArgumentException, the rest IO failures |
| AspectRatioService.Owned | src/main/java/com/example/videoeditor/service/AspectRatioService.java:94-104 | a request proceeds exactly when the row exists and is the caller's; otherwise an IllegalArgumentException |
| AspectRatioService.SetAspectRatio | src/main/java/com/example/videoeditor/service/AspectRatioService.java:92-117 | the ratio is stored, with CONFIGURED, exactly when the row is the caller's and the ratio is valid |
| AspectRatioService.UpdatePositionX | src/main/java/com/example/videoeditor/service/AspectRatioService.java:119-139 | the caller's row gets the x offset, 0 when none is given, and CONFIGURED |
| AspectRatioService.UpdatePositionY | src/main/java/com/example/videoeditor/service/AspectRatioService.java:141-161 | the caller's row gets the y offset, 0 when none is given, and CONFIGURED |
| AspectRatioService.UpdateScale | src/main/java/com/example/videoeditor/service/AspectRatioService.java:163-188 | the caller's row gets a positive scale, 1.0 when none is given; a non-positive one is an IllegalArgumentException |
| AspectRatioService.Side | src/main/java/com/example/videoeditor/service/AspectRatioService.java:204-212 | corrected: a given side must be positive and becomes the next even number at or above it; none stays none |
| AspectRatioService.UpdateOutputWidth | src/main/java/com/example/videoeditor/service/AspectRatioService.java:190-220 | corrected: the caller's row gets the evened width, or none, and CONFIGURED; a non-positive width is refused; stored rows keep positive even sides |
| AspectRatioService.SideAsWritten | src/main/java/com/example/videoeditor/service/AspectRatioService.java:204-212 | as written: below the int maximum it agrees with the corrected side, and the maximum wraps to the int minimum |
| AspectRatioService.UpdateOutputWidthAsWritten | src/main/java/com/example/videoeditor/service/AspectRatioService.java:190-220 | as written: it agrees with the corrected update below the int maximum and accepts the same requests |
| AspectRatioService.WidthWrapsAtMax | src/main/java/com/example/videoeditor/service/AspectRatioService.java:211 | as written a width of 2147483647 is stored as -2147483648, breaking the positive-even invariant; the corrected update stores 2147483648 and keeps it |
| AspectRatioService.UpdateOutputHeight | src/main/java/com/example/videoeditor/service/AspectRatioService.java:222-252 | corrected (see Findings): the caller's row gets the evened height, or none, and CONFIGURED; a non-positive height is refused; stored rows keep positive even sides |
| AspectRatioService.UpdateOutputHeightAsWritten | src/main/java/com/example/videoeditor/service/AspectRatioService.java:222-252 | as written: it agrees with the corrected update below the int maximum and accepts the same requests |
| AspectRatioService.HeightWrapsAtMax | src/main/java/com/example/videoeditor/service/AspectRatioService.java:243 | as written a height of 2147483647 is stored as -2147483648, breaking the positive-even invariant; the corrected update stores 2147483648 and keeps it |
| AspectRatioService.UpdateOutputResolution | src/main/java/com/example/videoeditor/service/AspectRatioService.java:255-294 | corrected (see Findings): both sides are checked; each given side is evened and stored, a missing one keeps its value; stored rows keep positive even sides |
| AspectRatioService.UpdateOutputResolutionAsWritten | src/main/java/com/example/videoeditor/service/AspectRatioService.java:255-294 | as written: it agrees with the corrected update when each given side is below the int maximum, and accepts the same requests |
| AspectRatioService.ResolutionWrapsAtMax | src/main/java/com/example/videoeditor/service/AspectRatioService.java:268-286 | as written a width or height of 2147483647 is stored as -2147483648, breaking the positive-even invariant; the corrected update keeps it |
| AspectRatioService.RatioCanvasCovers | src/main/java/com/example/videoeditor/service/AspectRatioService.java:543-549 | the ratio canvas keeps one side of the video and covers the other |
| AspectRatioService.TallerCanvas | src/main/java/com/example/videoeditor/service/AspectRatioService.java:543-545 | for a video wider than the ratio, the computed height is at least the video's |
| AspectRatioService.WiderCanvas | src/main/java/com/example/videoeditor/service/AspectRatioService.java:546-548 | for a video no wider than the ratio, the computed width is at least the video's |
| AspectRatioService.RatioCanvasWraps | src/main/java/com/example/videoeditor/service/AspectRatioService.java:543-556 | as written: ratio 1:2147483647 over a 2x1 video gives height 2147483647, which evening wraps to -2147483648; corrected evening gives 2147483648 |
| AspectRatioService.Render | src/main/java/com/example/videoeditor/service/AspectRatioService.java:524-563 | corrected (see Findings): a frame is computed exactly when both output sides or a parsable ratio are set, for any probed size including 0x0; every canvas and scaled side is even; explicit sides are evened; the offsets are the stored positions or 0 |
| AspectRatioService.RenderAsWritten | src/main/java/com/example/videoeditor/service/AspectRatioService.java:524-563 | as written, with 32-bit evening: it renders exactly when the corrected one does, and gives the same frame when no canvas or scaled side is the int maximum |
| AspectRatioService.ScaledSideWrapsAtMax | src/main/java/com/example/videoeditor/service/AspectRatioService.java:557-562 | as written a scaled width of 2147483647 (a 1x1 video at scale 2147483647) is evened to -2147483648; the corrected render gives 2147483648 |
| AspectRatioService.RenderSound | src/main/java/com/example/videoeditor/service/AspectRatioService.java:524-563 | corrected (see Findings): a stored row that can be processed always renders; explicit sides are kept, and a ratio canvas covers a video of positive size |
| AspectRatioService.StoredRowsRender | src/main/java/com/example/videoeditor/service/AspectRatioService.java:533-551 | a stored, processable row never reaches the parse failure or the missing-configuration exception, whatever the probed size |
| AspectRatioService.ZeroSizedVideoRenders | src/main/java/com/example/videoeditor/service/AspectRatioService.java:471-549 | a probe of "0x0" still renders: a processable row gets a frame, and without explicit sides its canvas is 0x0 |
| AspectRatioService.Process | src/main/java/com/example/videoeditor/service/AspectRatioService.java:296-377 | an unknown row is an IllegalArgumentException; a stranger's row or one without ratio or resolution is left as it was with an exception, IllegalState for the latter; any probed size, zero included, goes on to the render |
| AspectRatioService.Started | src/main/java/com/example/videoeditor/service/AspectRatioService.java:315-376 | the run succeeds exactly when the input, probe, folder, size, positive duration, frame and render all succeed, storing SUCCESS, progress 100 and the processed path; otherwise only the status (PROCESSING or FAILED) and a progress of 0 change |
| MediaConversionService.DetermineMediaType | src/main/java/com/example/videoeditor/service/MediaConversionService.java:199-211 | a content type is accepted exactly when it starts with "video/" or "image/", and is a video exactly in the first case; otherwise an IllegalArgumentException |
| MediaConversionService.WhitelistsDisjoint | src/main/java/com/example/videoeditor/service/MediaConversionService.java:223-229 | no format is both a video and an image format, and every listed format is upper case |
| MediaConversionService.ValidateInputs | src/main/java/com/example/videoeditor/service/MediaConversionService.java:213-231 | the inputs pass exactly when the file is non-empty and the upper-cased target format is listed for the media type; failures are IllegalArgumentExceptions |
| MediaConversionService.AllowedIsNotBlank | src/main/java/com/example/videoeditor/service/MediaConversionService.java:218-229 | a listed format is never blank, so the blank check adds nothing once the list check passes |
| MediaConversionService.Upload | src/main/java/com/example/videoeditor/service/MediaConversionService.java:60-98 | the upload succeeds exactly when the file is present, its type is known, the inputs pass and the saved copy is non-empty; it stores UPLOADED with the upper-cased format and the owner's original path |
| MediaConversionService.UpdateTargetFormat | src/main/java/com/example/videoeditor/service/MediaConversionService.java:381-411 | the format is replaced, upper-cased, exactly when the row is the caller's and the format is listed for its type |
| MediaConversionService.UpdateIdempotent | src/main/java/com/example/videoeditor/service/MediaConversionService.java:381-411 | setting a stored row's format to itself changes nothing |
| MediaConversionService.StripExtension | src/main/java/com/example/videoeditor/service/MediaConversionService.java:137 | `replaceFirst("[.][^.]+$", "")` drops a final dot and the non-empty dot-free tail after it, and nothing otherwise |
| MediaConversionService.StripExtensionOf | src/main/java/com/example/videoeditor/service/MediaConversionService.java:137 | a base with a dot-free extension loses exactly the extension |
| MediaConversionService.OutputName | src/main/java/com/example/videoeditor/service/MediaConversionService.java:137-143 | as written: a video's output is "converted_" with the format's extension, an image's is "converted_" plus its own name |
| MediaConversionService.ImageExtension | src/main/java/com/example/videoeditor/service/MediaConversionService.java:315-333 | an image is written with "jpg" for JPG or JPEG and the lower-cased format otherwise |
| MediaConversionService.TargetExtension | src/main/java/com/example/videoeditor/service/MediaConversionService.java:257-333 | the converter's output extension is lower case, the lower-cased format for a video |
| MediaConversionService.FixedOutputName | src/main/java/com/example/videoeditor/service/MediaConversionService.java:137-143 | corrected: the output name starts with "converted_" and ends with the extension the converter writes; videos keep the name as written |
| MediaConversionService.ForceExtension | src/main/java/com/example/videoeditor/service/MediaConversionService.java:257-260 | a path already ending with the extension, in any case, is kept; otherwise its last extension is replaced, and a path without a dot is the substring failure |
| MediaConversionService.ForceKeeps | src/main/java/com/example/videoeditor/service/MediaConversionService.java:258 | a path ending with the lower-case extension is kept |
| MediaConversionService.ForceRenames | src/main/java/com/example/videoeditor/service/MediaConversionService.java:333-336 | a path with another extension is renamed to the target extension, so the written file differs from the requested one |
| MediaConversionService.Converter | src/main/java/com/example/videoeditor/service/MediaConversionService.java:233-379 | a conversion succeeds exactly when the tools run (video) or the image reads (image), the path can take the extension and the file is written; it writes to the adjusted path |
| MediaConversionService.Convert | src/main/java/com/example/videoeditor/service/MediaConversionService.java:100-184 | an unknown row is an IllegalArgumentException; a stranger's row is untouched; the owner's row changes only status, message and output; success is SUCCESS with the processed path; a missing input or folder is FAILED with a message |
| MediaConversionService.ImageRenamedFails | src/main/java/com/example/videoeditor/service/MediaConversionService.java:142-170 | as written: an image whose extension is not the target's is written under a renamed path, the retry loop looks at the requested one, and the row ends FAILED |
| MediaConversionService.ConvertMisses | src/main/java/com/example/videoeditor/service/MediaConversionService.java:153-170 | when the converter writes elsewhere than the requested path and nothing is there, the row ends FAILED |
| MediaConversionService.PhotoToJpgFails | src/main/java/com/example/videoeditor/service/MediaConversionService.java:137-170 | as written: "photo.png" to JPG writes converted_photo.jpg, waits for converted_photo.png and fails |
| MediaConversionService.PhotoToJpgFixed | src/main/java/com/example/videoeditor/service/MediaConversionService.java:137-184 | corrected: the same request stores converted_photo.jpg |
| MediaConversionService.FixedStoresWrittenFile | src/main/java/com/example/videoeditor/service/MediaConversionService.java:137-184 | corrected: the conversion succeeds exactly when the converter writes, and the stored name is the file written, with the target's extension |
| MediaConversionService.VideoUnchanged | src/main/java/com/example/videoeditor/service/MediaConversionService.java:139-140 | for videos the corrected naming is the code as written |
| VideoSpeedService.SanitizeChar | src/main/java/com/example/videoeditor/service/VideoSpeedService.java:211 | each character is lower-cased and kept when it is a-z, 0-9, '.', '_' or '-', and becomes '_' otherwise |
| VideoSpeedService.SanitizeFilename | src/main/java/com/example/videoeditor/service/VideoSpeedService.java:209-212 | a missing name becomes video_<clock>.mp4; a given one keeps its length with each character sanitized; the result is always safe |
| VideoSpeedService.SanitizeKeepsSafe | src/main/java/com/example/videoeditor/service/VideoSpeedService.java:209-212 | a name already safe is kept |
| VideoSpeedService.SanitizeIdempotent | src/main/java/com/example/videoeditor/service/VideoSpeedService.java:209-212 | sanitizing twice gives what sanitizing once gave |
| VideoSpeedService.Upload | src/main/java/com/example/videoeditor/service/VideoSpeedService.java:42-77 | the upload succeeds exactly when the file is non-empty, its type is mp4, mov or avi and a given speed is in [0.5, 15] and the folder and file can be written; a failed write is an IOException and every other refusal an IllegalArgumentException; it stores UPLOADED, progress 0, the speed or 1.0, under the sanitized name |
| VideoSpeedService.Find | src/main/java/com/example/videoeditor/service/VideoSpeedService.java:200-203 | a row is found exactly when it exists and is the caller's; otherwise a RuntimeException |
| VideoSpeedService.UpdateSpeed | src/main/java/com/example/videoeditor/service/VideoSpeedService.java:80-92 | the speed is replaced exactly when the row is the caller's, the speed is in [0.5, 15] and the row is not PENDING or PROCESSING; the speed error comes before the state error |
| VideoSpeedService.InitiateExport | src/main/java/com/example/videoeditor/service/VideoSpeedService.java:95-122 | an export starts exactly when the row is the caller's, idle, with its original present and the folder created; it ends COMPLETED with progress 100 and an output path exactly when ffmpeg succeeds, and FAILED with progress 0 otherwise |
| VideoSpeedService.UploadSound | src/main/java/com/example/videoeditor/service/VideoSpeedService.java:42-77 | an uploaded row has a valid speed |
| VideoSpeedService.UpdateSpeedSound | src/main/java/com/example/videoeditor/service/VideoSpeedService.java:80-92 | an updated row keeps a valid speed |
| VideoSpeedService.ExportSound | src/main/java/com/example/videoeditor/service/VideoSpeedService.java:95-198 | an export keeps a valid speed and consistent progress |
| VideoSpeedService.StuckAfterFolderFailure | src/main/java/com/example/videoeditor/service/VideoSpeedService.java:110-128 | PENDING is saved before the output folder is created, so when creating it fails the row keeps PENDING, which the speed update and the export refuse as busy |
| VideoFilterJobs.Clamp | src/main/java/com/example/videoeditor/service/VideoFilterJobServiceImpl.java:209 | `Math.max(lo, Math.min(hi, x))` lies in [lo, hi] and keeps a value already inside |
| VideoFilterJobs.TemperatureFilter | src/main/java/com/example/videoeditor/service/VideoFilterJobServiceImpl.java:193-205 | a temperature more than 1 K from 6500 gives one filter, a red shift below and a blue shift above, at most 0.3 |
| VideoFilterJobs.SharpnessFilter | src/main/java/com/example/videoeditor/service/VideoFilterJobServiceImpl.java:239-249 | a sharpness off zero gives one filter, sharpening when positive and blurring when negative, within bounds |
| VideoFilterJobs.ShadowsFilter | src/main/java/com/example/videoeditor/service/VideoFilterJobServiceImpl.java:207-212 | shadows off zero give one gamma filter kept in [0.5, 2] |
| VideoFilterJobs.VibranceFilter | src/main/java/com/example/videoeditor/service/VideoFilterJobServiceImpl.java:220-225 | vibrance off zero gives one saturation filter kept in [0, 3] |
| VideoFilterJobs.TintFilter | src/main/java/com/example/videoeditor/service/VideoFilterJobServiceImpl.java:232-237 | tint off zero gives one colour-balance filter kept in [-0.5, 0.5] |
| VideoFilterJobs.Step | src/main/java/com/example/videoeditor/service/VideoFilterJobServiceImpl.java:168-258 | each of the thirteen checks contributes at most one filter, within its bounds |
| VideoFilterJobs.Steps | src/main/java/com/example/videoeditor/service/VideoFilterJobServiceImpl.java:168-258 | the chain is built from the thirteen checks in the source's order |
| VideoFilterJobs.StepsEmptyIff | src/main/java/com/example/videoeditor/service/VideoFilterJobServiceImpl.java:168-258 | every check contributes nothing exactly when every value is neutral and no LUT applies |
| VideoFilterJobs.ConcatParts | src/main/java/com/example/videoeditor/service/VideoFilterJobServiceImpl.java:262 | the chain is empty exactly when every check contributed nothing, and holds only what the checks contributed |
| VideoFilterJobs.FilterChain | src/main/java/com/example/videoeditor/service/VideoFilterJobServiceImpl.java:164-262 | every emitted filter respects its clamp, at most thirteen are emitted, and the chain is absent exactly when every value is neutral and no LUT applies |
| VideoFilterJobs.Lookup | src/main/java/com/example/videoeditor/service/VideoFilterJobServiceImpl.java:149-160 | a preset's value for a key is present exactly when the preset holds the key |
| VideoFilterJobs.ApplyPreset | src/main/java/com/example/videoeditor/service/VideoFilterJobServiceImpl.java:143-162 | a known, non-empty preset name replaces all twelve values; otherwise the job's values stand |
| VideoFilterJobs.PresetOverrides | src/main/java/com/example/videoeditor/service/VideoFilterJobServiceImpl.java:143-162 | with a known preset the chain no longer depends on the job's own values, and applying it twice changes nothing more |
| VideoFilterJobs.GetJob | src/main/java/com/example/videoeditor/service/VideoFilterJobServiceImpl.java:76-81 | a job is found exactly when it exists and is the caller's; otherwise a RuntimeException |
| VideoFilterJobs.Or | src/main/java/com/example/videoeditor/service/VideoFilterJobServiceImpl.java:355-369 | a request value replaces the stored one only when it is not null |
| VideoFilterJobs.UpdateJob | src/main/java/com/example/videoeditor/service/VideoFilterJobServiceImpl.java:345-373 | the update succeeds exactly when the job is the caller's and not processing; only the request's non-null fields change |
| VideoFilterJobs.UpdateLaws | src/main/java/com/example/videoeditor/service/VideoFilterJobServiceImpl.java:345-373 | an all-null request changes nothing, and the same request twice has the effect of once |
| VideoFilterJobs.ProcessJob | src/main/java/com/example/videoeditor/service/VideoFilterJobServiceImpl.java:92-135 | a missing, foreign or processing job is refused untouched; otherwise it ends COMPLETED with 100 and an output exactly when the folder and ffmpeg succeed, and FAILED with 0 and no output otherwise; a known preset is written into its values |
| VideoFilterJobs.FirstPending | src/main/java/com/example/videoeditor/service/VideoFilterJobServiceImpl.java:42 | finds the first PENDING job for the upload, or none when there is none |
| VideoFilterJobs.CreateJob | src/main/java/com/example/videoeditor/service/VideoFilterJobServiceImpl.java:41-73 | as written a PENDING job for the upload is returned before ownership is checked; otherwise a foreign upload is refused and a new PENDING job at 0 copies the request |
| VideoFilterJobs.ForeignPendingJob | src/main/java/com/example/videoeditor/service/VideoFilterJobServiceImpl.java:42-47 | as written: a caller who does not own upload 7 is handed its owner's PENDING job; with the owner checked first the call is refused |
| VideoFilterJobs.CreateOwned | src/main/java/com/example/videoeditor/service/VideoFilterJobServiceImpl.java:41-73 | creation keeps every job linked to its upload's owner; corrected, the job handed back always belongs to the caller |
| SoleTts.AddUsage | src/main/java/com/example/videoeditor/service/SoleTTSService.java:125-131 | the caller's usage for the month grows by the characters, every other user and month is unchanged |
| SoleTts.GenerateTts | src/main/java/com/example/videoeditor/service/SoleTTSService.java:41-116 | generation succeeds exactly when text, voice and language are non-blank, the month's usage plus the text stays within 13500 and synthesis succeeds; blank inputs and long texts are IllegalArgumentExceptions, a quota overrun an IllegalStateException; success adds the text's length to the month |
| SoleTts.QuotaKept | src/main/java/com/example/videoeditor/service/SoleTTSService.java:57-109 | generation never takes a user's month past 13500 characters and leaves other users and months alone |
| SoleTts.LengthCheckSubsumed | src/main/java/com/example/videoeditor/service/SoleTTSService.java:58-65 | a text over 13500 characters would also fail the quota check |
| AuthService.DotsAroundIff | src/main/java/com/example/videoeditor/service/AuthService.java:136-137 | `matches(".*x.*")` accepts exactly the strings without a line terminator holding a character of the class |
| AuthService.PasswordValid | src/main/java/com/example/videoeditor/service/AuthService.java:133-138 | a password is valid exactly when present, at least 8 characters, with an ASCII letter, a digit and no line terminator |
| AuthService.AfterAt | src/main/java/com/example/videoeditor/service/AuthService.java:125 | the domain is the text after the first '@', or the whole address without one |
| AuthService.EmailDomainValid | src/main/java/com/example/videoeditor/service/AuthService.java:123-131 | the domain check passes exactly when the address is present and its domain matches the pattern |
| AuthService.DottedRecognised | src/main/java/com/example/videoeditor/service/AuthService.java:127 | every non-empty run of labels, each followed by a dot, is recognised |
| AuthService.LabelsOf | src/main/java/com/example/videoeditor/service/AuthService.java:127 | a recognised run splits back into its labels |
| AuthService.DomainGrammar | src/main/java/com/example/videoeditor/service/AuthService.java:127 | labels with dots followed by a top-level label of two or more letters match the domain pattern |
| AuthService.ParseDomain | src/main/java/com/example/videoeditor/service/AuthService.java:127 | a matching domain splits into its dotted labels and its top-level label |
| AuthService.DomainIsLowerCase | src/main/java/com/example/videoeditor/service/AuthService.java:127 | every character of a matching domain is a lower-case letter, a digit, a hyphen or a dot |
| AuthService.UpperCaseRefused | src/main/java/com/example/videoeditor/service/AuthService.java:127 | a domain with an upper-case letter is refused |
| AuthService.ValidatorImpliesShape | src/main/java/com/example/videoeditor/service/AuthService.java:287-296 | every address the @ValidEmail constraint accepts has the local-part shape registration asks for |
| AuthService.Register | src/main/java/com/example/videoeditor/service/AuthService.java:61-121 | registration succeeds exactly when the address has the shape, its mailbox exists, its domain is valid, it is not taken, the password is valid and the mail is sent; the new user is unverified and not Google-linked with the encoded password, and a token valid for 24 hours is stored |
| AuthService.RegisterOrder | src/main/java/com/example/videoeditor/service/AuthService.java:61-84 | a bad domain is reported only for a well-formed address, a taken address only for a valid domain, and a weak password only for a free address |
| AuthService.Login | src/main/java/com/example/videoeditor/service/AuthService.java:140-164 | login succeeds exactly when the user exists, is not Google-linked, is verified and the password matches, for the user's address |
| AuthService.LoginOrder | src/main/java/com/example/videoeditor/service/AuthService.java:140-155 | the Google and verification messages come before the password, and an unknown address and a wrong password get the same message |
| AuthService.VerifyEmail | src/main/java/com/example/videoeditor/service/AuthService.java:222-253 | verification succeeds exactly when the token exists, has not expired, its user exists and neither is verified; an expired token is deleted; other failures change nothing; success marks both verified |
| AuthService.VerifyOnce | src/main/java/com/example/videoeditor/service/AuthService.java:239-242 | a token verifies at most once; a second use is refused and changes nothing |
| AuthService.RegisterVerifyLogin | src/main/java/com/example/videoeditor/service/AuthService.java:61-253 | a fresh registration cannot log in until its token is used within the day, and then logs in with its password |
| AuthService.CreateDeveloper | src/main/java/com/example/videoeditor/service/AuthService.java:409-423 | a developer is created, active with the encoded password, exactly when the username is free and the password valid |
| AuthService.DeveloperLogin | src/main/java/com/example/videoeditor/service/AuthService.java:386-406 | developer login succeeds exactly when the username exists, the account is active and the password matches; a disabled account has its own message |
| AuthService.CreatedDeveloperLogsIn | src/main/java/com/example/videoeditor/service/AuthService.java:386-423 | a developer just created logs in with the password given at creation |
| ValidEmail.IsValid | src/main/java/com/example/videoeditor/validator/ValidEmailValidator.java:15-20 | an accepted address is present and not blank |
| ValidEmail.IsValidIffMatches | src/main/java/com/example/videoeditor/validator/ValidEmailValidator.java:9-20 | the validator accepts exactly the present strings that match the pattern |
| ValidEmail.ValidMatches | src/main/java/com/example/videoeditor/validator/ValidEmailValidator.java:10-11 | splitting at the first '@' witnesses the pattern |
| ValidEmail.MatchesValid | src/main/java/com/example/videoeditor/validator/ValidEmailValidator.java:10-19 | a string matching the pattern is accepted |
| ValidEmail.PatternNotBlank | src/main/java/com/example/videoeditor/validator/ValidEmailValidator.java:16-19 | a matching string is never blank, so the blank check only rules out null |
| ValidEmail.AcceptedParts | src/main/java/com/example/videoeditor/validator/ValidEmailValidator.java:10-19 | an accepted address has an '@' with local characters before it and domain characters after it, both non-empty |
| ValidEmail.AcceptedShape | src/main/java/com/example/videoeditor/validator/ValidEmailValidator.java:10-19 | an accepted address has exactly one '@' with non-empty parts, and its domain holds neither '+' nor '_' |
| ImageRender.GravityIsCompass | src/main/java/com/example/videoeditor/service/imageservice/ImageRenderService.java:387-415 | the text gravity is the compass point of the vertical alignment's row and the horizontal alignment's column, Center when neither is given |
| ImageRender.PlaceInjective | src/main/java/com/example/videoeditor/service/imageservice/ImageRenderService.java:387-415 | no two (row, column) pairs share a gravity, so every alignment pair lands on its own point |
| ImageRender.CapWord | src/main/java/com/example/videoeditor/service/imageservice/ImageRenderService.java:924-929 | a capitalised word has the length of the word |
| ImageRender.CapWords | src/main/java/com/example/videoeditor/service/imageservice/ImageRenderService.java:924-929 | each word is capitalised on its own, the list keeping its length |
| ImageRender.CapWordIdempotent | src/main/java/com/example/videoeditor/service/imageservice/ImageRenderService.java:924-929 | capitalising a capitalised word changes nothing |
| ImageRender.CapWordLower | src/main/java/com/example/videoeditor/service/imageservice/ImageRenderService.java:924-929 | capitalising changes only letter case |
| ImageRender.CapitalizeChangesOnlyCase | src/main/java/com/example/videoeditor/service/imageservice/ImageRenderService.java:924-929 | up to letter case, capitalize is the text's words joined by single spaces, and has its length |
| ImageRender.JoinLower | src/main/java/com/example/videoeditor/service/imageservice/ImageRenderService.java:924-929 | joining capitalised words equals joining the words, up to letter case |
| ImageRender.DisplayedText | src/main/java/com/example/videoeditor/service/imageservice/ImageRenderService.java:262-268 | without a transform the displayed text is the layer's text, or Text when absent |
| ImageRender.TransformKeepsLetters | src/main/java/com/example/videoeditor/service/imageservice/ImageRenderService.java:262-268 | the upper-case and lower-case transforms, and an unknown one, keep the text up to letter case |
| ImageRender.UnderlinePadding | src/main/java/com/example/videoeditor/service/imageservice/ImageRenderService.java:283-286 | an underline needs at least 8 pixels below the text; no other decoration needs any |
| ImageRender.DecorationStroke | src/main/java/com/example/videoeditor/service/imageservice/ImageRenderService.java:888-889 | a decoration line is at least 2 pixels wide |
| ImageRender.UnderlineGap | src/main/java/com/example/videoeditor/service/imageservice/ImageRenderService.java:895-898 | the underline sits at least 3 pixels below the text |
| ImageRender.DecorationMeasures | src/main/java/com/example/videoeditor/service/imageservice/ImageRenderService.java:283-286 | the default font gives an 8-pixel pad, 2-pixel line and 3-pixel gap; from 32 points the pad is a quarter of the size; all three grow with the font, and the line is never wider than the gap |
| ImageRender.LayoutText | src/main/java/com/example/videoeditor/service/imageservice/ImageRenderService.java:270-295 | the background box is inset one border width on the left and top, and the canvas leaves at least that much on the right and bottom |
| ImageRender.BorderInsideCanvas | src/main/java/com/example/videoeditor/service/imageservice/ImageRenderService.java:288-344 | with a non-negative border the half of the stroke outside the box still falls on the canvas on all four sides |
| ImageRender.TextsAppend | src/main/java/com/example/videoeditor/service/imageservice/ImageRenderService.java:633-663 | the text drawn by two lists of pieces is the text of the first followed by that of the second |
| ImageRender.PaintCovers | src/main/java/com/example/videoeditor/service/imageservice/ImageRenderService.java:633-663 | runs that lie in order inside the text are drawn without a substring error, and the pieces spell the text from the current index exactly once |
| ImageRender.PaintStep | src/main/java/com/example/videoeditor/service/imageservice/ImageRenderService.java:637-653 | one run's gap, the run, and the pieces after it spell the text from the current index |
| ImageRender.MultiColourCovers | src/main/java/com/example/videoeditor/service/imageservice/ImageRenderService.java:600-663 | once sorted by start index, runs that tile the text render every gap and the tail in the default colour, so the pieces spell the whole text |
| ImageRender.NoRunsOnePiece | src/main/java/com/example/videoeditor/service/imageservice/ImageRenderService.java:654-661 | without runs the whole text is one piece in the default colour |
| SimpleImageRender.SimpleGravity | src/main/java/com/example/videoeditor/service/ImageRenderService.java:254-260 | center and right, in any letter case, give Center and East; anything else, absent included, gives West |
| SimpleImageRender.SimpleGravityVersusCompass | src/main/java/com/example/videoeditor/service/ImageRenderService.java:254-260 | for left, right and center the older renderer anchors text as the newer one does on the middle row; an unknown alignment goes west in the older one but is centred by the newer |
| SimpleImageRender.RenderText | src/main/java/com/example/videoeditor/service/ImageRenderService.java:223-260 | an unsized layer gets a 200x50 canvas; colour, font and size default to black, Arial and 32 |
| SimpleImageRender.TextDefaults | src/main/java/com/example/videoeditor/service/ImageRenderService.java:223-260 | a text layer that sets nothing is 200x50, black Arial at 32 points, anchored west |
| SimpleImageRender.ShapesAsInNewer | src/main/java/com/example/videoeditor/service/ImageRenderService.java:298-393 | the older renderer's shapes default to 100x100 and black, and its circle fits the canvas, as in the newer one |
| ImageLayers.Composite | src/main/java/com/example/videoeditor/service/imageservice/ImageRenderService.java:124-157 | an unknown layer type returns the base image; a known one is drawn on top; a missing type throws |
| ImageLayers.CompositeAllKeeps | src/main/java/com/example/videoeditor/service/imageservice/ImageRenderService.java:79-84 | the compositing loop draws exactly the known layers, in the given order, and throws exactly when some layer has no type |
| ImageLayers.KeepSorted | src/main/java/com/example/videoeditor/service/imageservice/ImageRenderService.java:67-69 | a subsequence of a zIndex-sorted list is still sorted |
| ImageLayers.RenderLaws | src/main/java/com/example/videoeditor/service/imageservice/ImageRenderService.java:42-100 | the rendered image holds every known layer and no other, in ascending zIndex order, a missing zIndex counting as 0; it throws exactly when a layer has no type |
| ImageLayers.SameLayers | src/main/java/com/example/videoeditor/service/imageservice/ImageRenderService.java:67-69 | two orderings of the same layers draw the same layers and fail on the same untyped ones |
| ImageLayers.RenderStable | src/main/java/com/example/videoeditor/service/imageservice/ImageRenderService.java:67-69 | layers with equal zIndex keep their relative order from the design |
| ImageLayers.RenderShape | src/main/java/com/example/videoeditor/service/imageservice/ImageRenderService.java:934-1029 | size, fill and outline defaults; the outline appears only with a colour and a positive width; the figure is picked by the lower-cased shape name |
| ImageLayers.ShapeDefaults | src/main/java/com/example/videoeditor/service/imageservice/ImageRenderService.java:939-979 | a shape layer that sets nothing is a black 100x100 rectangle without outline |
| ImageLayers.CircleFits | src/main/java/com/example/videoeditor/service/imageservice/ImageRenderService.java:980-984 | the circle's diameter is at most the smaller side of its canvas |
| ImageLayers.UnknownShapeIsRectangle | src/main/java/com/example/videoeditor/service/imageservice/ImageRenderService.java:966-1029 | an unknown shape name draws a plain rectangle, ignoring any border radius |
| ImageLayers.Export | src/main/java/com/example/videoeditor/service/imageservice/ImageRenderService.java:1392-1416 | the format is compared ignoring case, and a JPEG export uses the given quality or 90 |
| ImageEditor.NewProject | src/main/java/com/example/videoeditor/service/imageservice/ImageEditorService.java:49-70 | creation fails exactly on a blank name, or a missing or non-positive width or height, in that order; a created project is a DRAFT on a white background unless one is given |
| ImageEditor.CreateProject | src/main/java/com/example/videoeditor/service/imageservice/ImageEditorService.java:49-96 | creation succeeds exactly when the shared checks pass, and stores the writer's text of the initial design |
| ImageEditor.InitialDesignHasOnePage | src/main/java/com/example/videoeditor/service/imageservice/ImageEditorService.java:72-90 | the initial design has version 1.0 and exactly one page with the requested size and background and no layers |
| ImageEditor.UpdateProject | src/main/java/com/example/videoeditor/service/imageservice/ImageEditorService.java:102-126 | an update succeeds exactly when the project is found and any new design reads as JSON; the name changes only to a non-blank one, and nothing else changes |
| ImageEditor.UpdateIdempotent | src/main/java/com/example/videoeditor/service/imageservice/ImageEditorService.java:102-126 | sending the same update twice gives what sending it once gives |
| ImageEditor.EmptyUpdateKeepsProject | src/main/java/com/example/videoeditor/service/imageservice/ImageEditorService.java:102-126 | an update with a blank name and no design leaves the project as it was |
| ImageEditor.Prepare | src/main/java/com/example/videoeditor/service/imageservice/ImageEditorService.java:154-192 | the export's checks in order: project found, design present and not blank, pages present, page index in range, page complete, format accepted; each refusal carries its own reason |
| ImageEditor.Run | src/main/java/com/example/videoeditor/service/imageservice/ImageEditorService.java:194-221 | after the checks the row is COMPLETED with the renderer's path as URL when it returns, and FAILED with the error rethrown when it throws |
| ImageEditor.ExportProject | src/main/java/com/example/videoeditor/service/imageservice/ImageEditorService.java:154-222 | an export is refused exactly when a check fails, and otherwise ends as the run ends |
| ImageEditor.ExportStatus | src/main/java/com/example/videoeditor/service/imageservice/ImageEditorService.java:194-221 | an export that passes its checks never leaves the row PROCESSING; a refused one leaves the row untouched |
| ImageEditor.FormatIgnoresCase | src/main/java/com/example/videoeditor/service/imageservice/ImageEditorService.java:189-192 | a format is accepted exactly when its lower-case form is png, jpg, jpeg or pdf |
| ImageEditor.LowerOfUpper | src/main/java/com/example/videoeditor/service/imageservice/ImageEditorService.java:189 | lower-casing after upper-casing is lower-casing |
| ImageEditor.UpperLowerSame | src/main/java/com/example/videoeditor/service/imageservice/ImageEditorService.java:189 | upper-casing after lower-casing is upper-casing |
| ImageEditor.AcceptedFormatsExport | src/main/java/com/example/videoeditor/service/imageservice/ImageRenderService.java:1392-1416 | PNG is exported as is, JPG and JPEG flattened with the given quality or 90, PDF at 300 dpi |
| ImageEditor.PageIndexChecked | src/main/java/com/example/videoeditor/service/imageservice/ImageEditorService.java:174-178 | a page index is usable exactly when it lies in [0, pages); any other is refused before the row is saved |
| ImageEditor.ReasonsDiffer | src/main/java/com/example/videoeditor/service/imageservice/ImageEditorService.java:176-191 | the page-index refusal and the format refusal carry different messages |
| ImageEditor.FreshProjectPrepares | src/main/java/com/example/videoeditor/service/imageservice/ImageEditorService.java:72-90 | for a freshly created project, page 0 passes the checks with version 1.0, the requested canvas and no layers; any other index is refused |
| ImageEditor.FreshProjectExports | src/main/java/com/example/videoeditor/service/imageservice/ImageEditorService.java:154-222 | a freshly created project exports its only page, ending COMPLETED when the renderer succeeds |
| SimpleImageEditor.CreateSingle | src/main/java/com/example/videoeditor/service/ImageEditorService.java:49-92 | the older editor creates under the same checks, storing one canvas with no layers instead of a page list |
| SimpleImageEditor.UpdateSingle | src/main/java/com/example/videoeditor/service/ImageEditorService.java:98-122 | the older update succeeds, renames and replaces the design under the newer editor's rules |
| SimpleImageEditor.ExportSingle | src/main/java/com/example/videoeditor/service/ImageEditorService.java:150-199 | the older export refuses a missing project, a blank design and an unknown format, and otherwise hands the stored design to the renderer |
| SimpleImageEditor.ExportSingleStatus | src/main/java/com/example/videoeditor/service/ImageEditorService.java:168-198 | the older export succeeds exactly when the checks pass and the renderer returns, then the row is COMPLETED with the format; a refused export leaves it untouched |
| SimpleImageEditor.ChecksAgree | src/main/java/com/example/videoeditor/service/ImageEditorService.java:155-166 | for a one-page design both editors refuse exactly the same projects and formats, for the same reasons |
| SimpleImageEditor.SameInitialCanvas | src/main/java/com/example/videoeditor/service/ImageEditorService.java:72-86 | the older editor's initial canvas is the page the newer editor exports for a project created from the same request |
| JavaNum.Wrap | src/main/java/com/example/videoeditor/service/AspectRatioService.java:545-556 | a value is wrapped to a 32-bit int that differs from it by a multiple of 2^32, and an int is left as it is |
| JavaNum.Truncate | src/main/java/com/example/videoeditor/service/AspectRatioService.java:545-548 | the cast of a double to int drops the fraction toward zero |
| JavaNum.EvenUp | src/main/java/com/example/videoeditor/service/AspectRatioService.java:555-556 | rounding up to even gives an even value at most one above, and keeps an even value |
| JavaNum.EvenUpWrapping | src/main/java/com/example/videoeditor/service/AspectRatioService.java:555-556 | in 32-bit int arithmetic rounding up to even agrees with the unbounded rounding below the largest int |
| JavaNum.EvenUpWrapsAtMax | src/main/java/com/example/videoeditor/service/AspectRatioService.java:555-556 | at the largest int the unbounded rounding leaves the int range, and the 32-bit one wraps to the smallest, negative, int |
| MediaConversionService.ImageFormat | src/main/java/com/example/videoeditor/service/MediaConversionService.java:315 | jpg in any letter case becomes jpeg; any other format is lower-cased |
| AiVoices.Available | src/main/java/com/example/videoeditor/service/AiVoicesService.java:17-25 | the catalogue's voices; none when reading fails with an I/O error; an IllegalArgumentException, which escapes, exactly when the resource is missing |
| AiVoices.Selected | src/main/java/com/example/videoeditor/service/AiVoicesService.java:27-37 | the selected voices are exactly those whose field equals the argument ignoring case, never more than the input |
| AiVoices.SelectedAppend | src/main/java/com/example/videoeditor/service/AiVoicesService.java:27-37 | selecting from two lists joined is selecting from each and joining, so the catalogue's order is kept |
| AiVoices.Filter | src/main/java/com/example/videoeditor/service/AiVoicesService.java:27-37 | the filter fails with a null-pointer error exactly when some voice lacks the field, and otherwise is the selection |
| AiVoices.VoicesBy | src/main/java/com/example/videoeditor/service/AiVoicesService.java:27-37 | a language or gender query returns exactly the available voices that match, nothing when reading fails, and the catalogue's IllegalArgumentException when the resource is missing |
| AiVoices.Both | src/main/java/com/example/videoeditor/service/AiVoicesService.java:39-44 | the two filters chained never return more voices than given, and fail only on a missing field |
| AiVoices.BothIsComposition | src/main/java/com/example/videoeditor/service/AiVoicesService.java:39-44 | the combined query is the language filter followed by the gender filter on its result, failing where either fails |
| AiVoices.VoicesByLanguageAndGender | src/main/java/com/example/videoeditor/service/AiVoicesService.java:39-44 | every voice returned is available and matches both language and gender; a missing resource gives the catalogue's error and a failed read nothing |
| AiVoices.CombinedIsChained | src/main/java/com/example/videoeditor/service/AiVoicesService.java:39-44 | the combined query equals filtering the language query's result by gender |
| AiVoices.LanguageCaseInsensitive | src/main/java/com/example/videoeditor/service/AiVoicesService.java:27-31 | a language query gives the same answer as its lower-case form |
| AiVoices.SameSelection | src/main/java/com/example/videoeditor/service/AiVoicesService.java:27-37 | any filter gives the same answer for an argument and its lower-case form |
| GlobalElementService.LowerDot | src/main/java/com/example/videoeditor/developer/service/GlobalElementService.java:115-120 | lower-casing keeps every dot where it was |
| GlobalElementService.ValidHasDot | src/main/java/com/example/videoeditor/developer/service/GlobalElementService.java:115-120 | an accepted file name contains a dot, so the conflict loop's lastIndexOf('.') is never -1 |
| GlobalElementService.CandidateInjective | src/main/java/com/example/videoeditor/developer/service/GlobalElementService.java:61-67 | different counters give different candidate names |
| GlobalElementService.Tried | src/main/java/com/example/videoeditor/developer/service/GlobalElementService.java:61-67 | the set of candidate names the loop has tried holds every counter below the current one |
| GlobalElementService.ResolveName | src/main/java/com/example/videoeditor/developer/service/GlobalElementService.java:57-67 | the resolved name is free; it is the original when that is free, and otherwise the first free name_k.ext with every earlier counter taken |
| GlobalElementService.LeastFreeCandidate | src/main/java/com/example/videoeditor/developer/service/GlobalElementService.java:61-67 | the first free counter is unique |
| GlobalElementService.ElementJson | src/main/java/com/example/videoeditor/developer/service/GlobalElementService.java:72-76 | the stored JSON holds exactly imagePath and imageFileName |
| GlobalElementService.ToDto | src/main/java/com/example/videoeditor/developer/service/GlobalElementService.java:98-113 | a stored element reads back when both keys are present |
| GlobalElementService.StoredMatchesReturned | src/main/java/com/example/videoeditor/developer/service/GlobalElementService.java:72-108 | the DTO read back from the stored JSON is the DTO the upload returned |
| GlobalElementService.UploadGlobalElements | src/main/java/com/example/videoeditor/developer/service/GlobalElementService.java:38-90 | an unknown developer fails; the upload succeeds exactly when every file has an accepted name; each stored name is fresh, on disk, distinct from the others, and its DTO matches its JSON |
| ProjectController.ImageContentType | src/main/java/com/example/videoeditor/controller/ProjectController.java:1433-1440 | the image content type is always one of png, jpeg, gif, webp or an octet stream |
| ProjectController.ImageContentTypeLaws | src/main/java/com/example/videoeditor/controller/ProjectController.java:1433-1440 | a name is served as an octet stream exactly when it lacks an image suffix; the type is never empty and ignores letter case |
| ProjectController.AudioContentType | src/main/java/com/example/videoeditor/controller/ProjectController.java:1938-1944 | mp3, then wav, then ogg, matched on the lower-cased name, each exactly when the earlier ones do not match; otherwise an octet stream |
| ProjectController.DoubleTests | src/main/java/com/example/videoeditor/controller/ProjectController.java:327-343 | Java's comparisons on a parsed double: a finite value passes a range test exactly when it lies in the range, NaN passes every test, +Infinity only a lower bound, -Infinity none |
| ProjectController.ValidateSegmentUpdate | src/main/java/com/example/videoeditor/controller/ProjectController.java:277-361 | a video segment update passes exactly when rotation keyframes are finite, the id is present, opacity, crops and speed pass Java's range tests, rotation is finite, and, unless a crop side is keyframed, neither crop pair's double sum is `>= 100` |
| ProjectController.SegmentChecksOnNumbers | src/main/java/com/example/videoeditor/controller/ProjectController.java:322-361 | on numeric fields an update passes exactly when opacity, crops and speed lie in their ranges and, without crop keyframes, each crop pair sums to under 100 |
| ProjectController.NaNSegmentUpdatePasses | src/main/java/com/example/videoeditor/controller/ProjectController.java:288-361 | an update whose opacity, four crops and speed are all "NaN" passes every check |
| ProjectController.KeyframedCropSkipsTotal | src/main/java/com/example/videoeditor/controller/ProjectController.java:349-361 | a keyframed crop side turns off the total check: a 60% + 40% crop passes with cropT keyframed and fails without |
| ProjectController.AcceptedCropLeavesPicture | src/main/java/com/example/videoeditor/controller/ProjectController.java:349-361 | an accepted update with numeric crops and no keyframed crop leaves some picture horizontally and vertically |
| ProjectController.ValidateAudio | src/main/java/com/example/videoeditor/controller/ProjectController.java:826-842 | an audio add passes exactly when the layer is negative, both start times are non-negative, the file name is given and not empty, and the volume lies in [0, 15] |
| ProjectController.AudioDefaultsPass | src/main/java/com/example/videoeditor/controller/ProjectController.java:826-842 | a request naming only a file passes, and one without a file name never does |
| ProjectController.ValidateTransition | src/main/java/com/example/videoeditor/controller/ProjectController.java:1594-1603 | a transition passes exactly when every required field is present, the duration is not `<= 0` and it applies at the start or the end; a numeric duration must be positive, and a "NaN" duration always passes that test |
| ProjectController.ValidateText | src/main/java/com/example/videoeditor/controller/ProjectController.java:530-577 | a text add passes exactly when the required fields are present, alignment is left, right or center, rotation is finite and every style value passes Java's test; on numeric values, exactly when each lies in its range |
| ProjectController.NonFiniteTextPasses | src/main/java/com/example/videoeditor/controller/ProjectController.java:530-577 | a text add with "NaN" opacities and "Infinity" spacings passes every check |
| ProjectController.TextChecksMatchSetters | src/main/java/com/example/videoeditor/controller/ProjectController.java:543-577 | on numeric values, the controller's style checks accept exactly what the text segment's setters accept |
| ProjectController.ValidateImage | src/main/java/com/example/videoeditor/controller/ProjectController.java:1119-1137 | an image add passes exactly when the layer and start are non-negative, the end is not before the start, a file name is given, opacity lies in [0, 1] and rotation is finite |
| ProjectController.ImageZeroLengthAccepted | src/main/java/com/example/videoeditor/controller/ProjectController.java:1126-1128 | the end-time check is `end < start`: an image whose end equals its start is accepted, and one whose end is before its start is refused |
| Serving.Identify | src/main/java/com/example/videoeditor/controller/ProjectController.java:49-53 | no token, or an empty one, is anonymous; a known caller is the user the token names |
| Serving.ServeStandaloneImage | src/main/java/com/example/videoeditor/controller/StandaloneImageController.java:57-100 | another user's token gets 403; an unknown user or unreadable file gets 404; a type other than original or processed gets 400; otherwise the file is served with the image table's type |
| Serving.ServeOwned | src/main/java/com/example/videoeditor/controller/ServeController.java:415-465 | on the user-scoped routes, another user's token gets 403; a failed user lookup or a missing file gets 404; otherwise the file is served; never 400 |
| Serving.ServeVideo | src/main/java/com/example/videoeditor/controller/ServeController.java:31-75 | the video route answers 404 for an unknown user or a missing project, whoever asks; 403 to another user's token on an existing project; 404 for a missing file; otherwise MP4 |
| Serving.VideoLooksUpProjectFirst | src/main/java/com/example/videoeditor/controller/ServeController.java:42-48 | for another user's token, the video route answers 404 when the project is missing where a user-scoped route answers 403, and the same as that route when the project exists |
| Serving.OnlyOwnerServed | src/main/java/com/example/videoeditor/controller/ServeController.java:415-465 | a file is served exactly to its owner or to a request without a token, when it exists |
| Serving.AnonymousAllowed | src/main/java/com/example/videoeditor/controller/ServeController.java:419-429 | a request without a token is never refused for ownership |
| Serving.SubtitleContentType | src/main/java/com/example/videoeditor/controller/ServeController.java:444-450 | .srt gives SubRip, otherwise .txt gives plain text, otherwise WebVTT, by exact suffix |
| Serving.SubtitleSuffixCaseSensitive | src/main/java/com/example/videoeditor/controller/ServeController.java:444-450 | an upper-case .SRT or .TXT is served as WebVTT |
| Serving.ServeSubtitle | src/main/java/com/example/videoeditor/controller/ServeController.java:415-465 | a served subtitle went to its owner or an anonymous caller, existed, and carries the suffix's type |
| Serving.OrOctet | src/main/java/com/example/videoeditor/controller/ServeController.java:586-589 | the fallback never yields an empty type and keeps a non-empty one |
| Serving.FallbackNeverFires | src/main/java/com/example/videoeditor/controller/ServeController.java:586-589 | the fallback never changes the image table's answer |
| Serving.ServeExport | src/main/java/com/example/videoeditor/controller/ServeController.java:562-610 | a served export went to its owner or an anonymous caller, existed, and carries the image table's type |
| Serving.ServeEditorElement | src/main/java/com/example/videoeditor/controller/ServeController.java:613-650 | an element is served exactly when the file exists, with the image table's type |
| Serving.ServeGlobalElement | src/main/java/com/example/videoeditor/developer/controller/GlobalController.java:38-55 | a global element is 404 exactly when the name is not a regular file, and otherwise served with the image table's type |
| Serving.ImageContentTypeTable | src/main/java/com/example/videoeditor/developer/controller/GlobalController.java:57-64 | png, then jpg or jpeg, then gif, then webp, on the lower-cased name, each exactly when the earlier rows do not match |
| Serving.UploadedElementsServedAsImages | src/main/java/com/example/videoeditor/developer/service/GlobalElementService.java:115-120 | a name the element upload accepts is exactly a name later served with an image type |
| RenderHelpers.DefaultDirection | src/main/java/com/example/videoeditor/service/VideoEditingService.java:3765-3779 | a transition type in the table gets its direction, and any other type the empty direction |
| RenderHelpers.XPositionMargins | src/main/java/com/example/videoeditor/service/VideoEditingService.java:3568-3577 | left and right alignment leave padding plus border on their side; centring splits the free width into gaps differing by at most one pixel, the left never wider when the line fits |
| RenderHelpers.FontTable | src/main/java/com/example/videoeditor/service/VideoEditingService.java:3820-3829 | the table has one entry per family, each path under the given folder |
| RenderHelpers.FontLookup | src/main/java/com/example/videoeditor/service/VideoEditingService.java:3810-3853 | a null or blank family gives the default; any answer is the default or a table path; an exact trimmed match finds that entry or an earlier one |
| RenderHelpers.FontPathsDisagree | src/main/java/com/example/videoeditor/service/VideoEditingService.java:3812-3837 | as written, Arial by name and no family name give different paths for the same font, the named one carrying an escape backslash |
| RenderHelpers.FirstEntryFound | src/main/java/com/example/videoeditor/service/VideoEditingService.java:3832-3837 | a family equal to the first entry's trimmed name maps to that entry's path |
| RenderHelpers.EscapedArialEntry | src/main/java/com/example/videoeditor/service/VideoEditingService.java:3820-3829 | the table as written maps Arial to the escaped path |
| RenderHelpers.FontPath | src/main/java/com/example/videoeditor/service/VideoEditingService.java:3810-3853 | the corrected lookup always answers a plain path under the font folder |
| RenderHelpers.FontNamesDistinct | src/main/java/com/example/videoeditor/service/VideoEditingService.java:3820-3829 | no two families in the table share a name |
| RenderHelpers.FontPathAgrees | src/main/java/com/example/videoeditor/service/VideoEditingService.java:3832-3837 | with plain paths, a family given by its exact name maps to its own file |

## Left out

- External tools are parameters or left out: ffmpeg, ffprobe, ImageMagick, yt-dlp, Whisper, rembg and the Python subprocesses. Command strings and filter graphs are not modelled; only the decisions around them are.
- The encoders and the file system are parameters: a `size` function, existence flags and scratch-file flags. The same holds for clocks, UUIDs, random names, JWT decoding, SMTP and MX probing, and the Google text-to-speech client.
- Persistence, JPA repositories and transactions are not modelled. A service call is a function from the stored row (an `Option`) to the row it saves and the error it throws.
- The session map's concurrency, `@Scheduled` expiry, and the asynchronous processing threads are left out, because they are about timing rather than logic.
- The JSON codec is a parameter pair (`write`, `parse`); lemmas that need a round trip take it as a requirement.
- Java2D font measurement and drawing are parameters, as are waveform PCM parsing, ffmpeg progress parsing, and `String.format` of numbers.
- `roundToThreeDecimals` (VideoEditingService.java:104-108) is treated as the identity, so updates compare exact reals.
- Keyframes.NewKeyframe: a keyframe's value is a real, where Java stores an `Object`; non-numeric values are not modelled.
- Doubles are exact reals. This changes results where Java or Python rounds:
  - AspectRatioService.RatioCanvas: with ratio "3:17" and a 159x100 video, Java computes a canvas height of 900 and the model 902. In doubles, `159 / (3.0 / 17)` is 900.999…, which the cast truncates to 900. The exact quotient is 901, which even rounding lifts to 902.
  - CompressMedia.Within: the ±10% and ±15% tests use exact arithmetic, where the script compares floats.
  - VideoSpeedService.UpdateSpeed: a NaN speed passes Java's `speed < 0.5 || speed > 15.0` check. Reals have no NaN, so that path is not modelled.
- Case mapping, digits and whitespace are ASCII only:
  - MediaConversionService.ValidateInputs: Java's `toUpperCase` maps "gıf" to "GIF" and accepts it; the model refuses it.
  - VideoSpeedService.SanitizeChar: Java lower-cases the Kelvin sign to "k" and "İ" to two characters. The model maps both to '_'. So the length-preservation claim of VideoSpeedService.SanitizeFilename holds for the model, not for those inputs.
  - CompressMedia.ParseTargetSize: Python's `re.IGNORECASE` and Unicode `\d` also accept "5\u212AB" and non-ASCII digits. The model accepts only ASCII digits and letters.
  - Text.IsWhitespace: only ASCII whitespace splits words. Python's `str.split()` also splits on no-break and other Unicode spaces, so WhisperSubtitle's word counts can differ on such text.
- VideoSpeedService.Upload, VideoSpeedService.UploadSound: the speed is a real, so the NaN that Java's `speed < 0.5 || speed > 15.0` test lets through (VideoSpeedService.java:55-57) cannot be expressed. Java stores such a row with a NaN speed; the model's "an uploaded row has a valid speed" holds only for numeric speeds.
- SoleTts.GenerateTts, SoleTts.QuotaKept, SoleTts.LengthCheckSubsumed: the model counts characters, where Java's `text.length()` (SoleTTSService.java:58, 64, 109) counts UTF-16 units. A text of emoji or other characters outside the Basic Multilingual Plane counts twice per character in Java, so Java refuses or charges it earlier than the model, and the 13500 bound is in characters rather than UTF-16 units.
- VideoSpeedService.SanitizeFilename: the length-preservation clause holds for the model, whose lower-casing is ASCII; Java lower-cases "İ" to two characters, so a name holding it grows by one in Java.
- SubtitleService.Body: a key sent as an explicit JSON null is not modelled. For a field without a validating setter Lombok stores the null and the merge keeps the stored value; for the others the setter puts back the default. The model covers keys that are sent with a value or left out.
- AuthService.PasswordValid: the model counts characters, where Java's `length()` counts UTF-16 units. Java accepts "a1" followed by three emoji (8 units); the model refuses it (5 characters).
- MediaConversionService.ImageFormat: `replace("jpg", "jpeg")` is modelled on the whole format name only. No listed image format contains "jpg" except "jpg" itself, so accepted formats agree.
- GlobalElementService.ToDto: a stored JSON without one of its two keys gives `None`, where Java builds a DTO with a null field. Malformed JSON, which Java turns into a RuntimeException, is not modelled.
- Serving.ServeOwned: the 500 answers for unexpected exceptions are not modelled. The same holds for the other serving routes and for the byte-range handling of media responses.
- The rendering pipelines are modelled through their decisions: layer order, the skipping of unknown types, gravity, capitalisation, padding and stroke sizes, multi-colour coverage, shape defaults and export settings. Image-layer cropping, shadows, rotation, opacity and the ImageMagick command text are left out.
- SubtitleService's `generateTextPng` is modelled only through its even sizing (JavaNum.EvenUp), its largest scale and its scale-down factor. Glyph layout is left out.
- Controller call sites whose arguments do not match the service signatures are not modelled. The service methods are modelled as written.
- The Python scripts `whisper_transcribe.py`, `convert_media.py` and `remove_background.py` are left out, because they only wrap tools.
- ProjectController.ValidateAudio, ProjectController.ValidateImage: these read JSON numbers with `doubleValue()`, so NaN cannot occur; a number too large for a double, which reads as Infinity, is not modelled.
- TextStyle.SetBackgroundOpacity and the other real-valued style setters take reals, so the NaN that Java's `x < 0 || x > 1` tests let through cannot be expressed; ProjectController.TextChecksMatchSetters is therefore stated for numeric requests.

## Findings

| source | as written | input that shows it | evidently intended | confidence | as-written member | corrected member |
|---|---|---|---|---|---|---|
| src/main/java/com/example/videoeditor/dto/VideoSegment.java:64-78 | `updateKeyframe` overwrites the first keyframe within 0.0001 s in place and does not re-sort, although the new time may differ by up to 0.0001 | add at 1.0 and 1.0001, then update at 1.00009 and at 1.00011: the list becomes [1.00011, 1.0001] | the list stays sorted by time, as after `addKeyframe` | not executed | Keyframes.UpdateInPlaceCanUnsort | Keyframes.Update |
| scripts/compress_media.py:240-254 | the `finally` block deletes the scratch file after every attempt, so the ±15% fallback after the video loop can never find it | any video whose bitrate search ends without a ±10% hit, e.g. a last attempt 12% off target | a last attempt within 15% is kept | not executed | CompressMedia.CompressVideo | CompressMedia.CompressVideoKeepingLast |
| scripts/whisper_subtitle.py:57-62 | merging a lone trailing word into the previous chunk does not move that chunk's end, so the merged text ends before its last word | a segment of four words over [0, 4]: the last chunk holds all four words but ends at 3.0 | the merged chunk ends where its last word ends | not executed | WhisperSubtitle.FourWords | WhisperSubtitle.OwnTiles |
| src/main/java/com/example/videoeditor/service/MediaConversionService.java:137-160 | an image's output name keeps the original extension, while `convertImage` writes the file under the target format's extension; the readiness check looks for the unforced name | "photo.png" converted to JPG: the file written is converted_photo.jpg, the check looks for converted_photo.png, and the row ends FAILED | the check and the stored name use the file actually written | not executed | MediaConversionService.PhotoToJpgFails | MediaConversionService.PhotoToJpgFixed |
| src/main/java/com/example/videoeditor/service/AspectRatioService.java:204-212 | an odd output width is bumped with `width + 1` on a Java `int` | width 2147483647: Java stores -2147483648 | the stored width is even, at least the input, and positive | not executed | AspectRatioService.WidthWrapsAtMax | AspectRatioService.UpdateOutputWidth |
| src/main/java/com/example/videoeditor/service/AspectRatioService.java:240-244 | an odd output height is bumped with `height + 1` on a Java `int` | height 2147483647: Java stores -2147483648 | the stored height is even, at least the input, and positive | not executed | AspectRatioService.HeightWrapsAtMax | AspectRatioService.UpdateOutputHeight |
| src/main/java/com/example/videoeditor/service/AspectRatioService.java:268-286 | `updateOutputResolution` bumps each odd side with `+ 1` on a Java `int` | width 2147483647 and height 2: Java stores width -2147483648 | both stored sides are even, at least the input, and positive | not executed | AspectRatioService.ResolutionWrapsAtMax | AspectRatioService.UpdateOutputResolution |
| src/main/java/com/example/videoeditor/service/AspectRatioService.java:553-562 | the canvas and scaled sides are evened with `+ 1` on a Java `int` | explicit output 2x2, scale 2147483647, a 1x1 video: the scaled width 2147483647 becomes -2147483648 | every canvas and scaled side is even and non-negative | not executed | AspectRatioService.ScaledSideWrapsAtMax | AspectRatioService.Render |
| src/main/java/com/example/videoeditor/dto/SubtitleDTO.java:15-37 | the request body of `updateSingleSubtitle` is a `SubtitleDTO` whose style fields have initialisers, so a key the JSON leaves out arrives non-null and the "only changed fields" merge (SubtitleService.java:248-273) overwrites the stored value with the default | a subtitle in yellow at y = 400 edited with `{"text": "hello"}` comes back white at y = 0 | fields the request leaves out keep their stored values | not executed | SubtitleService.UpdateSingleAsWritten | SubtitleService.UpdateSingle |
| src/main/java/com/example/videoeditor/service/VideoEditingService.java:310-316 | `segment.getLayer() == layer` compares boxed `Integer`s by identity, which agrees with value equality only inside [-128, 127] | a segment on layer 200 over [0, 5] and a new video for layer 200 without a start time: no segment matches, the start defaults to 0 and the add fails on overlap | the new video starts where the layer's last segment ends | not executed | TimelineAdd.BoxedLayerMisplaces | TimelineAdd.AddVideoToTimeline |
| src/main/java/com/example/videoeditor/service/VideoEditingService.java:1119-1126 | `updateAudioSegment` sets the layer before checking the volume, and a rejected volume leaves the segment moved without the placement check | segments "a" on layer -1 and "b" on layer -2, both over [0, 10]; updating "a" to layer -2 with volume 2.0 throws and leaves both on layer -2, overlapping | a rejected update leaves the timeline unchanged | not executed | AudioUpdates.UpdateAudioCanBreakLayers | AudioUpdates.CheckedUpdateKeepsAudioLayers |
| src/main/java/com/example/videoeditor/service/VideoEditingService.java:3810-3853 | the font table holds ffmpeg-escaped paths ("C\\:/…"), while the default is the plain path, and the result is opened as a file | family "Arial" gives "C\\:/Windows/Fonts/Arial.ttf", no family gives "C:/Windows/Fonts/Arial.ttf" | every family maps to a plain file path | not executed | RenderHelpers.FontPathsDisagree | RenderHelpers.FontPathAgrees |
| src/main/java/com/example/videoeditor/service/VideoFilterJobServiceImpl.java:41-45 | the existing PENDING job for an upload is returned before the caller's ownership of the upload is checked | user 2 asks for a job on user 1's upload 7, which already has a PENDING job: user 1's job is returned | a caller who does not own the upload is refused | not executed | VideoFilterJobs.ForeignPendingJob | VideoFilterJobs.CreateOwned |

=== FILE: ai_voices.dfy ===
/** The voice catalogue: the voices read from the bundled list, filtered by language
    and gender with a case-insensitive comparison. A catalogue that fails to read
    is the empty list; a missing one is an error nothing catches. */
module AiVoices {
  import opened Wrappers
  import opened Text

  /** A catalogue entry; its language and gender may be missing from the file. */
  datatype Voice = Voice(name: string, language: Option<string>, gender: Option<string>)

  /** The outcome of reading the bundled list: read, an I/O failure while reading,
      or no such resource (a null stream). */
  datatype Catalogue = Loaded(voices: seq<Voice>) | LoadFailed | Missing

  /** The two attributes a caller can filter on. */
  datatype Field = Language | Gender

  function Get(v: Voice, f: Field): Option<string> {
    match f
    case Language => v.language
    case Gender => v.gender
  }

  const NullField := "voice attribute is null"
  const NullSource := "argument \"src\" is null"

  /** `getAvailableVoices`: a failed read is reported and yields no voices, but a
      missing resource hands a null stream to the JSON reader, whose
      IllegalArgumentException is not an IOException and escapes. */
  function Available(c: Catalogue): (r: Result<seq<Voice>>)
    ensures r.Err? <==> c.Missing?
    ensures r.Err? ==> r.error.kind == IllegalArgument
    ensures c.LoadFailed? ==> r == Ok([])
    ensures c.Loaded? ==> r == Ok(c.voices)
  {
    match c
    case Loaded(vs) => Ok(vs)
    case LoadFailed => Ok([])
    case Missing => Throw(IllegalArgument, NullSource)
  }

  /** `equalsIgnoreCase` called on a present attribute: a null argument never
      matches. */
  predicate Matches(value: string, arg: Option<string>) {
    arg.Some? && EqualsIgnoreCase(value, arg.value)
  }

  /** The voice has the attribute, and it matches. */
  predicate Has(v: Voice, f: Field, arg: Option<string>) {
    Get(v, f).Some? && Matches(Get(v, f).value, arg)
  }

  /** The voices whose attribute is present and matches, in catalogue order. */
  function Selected(vs: seq<Voice>, f: Field, arg: Option<string>): (r: seq<Voice>)
    ensures |r| <= |vs|
    ensures forall v :: v in r <==> v in vs && Has(v, f, arg)
  {
    if vs == [] then []
    else
      var v := vs[0];
      var rest := Selected(vs[1..], f, arg);
      if Has(v, f, arg) then [v] + rest else rest
  }

  /** Selection distributes over concatenation: the filter keeps the voices'
      relative order. */
  lemma {:induction false} SelectedAppend(a: seq<Voice>, b: seq<Voice>, f: Field, arg: Option<string>)
    ensures Selected(a + b, f, arg) == Selected(a, f, arg) + Selected(b, f, arg)
    decreases |a|
  {
    if a != [] {
      assert (a + b)[0] == a[0];
      assert (a + b)[1..] == a[1..] + b;
      SelectedAppend(a[1..], b, f, arg);
    } else {
      assert a + b == b;
    }
  }

  /** One `filter` stage over the stream: the comparison dereferences the voice's
      attribute, so a voice without it makes the whole call throw. */
  function Filter(vs: seq<Voice>, f: Field, arg: Option<string>): (r: Result<seq<Voice>>)
    ensures r.Ok? <==> forall i :: 0 <= i < |vs| ==> Get(vs[i], f).Some?
    ensures r.Ok? ==> r.value == Selected(vs, f, arg)
    ensures r.Err? ==> r == Throw(Runtime, NullField)
  {
    if vs == [] then Ok([])
    else
      var v := vs[0];
      if Get(v, f).None? then Throw(Runtime, NullField)
      else
        var rest :- Filter(vs[1..], f, arg);
        Ok(if Matches(Get(v, f).value, arg) then [v] + rest else rest)
  }

  /** `getVoicesByLanguage` and `getVoicesByGender`. */
  function VoicesBy(c: Catalogue, f: Field, arg: Option<string>): (r: Result<seq<Voice>>)
    ensures c.Missing? ==> r == Available(c)
    ensures r.Ok? ==> Available(c).Ok? && forall v :: v in r.value <==> v in Available(c).value && Has(v, f, arg)
    ensures c.LoadFailed? ==> r == Ok([])
  {
    var vs :- Available(c);
    Filter(vs, f, arg)
  }

  /** The two chained stages of `getVoicesByLanguageAndGender`, element by element:
      the gender is only read for voices whose language matched. */
  function Both(vs: seq<Voice>, language: Option<string>, gender: Option<string>): (r: Result<seq<Voice>>)
    ensures r.Ok? ==> |r.value| <= |vs|
    ensures r.Err? ==> r == Throw(Runtime, NullField)
  {
    if vs == [] then Ok([])
    else
      var v := vs[0];
      if v.language.None? then Throw(Runtime, NullField)
      else if !Matches(v.language.value, language) then Both(vs[1..], language, gender)
      else if v.gender.None? then Throw(Runtime, NullField)
      else
        var rest :- Both(vs[1..], language, gender);
        Ok(if Matches(v.gender.value, gender) then [v] + rest else rest)
  }

  /** The combined filter is the gender filter applied to the result of the
      language filter, including when and whether it throws. */
  lemma {:induction false} BothIsComposition(vs: seq<Voice>, language: Option<string>, gender: Option<string>)
    ensures Both(vs, language, gender) ==
            match Filter(vs, Language, language)
            case Ok(byLanguage) => Filter(byLanguage, Gender, gender)
            case Err(e) => Err(e)
    decreases |vs|
  {
    if vs != [] {
      BothIsComposition(vs[1..], language, gender);
      var v := vs[0];
      if v.language.Some? && Matches(v.language.value, language) {
        var tail := Filter(vs[1..], Language, language);
        if tail.Ok? {
          assert Filter(vs, Language, language) == Ok([v] + tail.value);
          assert ([v] + tail.value)[0] == v;
          assert ([v] + tail.value)[1..] == tail.value;
          assert Both(vs[1..], language, gender) == Filter(tail.value, Gender, gender);
          assert Filter([v] + tail.value, Gender, gender) == Both(vs, language, gender);
        } else {
          assert Filter(vs, Language, language) == tail;
        }
      }
    }
  }

  /** `getVoicesByLanguageAndGender`. */
  function VoicesByLanguageAndGender(c: Catalogue, language: Option<string>, gender: Option<string>): (r: Result<seq<Voice>>)
    ensures c.Missing? ==> r == Available(c)
    ensures c.LoadFailed? ==> r == Ok([])
    ensures r.Ok? ==> Available(c).Ok? && forall v :: v in r.value ==> v in Available(c).value && Has(v, Language, language)
                                                                       && Has(v, Gender, gender)
  {
    var vs :- Available(c);
    BothIsComposition(vs, language, gender);
    Both(vs, language, gender)
  }

  /** The combined query returns what the language query returns, filtered again
      by gender. */
  lemma CombinedIsChained(c: Catalogue, language: Option<string>, gender: Option<string>)
    requires VoicesBy(c, Language, language).Ok?
    ensures VoicesByLanguageAndGender(c, language, gender) == Filter(VoicesBy(c, Language, language).value, Gender, gender)
  {
    BothIsComposition(Available(c).value, language, gender);
  }

  /** The language comparison ignores ASCII case in both the argument and the
      catalogue. */
  lemma LanguageCaseInsensitive(c: Catalogue, language: string)
    ensures VoicesBy(c, Language, Some(language)) == VoicesBy(c, Language, Some(Lower(language)))
  {
    LowerIdempotent(language);
    if !c.Missing? {
      SameSelection(Available(c).value, Language, language);
    }
  }

  /** Arguments that agree up to case select the same voices. */
  lemma {:induction false} SameSelection(vs: seq<Voice>, f: Field, arg: string)
    ensures Filter(vs, f, Some(arg)) == Filter(vs, f, Some(Lower(arg)))
    decreases |vs|
  {
    LowerIdempotent(arg);
    if vs != [] {
      SameSelection(vs[1..], f, arg);
    }
  }
}

=== FILE: aspect_ratio_service.dfy ===
/** The aspect-ratio service: a video is uploaded, configured (a `w:h` ratio or an
    explicit output resolution, a scale and an offset), and rendered onto a black
    canvas of the configured size. The repository, the file system and ffmpeg are
    parameters: whether each file step succeeded and what the probes reported. */
module AspectRatioService {
  import opened Wrappers
  import opened Text
  import opened JavaNum

  datatype Status = Uploaded | Configured | Processing | Failed | Succeeded

  /** An `AspectRatioMedia` row; absent fields are null in Java. */
  datatype AspectRatioMedia = AspectRatioMedia(
    owner: nat,
    originalFileName: string,
    originalPath: string,
    aspectRatio: Option<string>,
    positionX: Option<int>,
    positionY: Option<int>,
    scale: Option<real>,
    outputWidth: Option<int>,
    outputHeight: Option<int>,
    status: Status,
    progress: real,
    processedFileName: Option<string>,
    processedPath: Option<string>)

  predicate IsColon(c: char) { c == ':' }

  /** The two sides of a ratio: `split(":")` gives exactly two pieces (trailing empty
      pieces dropped) and both parse as positive `int`s. */
  function Ratio(s: string): (r: Option<(int, int)>)
    ensures r.Some? ==> r.value.0 > 0 && r.value.1 > 0 && IsInt(r.value.0) && IsInt(r.value.1)
    ensures r.Some? <==> |JavaSplit(s, IsColon)| == 2
                         && ParseInt(JavaSplit(s, IsColon)[0]).Some? && ParseInt(JavaSplit(s, IsColon)[0]).value > 0
                         && ParseInt(JavaSplit(s, IsColon)[1]).Some? && ParseInt(JavaSplit(s, IsColon)[1]).value > 0
  {
    var parts := JavaSplit(s, IsColon);
    if |parts| != 2 then None
    else
      var w := ParseInt(parts[0]);
      var h := ParseInt(parts[1]);
      if w.Some? && h.Some? && w.value > 0 && h.value > 0 then Some((w.value, h.value)) else None
  }

  /** `isValidAspectRatio`: null is invalid. */
  predicate IsValidAspectRatio(s: Option<string>) {
    s.Some? && Ratio(s.value).Some?
  }

  predicate DigitString(s: string) {
    |s| > 0 && AllDigits(s)
  }

  /** `Integer.parseInt` on a plain digit string: its value, when that fits an `int`. */
  lemma ParseDigits(s: string)
    requires DigitString(s)
    ensures ParseInt(s) == if IsInt(DigitsValue(s)) then Some(DigitsValue(s)) else None
  {
    assert IsDigit(s[0]);
  }

  lemma NoColon(s: string)
    requires AllDigits(s)
    ensures forall i :: 0 <= i < |s| ==> !IsColon(s[i])
  {
    assert forall i :: 0 <= i < |s| ==> IsDigit(s[i]);
  }

  /** `w:h` and `w:h:` both split into `[w, h]`; `w:h:x` splits into three pieces. */
  lemma SplitSides(a: string, b: string, c: string)
    requires DigitString(a) && DigitString(b) && DigitString(c)
    ensures JavaSplit(a + ":" + b, IsColon) == [a, b]
    ensures JavaSplit(a + ":" + b + ":", IsColon) == [a, b]
    ensures |JavaSplit(a + ":" + b + ":" + c, IsColon)| == 3
  {
    SplitTwo(a, b);
    SplitTrailing(a, b);
    SplitThree(a, b, c);
  }

  lemma SplitTwo(a: string, b: string)
    requires DigitString(a) && DigitString(b)
    ensures JavaSplit(a + ":" + b, IsColon) == [a, b]
  {
    NoColon(a);
    NoColon(b);
    PiecesWithout(b, IsColon);
    assert a + ":" + b == a + [':'] + b;
    PiecesAt(a, ':', b, IsColon);
    assert IsColon((a + ":" + b)[|a|]);
  }

  lemma SplitTrailing(a: string, b: string)
    requires DigitString(a) && DigitString(b)
    ensures JavaSplit(a + ":" + b + ":", IsColon) == [a, b]
  {
    NoColon(a);
    NoColon(b);
    var s := a + ":" + b + ":";
    assert s == a + [':'] + (b + [':'] + "");
    PiecesAt(b, ':', "", IsColon);
    PiecesAt(a, ':', b + [':'] + "", IsColon);
    assert Pieces("", IsColon) == [""];
    assert Pieces(s, IsColon) == [a, b, ""];
    assert IsColon(s[|a|]);
    assert [a, b, ""][..2] == [a, b];
    assert DropTrailingEmpty([a, b, ""]) == DropTrailingEmpty([a, b]) == [a, b];
  }

  lemma SplitThree(a: string, b: string, c: string)
    requires DigitString(a) && DigitString(b) && DigitString(c)
    ensures |JavaSplit(a + ":" + b + ":" + c, IsColon)| == 3
  {
    NoColon(a);
    NoColon(b);
    NoColon(c);
    var s := a + ":" + b + ":" + c;
    assert s == a + [':'] + (b + [':'] + c);
    PiecesWithout(c, IsColon);
    PiecesAt(b, ':', c, IsColon);
    PiecesAt(a, ':', b + [':'] + c, IsColon);
    assert Pieces(s, IsColon) == [a, b, c];
    assert IsColon(s[|a|]);
  }

  /** A ratio of two digit strings is valid exactly when both values are positive and
      fit an `int`, with or without a trailing colon; a third side is never valid. */
  lemma RatioOfDigits(a: string, b: string, c: string)
    requires DigitString(a) && DigitString(b) && DigitString(c)
    ensures var v := (DigitsValue(a), DigitsValue(b));
            Ratio(a + ":" + b) == (if 0 < v.0 && 0 < v.1 && IsInt(v.0) && IsInt(v.1) then Some(v) else None)
    ensures Ratio(a + ":" + b + ":") == Ratio(a + ":" + b)
    ensures Ratio(a + ":" + b + ":" + c).None?
  {
    SplitSides(a, b, c);
    ParseDigits(a);
    ParseDigits(b);
  }

  /** Every pair of positive `int`s written `w:h` is a valid ratio and reads back as
      the same pair. */
  lemma RatioOfDecimals(w: nat, h: nat)
    requires 0 < w && 0 < h && IsInt(w) && IsInt(h)
    ensures Ratio(Decimal(w) + ":" + Decimal(h)) == Some((w, h))
  {
    DecimalValue(w);
    DecimalValue(h);
    RatioOfDigits(Decimal(w), Decimal(h), "0");
  }

  /** The row's relative path under the storage root. */
  function StoredPath(owner: nat, folder: string, name: string): string {
    "aspect_ratio/" + Decimal(owner) + "/" + folder + "/" + name
  }

  /** `uploadMedia`, with the upload's byte count (`None` for a null file), the
      outcome of creating the folder, and the length of the saved copy. */
  function Upload(owner: nat, fileSize: Option<nat>, fileName: string, folderCreated: bool, savedLength: nat)
    : (r: Result<AspectRatioMedia>)
    ensures r.Ok? <==> fileSize.Some? && fileSize.value > 0 && folderCreated && savedLength > 0
    ensures r.Ok? ==> r.value.status == Uploaded && r.value.owner == owner
                      && r.value.originalPath == StoredPath(owner, "original", fileName)
                      && Sound(r.value) && r.value.processedPath.None?
    ensures r.Err? && (fileSize.None? || fileSize.value == 0) ==> r.error.kind == IllegalArgument
    ensures r.Err? && fileSize.Some? && fileSize.value > 0 ==> r.error.kind == IOFailure
  {
    if fileSize.None? || fileSize.value == 0 then Throw(IllegalArgument, "Media file is null or empty")
    else if !folderCreated then Throw(IOFailure, "Failed to create original directory")
    else if savedLength == 0 then Throw(IOFailure, "Input file is empty")
    else
      Ok(AspectRatioMedia(owner, fileName, StoredPath(owner, "original", fileName), None, None, None, None,
                          None, None, Uploaded, 0.0, None, None))
  }

  /** The lookup and ownership check every operation starts with. */
  function Owned(row: Option<AspectRatioMedia>, user: nat): (r: Result<AspectRatioMedia>)
    ensures r.Ok? <==> row.Some? && row.value.owner == user
    ensures r.Ok? ==> r.value == row.value
    ensures r.Err? ==> r.error.kind == IllegalArgument
  {
    if row.None? then Throw(IllegalArgument, "Media not found")
    else if row.value.owner != user then Throw(IllegalArgument, "Not authorized for this media")
    else Ok(row.value)
  }

  /** What every stored row satisfies: a valid ratio, a positive scale, and positive
      even output sizes, whenever each is set. */
  predicate Sound(m: AspectRatioMedia) {
    (m.aspectRatio.Some? ==> Ratio(m.aspectRatio.value).Some?)
    && (m.scale.Some? ==> m.scale.value > 0.0)
    && (m.outputWidth.Some? ==> m.outputWidth.value > 0 && m.outputWidth.value % 2 == 0)
    && (m.outputHeight.Some? ==> m.outputHeight.value > 0 && m.outputHeight.value % 2 == 0)
  }

  /** `setAspectRatio`. */
  function SetAspectRatio(row: Option<AspectRatioMedia>, user: nat, ratio: Option<string>)
    : (r: Result<AspectRatioMedia>)
    ensures r.Ok? <==> row.Some? && row.value.owner == user && IsValidAspectRatio(ratio)
    ensures r.Ok? ==> r.value == row.value.(aspectRatio := ratio, status := Configured)
    ensures r.Err? ==> r.error.kind == IllegalArgument
    ensures r.Ok? && Sound(row.value) ==> Sound(r.value)
  {
    var m :- Owned(row, user);
    if !IsValidAspectRatio(ratio) then Throw(IllegalArgument, "Invalid aspect ratio")
    else Ok(m.(aspectRatio := ratio, status := Configured))
  }

  /** `updatePositionX`: null means 0. */
  function UpdatePositionX(row: Option<AspectRatioMedia>, user: nat, x: Option<int>): (r: Result<AspectRatioMedia>)
    ensures r.Ok? <==> row.Some? && row.value.owner == user
    ensures r.Ok? ==> r.value == row.value.(positionX := Some(if x.Some? then x.value else 0), status := Configured)
    ensures r.Ok? && Sound(row.value) ==> Sound(r.value)
  {
    var m :- Owned(row, user);
    Ok(m.(positionX := Some(x.GetOr(0)), status := Configured))
  }

  /** `updatePositionY`: null means 0. */
  function UpdatePositionY(row: Option<AspectRatioMedia>, user: nat, y: Option<int>): (r: Result<AspectRatioMedia>)
    ensures r.Ok? <==> row.Some? && row.value.owner == user
    ensures r.Ok? ==> r.value == row.value.(positionY := Some(if y.Some? then y.value else 0), status := Configured)
    ensures r.Ok? && Sound(row.value) ==> Sound(r.value)
  {
    var m :- Owned(row, user);
    Ok(m.(positionY := Some(y.GetOr(0)), status := Configured))
  }

  /** `updateScale`: a non-positive scale is refused, null means 1.0. */
  function UpdateScale(row: Option<AspectRatioMedia>, user: nat, scale: Option<real>): (r: Result<AspectRatioMedia>)
    ensures r.Ok? <==> row.Some? && row.value.owner == user && (scale.None? || scale.value > 0.0)
    ensures r.Ok? ==> r.value == row.value.(scale := Some(if scale.Some? then scale.value else 1.0),
                                            status := Configured)
    ensures r.Err? ==> r.error.kind == IllegalArgument
    ensures r.Ok? && Sound(row.value) ==> Sound(r.value)
  {
    var m :- Owned(row, user);
    if scale.Some? && scale.value <= 0.0 then Throw(IllegalArgument, "Scale must be positive")
    else Ok(m.(scale := Some(scale.GetOr(1.0)), status := Configured))
  }

  /** A requested output side: refused unless positive, and an odd one is rounded up
      to even; null passes through. */
  function Side(v: Option<int>): (r: Result<Option<int>>)
    ensures r.Ok? <==> v.None? || v.value > 0
    ensures r.Ok? ==> (r.value.None? <==> v.None?)
    ensures r.Ok? && v.Some? ==> r.value.value % 2 == 0 && v.value <= r.value.value <= v.value + 1
    ensures r.Ok? && v.Some? && v.value % 2 == 0 ==> r.value.value == v.value
    ensures r.Err? ==> r.error.kind == IllegalArgument
  {
    if v.None? then Ok(None)
    else if v.value <= 0 then Throw(IllegalArgument, "Output size must be positive")
    else Ok(Some(EvenUp(v.value)))
  }

  /** `updateOutputWidth`: a null width clears the stored one. */
  function UpdateOutputWidth(row: Option<AspectRatioMedia>, user: nat, width: Option<int>)
    : (r: Result<AspectRatioMedia>)
    ensures r.Ok? <==> row.Some? && row.value.owner == user && (width.None? || width.value > 0)
    ensures r.Ok? ==> r.value == row.value.(outputWidth := Side(width).value, status := Configured)
    ensures r.Ok? ==> (r.value.outputWidth.None? <==> width.None?)
    ensures r.Ok? && Sound(row.value) ==> Sound(r.value)
  {
    var m :- Owned(row, user);
    var w :- Side(width);
    Ok(m.(outputWidth := w, status := Configured))
  }

  /** `Side` as Java computes it on an `Integer`: the round-up `v + 1` wraps, so
      the largest `int`, which is odd, becomes the most negative one. */
  function SideAsWritten(v: Option<int>): (r: Result<Option<int>>)
    requires v.Some? ==> IsInt(v.value)
    ensures v.Some? && v.value < IntMax ==> r == Side(v)
    ensures v.None? ==> r == Side(v)
    ensures v == Some(IntMax) ==> r == Ok(Some(IntMin))
  {
    if v.None? then Ok(None)
    else if v.value <= 0 then Throw(IllegalArgument, "Output size must be positive")
    else Ok(Some(EvenUpWrapping(v.value)))
  }

  /** `updateOutputWidth` as written, with the wrapping round-up. */
  function UpdateOutputWidthAsWritten(row: Option<AspectRatioMedia>, user: nat, width: Option<int>)
    : (r: Result<AspectRatioMedia>)
    requires width.Some? ==> IsInt(width.value)
    ensures width.None? || width.value < IntMax ==> r == UpdateOutputWidth(row, user, width)
    ensures r.Ok? <==> row.Some? && row.value.owner == user && (width.None? || width.value > 0)
    ensures r.Ok? ==> r.value == row.value.(outputWidth := SideAsWritten(width).value, status := Configured)
  {
    var m :- Owned(row, user);
    var w :- SideAsWritten(width);
    Ok(m.(outputWidth := w, status := Configured))
  }

  /** The wrap stores a negative width: asking for the largest `int` leaves a row that
      is no longer sound, where the round-up without wrapping keeps it sound. */
  lemma WidthWrapsAtMax(m: AspectRatioMedia, user: nat)
    requires m.owner == user && Sound(m)
    ensures UpdateOutputWidthAsWritten(Some(m), user, Some(IntMax)).Ok?
    ensures UpdateOutputWidthAsWritten(Some(m), user, Some(IntMax)).value.outputWidth == Some(IntMin)
    ensures !Sound(UpdateOutputWidthAsWritten(Some(m), user, Some(IntMax)).value)
    ensures UpdateOutputWidth(Some(m), user, Some(IntMax)).value.outputWidth == Some(IntMax + 1)
    ensures Sound(UpdateOutputWidth(Some(m), user, Some(IntMax)).value)
  {
    EvenUpWrapsAtMax();
  }

  /** `updateOutputHeight`: a null height clears the stored one. */
  function UpdateOutputHeight(row: Option<AspectRatioMedia>, user: nat, height: Option<int>)
    : (r: Result<AspectRatioMedia>)
    ensures r.Ok? <==> row.Some? && row.value.owner == user && (height.None? || height.value > 0)
    ensures r.Ok? ==> r.value == row.value.(outputHeight := Side(height).value, status := Configured)
    ensures r.Ok? ==> (r.value.outputHeight.None? <==> height.None?)
    ensures r.Ok? && Sound(row.value) ==> Sound(r.value)
  {
    var m :- Owned(row, user);
    var h :- Side(height);
    Ok(m.(outputHeight := h, status := Configured))
  }

  /** `updateOutputHeight` as written, with the wrapping round-up. */
  function UpdateOutputHeightAsWritten(row: Option<AspectRatioMedia>, user: nat, height: Option<int>)
    : (r: Result<AspectRatioMedia>)
    requires height.Some? ==> IsInt(height.value)
    ensures height.None? || height.value < IntMax ==> r == UpdateOutputHeight(row, user, height)
    ensures r.Ok? <==> row.Some? && row.value.owner == user && (height.None? || height.value > 0)
    ensures r.Ok? ==> r.value == row.value.(outputHeight := SideAsWritten(height).value, status := Configured)
  {
    var m :- Owned(row, user);
    var h :- SideAsWritten(height);
    Ok(m.(outputHeight := h, status := Configured))
  }

  /** The height wraps as the width does: the largest `int` is stored as the most
      negative one. */
  lemma HeightWrapsAtMax(m: AspectRatioMedia, user: nat)
    requires m.owner == user && Sound(m)
    ensures UpdateOutputHeightAsWritten(Some(m), user, Some(IntMax)).Ok?
    ensures UpdateOutputHeightAsWritten(Some(m), user, Some(IntMax)).value.outputHeight == Some(IntMin)
    ensures !Sound(UpdateOutputHeightAsWritten(Some(m), user, Some(IntMax)).value)
    ensures UpdateOutputHeight(Some(m), user, Some(IntMax)).value.outputHeight == Some(IntMax + 1)
    ensures Sound(UpdateOutputHeight(Some(m), user, Some(IntMax)).value)
  {
    EvenUpWrapsAtMax();
  }

  /** `updateOutputResolution`: unlike the single-side updates, a null side leaves the
      stored one as it was. Nothing is saved when either side is refused. */
  function UpdateOutputResolution(row: Option<AspectRatioMedia>, user: nat, width: Option<int>, height: Option<int>)
    : (r: Result<AspectRatioMedia>)
    ensures r.Ok? <==> row.Some? && row.value.owner == user && (width.None? || width.value > 0)
                       && (height.None? || height.value > 0)
    ensures r.Ok? ==> r.value.status == Configured
    ensures r.Ok? && width.None? ==> r.value.outputWidth == row.value.outputWidth
    ensures r.Ok? && height.None? ==> r.value.outputHeight == row.value.outputHeight
    ensures r.Ok? && width.Some? ==> r.value.outputWidth == Side(width).value
    ensures r.Ok? && height.Some? ==> r.value.outputHeight == Side(height).value
    ensures r.Ok? ==> r.value == row.value.(outputWidth := r.value.outputWidth, outputHeight := r.value.outputHeight,
                                            status := Configured)
    ensures r.Ok? && Sound(row.value) ==> Sound(r.value)
  {
    var m :- Owned(row, user);
    var w :- Side(width);
    var h :- Side(height);
    Ok(m.(outputWidth := if w.Some? then w else m.outputWidth,
          outputHeight := if h.Some? then h else m.outputHeight, status := Configured))
  }

  /** `updateOutputResolution` as written, with the wrapping round-up on each side. */
  function UpdateOutputResolutionAsWritten(row: Option<AspectRatioMedia>, user: nat, width: Option<int>,
                                           height: Option<int>): (r: Result<AspectRatioMedia>)
    requires width.Some? ==> IsInt(width.value)
    requires height.Some? ==> IsInt(height.value)
    ensures (width.None? || width.value < IntMax) && (height.None? || height.value < IntMax) ==>
              r == UpdateOutputResolution(row, user, width, height)
    ensures r.Ok? <==> UpdateOutputResolution(row, user, width, height).Ok?
    ensures r.Ok? && width.Some? ==> r.value.outputWidth == SideAsWritten(width).value
    ensures r.Ok? && height.Some? ==> r.value.outputHeight == SideAsWritten(height).value
  {
    var m :- Owned(row, user);
    var w :- SideAsWritten(width);
    var h :- SideAsWritten(height);
    Ok(m.(outputWidth := if w.Some? then w else m.outputWidth,
          outputHeight := if h.Some? then h else m.outputHeight, status := Configured))
  }

  /** Either side of a resolution update wraps at the largest `int`. */
  lemma ResolutionWrapsAtMax(m: AspectRatioMedia, user: nat)
    requires m.owner == user && Sound(m)
    ensures UpdateOutputResolutionAsWritten(Some(m), user, Some(IntMax), Some(2)).Ok?
    ensures UpdateOutputResolutionAsWritten(Some(m), user, Some(IntMax), Some(2)).value.outputWidth == Some(IntMin)
    ensures UpdateOutputResolutionAsWritten(Some(m), user, Some(2), Some(IntMax)).value.outputHeight == Some(IntMin)
    ensures !Sound(UpdateOutputResolutionAsWritten(Some(m), user, Some(IntMax), Some(2)).value)
    ensures Sound(UpdateOutputResolution(Some(m), user, Some(IntMax), Some(IntMax)).value)
  {
    EvenUpWrapsAtMax();
  }

  /** The check `processAspectRatio` makes before touching anything: a ratio, or both
      output sides. */
  predicate Processable(m: AspectRatioMedia) {
    m.aspectRatio.Some? || (m.outputWidth.Some? && m.outputHeight.Some?)
  }

  // ------------------------------------------------------------ canvas arithmetic

  /** The canvas for a ratio `tw:th` over an `ow`x`oh` video: a video wider than the
      ratio keeps its width and gets a taller canvas, any other keeps its height and
      gets a wider one; the computed side is cut toward zero by `(int)`. The probe may
      report a zero side: Java's `ow / (double) 0` is then +Infinity, which is wider
      than any ratio, or NaN when both sides are zero, which compares false. */
  function RatioCanvas(tw: int, th: int, ow: nat, oh: nat): (r: (int, int))
    requires tw > 0 && th > 0
  {
    var t := tw as real / th as real;
    var wider := if oh == 0 then ow > 0 else ow as real / oh as real > t;
    if wider then (ow, IntCast(ow as real / t))
    else (IntCast(oh as real * t), oh)
  }

  /** The ratio canvas keeps one side of the video and is never smaller than it, so
      the video fits on it unscaled. */
  lemma RatioCanvasCovers(tw: int, th: int, ow: int, oh: int)
    requires tw > 0 && th > 0 && ow > 0 && oh > 0 && IsInt(ow) && IsInt(oh)
    ensures var c := RatioCanvas(tw, th, ow, oh);
            (c.0 == ow || c.1 == oh) && c.0 >= ow && c.1 >= oh
  {
    var t := tw as real / th as real;
    if ow as real / oh as real > t {
      TallerCanvas(t, ow, oh);
    } else {
      WiderCanvas(t, ow, oh);
    }
  }

  lemma TallerCanvas(t: real, ow: int, oh: int)
    requires t > 0.0 && ow > 0 && oh > 0 && IsInt(oh) && ow as real / oh as real > t
    ensures IntCast(ow as real / t) >= oh
  {
    WiderThanRatio(ow as real, oh as real, t);
    IntCastAtLeast(ow as real / t, oh);
  }

  lemma WiderCanvas(t: real, ow: int, oh: int)
    requires t > 0.0 && ow > 0 && oh > 0 && IsInt(ow) && ow as real / oh as real <= t
    ensures IntCast(oh as real * t) >= ow
  {
    NotWiderThanRatio(ow as real, oh as real, t);
    IntCastAtLeast(oh as real * t, ow);
  }

  lemma WiderThanRatio(w: real, h: real, t: real)
    requires h > 0.0 && t > 0.0 && w / h > t
    ensures w / t > h
  {
    assert w == (w / h) * h;
    assert (w / h) * h > t * h;
    assert w / t == ((w / h) * h) / t;
  }

  lemma NotWiderThanRatio(w: real, h: real, t: real)
    requires h > 0.0 && t > 0.0 && w / h <= t
    ensures h * t >= w
  {
    assert w == (w / h) * h;
    assert (w / h) * h <= t * h;
  }

  /** Cutting toward zero keeps any whole `int` the value reaches. */
  lemma IntCastAtLeast(x: real, n: int)
    requires IsInt(n) && n >= 0 && x >= n as real
    ensures IntCast(x) >= n
  {
  }

  /** The render's canvas rounding wraps too: for the ratio `1:2147483647` over a 2x1
      video, the taller canvas saturates at the largest `int`, which is odd, and
      Java's round-up turns it into the most negative one. */
  lemma RatioCanvasWraps()
    ensures RatioCanvas(1, IntMax, 2, 1) == (2, IntMax)
    ensures EvenUpWrapping(RatioCanvas(1, IntMax, 2, 1).1) == IntMin
    ensures EvenUp(RatioCanvas(1, IntMax, 2, 1).1) == IntMax + 1
  {
    var t := 1 as real / IntMax as real;
    assert 2 as real / 1 as real > t;
    assert 2 as real / t == 2.0 * IntMax as real;
    EvenUpWrapsAtMax();
  }

  /** What `renderAspectRatioVideo` computes before building the ffmpeg command. */
  datatype Frame = Frame(canvasWidth: int, canvasHeight: int, scaledWidth: int, scaledHeight: int,
                         offsetX: int, offsetY: int)

  /** The frame for a row over an `ow`x`oh` video: an explicit resolution when both
      sides are set, otherwise the ratio canvas; both canvas sides and both scaled
      sides rounded up to even. A row with neither fails, as does a stored ratio that
      does not read back. */
  function Render(m: AspectRatioMedia, ow: nat, oh: nat): (r: Result<Frame>)
    ensures r.Ok? <==> (m.outputWidth.Some? && m.outputHeight.Some?)
                       || (m.aspectRatio.Some? && Ratio(m.aspectRatio.value).Some?)
    ensures r.Ok? ==> r.value.canvasWidth % 2 == 0 && r.value.canvasHeight % 2 == 0
                      && r.value.scaledWidth % 2 == 0 && r.value.scaledHeight % 2 == 0
    ensures r.Ok? && m.outputWidth.Some? && m.outputHeight.Some? ==>
              r.value.canvasWidth == EvenUp(m.outputWidth.value) && r.value.canvasHeight == EvenUp(m.outputHeight.value)
    ensures r.Ok? ==> r.value.offsetX == m.positionX.GetOr(0) && r.value.offsetY == m.positionY.GetOr(0)
  {
    var canvas :- Canvas(m, ow, oh);
    var scaled := Scaled(m, ow, oh);
    Ok(Frame(EvenUp(canvas.0), EvenUp(canvas.1), EvenUp(scaled.0), EvenUp(scaled.1),
             m.positionX.GetOr(0), m.positionY.GetOr(0)))
  }

  /** The canvas before it is rounded to even: the explicit resolution, or the ratio
      canvas; a row with neither, or a ratio that does not read back, fails. */
  function Canvas(m: AspectRatioMedia, ow: nat, oh: nat): Result<(int, int)> {
    if m.outputWidth.Some? && m.outputHeight.Some? then Ok((m.outputWidth.value, m.outputHeight.value))
    else if m.aspectRatio.Some? && Ratio(m.aspectRatio.value).Some? then
      var ratio := Ratio(m.aspectRatio.value).value;
      Ok(RatioCanvas(ratio.0, ratio.1, ow, oh))
    else Throw(IllegalState, "Either output resolution or aspect ratio must be specified")
  }

  /** The video's sides times the scale, cut to `int`, before they are rounded to even. */
  function Scaled(m: AspectRatioMedia, ow: nat, oh: nat): (int, int) {
    var scale := m.scale.GetOr(1.0);
    (IntCast(ow as real * scale), IntCast(oh as real * scale))
  }

  /** `renderAspectRatioVideo` as written: the four round-ups are `int` sums, which
      wrap at the largest `int`. The stored sides and the probed sides are Java `int`s. */
  function RenderAsWritten(m: AspectRatioMedia, ow: nat, oh: nat): (r: Result<Frame>)
    requires m.outputWidth.Some? ==> IsInt(m.outputWidth.value)
    requires m.outputHeight.Some? ==> IsInt(m.outputHeight.value)
    requires IsInt(ow) && IsInt(oh)
    ensures r.Ok? <==> Render(m, ow, oh).Ok?
    ensures (r.Ok? && Canvas(m, ow, oh).value.0 < IntMax && Canvas(m, ow, oh).value.1 < IntMax
             && Scaled(m, ow, oh).0 < IntMax && Scaled(m, ow, oh).1 < IntMax) ==> r == Render(m, ow, oh)
  {
    var canvas :- Canvas(m, ow, oh);
    var scaled := Scaled(m, ow, oh);
    Ok(Frame(EvenUpWrapping(canvas.0), EvenUpWrapping(canvas.1),
             EvenUpWrapping(scaled.0), EvenUpWrapping(scaled.1),
             m.positionX.GetOr(0), m.positionY.GetOr(0)))
  }

  /** A scale large enough to saturate the `(int)` cast leaves the largest `int` as a
      scaled side, and the round-up wraps it negative, on a row the service stores. */
  lemma ScaledSideWrapsAtMax(m: AspectRatioMedia)
    requires Sound(m) && m.outputWidth == Some(2) && m.outputHeight == Some(2) && m.scale == Some(IntMax as real)
    ensures RenderAsWritten(m, 1, 1).Ok? && RenderAsWritten(m, 1, 1).value.scaledWidth == IntMin
    ensures Render(m, 1, 1).Ok? && Render(m, 1, 1).value.scaledWidth == IntMax + 1
  {
    assert Scaled(m, 1, 1).0 == IntMax;
    EvenUpWrapsAtMax();
  }

  /** For every row the service stores: an explicit resolution is used exactly as
      stored, and otherwise the canvas keeps one side of the video (rounded up to
      even) and holds the whole video. */
  lemma RenderSound(m: AspectRatioMedia, ow: int, oh: int)
    requires ow > 0 && oh > 0 && IsInt(ow) && IsInt(oh) && Sound(m) && Processable(m)
    ensures Render(m, ow, oh).Ok?
    ensures var f := Render(m, ow, oh).value;
            if m.outputWidth.Some? && m.outputHeight.Some? then
              f.canvasWidth == m.outputWidth.value && f.canvasHeight == m.outputHeight.value
            else
              (f.canvasWidth == EvenUp(ow) || f.canvasHeight == EvenUp(oh))
              && f.canvasWidth >= ow && f.canvasHeight >= oh
  {
    if !(m.outputWidth.Some? && m.outputHeight.Some?) {
      var ratio := Ratio(m.aspectRatio.value).value;
      RatioCanvasCovers(ratio.0, ratio.1, ow, oh);
    }
  }

  // ------------------------------------------------------------ processing

  /** What a call leaves in the repository (the row, if there is one) and what it
      throws, if anything. */
  datatype Saved = Saved(row: Option<AspectRatioMedia>, error: Option<Error>)

  /** What the external steps of a run report: whether the input file is there and
      non-empty, whether ffprobe accepts it, whether the output folder could be made,
      the video size ffmpeg reports (`None` when it fails), the duration ffprobe
      reports (`None` when it fails), and whether the render run succeeded. */
  datatype Run = Run(inputPresent: bool, probeOk: bool, folderCreated: bool, size: Option<(nat, nat)>,
                     duration: Option<real>, renderOk: bool)

  /** The output's name. */
  function ProcessedName(originalFileName: string): string {
    "aspect_ratio_" + originalFileName
  }

  /** `processAspectRatio`. The row becomes PROCESSING at 0% only after the checks;
      a missing input, a missing folder, a non-positive duration or a failed render
      leave it FAILED; a failed probe or an unreadable size or duration leave it
      PROCESSING, since those throw outside the handler. */
  function Process(row: Option<AspectRatioMedia>, user: nat, run: Run): (r: Saved)
    ensures row.None? ==> r.row.None? && r.error.Some? && r.error.value.kind == IllegalArgument
    ensures row.Some? ==> r.row.Some?
    ensures row.Some? && (row.value.owner != user || !Processable(row.value)) ==> r.row == row && r.error.Some?
    ensures row.Some? && row.value.owner == user && !Processable(row.value) ==> r.error.value.kind == IllegalState
    ensures row.Some? && row.value.owner == user && Processable(row.value) ==> r == Started(row.value, user, run)
  {
    match row
    case None => Saved(None, Some(Error(IllegalArgument, "Media not found")))
    case Some(m) =>
      if m.owner != user then Saved(row, Some(Error(IllegalArgument, "Not authorized")))
      else if !Processable(m) then
        Saved(row, Some(Error(IllegalState, "Either aspect ratio or output resolution must be configured")))
      else
        Started(m, user, run)
  }

  /** The part of `processAspectRatio` after the row became PROCESSING at 0%. */
  function Started(m: AspectRatioMedia, user: nat, run: Run): (r: Saved)
    ensures r.row.Some?
    ensures r.error.None? <==>
              run.inputPresent && run.probeOk && run.folderCreated && run.size.Some? && run.duration.Some?
              && run.duration.value > 0.0 && Render(m, run.size.value.0, run.size.value.1).Ok? && run.renderOk
    ensures r.error.None? ==>
              var name := ProcessedName(m.originalFileName);
              r.row.value == m.(status := Succeeded, progress := 100.0, processedFileName := Some(name),
                                processedPath := Some(StoredPath(user, "processed", name)))
    ensures r.error.Some? ==>
              r.row.value.status in {Processing, Failed} && r.row.value == m.(status := r.row.value.status, progress := 0.0)
  {
    var started := m.(status := Processing, progress := 0.0);
    if !run.inputPresent then Saved(Some(started.(status := Failed)), Some(Error(IOFailure, "Input file is missing or empty")))
    else if !run.probeOk then Saved(Some(started), Some(Error(IOFailure, "FFprobe failed to validate input file")))
    else if !run.folderCreated then
      Saved(Some(started.(status := Failed)), Some(Error(IOFailure, "Failed to create processed directory")))
    else if run.size.None? then Saved(Some(started), Some(Error(IOFailure, "Could not parse video info")))
    else if run.duration.None? then Saved(Some(started), Some(Error(IOFailure, "FFprobe failed to get video duration")))
    else if run.duration.value <= 0.0 then
      Saved(Some(started.(status := Failed)), Some(Error(IOFailure, "Invalid video duration")))
    else
      var frame := Render(m, run.size.value.0, run.size.value.1);
      if frame.Err? then Saved(Some(started.(status := Failed)), Some(frame.error))
      else if !run.renderOk then Saved(Some(started.(status := Failed)), Some(Error(Runtime, "FFmpeg process failed")))
      else
        var name := ProcessedName(m.originalFileName);
        Saved(Some(started.(status := Succeeded, progress := 100.0, processedFileName := Some(name),
                            processedPath := Some(StoredPath(user, "processed", name)))), None)
  }

  /** On every row the service stores, the render step cannot fail for lack of a
      configuration once the check has passed. */
  lemma StoredRowsRender(m: AspectRatioMedia, ow: nat, oh: nat)
    requires Sound(m) && Processable(m)
    ensures Render(m, ow, oh).Ok?
  {
  }

  /** The probe's pattern reads "0x0" as well, and Java renders it: without an
      explicit resolution the ratio canvas is empty, 0 by 0. */
  lemma ZeroSizedVideoRenders(m: AspectRatioMedia)
    requires Sound(m) && Processable(m)
    ensures Render(m, 0, 0).Ok?
    ensures !(m.outputWidth.Some? && m.outputHeight.Some?) ==>
              Render(m, 0, 0).value.canvasWidth == 0 && Render(m, 0, 0).value.canvasHeight == 0
  {
  }
}

=== FILE: audio_segment.dfy ===
/** An audio clip on a (negative) audio layer, with its volume and keyframes.
    `extracted` and `waveformJsonPath` are the fields the editing service sets on
    the segments it creates. */
module AudioSegments {
  import opened Wrappers
  import opened Sorting
  import opened Keyframes

  datatype AudioSegment = AudioSegment(
    id: string,
    audioPath: string,
    layer: int,
    startTime: real,
    endTime: real,
    timelineStartTime: real,
    timelineEndTime: real,
    volume: Option<real>,
    extracted: bool,
    waveformJsonPath: Option<string>,
    keyframes: KeyframeMap)

  /** A fresh segment: the given UUID, unit volume, no keyframes. */
  function New(id: string): (s: AudioSegment)
    ensures s.id == id && s.volume == Some(1.0) && s.keyframes == map[]
  {
    AudioSegment(id, "", 0, 0.0, 0.0, 0.0, 0.0, Some(1.0), false, None, map[])
  }

  /** Adding overrides every keyframe within `Epsilon` of `k` and keeps the list sorted. */
  function AddKeyframe(s: AudioSegment, p: string, k: Keyframe): (r: AudioSegment)
    ensures r == s.(keyframes := r.keyframes)
    ensures r.keyframes.Keys == s.keyframes.Keys + {p}
    ensures SortedBy(r.keyframes[p], Time) && k in r.keyframes[p]
    ensures forall j :: j in r.keyframes[p] && j != k ==> !Near(j.time, k.time)
    ensures forall j :: j in r.keyframes[p] <==> j == k || (j in ListOf(s.keyframes, p) && !Near(j.time, k.time))
    ensures forall q :: q in s.keyframes && q != p ==> r.keyframes[q] == s.keyframes[q]
  {
    s.(keyframes := Add(s.keyframes, p, k))
  }

  /** On a property without keyframes, adding creates the one-element list. */
  lemma AddKeyframeToNewProperty(s: AudioSegment, p: string, k: Keyframe)
    requires p !in s.keyframes
    ensures AddKeyframe(s, p, k).keyframes[p] == [k]
  {
    assert ListOf(s.keyframes, p) == [];
    AddedToEmpty(k);
  }

  function RemoveKeyframe(s: AudioSegment, p: string, t: real): (r: AudioSegment)
    ensures r == s.(keyframes := r.keyframes)
    ensures r.keyframes.Keys == s.keyframes.Keys
    ensures forall q :: q in s.keyframes && q != p ==> r.keyframes[q] == s.keyframes[q]
    ensures p in s.keyframes ==> forall j :: j in r.keyframes[p] <==> j in s.keyframes[p] && !Near(j.time, t)
  {
    s.(keyframes := Remove(s.keyframes, p, t))
  }
}

=== FILE: audio_updates.dfy ===
/** `updateAudioSegment`. It validates as it goes: every check that throws leaves
    behind the changes made before it, and only the final placement check rolls
    anything back. */
module AudioUpdates {
  import opened Wrappers
  import opened Lists
  import opened AudioSegments
  import opened Timeline
  import opened TimelineAdd
  import opened SegmentUpdates

  /** The arguments of `updateAudioSegment`; `None` leaves a field as it is. */
  datatype AudioChanges = AudioChanges(
    startTime: Option<real>,
    endTime: Option<real>,
    timelineStartTime: Option<real>,
    timelineEndTime: Option<real>,
    volume: Option<real>,
    layer: Option<int>,
    keyframes: KeyframeEntries)

  /** The segment as a validation stage leaves it, and the exception it threw, if any. */
  datatype Step = Step(seg: AudioSegment, error: Option<Error>)

  function Abs(x: real): (r: real)
    ensures r >= 0.0 && (r == x || r == -x)
  {
    if x < 0.0 then -x else x
  }

  /** The tolerance of the duration comparisons. */
  const Tolerance: real := 0.001

  function TimelineDuration(s: AudioSegment): real { s.timelineEndTime - s.timelineStartTime }

  function ClipDuration(s: AudioSegment): real { s.endTime - s.startTime }

  function AudioIndex(t: TimelineState, id: string): Option<nat> {
    FirstIndex(t.audioSegments, (a: AudioSegment) => a.id == id)
  }

  /** The volume loses its static value once its keyframes are in. */
  function AudioWithKeyframes(s: AudioSegment, run: KeyframeRun): AudioSegment {
    s.(keyframes := run.keyframes, volume := Cleared(s.volume, "volume", run))
  }

  predicate TimelineChanged(c: AudioChanges) {
    c.timelineStartTime.Some? || c.timelineEndTime.Some?
  }

  /** The timeline span, layer and volume, each validated just before it is set. A
      throw keeps what was set before it. */
  function AudioFieldChanges(s: AudioSegment, c: AudioChanges, audioDuration: real): (r: Step)
    ensures r.seg.id == s.id && r.seg.keyframes == s.keyframes
    ensures r.error.Some? ==> r.error.value.kind == Runtime
    ensures r.error.None? ==>
              (c.timelineStartTime.Some? ==> c.timelineStartTime.value >= 0.0)
              && (c.layer.Some? ==> c.layer.value < 0 && r.seg.layer == c.layer.value)
              && (c.layer.None? ==> r.seg.layer == s.layer)
              && (c.volume.Some? ==> 0.0 <= c.volume.value <= 1.0 && r.seg.volume == c.volume)
              && (c.startTime.Some? ==> 0.0 <= c.startTime.value < audioDuration && r.seg.startTime == c.startTime.value)
              && (c.endTime.Some? ==> r.seg.startTime < c.endTime.value <= audioDuration && r.seg.endTime == c.endTime.value)
  {
    if c.timelineStartTime.Some? && c.timelineStartTime.value < 0.0 then
      Step(s, Some(Error(Runtime, "Timeline start time cannot be negative")))
    else
      var a := s.(timelineStartTime := c.timelineStartTime.GetOr(s.timelineStartTime),
                  timelineEndTime := c.timelineEndTime.GetOr(s.timelineEndTime));
      if c.layer.Some? && c.layer.value >= 0 then
        Step(a, Some(Error(Runtime, "Audio layers must be negative")))
      else
        var b := a.(layer := c.layer.GetOr(a.layer));
        if c.volume.Some? && !(0.0 <= c.volume.value <= 1.0) then
          Step(b, Some(Error(Runtime, "Volume must be between 0.0 and 1.0")))
        else
          var d := b.(volume := if c.volume.Some? then c.volume else b.volume);
          if c.startTime.Some? || c.endTime.Some? || TimelineChanged(c) then AudioClipChanges(d, s, c, audioDuration)
          else Step(d, None)
  }

  /** The clip range and the span derived from it. Given timeline times are kept unless
      their duration misses the clip's, in which case the end follows the clip; with no
      timeline times a new start shifts the timeline start by as much, and the end
      always follows the clip. */
  function AudioClipChanges(d: AudioSegment, original: AudioSegment, c: AudioChanges, audioDuration: real): (r: Step)
    ensures r.seg == d.(startTime := r.seg.startTime, endTime := r.seg.endTime,
                        timelineStartTime := r.seg.timelineStartTime, timelineEndTime := r.seg.timelineEndTime)
    ensures r.error.Some? ==> r.error.value.kind == Runtime
    ensures r.error.None? ==>
              (c.startTime.Some? ==> 0.0 <= c.startTime.value < audioDuration && r.seg.startTime == c.startTime.value)
              && (c.startTime.None? ==> r.seg.startTime == d.startTime)
              && (c.endTime.Some? ==> c.startTime.GetOr(original.startTime) < c.endTime.value <= audioDuration
                                      && r.seg.endTime == c.endTime.value)
              && (c.endTime.None? ==> r.seg.endTime == d.endTime)
              && (!TimelineChanged(c) ==> TimelineDuration(r.seg) == ClipDuration(r.seg))
              && (TimelineChanged(c) ==> Abs(TimelineDuration(r.seg) - ClipDuration(r.seg)) <= Tolerance)
  {
    var newStart := c.startTime.GetOr(original.startTime);
    var newEnd := c.endTime.GetOr(original.endTime);
    if c.startTime.Some? && (newStart < 0.0 || newStart >= audioDuration) then
      Step(d, Some(Error(Runtime, "Start time out of bounds: ")))
    else
      var e := if c.startTime.Some? then d.(startTime := newStart) else d;
      if c.endTime.Some? && (newEnd <= newStart || newEnd > audioDuration) then
        Step(e, Some(Error(Runtime, "End time out of bounds: ")))
      else
        var f := if c.endTime.Some? then e.(endTime := newEnd) else e;
        if TimelineChanged(c) then
          if Abs(TimelineDuration(f) - ClipDuration(f)) > Tolerance then
            Step(f.(timelineEndTime := f.timelineStartTime + ClipDuration(f)), None)
          else Step(f, None)
        else
          var g := if c.startTime.Some? then
                     f.(timelineStartTime := original.timelineStartTime + (newStart - original.startTime))
                   else f;
          Step(g.(timelineEndTime := g.timelineStartTime + ClipDuration(g)), None)
  }

  /** The final validation: the span matches the clip within the tolerance and is positive. */
  function FinalCheck(s: AudioSegment): (o: Outcome)
    ensures o.Pass? <==> Abs(TimelineDuration(s) - ClipDuration(s)) <= Tolerance && TimelineDuration(s) > 0.0
    ensures o.Fail? ==> o.error.kind == Runtime
  {
    if Abs(TimelineDuration(s) - ClipDuration(s)) > Tolerance then
      Fail(Error(Runtime, "Timeline duration does not match clip duration"))
    else if TimelineDuration(s) <= 0.0 then
      Fail(Error(Runtime, "Invalid timeline duration: "))
    else Pass
  }

  /** What the overlap rollback restores: clip range, timeline span and layer. */
  function RestoreAudioPlacement(s: AudioSegment, original: AudioSegment): AudioSegment {
    s.(startTime := original.startTime, endTime := original.endTime,
       timelineStartTime := original.timelineStartTime, timelineEndTime := original.timelineEndTime,
       layer := original.layer)
  }

  /** `updateAudioSegment`; `audioDuration` is what ffprobe reports for the segment's file. */
  function UpdateAudioSegment(t: TimelineState, id: string, c: AudioChanges, audioDuration: real): (r: Effect)
    ensures r.state == t.(audioSegments := r.state.audioSegments)
    ensures |r.state.audioSegments| == |t.audioSegments|
    ensures AudioIndex(t, id).None? ==> r == Effect(t, Some(Error(Runtime, "Audio segment not found: " + id)))
    ensures r.error.None? ==> r.state.audioSegments[|t.audioSegments| - 1].id == id
  {
    match AudioIndex(t, id)
    case None => Effect(t, Some(Error(Runtime, "Audio segment not found: " + id)))
    case Some(i) =>
      var s := t.audioSegments[i];
      var run := AddEntries(s.keyframes, c.keyframes, s.timelineEndTime - s.timelineStartTime);
      if run.error.Some? then
        Effect(t.(audioSegments := t.audioSegments[i := AudioWithKeyframes(s, run)]), run.error)
      else AudioAfterKeyframes(t, i, AudioWithKeyframes(s, run), c, audioDuration)
  }

  /** The field stages, the final validation and the re-placement. */
  function AudioAfterKeyframes(t: TimelineState, i: nat, s1: AudioSegment, c: AudioChanges, audioDuration: real): (r: Effect)
    requires i < |t.audioSegments|
  {
    var step := AudioFieldChanges(s1, c, audioDuration);
    if step.error.Some? then Effect(t.(audioSegments := t.audioSegments[i := step.seg]), step.error)
    else
      var check := FinalCheck(step.seg);
      if check.Fail? then Effect(t.(audioSegments := t.audioSegments[i := step.seg]), Some(check.error))
      else CommitAudio(t, i, step.seg)
  }

  /** The remove, check and re-add, with the rollback of the placement on overlap. */
  function CommitAudio(t: TimelineState, i: nat, s2: AudioSegment): (r: Effect)
    requires i < |t.audioSegments|
  {
    var others := RemoveAt(t.audioSegments, i);
    if !PositionAvailable(t.(audioSegments := others), s2.timelineStartTime, s2.timelineEndTime, s2.layer) then
      Effect(t.(audioSegments := others + [RestoreAudioPlacement(s2, t.audioSegments[i])]),
             Some(Error(Runtime, OverlapMessage)))
    else Effect(t.(audioSegments := others + [s2]), None)
  }

  lemma CommitAudioPlaces(t: TimelineState, i: nat, s2: AudioSegment)
    requires i < |t.audioSegments| && CommitAudio(t, i, s2).error.None?
    ensures CommitAudio(t, i, s2).state.audioSegments == RemoveAt(t.audioSegments, i) + [s2]
    ensures PositionAvailable(t.(audioSegments := RemoveAt(t.audioSegments, i)),
                              s2.timelineStartTime, s2.timelineEndTime, s2.layer)
  {
  }

  /** A successful audio update leaves the segment last in its list, free on its layer,
      with a positive span that matches its clip within the tolerance, and with every
      given value in its range and in place. */
  lemma UpdateAudioValidates(t: TimelineState, id: string, c: AudioChanges, audioDuration: real)
    requires AudioIndex(t, id).Some?
    requires UpdateAudioSegment(t, id, c, audioDuration).error.None?
    ensures var r := UpdateAudioSegment(t, id, c, audioDuration).state;
            var last := r.audioSegments[|t.audioSegments| - 1];
            var rest := t.(audioSegments := r.audioSegments[..|t.audioSegments| - 1]);
            PositionAvailable(rest, last.timelineStartTime, last.timelineEndTime, last.layer)
            && Abs(TimelineDuration(last) - ClipDuration(last)) <= Tolerance && TimelineDuration(last) > 0.0
            && (c.layer.Some? ==> c.layer.value < 0 && last.layer == c.layer.value)
            && (c.volume.Some? ==> 0.0 <= c.volume.value <= 1.0 && last.volume == c.volume)
            && (c.startTime.Some? ==> 0.0 <= c.startTime.value < audioDuration && last.startTime == c.startTime.value)
            && (c.endTime.Some? ==> last.startTime < c.endTime.value <= audioDuration && last.endTime == c.endTime.value)
  {
    var i := AudioIndex(t, id).value;
    var s := t.audioSegments[i];
    var run := AddEntries(s.keyframes, c.keyframes, s.timelineEndTime - s.timelineStartTime);
    var step := AudioFieldChanges(AudioWithKeyframes(s, run), c, audioDuration);
    CommitAudioPlaces(t, i, step.seg);
    var r := UpdateAudioSegment(t, id, c, audioDuration).state;
    assert r.audioSegments[..|t.audioSegments| - 1] == RemoveAt(t.audioSegments, i);
  }

  /** The overlap exception comes only from the re-placement, which restores the
      placement of the segment as it was before the update. */
  lemma AfterKeyframesRollback(t: TimelineState, i: nat, s1: AudioSegment, c: AudioChanges, audioDuration: real)
    requires i < |t.audioSegments|
    requires AudioAfterKeyframes(t, i, s1, c, audioDuration).error == Some(Error(Runtime, OverlapMessage))
    ensures var step := AudioFieldChanges(s1, c, audioDuration);
            step.error.None?
            && AudioAfterKeyframes(t, i, s1, c, audioDuration).state.audioSegments
               == RemoveAt(t.audioSegments, i) + [RestoreAudioPlacement(step.seg, t.audioSegments[i])]
  {
    var step := AudioFieldChanges(s1, c, audioDuration);
    assert |OverlapMessage| != |"Timeline start time cannot be negative"|;
    assert |OverlapMessage| != |"Audio layers must be negative"|;
    assert |OverlapMessage| != |"Volume must be between 0.0 and 1.0"|;
    assert |OverlapMessage| != |"Start time out of bounds: "|;
    assert |OverlapMessage| != |"End time out of bounds: "|;
    assert |OverlapMessage| != |"Timeline duration does not match clip duration"|;
    assert |OverlapMessage| != |"Invalid timeline duration: "|;
  }

  /** The overlap rollback restores the clip range, the span and the layer, and keeps
      a new volume. */
  lemma AudioRollbackRestores(t: TimelineState, id: string, c: AudioChanges, audioDuration: real)
    requires AudioIndex(t, id).Some?
    requires UpdateAudioSegment(t, id, c, audioDuration).error == Some(Error(Runtime, OverlapMessage))
    ensures var s := t.audioSegments[AudioIndex(t, id).value];
            var last := UpdateAudioSegment(t, id, c, audioDuration).state.audioSegments[|t.audioSegments| - 1];
            last.id == id && last.layer == s.layer
            && last.startTime == s.startTime && last.endTime == s.endTime
            && last.timelineStartTime == s.timelineStartTime && last.timelineEndTime == s.timelineEndTime
            && (c.volume.Some? ==> last.volume == c.volume)
  {
    var i := AudioIndex(t, id).value;
    var s := t.audioSegments[i];
    var run := AddEntries(s.keyframes, c.keyframes, s.timelineEndTime - s.timelineStartTime);
    AfterKeyframesRollback(t, i, AudioWithKeyframes(s, run), c, audioDuration);
  }

  lemma FieldChangesDeriveSpan(s: AudioSegment, c: AudioChanges, audioDuration: real)
    requires !TimelineChanged(c) && (c.startTime.Some? || c.endTime.Some?)
    requires AudioFieldChanges(s, c, audioDuration).error.None?
    ensures var r := AudioFieldChanges(s, c, audioDuration).seg;
            TimelineDuration(r) == ClipDuration(r)
            && (c.startTime.Some? ==> r.timelineStartTime == s.timelineStartTime + (c.startTime.value - s.startTime))
            && (c.startTime.None? ==> r.timelineStartTime == s.timelineStartTime)
  {
  }

  /** With no timeline times given, the span is derived from a new clip range: a new
      start shifts the timeline start by the same amount, and the span equals the clip. */
  lemma UpdateAudioDerivesSpan(t: TimelineState, id: string, c: AudioChanges, audioDuration: real)
    requires AudioIndex(t, id).Some? && !TimelineChanged(c) && (c.startTime.Some? || c.endTime.Some?)
    requires UpdateAudioSegment(t, id, c, audioDuration).error.None?
    ensures var s := t.audioSegments[AudioIndex(t, id).value];
            var last := UpdateAudioSegment(t, id, c, audioDuration).state.audioSegments[|t.audioSegments| - 1];
            TimelineDuration(last) == ClipDuration(last)
            && (c.startTime.Some? ==>
                  last.timelineStartTime == s.timelineStartTime + (c.startTime.value - s.startTime))
            && (c.startTime.None? ==> last.timelineStartTime == s.timelineStartTime)
  {
    var i := AudioIndex(t, id).value;
    var s := t.audioSegments[i];
    var run := AddEntries(s.keyframes, c.keyframes, s.timelineEndTime - s.timelineStartTime);
    var s1 := AudioWithKeyframes(s, run);
    FieldChangesDeriveSpan(s1, c, audioDuration);
    CommitAudioPlaces(t, i, AudioFieldChanges(s1, c, audioDuration).seg);
  }

  // ------------------------------------------------------------ audio layer invariant

  /** Every audio segment sits on a negative layer, as both ways of adding one ensure. */
  predicate AudioLayersNegative(audio: seq<AudioSegment>) {
    forall i :: 0 <= i < |audio| ==> audio[i].layer < 0
  }

  /** No audio segment on `a`'s layer overlaps it. */
  predicate AudioFits(audio: seq<AudioSegment>, a: AudioSegment) {
    forall j :: 0 <= j < |audio| && audio[j].layer == a.layer ==>
      !Overlaps(audio[j].timelineStartTime, audio[j].timelineEndTime, a.timelineStartTime, a.timelineEndTime)
  }

  lemma AudioAppendKeepsDisjoint(audio: seq<AudioSegment>, a: AudioSegment)
    requires AudioLayersDisjoint(audio) && AudioFits(audio, a)
    ensures AudioLayersDisjoint(audio + [a])
  {
    var s := audio + [a];
    forall i, j | 0 <= i < j < |s| && s[i].layer == s[j].layer
      ensures !Overlaps(s[i].timelineStartTime, s[i].timelineEndTime, s[j].timelineStartTime, s[j].timelineEndTime)
    {
      assert s[i] == audio[i];
      if j < |audio| {
        assert s[j] == audio[j];
      }
    }
  }

  lemma AudioRemoveAtKeepsDisjoint(audio: seq<AudioSegment>, k: nat)
    requires k < |audio| && AudioLayersDisjoint(audio)
    ensures AudioLayersDisjoint(RemoveAt(audio, k))
    ensures AudioFits(RemoveAt(audio, k), audio[k])
  {
    var s := RemoveAt(audio, k);
    forall i, j | 0 <= i < j < |s| && s[i].layer == s[j].layer
      ensures !Overlaps(s[i].timelineStartTime, s[i].timelineEndTime, s[j].timelineStartTime, s[j].timelineEndTime)
    {
      var i' := if i < k then i else i + 1;
      var j' := if j < k then j else j + 1;
      assert s[i] == audio[i'] && s[j] == audio[j'];
    }
    forall j | 0 <= j < |s| && s[j].layer == audio[k].layer
      ensures !Overlaps(s[j].timelineStartTime, s[j].timelineEndTime, audio[k].timelineStartTime, audio[k].timelineEndTime)
    {
      if j < k {
        assert s[j] == audio[j];
      } else {
        assert s[j] == audio[j + 1];
        OverlapsSymmetric(s[j].timelineStartTime, s[j].timelineEndTime, audio[k].timelineStartTime, audio[k].timelineEndTime);
      }
    }
  }

  /** On a negative layer, a free position is one no audio segment of the layer overlaps. */
  lemma AvailableFits(t: TimelineState, a: AudioSegment)
    requires a.layer < 0 && PositionAvailable(t, a.timelineStartTime, a.timelineEndTime, a.layer)
    ensures AudioFits(t.audioSegments, a)
  {
    forall j | 0 <= j < |t.audioSegments| && t.audioSegments[j].layer == a.layer
      ensures !Overlaps(t.audioSegments[j].timelineStartTime, t.audioSegments[j].timelineEndTime,
                        a.timelineStartTime, a.timelineEndTime)
    {
      assert !AudioBlocks(t.audioSegments[j], a.timelineStartTime, a.timelineEndTime, a.layer);
      OverlapsSymmetric(t.audioSegments[j].timelineStartTime, t.audioSegments[j].timelineEndTime,
                        a.timelineStartTime, a.timelineEndTime);
    }
  }

  /** As written, a check that throws after the layer is set leaves the segment on its
      new layer without the placement check: here "a" moves onto layer -2, where "b"
      already plays over the same span, because the volume 2.0 is rejected only after
      the move. */
  lemma UpdateAudioCanBreakLayers()
    ensures var a := AudioSegment("a", "a.mp3", -1, 0.0, 10.0, 0.0, 10.0, Some(1.0), false, None, map[]);
            var b := AudioSegment("b", "b.mp3", -2, 0.0, 10.0, 0.0, 10.0, Some(1.0), false, None, map[]);
            var t := Empty().(audioSegments := [a, b]);
            var r := UpdateAudioSegment(t, "a", AudioChanges(None, None, None, None, Some(2.0), Some(-2), []), 10.0);
            AudioLayersDisjoint(t.audioSegments) && AudioLayersNegative(t.audioSegments)
            && r.error.Some? && !AudioLayersDisjoint(r.state.audioSegments)
  {
    var a := AudioSegment("a", "a.mp3", -1, 0.0, 10.0, 0.0, 10.0, Some(1.0), false, None, map[]);
    var b := AudioSegment("b", "b.mp3", -2, 0.0, 10.0, 0.0, 10.0, Some(1.0), false, None, map[]);
    var t := Empty().(audioSegments := [a, b]);
    var c := AudioChanges(None, None, None, None, Some(2.0), Some(-2), []);
    assert AudioIndex(t, "a") == Some(0);
    var run := AddEntries(a.keyframes, c.keyframes, 10.0);
    assert run.error.None?;
    var step := AudioFieldChanges(AudioWithKeyframes(a, run), c, 10.0);
    assert step.error.Some? && step.seg.layer == -2;
    var r := UpdateAudioSegment(t, "a", c, 10.0);
    assert r.state.audioSegments == [step.seg, b];
    var after := r.state.audioSegments;
    assert after[0].layer == after[1].layer
           && Overlaps(after[0].timelineStartTime, after[0].timelineEndTime, after[1].timelineStartTime, after[1].timelineEndTime);
    assert !AudioLayersDisjoint(after);
    assert AudioLayersDisjoint(t.audioSegments) by {
      assert t.audioSegments[0].layer != t.audioSegments[1].layer;
    }
  }

  /** The update as evidently intended: a rejected request leaves the timeline as it
      was, and only the placement check's exception keeps its rollback. */
  function UpdateAudioSegmentChecked(t: TimelineState, id: string, c: AudioChanges, audioDuration: real): (r: Effect)
    ensures r.error == UpdateAudioSegment(t, id, c, audioDuration).error
    ensures r.error.Some? && r.error != Some(Error(Runtime, OverlapMessage)) ==> r.state == t
  {
    var r := UpdateAudioSegment(t, id, c, audioDuration);
    if r.error.Some? && r.error != Some(Error(Runtime, OverlapMessage)) then Effect(t, r.error) else r
  }

  lemma CommitAudioKeepsLayers(t: TimelineState, i: nat, s2: AudioSegment)
    requires i < |t.audioSegments|
    requires AudioLayersDisjoint(t.audioSegments) && AudioLayersNegative(t.audioSegments) && s2.layer < 0
    ensures AudioLayersDisjoint(CommitAudio(t, i, s2).state.audioSegments)
    ensures AudioLayersNegative(CommitAudio(t, i, s2).state.audioSegments)
  {
    var rest := RemoveAt(t.audioSegments, i);
    AudioRemoveAtKeepsDisjoint(t.audioSegments, i);
    if PositionAvailable(t.(audioSegments := rest), s2.timelineStartTime, s2.timelineEndTime, s2.layer) {
      AvailableFits(t.(audioSegments := rest), s2);
      AudioAppendKeepsDisjoint(rest, s2);
    } else {
      var back := RestoreAudioPlacement(s2, t.audioSegments[i]);
      assert AudioFits(rest, back);
      AudioAppendKeepsDisjoint(rest, back);
    }
  }

  lemma AfterKeyframesKeepsLayers(t: TimelineState, i: nat, s1: AudioSegment, c: AudioChanges, audioDuration: real)
    requires i < |t.audioSegments| && s1.layer == t.audioSegments[i].layer
    requires AudioLayersDisjoint(t.audioSegments) && AudioLayersNegative(t.audioSegments)
    requires var e := AudioAfterKeyframes(t, i, s1, c, audioDuration).error;
             e.None? || e == Some(Error(Runtime, OverlapMessage))
    ensures var r := AudioAfterKeyframes(t, i, s1, c, audioDuration).state;
            AudioLayersDisjoint(r.audioSegments) && AudioLayersNegative(r.audioSegments)
  {
    var step := AudioFieldChanges(s1, c, audioDuration);
    if AudioAfterKeyframes(t, i, s1, c, audioDuration).error.Some? {
      AfterKeyframesRollback(t, i, s1, c, audioDuration);
    }
    assert step.error.None? && FinalCheck(step.seg).Pass?;
    CommitAudioKeepsLayers(t, i, step.seg);
  }

  /** The checked update keeps every audio layer negative and free of overlaps, whatever
      the request. */
  lemma CheckedUpdateKeepsAudioLayers(t: TimelineState, id: string, c: AudioChanges, audioDuration: real)
    requires AudioLayersDisjoint(t.audioSegments) && AudioLayersNegative(t.audioSegments)
    ensures var r := UpdateAudioSegmentChecked(t, id, c, audioDuration).state;
            AudioLayersDisjoint(r.audioSegments) && AudioLayersNegative(r.audioSegments)
  {
    match AudioIndex(t, id)
    case None =>
      var reason := "Audio segment not found: " + id;
      assert reason[0] == "Audio segment not found: "[0] == 'A';
      assert OverlapMessage[0] == "Timeline"[0] == 'T';
    case Some(i) =>
      var s := t.audioSegments[i];
      var run := AddEntries(s.keyframes, c.keyframes, s.timelineEndTime - s.timelineStartTime);
      if run.error.None? {
        var e := AudioAfterKeyframes(t, i, AudioWithKeyframes(s, run), c, audioDuration).error;
        if e.None? || e == Some(Error(Runtime, OverlapMessage)) {
          AfterKeyframesKeepsLayers(t, i, AudioWithKeyframes(s, run), c, audioDuration);
        }
      }
  }
}

=== FILE: auth_service.dfy ===
/** The account rules of the authentication service: the password and e-mail
    checks, registration, login, e-mail verification, and the developer accounts.
    The password encoder, the mailbox probe, the mail sender, the token generator
    and the clock are parameters. */
module AuthService {
  import opened Wrappers
  import opened Text
  import ValidEmail

  // ------------------------------------------------------------ regular expressions

  /** The characters `.` in a Java regular expression does not match. */
  predicate IsLineTerminator(c: char) {
    c == '\n' || c == '\r' || c == '\U{0085}' || c == '\U{2028}' || c == '\U{2029}'
  }

  predicate NoLineTerminator(s: string) {
    forall i :: 0 <= i < |s| ==> !IsLineTerminator(s[i])
  }

  /** `s.matches(".*[class].*")`, by a left-to-right scan: every character must be
      matchable by `.`, and one of them must be in the class. */
  function DotsAround(s: string, cls: char -> bool): (r: bool)
    decreases |s|
  {
    if s == [] then false
    else if IsLineTerminator(s[0]) then false
    else if cls(s[0]) then NoLineTerminator(s[1..])
    else DotsAround(s[1..], cls)
  }

  /** The scan accepts exactly the strings without a line terminator that hold a
      character of the class. */
  lemma {:induction false} DotsAroundIff(s: string, cls: char -> bool)
    ensures DotsAround(s, cls) <==> NoLineTerminator(s) && exists i :: 0 <= i < |s| && cls(s[i])
    decreases |s|
  {
    if s != [] {
      DotsAroundIff(s[1..], cls);
      assert forall i :: 0 < i < |s| ==> s[i] == s[1..][i - 1];
      if !IsLineTerminator(s[0]) && !cls(s[0]) && (exists i :: 0 <= i < |s| && cls(s[i])) {
        var i :| 0 <= i < |s| && cls(s[i]);
        assert cls(s[1..][i - 1]);
      }
    }
  }

  /** `isPasswordValid`: non-null, at least 8 characters, a letter `[a-zA-Z]` and a
      digit `[0-9]`, each found by `matches(".*x.*")`, which also refuses any
      password holding a line terminator. */
  function PasswordValid(password: Option<string>): (r: bool)
    ensures r <==> password.Some? && |password.value| >= 8 && NoLineTerminator(password.value)
                   && (exists i :: 0 <= i < |password.value| && IsAsciiLetter(password.value[i]))
                   && (exists i :: 0 <= i < |password.value| && IsDigit(password.value[i]))
  {
    if password.None? then false
    else
      var p := password.value;
      DotsAroundIff(p, IsAsciiLetter);
      DotsAroundIff(p, IsDigit);
      |p| >= 8 && DotsAround(p, IsAsciiLetter) && DotsAround(p, IsDigit)
  }

  // ------------------------------------------------------------ the domain rule

  predicate IsLowerAlnum(c: char) { IsLowerLetter(c) || IsDigit(c) }

  /** The characters a recognised domain is made of. */
  predicate IsDomainChar(c: char) { IsLowerAlnum(c) || c == '-' || c == '.' }

  predicate DomainChars(s: string) {
    forall i :: 0 <= i < |s| ==> IsDomainChar(s[i])
  }

  /** One `[a-z0-9]+(-[a-z0-9]+)*` label: lower-case letters, digits and single
      inner hyphens. */
  predicate Label(s: string) {
    |s| > 0 && s[0] != '-' && s[|s| - 1] != '-'
    && (forall i :: 0 <= i < |s| ==> IsLowerAlnum(s[i]) || s[i] == '-')
    && (forall i :: 0 <= i < |s| - 1 ==> !(s[i] == '-' && s[i + 1] == '-'))
  }

  /** The final `[a-z]{2,}`. */
  predicate TopLevel(s: string) {
    |s| >= 2 && forall i :: 0 <= i < |s| ==> IsLowerLetter(s[i])
  }

  /** `(label\.)+`, recognised one label at a time. */
  predicate LabelsDotted(s: string)
    decreases |s|
  {
    match IndexOf(s, '.')
    case None => false
    case Some(j) => Label(s[..j]) && (j + 1 == |s| || LabelsDotted(s[j + 1..]))
  }

  /** `^([a-z0-9]+(-[a-z0-9]+)*\.)+[a-z]{2,}$`: the part after the last dot is the
      top-level label, and the part up to it is a run of dotted labels. */
  predicate DomainMatches(d: string) {
    match LastIndexOf(d, '.')
    case None => false
    case Some(k) => TopLevel(d[k + 1..]) && LabelsDotted(d[..k + 1])
  }

  /** The text after the first `@`, or the whole string when there is none. */
  function AfterAt(email: string): (r: string)
    ensures '@' !in email ==> r == email
    ensures '@' in email ==> exists i :: 0 <= i < |email| && email[i] == '@' && r == email[i + 1..] && '@' !in email[..i]
  {
    match IndexOf(email, '@')
    case None => email
    case Some(i) => email[i + 1..]
  }

  /** `isEmailDomainValid`: a null address fails inside the `try` and counts as
      invalid. */
  function EmailDomainValid(email: Option<string>): (r: bool)
    ensures r <==> email.Some? && DomainMatches(AfterAt(email.value))
  {
    email.Some? && DomainMatches(AfterAt(email.value))
  }

  /** Labels, each followed by its dot. */
  function Dotted(labels: seq<string>): (r: string)
    ensures labels != [] ==> |r| > 0 && r[|r| - 1] == '.'
  {
    if labels == [] then "" else labels[0] + "." + Dotted(labels[1..])
  }

  predicate AllLabels(labels: seq<string>) {
    forall i :: 0 <= i < |labels| ==> Label(labels[i])
  }

  lemma LabelHasNoDot(s: string)
    requires Label(s)
    ensures '.' !in s
  {
    forall i | 0 <= i < |s|
      ensures s[i] != '.'
    {
      assert IsLowerAlnum(s[i]) || s[i] == '-';
    }
  }

  lemma TopLevelHasNoDot(s: string)
    requires TopLevel(s)
    ensures '.' !in s
  {
    forall i | 0 <= i < |s|
      ensures s[i] != '.'
    {
      assert IsLowerLetter(s[i]);
    }
  }

  /** Every non-empty run of labels, each followed by a dot, is recognised. */
  lemma {:induction false} DottedRecognised(labels: seq<string>)
    requires labels != [] && AllLabels(labels)
    ensures LabelsDotted(Dotted(labels))
    decreases |labels|
  {
    var s := Dotted(labels);
    var rest := Dotted(labels[1..]);
    assert s == labels[0] + ("." + rest);
    LabelHasNoDot(labels[0]);
    assert s[..|labels[0]|] == labels[0];
    IndexOfAt(s, '.', |labels[0]|);
    assert s[|labels[0]| + 1..] == rest;
    if |labels| > 1 {
      assert AllLabels(labels[1..]) by {
        forall i | 0 <= i < |labels[1..]|
          ensures Label(labels[1..][i])
        {
          assert labels[1..][i] == labels[i + 1];
        }
      }
      DottedRecognised(labels[1..]);
    }
  }

  /** A recognised run of dotted labels splits back into its labels. */
  function LabelsOf(s: string): (r: seq<string>)
    requires LabelsDotted(s)
    ensures r != [] && AllLabels(r) && Dotted(r) == s
    decreases |s|
  {
    var j := IndexOf(s, '.').value;
    var tail := if j + 1 == |s| then [] else LabelsOf(s[j + 1..]);
    LabelsCons(s, j, tail);
    [s[..j]] + tail
  }

  lemma LabelsCons(s: string, j: nat, tail: seq<string>)
    requires j < |s| && s[j] == '.' && Label(s[..j]) && AllLabels(tail) && Dotted(tail) == s[j + 1..]
    ensures AllLabels([s[..j]] + tail) && Dotted([s[..j]] + tail) == s
  {
    var r := [s[..j]] + tail;
    assert r[1..] == tail;
    assert s == s[..j] + "." + s[j + 1..];
  }

  /** The domain rule, both ways round: the recognised domains are exactly one or
      more labels, each followed by a dot, and then a top-level label. */
  lemma DomainGrammar(labels: seq<string>, top: string)
    requires labels != [] && AllLabels(labels) && TopLevel(top)
    ensures DomainMatches(Dotted(labels) + top)
  {
    var s := Dotted(labels);
    var d := s + top;
    TopLevelHasNoDot(top);
    assert d[|s| - 1] == '.';
    assert d[|s|..] == top;
    LastIndexOfAt(d, '.', |s| - 1);
    assert d[..|s|] == s;
    DottedRecognised(labels);
  }

  /** The inverse direction: a recognised domain splits into its dotted labels and
      its top-level label. */
  function ParseDomain(d: string): (r: (seq<string>, string))
    requires DomainMatches(d)
    ensures r.0 != [] && AllLabels(r.0) && TopLevel(r.1) && d == Dotted(r.0) + r.1
  {
    var k := LastIndexOf(d, '.').value;
    assert d == d[..k + 1] + d[k + 1..];
    (LabelsOf(d[..k + 1]), d[k + 1..])
  }

  /** Every character of a recognised domain is a lower-case letter, a digit, a
      hyphen or a dot. */
  lemma DomainIsLowerCase(d: string)
    requires DomainMatches(d)
    ensures DomainChars(d)
  {
    var (labels, top) := ParseDomain(d);
    var s := Dotted(labels);
    DottedLowerCase(labels);
    forall i | 0 <= i < |d|
      ensures IsDomainChar(d[i])
    {
      if i >= |s| {
        assert d[i] == top[i - |s|];
      } else {
        assert d[i] == s[i];
      }
    }
  }

  /** So a domain holding an upper-case letter is refused. */
  lemma UpperCaseRefused(d: string, i: nat)
    requires i < |d| && 'A' <= d[i] <= 'Z'
    ensures !DomainMatches(d)
  {
    if DomainMatches(d) {
      DomainIsLowerCase(d);
    }
  }

  lemma {:induction false} DottedLowerCase(labels: seq<string>)
    requires AllLabels(labels)
    ensures DomainChars(Dotted(labels))
    decreases |labels|
  {
    if labels != [] {
      assert AllLabels(labels[1..]) by {
        forall i | 0 <= i < |labels[1..]|
          ensures Label(labels[1..][i])
        {
          assert labels[1..][i] == labels[i + 1];
        }
      }
      DottedLowerCase(labels[1..]);
      var rest := Dotted(labels[1..]);
      var s := labels[0] + "." + rest;
      var first := labels[0];
      assert Label(first);
      forall i | 0 <= i < |s|
        ensures IsDomainChar(s[i])
      {
        if i < |first| {
          assert s[i] == first[i];
        } else if i == |first| {
          assert s[i] == '.';
        } else {
          var k := i - |first| - 1;
          assert s[i] == rest[k];
        }
      }
    }
  }

  // ------------------------------------------------------------ registration

  /** `isValidEmail`'s pattern `^[A-Za-z0-9+_.-]+@(.+)$`: a local part of the
      validator's characters, an `@`, and a non-empty rest without a line
      terminator. */
  predicate EmailShape(e: string) {
    match IndexOf(e, '@')
    case None => false
    case Some(i) =>
      0 < i < |e| - 1 && ValidEmail.All(e[..i], ValidEmail.IsLocalChar) && NoLineTerminator(e[i + 1..])
  }

  /** Every address the `@ValidEmail` constraint accepts also has the shape
      registration asks for. */
  lemma ValidatorImpliesShape(e: string)
    requires ValidEmail.IsValid(Some(e))
    ensures EmailShape(e)
  {
    ValidEmail.AcceptedParts(e);
    ShapeFromParts(e);
  }

  /** The validator's split, read as registration's pattern. */
  lemma ShapeFromParts(e: string)
    requires '@' in e
    requires var i := IndexOf(e, '@').value;
             0 < i < |e| - 1 && ValidEmail.All(e[..i], ValidEmail.IsLocalChar)
             && ValidEmail.All(e[i + 1..], ValidEmail.IsDomainChar)
    ensures EmailShape(e)
  {
    var i := IndexOf(e, '@').value;
    var d := e[i + 1..];
    forall k | 0 <= k < |d|
      ensures !IsLineTerminator(d[k])
    {
      PlainNotTerminator(d[k]);
    }
  }

  lemma PlainNotTerminator(c: char)
    requires ValidEmail.IsDomainChar(c)
    ensures !IsLineTerminator(c)
  {
  }

  /** A `User` row. */
  datatype User = User(email: string, password: string, googleAuth: bool, emailVerified: bool)

  /** A `VerificationToken` row: the user it belongs to (by e-mail), when it expires,
      and whether it was used. */
  datatype Token = Token(user: string, expiry: int, verified: bool)

  /** A day, in the clock's unit (seconds). */
  const TokenLifetime: int := 24 * 60 * 60

  /** The user and token tables. */
  datatype Store = Store(users: map<string, User>, tokens: map<string, Token>)

  /** What registration's outside effects report: whether the mailbox probe
      accepted the address, and whether the verification mail went out. */
  datatype Mail = Mail(mailboxExists: bool, sent: bool)

  const BadEmail := "Please enter a valid email address. The email does not exist or cannot receive mail."
  const BadDomain := "The email domain is not valid"
  const GoogleTaken := "Email is already associated with a Google account. Please log in with Google."
  const Taken := "This email is already registered"
  const WeakPassword := "Password must be at least 8 characters with at least one letter and one number"
  const MailFailed := "Failed to send verification email. Please check your email address."

  /** `register`: the address's shape and mailbox, then its domain, then whether it
      is taken, then the password. The new user is neither Google-linked nor
      verified and gets a token valid for a day. The method is transactional, so
      a failure to send the mail undoes both rows. The token is a fresh random
      UUID, so it names no stored token. */
  function Register(store: Store, email: Option<string>, password: Option<string>, mail: Mail,
                    encode: string -> string, tokenId: string, now: int): (r: Result<Store>)
    requires tokenId !in store.tokens
    ensures r.Ok? <==> email.Some? && EmailShape(email.value) && mail.mailboxExists
                       && EmailDomainValid(email) && email.value !in store.users
                       && PasswordValid(password) && mail.sent
    ensures r.Err? ==> r.error.kind == Runtime
    ensures !(email.Some? && EmailShape(email.value) && mail.mailboxExists) ==> r == Throw(Runtime, BadEmail)
    ensures r.Ok? ==>
              var e := email.value;
              r.value.users == store.users[e := User(e, encode(password.value), false, false)]
              && r.value.tokens == store.tokens[tokenId := Token(e, now + TokenLifetime, false)]
  {
    if email.None? || !EmailShape(email.value) || !mail.mailboxExists then Throw(Runtime, BadEmail)
    else if !EmailDomainValid(email) then Throw(Runtime, BadDomain)
    else if email.value in store.users then
      if store.users[email.value].googleAuth then Throw(Runtime, GoogleTaken) else Throw(Runtime, Taken)
    else if !PasswordValid(password) then Throw(Runtime, WeakPassword)
    else if !mail.sent then Throw(Runtime, MailFailed)
    else
      var e := email.value;
      Ok(Store(store.users[e := User(e, encode(password.value), false, false)],
               store.tokens[tokenId := Token(e, now + TokenLifetime, false)]))
  }

  /** The checks come in Java's order: a bad domain is reported only for a
      well-formed address, a taken address only for a valid domain, and a weak
      password only for a free address. */
  lemma RegisterOrder(store: Store, email: Option<string>, password: Option<string>, mail: Mail,
                      encode: string -> string, tokenId: string, now: int)
    requires tokenId !in store.tokens
    requires email.Some? && EmailShape(email.value) && mail.mailboxExists
    ensures var r := Register(store, email, password, mail, encode, tokenId, now);
            (!EmailDomainValid(email) ==> r == Throw(Runtime, BadDomain))
            && (EmailDomainValid(email) && email.value in store.users ==>
                  r.Err? && r.error.reason in {GoogleTaken, Taken})
            && (EmailDomainValid(email) && email.value !in store.users && !PasswordValid(password) ==>
                  r == Throw(Runtime, WeakPassword))
  {
  }

  // ------------------------------------------------------------ login

  const InvalidCredentials := "Invalid credentials"
  const GoogleLinked := "This account is linked to Google. Please log in with Google."
  const NotVerified := "Email not verified. Please check your inbox for the verification email."

  /** `login`: an unknown address, a Google-linked account, an unverified address and
      a wrong password are refused in that order; otherwise a token is issued for
      the user's address, returned here. */
  function Login(store: Store, email: Option<string>, password: Option<string>,
                 matches: (Option<string>, string) -> bool): (r: Result<string>)
    ensures r.Ok? <==> email.Some? && email.value in store.users && !store.users[email.value].googleAuth
                       && store.users[email.value].emailVerified
                       && matches(password, store.users[email.value].password)
    ensures r.Ok? ==> r.value == store.users[email.value].email
    ensures r.Err? ==> r.error.kind == Runtime
  {
    if email.None? || email.value !in store.users then Throw(Runtime, InvalidCredentials)
    else
      var u := store.users[email.value];
      if u.googleAuth then Throw(Runtime, GoogleLinked)
      else if !u.emailVerified then Throw(Runtime, NotVerified)
      else if !matches(password, u.password) then Throw(Runtime, InvalidCredentials)
      else Ok(u.email)
  }

  /** Login's order: the Google and verification messages come before the password
      is looked at, and an unknown address and a wrong password for a usable
      account are refused with the same message. */
  lemma LoginOrder(store: Store, e: string, password: Option<string>, matches: (Option<string>, string) -> bool)
    ensures e !in store.users ==> Login(store, Some(e), password, matches) == Throw(Runtime, InvalidCredentials)
    ensures e in store.users && store.users[e].googleAuth ==>
              Login(store, Some(e), password, matches) == Throw(Runtime, GoogleLinked)
    ensures e in store.users && !store.users[e].googleAuth && !store.users[e].emailVerified ==>
              Login(store, Some(e), password, matches) == Throw(Runtime, NotVerified)
    ensures e in store.users && !store.users[e].googleAuth && store.users[e].emailVerified
            && !matches(password, store.users[e].password) ==>
              Login(store, Some(e), password, matches) == Throw(Runtime, InvalidCredentials)
  {
  }

  // ------------------------------------------------------------ e-mail verification

  const UnknownToken := "Invalid or unknown verification token"
  const Expired := "Verification token has expired. Please request a new verification email."
  const AlreadyVerified := "Email has already been verified. Please log in."

  /** The tables after the call and its outcome (the verified address). */
  datatype Verified = Verified(store: Store, outcome: Result<string>)

  /** `verifyEmail`, which is not transactional: an expired token is deleted before
      the error; a user or token already verified is refused; otherwise both are
      marked verified. A token whose user row is gone fails on the null user. */
  function VerifyEmail(store: Store, token: string, now: int): (r: Verified)
    ensures r.outcome.Ok? <==> token in store.tokens && now <= store.tokens[token].expiry
                               && store.tokens[token].user in store.users
                               && !store.users[store.tokens[token].user].emailVerified
                               && !store.tokens[token].verified
    ensures token in store.tokens && store.tokens[token].expiry < now ==>
              r.store == store.(tokens := store.tokens - {token}) && r.outcome == Throw(Runtime, Expired)
    ensures r.outcome.Err? && !(token in store.tokens && store.tokens[token].expiry < now) ==> r.store == store
    ensures r.outcome.Ok? ==>
              var e := store.tokens[token].user;
              r.outcome.value == e
              && r.store.users == store.users[e := store.users[e].(emailVerified := true)]
              && r.store.tokens == store.tokens[token := store.tokens[token].(verified := true)]
  {
    if token !in store.tokens then Verified(store, Throw(Runtime, UnknownToken))
    else
      var t := store.tokens[token];
      if t.expiry < now then Verified(store.(tokens := store.tokens - {token}), Throw(Runtime, Expired))
      else if t.user !in store.users then Verified(store, Throw(Runtime, "Verification token has no user"))
      else
        var u := store.users[t.user];
        if u.emailVerified || t.verified then Verified(store, Throw(Runtime, AlreadyVerified))
        else
          Verified(Store(store.users[t.user := u.(emailVerified := true)],
                         store.tokens[token := t.(verified := true)]), Ok(t.user))
  }

  /** A token verifies at most once: a second use is refused and changes nothing. */
  lemma VerifyOnce(store: Store, token: string, now: int, later: int)
    requires VerifyEmail(store, token, now).outcome.Ok? && later <= store.tokens[token].expiry
    ensures var after := VerifyEmail(store, token, now).store;
            VerifyEmail(after, token, later) == Verified(after, Throw(Runtime, AlreadyVerified))
  {
  }

  /** The account's life: a fresh registration cannot log in until its token is
      used within the day, and then it can, with the password it registered. */
  lemma RegisterVerifyLogin(store: Store, e: string, password: string, mail: Mail, encode: string -> string,
                            tokenId: string, now: int, at: int, matches: (Option<string>, string) -> bool)
    requires tokenId !in store.tokens
    requires Register(store, Some(e), Some(password), mail, encode, tokenId, now).Ok?
    requires now <= at <= now + TokenLifetime
    requires matches(Some(password), encode(password))
    ensures var s1 := Register(store, Some(e), Some(password), mail, encode, tokenId, now).value;
            var v := VerifyEmail(s1, tokenId, at);
            Login(s1, Some(e), Some(password), matches) == Throw(Runtime, NotVerified)
            && v.outcome == Ok(e)
            && Login(v.store, Some(e), Some(password), matches) == Ok(e)
  {
  }

  // ------------------------------------------------------------ developers

  /** A `Developer` row. */
  datatype Developer = Developer(username: string, password: string, active: bool)

  const InvalidDeveloper := "Invalid developer credentials"

  /** `createDeveloper`: a taken username, then a weak password, are refused; a new
      developer is active. */
  function CreateDeveloper(developers: map<string, Developer>, username: string, password: Option<string>,
                           encode: string -> string): (r: Result<map<string, Developer>>)
    ensures r.Ok? <==> username !in developers && PasswordValid(password)
    ensures username in developers ==> r == Throw(Runtime, "Developer username already exists")
    ensures r.Err? ==> r.error.kind == Runtime
    ensures r.Ok? ==> r.value == developers[username := Developer(username, encode(password.value), true)]
  {
    if username in developers then Throw(Runtime, "Developer username already exists")
    else if !PasswordValid(password) then Throw(Runtime, WeakPassword)
    else Ok(developers[username := Developer(username, encode(password.value), true)])
  }

  /** `developerLogin`: an unknown username, a disabled account and a wrong password
      are refused in that order; the token is issued for the username. */
  function DeveloperLogin(developers: map<string, Developer>, username: Option<string>, password: Option<string>,
                          matches: (Option<string>, string) -> bool): (r: Result<string>)
    ensures r.Ok? <==> username.Some? && username.value in developers && developers[username.value].active
                       && matches(password, developers[username.value].password)
    ensures r.Ok? ==> r.value == developers[username.value].username
    ensures username.Some? && username.value in developers && !developers[username.value].active ==>
              r == Throw(Runtime, "Developer account is disabled")
    ensures r.Err? ==> r.error.kind == Runtime
  {
    if username.None? || username.value !in developers then Throw(Runtime, InvalidDeveloper)
    else
      var d := developers[username.value];
      if !d.active then Throw(Runtime, "Developer account is disabled")
      else if !matches(password, d.password) then Throw(Runtime, InvalidDeveloper)
      else Ok(d.username)
  }

  /** A developer just created can log in with the password it was created with. */
  lemma CreatedDeveloperLogsIn(developers: map<string, Developer>, username: string, password: string,
                               encode: string -> string, matches: (Option<string>, string) -> bool)
    requires CreateDeveloper(developers, username, Some(password), encode).Ok?
    requires matches(Some(password), encode(password))
    ensures DeveloperLogin(CreateDeveloper(developers, username, Some(password), encode).value,
                           Some(username), Some(password), matches) == Ok(username)
  {
  }
}

=== FILE: compress_media.dfy ===
/** The size-target compression script: parsing the target, telling images from
    videos, the JPEG-quality search for images, the bitrate search for videos, and the
    exit status of the script. The encoders are parameters: `size(q)` is the byte size
    of the file written at quality or bitrate `q`, and the scratch file is a flag.
    File sizes, targets and qualities are integers; bitrates and durations are reals. */
module CompressMedia {
  import opened Wrappers
  import opened Text

  // ------------------------------------------------------------ target size

  const KiB: nat := 1024
  const MiB: nat := 1024 * 1024

  /** The line without the one trailing newline that Python's `$` lets through. */
  function WithoutFinalNewline(s: string): (r: string)
    ensures r == s || (s == r + "\n")
  {
    if |s| > 0 && s[|s| - 1] == '\n' then s[..|s| - 1] else s
  }

  /** The unit spellings `(KB|MB)` matches under IGNORECASE, with the byte factor. */
  function UnitFactor(unit: string): (r: Option<nat>)
    ensures r.Some? <==> |unit| == 2 && Upper(unit) in {"KB", "MB"}
    ensures r.Some? ==> r.value == (if Upper(unit) == "KB" then KiB else MiB)
  {
    if |unit| != 2 then None
    else
      var u := Upper(unit);
      if u == "KB" then Some(KiB) else if u == "MB" then Some(MiB) else None
  }

  /** `parse_target_size`: one or more digits and a unit, matched from the start of the
      string up to its end or a final newline; anything else is a ValueError. */
  function ParseTargetSize(s: string): (r: Result<nat>)
    ensures r.Ok? ==> r.value % KiB == 0
    ensures r.Err? ==> r.error.kind == IllegalArgument
    ensures r.Ok? ==> |s| >= 3 && IsDigit(s[0])
  {
    var body := WithoutFinalNewline(s);
    if |body| < 3 then Throw(IllegalArgument, "Invalid target size format: ")
    else
      var digits := body[..|body| - 2];
      match UnitFactor(body[|body| - 2..])
      case None => Throw(IllegalArgument, "Invalid target size format: ")
      case Some(factor) =>
        if !AllDigits(digits) then Throw(IllegalArgument, "Invalid target size format: ")
        else
          assert factor == KiB || factor == MiB;
          assert MiB == KiB * KiB;
          Ok(DigitsValue(digits) * factor)
  }

  /** `s` is what `^(\d+)(KB|MB)$` accepts under IGNORECASE: one or more digits, a
      unit in any case, and at most one final newline. */
  predicate Spells(s: string, digits: string, unit: string, newline: bool) {
    s == digits + unit + (if newline then "\n" else "")
    && |digits| > 0 && AllDigits(digits) && UnitFactor(unit).Some?
  }

  /** A spelled target parses to its number of kibibytes or mebibytes. */
  lemma ParseSpelled(s: string, digits: string, unit: string, newline: bool)
    requires Spells(s, digits, unit, newline)
    ensures ParseTargetSize(s) == Ok(DigitsValue(digits) * UnitFactor(unit).value)
  {
    var body := digits + unit;
    assert Upper(unit)[1] == 'B';
    assert WithoutFinalNewline(s) == body by {
      if newline {
        assert s == body + "\n";
      } else {
        assert s == body && s[|s| - 1] == unit[1];
      }
    }
    assert body[..|body| - 2] == digits;
    assert body[|body| - 2..] == unit;
  }

  /** Whatever parses is a spelled target. */
  lemma ParsedIsSpelled(s: string)
    requires ParseTargetSize(s).Ok?
    ensures exists digits, unit, newline :: Spells(s, digits, unit, newline)
  {
    var body := WithoutFinalNewline(s);
    var digits := body[..|body| - 2];
    var unit := body[|body| - 2..];
    assert body == digits + unit;
    assert IsDigit(body[0]) by {
      assert body[0] == digits[0];
    }
    if body == s {
      assert Spells(s, digits, unit, false);
    } else {
      assert Spells(s, digits, unit, true);
    }
  }

  /** `parse_target_size` accepts exactly the spelled targets, and returns the number
      times 1024 for KB and 1024 * 1024 for MB; every other string is a ValueError. */
  lemma ParseTargetSizeExact(s: string)
    ensures ParseTargetSize(s).Ok? <==> exists digits, unit, newline :: Spells(s, digits, unit, newline)
    ensures forall digits, unit, newline :: Spells(s, digits, unit, newline) ==>
              ParseTargetSize(s) == Ok(DigitsValue(digits) * UnitFactor(unit).value)
  {
    if ParseTargetSize(s).Ok? {
      ParsedIsSpelled(s);
    }
    forall digits, unit, newline | Spells(s, digits, unit, newline)
      ensures ParseTargetSize(s) == Ok(DigitsValue(digits) * UnitFactor(unit).value)
    {
      ParseSpelled(s, digits, unit, newline);
    }
  }

  /** Spelling a size as digits and a unit, with or without a trailing newline, parses
      back to that many kibibytes or mebibytes. */
  lemma ParseTargetSizeRoundTrip(n: nat, unit: string, newline: bool)
    requires UnitFactor(unit).Some?
    ensures ParseTargetSize(Decimal(n) + unit + (if newline then "\n" else "")).Ok?
    ensures ParseTargetSize(Decimal(n) + unit + (if newline then "\n" else "")).value
            == n * UnitFactor(unit).value
  {
    ParseSpelled(Decimal(n) + unit + (if newline then "\n" else ""), Decimal(n), unit, newline);
    DecimalValue(n);
  }

  /** A target whose first character is not a digit, or that has no unit, is rejected. */
  lemma ParseTargetSizeRejects(s: string)
    requires |s| == 0 || !IsDigit(s[0]) || AllDigits(s)
    ensures ParseTargetSize(s).Err?
  {
  }

  // ------------------------------------------------------------ image or video

  /** `Path(p).suffix`: from the last '.' of the last path component, unless that dot
      starts the name or ends it. */
  function Suffix(path: string): (r: string)
    ensures r == "" || (|r| >= 2 && r[0] == '.' && EndsWith(path, r) && '/' !in r)
  {
    var name := match LastIndexOf(path, '/') case None => path case Some(k) => path[k + 1..];
    match LastIndexOf(name, '.')
    case None => ""
    case Some(i) =>
      if 0 < i < |name| - 1 then
        assert name[i..] == path[|path| - (|name| - i)..];
        name[i..]
      else ""
  }

  const ImageExtensions: set<string> := {".jpg", ".jpeg", ".png", ".heic", ".heif"}
  const ImageFormats: seq<string> := ["jpeg", "jpg", "png", "heic", "heif", "image2"]

  /** The path's suffix, lower-cased, is one of the image extensions. */
  predicate ImageSuffix(path: string) {
    Lower(Suffix(path)) in ImageExtensions
  }

  /** The format name ffprobe reports, lower-cased, contains one of the image format
      names. */
  predicate ImageFormat(formatName: string) {
    exists k :: 0 <= k < |ImageFormats| && Contains(Lower(formatName), ImageFormats[k])
  }

  /** `is_image`: the extension is checked first, and only then the format name. */
  method IsImage(path: string, formatName: string) returns (image: bool)
    ensures image <==> ImageSuffix(path) && ImageFormat(formatName)
  {
    var extension := Lower(Suffix(path));
    if extension !in ImageExtensions {
      return false;
    }
    image := HasImageFormat(formatName);
  }

  /** The second half of `is_image`: the format names are tried one by one, and the
      first one the format name contains decides. */
  method HasImageFormat(formatName: string) returns (image: bool)
    ensures image <==> ImageFormat(formatName)
  {
    var lower := Lower(formatName);
    var k := 0;
    while k < |ImageFormats|
      invariant 0 <= k <= |ImageFormats|
      invariant forall j :: 0 <= j < k ==> !Contains(lower, ImageFormats[j])
    {
      if Contains(lower, ImageFormats[k]) {
        return true;
      }
      k := k + 1;
    }
    return false;
  }

  /** A file whose whole name is an image extension has no suffix at all, so the
      script treats it as a video. */
  lemma DotFileIsNotImage()
    ensures !ImageSuffix("media/.png")
  {
    assert LastIndexOf("media/.png", '/') == Some(5);
    assert "media/.png"[6..] == ".png";
    assert LastIndexOf(".png", '.') == Some(0);
  }

  /** The extension is compared in any case: an upper-case `.JPG` is an image suffix. */
  lemma UpperCaseSuffixIsImage()
    ensures ImageSuffix("a.JPG")
  {
    assert LastIndexOf("a.JPG", '/').None?;
    assert LastIndexOf("a.JPG", '.') == Some(1);
    assert "a.JPG"[1..] == ".JPG";
    assert Lower(".JPG") == ".jpg";
  }

  // ------------------------------------------------------------ searches

  /** `|size - target| <= target * percent / 100`, in exact integer arithmetic. */
  predicate Within(size: int, target: int, percent: nat) {
    100 * (if size < target then target - size else size - target) <= percent * target
  }

  /** How a compression call ends: the input kept as it is (copied or saved once),
      a scratch file renamed into place within 10% or, as the fallback, within 15%,
      an encoder failure, or the final "could not compress" error. */
  datatype SearchEnd = Direct | Hit(size: int) | Near(size: int) | EncoderFailed | Miss {
    predicate Succeeded() { Direct? || Hit? || Near? }
  }

  /** The code after the attempt loop: the scratch file, if it is still there, is
      renamed into place when its size is within 15% of the target; otherwise the
      call raises. */
  function Fallback(scratch: bool, lastSize: Option<nat>, target: int): (r: SearchEnd)
    ensures r.Near? || r.Miss?
    ensures r.Near? <==> scratch && lastSize.Some? && Within(lastSize.value, target, 15)
    ensures r.Near? ==> r.size == lastSize.value
  {
    if scratch && lastSize.Some? && Within(lastSize.value, target, 15) then Near(lastSize.value) else Miss
  }

  /** Why the attempt loop stopped. */
  datatype LoopExit = Skipped | Accepted | Converged | Exhausted | Raised

  /** The input is already close enough to the target to skip the search. */
  predicate CloseToTarget(inputSize: int, target: int) {
    inputSize as real <= target as real * 1.1
  }

  const MinQuality: int := 5
  const MaxQuality: int := 95
  const MaxImageAttempts: nat := 10

  /** An upper bound on `max - min` before each image attempt: the window of 90
      qualities loses at least half of itself and one more at every miss. */
  function QualityWidth(attempt: nat): int {
    if attempt == 0 then MaxQuality - MinQuality else (QualityWidth(attempt - 1) + 1) / 2 - 1
  }

  lemma {:induction false} QualityWidthVanishes(attempt: nat)
    requires attempt >= 6
    ensures QualityWidth(attempt) <= 0
  {
    if attempt > 6 {
      QualityWidthVanishes(attempt - 1);
    } else {
      assert QualityWidth(1) == 44;
      assert QualityWidth(3) == 10;
    }
  }

  /** One step of the quality search after a miss. */
  function NarrowQuality(window: (int, int), q: int, size: int, target: int): (int, int) {
    if size > target then (window.0, q - 1) else (q + 1, window.1)
  }

  /** A miss leaves a window inside the old one and no wider than the next bound. */
  lemma NarrowQualityShrinks(window: (int, int), q: int, size: int, target: int, attempt: nat)
    requires 0 < window.1 - window.0 <= QualityWidth(attempt) && q == (window.0 + window.1) / 2
    ensures var w := NarrowQuality(window, q, size, target);
            window.0 <= w.0 && w.1 <= window.1 && w.1 - w.0 <= QualityWidth(attempt + 1)
  {
  }

  /** The quality tried from a window: `(min_quality + max_quality) // 2`. */
  function Mid(window: (int, int)): int { (window.0 + window.1) / 2 }

  /** The window after a miss at the window's own quality. */
  function Step(window: (int, int), size: int -> nat, target: int): (int, int) {
    NarrowQuality(window, Mid(window), size(Mid(window)), target)
  }

  /** The loop stops after this window: its quality hits, or the next window is empty. */
  predicate StopsAt(window: (int, int), size: int -> nat, target: int) {
    Within(size(Mid(window)), target, 10) || Step(window, size, target).1 <= Step(window, size, target).0
  }

  /** The window of attempt `k` of the search, should the search get that far. */
  function Attempt(size: int -> nat, target: int, k: nat): (int, int) {
    if k == 0 then (MinQuality, MaxQuality) else Step(Attempt(size, target, k - 1), size, target)
  }

  /** The search gets past its first `n` attempts: none of them stops it. */
  predicate Runs(size: int -> nat, target: int, n: nat) {
    n == 0 || (Runs(size, target, n - 1) && !StopsAt(Attempt(size, target, n - 1), size, target))
  }

  lemma {:induction false} RunsPast(size: int -> nat, target: int, n: nat)
    requires Runs(size, target, n)
    ensures forall k :: 0 <= k < n ==> !StopsAt(Attempt(size, target, k), size, target)
  {
    if n > 0 {
      RunsPast(size, target, n - 1);
    }
  }

  /** While the search runs, the window of attempt `n` is non-empty, inside [5, 95] and
      no wider than the bound for `n`; so the search stops within its first six
      attempts. */
  lemma {:induction false} AttemptFacts(size: int -> nat, target: int, n: nat)
    requires Runs(size, target, n)
    ensures n < 6
    ensures var w := Attempt(size, target, n);
            0 < w.1 - w.0 <= QualityWidth(n) && MinQuality <= w.0 && w.1 <= MaxQuality
  {
    if n > 0 {
      AttemptFacts(size, target, n - 1);
      var w := Attempt(size, target, n - 1);
      NarrowQualityShrinks(w, Mid(w), size(Mid(w)), target, n - 1);
    }
    if n >= 6 {
      QualityWidthVanishes(n);
    }
  }

  /** `compress_image` once the output directory is writable: save once at quality 85
      when the input is close to the target, otherwise search the quality. */
  method CompressImage(inputSize: int, target: int, size: int -> nat)
    returns (end: SearchEnd, exit: LoopExit, windows: seq<(int, int)>)
    ensures CloseToTarget(inputSize, target) <==> end == Direct
    ensures end == Direct <==> exit == Skipped
    ensures end == Direct ==> windows == []
    ensures end != Direct ==> end.Hit? || end.Near? || end.Miss?
  {
    if CloseToTarget(inputSize, target) {
      return Direct, Skipped, [];
    }
    end, exit, windows := QualitySearch(target, size);
  }

  /** An attempt that does not stop the search leads to the next one. */
  lemma RunsOn(size: int -> nat, target: int, n: nat)
    requires Runs(size, target, n) && !StopsAt(Attempt(size, target, n), size, target)
    ensures Runs(size, target, n + 1)
    ensures Attempt(size, target, n + 1) == Step(Attempt(size, target, n), size, target)
  {
  }

  /** The search never gets past six attempts. */
  lemma RunsBriefly(size: int -> nat, target: int, n: nat)
    requires Runs(size, target, n)
    ensures n < 6
  {
    AttemptFacts(size, target, n);
  }

  /** Every window up to attempt `n` lies inside [5, 95]. */
  lemma {:induction false} WindowsInRange(size: int -> nat, target: int, n: nat)
    requires Runs(size, target, n)
    ensures forall k :: 0 <= k <= n ==>
              MinQuality <= Attempt(size, target, k).0 <= Mid(Attempt(size, target, k))
              <= Attempt(size, target, k).1 <= MaxQuality
  {
    if n > 0 {
      WindowsInRange(size, target, n - 1);
    }
    WindowInRange(size, target, n);
  }

  lemma WindowInRange(size: int -> nat, target: int, n: nat)
    requires Runs(size, target, n)
    ensures var w := Attempt(size, target, n);
            MinQuality <= w.0 <= Mid(w) <= w.1 <= MaxQuality
  {
    AttemptFacts(size, target, n);
  }

  /** The attempt loop of the quality search: `windows[k]` is the (min, max) window of
      attempt k, which encodes at `Mid(windows[k])`. It never runs out of its ten
      attempts: it stops on a hit or an empty window after at most six, and the scratch
      file of the last attempt is still there when it stops. */
  method QualityLoop(target: int, size: int -> nat) returns (exit: LoopExit, windows: seq<(int, int)>, scratch: bool)
    ensures exit == Accepted || exit == Converged
    ensures 0 < |windows| <= 6
    ensures forall k :: 0 <= k < |windows| ==> windows[k] == Attempt(size, target, k)
    ensures Runs(size, target, |windows| - 1) && StopsAt(windows[|windows| - 1], size, target)
    ensures exit == Accepted <==> Within(size(Mid(windows[|windows| - 1])), target, 10)
    ensures scratch
  {
    var lo, hi := MinQuality, MaxQuality;
    windows := [];
    scratch := false;
    exit := Exhausted;
    while |windows| < MaxImageAttempts
      invariant (lo, hi) == Attempt(size, target, |windows|)
      invariant forall k :: 0 <= k < |windows| ==> windows[k] == Attempt(size, target, k)
      invariant Runs(size, target, |windows|)
      invariant !scratch
      decreases MaxImageAttempts - |windows|
    {
      ghost var n := |windows|;
      var q := Mid((lo, hi));
      windows := windows + [(lo, hi)];
      scratch := true;
      if Within(size(q), target, 10) {
        exit := Accepted;
        break;
      }
      var next := NarrowQuality((lo, hi), q, size(q), target);
      lo, hi := next.0, next.1;
      if hi <= lo {
        exit := Converged;
        break;
      }
      RunsOn(size, target, n);
      scratch := false;
    }
    if exit == Exhausted {
      RunsBriefly(size, target, |windows|);
      assert false;
    }
    RunsBriefly(size, target, |windows| - 1);
  }

  /** The binary search over JPEG quality in [5, 95]: a hit within 10% is kept; once
      the loop stops without one, the last scratch file is kept if it is within 15%. */
  method QualitySearch(target: int, size: int -> nat)
    returns (end: SearchEnd, exit: LoopExit, windows: seq<(int, int)>)
    ensures exit == Accepted || exit == Converged
    ensures 0 < |windows| <= 6
    ensures forall k :: 0 <= k < |windows| ==> windows[k] == Attempt(size, target, k)
    ensures forall k :: 0 <= k < |windows| ==>
              MinQuality <= windows[k].0 <= Mid(windows[k]) <= windows[k].1 <= MaxQuality
    ensures Runs(size, target, |windows| - 1) && StopsAt(windows[|windows| - 1], size, target)
    ensures end.Hit? <==> exit == Accepted
    ensures end.Hit? ==> end.size == size(Mid(windows[|windows| - 1])) && Within(end.size, target, 10)
    ensures end.Near? ==> exit == Converged && end.size == size(Mid(windows[|windows| - 1]))
                          && !Within(end.size, target, 10) && Within(end.size, target, 15)
    ensures end.Miss? ==> exit == Converged && !Within(size(Mid(windows[|windows| - 1])), target, 15)
    ensures end.Hit? || end.Near? || end.Miss?
  {
    var scratch;
    exit, windows, scratch := QualityLoop(target, size);
    WindowsInRange(size, target, |windows| - 1);
    var last := size(Mid(windows[|windows| - 1]));
    if exit == Accepted {
      end := Hit(last);
    } else {
      end := Fallback(scratch, Some(last), target);
    }
  }

  const AudioBitrate: real := 128.0
  const MinBitrate: real := 100.0
  const MaxBitrate: real := 5000.0
  const MaxVideoAttempts: nat := 5

  /** The first video bitrate: 90% of the target spread over the duration, less the
      audio bitrate, and never below the floor. */
  function InitialBitrate(target: int, duration: real): (b: real)
    requires duration > 0.0
    ensures b >= MinBitrate
    ensures b == MinBitrate || b == target as real * 8.0 * 0.9 / (duration * 1000.0) - AudioBitrate
  {
    var wanted := target as real * 8.0 * 0.9 / (duration * 1000.0) - AudioBitrate;
    if MinBitrate >= wanted then MinBitrate else wanted
  }

  /** The bitrate interval and next bitrate after a miss. */
  datatype BitrateWindow = BitrateWindow(lo: real, hi: real, bitrate: real)

  /** The step after a miss: a file too large lowers the ceiling to 50 below the
      tried bitrate and tries halfway between it and the floor; one too small raises
      the floor to 50 above it and tries halfway between it and the ceiling. While the
      window stays open, the floor and the next bitrate stay at or above 100 kbps. */
  function NarrowBitrate(w: BitrateWindow, size: int, target: int): (r: BitrateWindow)
    ensures size > target ==> r.lo == w.lo && r.hi == w.bitrate - 50.0
                              && r.bitrate - w.lo == w.bitrate - r.bitrate
    ensures size <= target ==> r.hi == w.hi && r.lo == w.bitrate + 50.0
                               && w.hi - r.bitrate == r.bitrate - w.bitrate
    ensures w.lo >= MinBitrate && w.bitrate >= MinBitrate && r.lo < r.hi ==>
              r.lo >= MinBitrate && r.bitrate >= MinBitrate
  {
    if size > target then BitrateWindow(w.lo, w.bitrate - 50.0, (w.bitrate + w.lo) / 2.0)
    else BitrateWindow(w.bitrate + 50.0, w.hi, (w.bitrate + w.hi) / 2.0)
  }

  /** The whole kilobits per second the encoder is given: Python's `int()` rounds
      toward zero. */
  function Kbps(b: real): (r: int)
    ensures b >= 0.0 ==> 0 <= r && r as real <= b < r as real + 1.0
    ensures b < 0.0 ==> r <= 0 && r as real - 1.0 < b <= r as real
  {
    if b >= 0.0 then b.Floor else -((-b).Floor)
  }

  /** The window of attempt `k` of the bitrate search, should the search get that far:
      the first starts from the whole range at the initial bitrate, each later one is
      the step after the previous attempt's size. */
  function BitrateAttempt(target: int, duration: real, size: int -> Option<nat>, k: nat): BitrateWindow
    requires duration > 0.0
  {
    if k == 0 then BitrateWindow(MinBitrate, MaxBitrate, InitialBitrate(target, duration))
    else
      var w := BitrateAttempt(target, duration, size, k - 1);
      NarrowBitrate(w, size(Kbps(w.bitrate)).GetOr(0), target)
  }

  /** The attempt at `w` encodes, misses by more than 10%, and leaves the window open,
      so the loop goes on. */
  predicate Continues(w: BitrateWindow, target: int, size: int -> Option<nat>) {
    var result := size(Kbps(w.bitrate));
    result.Some? && !Within(result.value, target, 10)
    && NarrowBitrate(w, result.value, target).lo < NarrowBitrate(w, result.value, target).hi
  }

  /** The search gets past its first `n` attempts. */
  predicate BitrateRuns(target: int, duration: real, size: int -> Option<nat>, n: nat)
    requires duration > 0.0
  {
    n == 0 || (BitrateRuns(target, duration, size, n - 1)
               && Continues(BitrateAttempt(target, duration, size, n - 1), target, size))
  }

  /** Every bitrate the search reaches is at least 100 kbps, and so is its floor. */
  lemma {:induction false} BitrateFloor(target: int, duration: real, size: int -> Option<nat>, n: nat)
    requires duration > 0.0 && BitrateRuns(target, duration, size, n)
    ensures BitrateAttempt(target, duration, size, n).lo >= MinBitrate
    ensures BitrateAttempt(target, duration, size, n).bitrate >= MinBitrate
  {
    if n > 0 {
      BitrateFloor(target, duration, size, n - 1);
    }
  }

  /** An attempt that does not stop the search leads to the next one. */
  lemma BitrateRunsOn(target: int, duration: real, size: int -> Option<nat>, n: nat)
    requires duration > 0.0 && BitrateRuns(target, duration, size, n)
    requires Continues(BitrateAttempt(target, duration, size, n), target, size)
    ensures BitrateRuns(target, duration, size, n + 1)
    ensures var w := BitrateAttempt(target, duration, size, n);
            BitrateAttempt(target, duration, size, n + 1) == NarrowBitrate(w, size(Kbps(w.bitrate)).value, target)
  {
  }

  /** Every attempt up to `n` of a search that gets past its first `n` attempts: all
      bitrates are at least 100 kbps, and all attempts before the `n`th miss. */
  lemma {:induction false} BitrateRunsPast(target: int, duration: real, size: int -> Option<nat>, n: nat)
    requires duration > 0.0 && BitrateRuns(target, duration, size, n)
    ensures forall k :: 0 <= k <= n ==> BitrateAttempt(target, duration, size, k).bitrate >= MinBitrate
    ensures forall k :: 0 <= k < n ==> Continues(BitrateAttempt(target, duration, size, k), target, size)
  {
    BitrateFloor(target, duration, size, n);
    if n > 0 {
      BitrateRunsPast(target, duration, size, n - 1);
    }
  }

  /** The bitrates of the first `n` attempts. */
  function Bitrates(target: int, duration: real, size: int -> Option<nat>, n: nat): (r: seq<real>)
    requires duration > 0.0
    ensures |r| == n
  {
    if n == 0 then [] else Bitrates(target, duration, size, n - 1) + [BitrateAttempt(target, duration, size, n - 1).bitrate]
  }

  /** Entry `k` of `Bitrates` is the bitrate of attempt `k`. */
  lemma {:induction false} BitratesAt(target: int, duration: real, size: int -> Option<nat>, n: nat)
    requires duration > 0.0
    ensures forall k :: 0 <= k < n ==> Bitrates(target, duration, size, n)[k] == BitrateAttempt(target, duration, size, k).bitrate
  {
    if n > 0 {
      BitratesAt(target, duration, size, n - 1);
    }
  }

  /** What the bitrates of a search that ran to attempt `n` are: the first is the
      initial bitrate, each is the one its attempt reached and at least 100 kbps, and
      every one but the last encoded and missed by more than 10%. */
  lemma TriedBitrates(target: int, duration: real, size: int -> Option<nat>, n: nat, tried: seq<real>)
    requires duration > 0.0 && BitrateRuns(target, duration, size, n)
    requires tried == Bitrates(target, duration, size, n + 1)
    ensures |tried| == n + 1 && BitrateRuns(target, duration, size, |tried| - 1)
    ensures tried[0] == InitialBitrate(target, duration)
    ensures forall k :: 0 <= k < |tried| ==> tried[k] == BitrateAttempt(target, duration, size, k).bitrate
    ensures forall k :: 0 <= k < |tried| ==> tried[k] >= MinBitrate
    ensures forall k :: 0 <= k < |tried| - 1 ==>
              size(Kbps(tried[k])).Some? && !Within(size(Kbps(tried[k])).value, target, 10)
  {
    BitrateRunsPast(target, duration, size, n);
    BitratesAt(target, duration, size, n + 1);
  }

  /** How the attempt at `w` ended the loop: ffmpeg failed, the size hit the target
      within 10%, the window closed after a miss, or the attempt missed with the window
      still open and was the last one allowed. */
  predicate EndedAt(exit: LoopExit, w: BitrateWindow, target: int, size: int -> Option<nat>) {
    var result := size(Kbps(w.bitrate));
    match exit
    case Raised => result.None?
    case Accepted => result.Some? && Within(result.value, target, 10)
    case Converged => result.Some? && !Within(result.value, target, 10) && !Continues(w, target, size)
    case Exhausted => Continues(w, target, size)
    case Skipped => false
  }

  /** One attempt of `compress_video` at the window `w`: `ended` says how it stopped
      the loop, or is `None` when the loop goes on at `next`. The scratch file is gone
      afterwards in every case, removed by the `finally` clause. */
  method EncodeAttempt(w: BitrateWindow, target: int, size: int -> Option<nat>)
    returns (ended: Option<LoopExit>, next: BitrateWindow, scratch: bool)
    ensures ended.Some? ==> ended.value != Exhausted && EndedAt(ended.value, w, target, size)
    ensures ended.None? <==> Continues(w, target, size)
    ensures ended.None? ==> next == NarrowBitrate(w, size(Kbps(w.bitrate)).value, target)
    ensures !scratch
  {
    next := w;
    var result := size(Kbps(w.bitrate));
    if result.None? {
      // ffmpeg failed: `finally` removes the scratch file and the error propagates
      return Some(Raised), next, false;
    }
    scratch := true;
    if Within(result.value, target, 10) {
      // the scratch file is renamed into place
      return Some(Accepted), next, false;
    }
    next := NarrowBitrate(w, result.value, target);
    // `finally`: the scratch file goes after every attempt
    scratch := false;
    if next.hi <= next.lo {
      return Some(Converged), next, false;
    }
    ended := None;
  }

  /** The attempt loop of `compress_video`: `last` is the index of the attempt that
      ended it. It stops on an encoder failure, a hit, a closed window or after five
      attempts, and the scratch file is gone by then. */
  method BitrateLoop(target: int, duration: real, size: int -> Option<nat>)
    returns (exit: LoopExit, last: nat, scratch: bool)
    requires duration > 0.0
    ensures last < MaxVideoAttempts
    ensures BitrateRuns(target, duration, size, last)
    ensures EndedAt(exit, BitrateAttempt(target, duration, size, last), target, size)
    ensures exit == Exhausted ==> last == MaxVideoAttempts - 1
    ensures !scratch
  {
    var w := BitrateWindow(MinBitrate, MaxBitrate, InitialBitrate(target, duration));
    var n: nat := 0;
    while true
      invariant n < MaxVideoAttempts
      invariant w == BitrateAttempt(target, duration, size, n)
      invariant BitrateRuns(target, duration, size, n)
      decreases MaxVideoAttempts - n
    {
      var ended, next;
      ended, next, scratch := EncodeAttempt(w, target, size);
      if ended.Some? {
        return ended.value, n, scratch;
      }
      if n == MaxVideoAttempts - 1 {
        return Exhausted, n, scratch;
      }
      BitrateRunsOn(target, duration, size, n);
      w := next;
      n := n + 1;
    }
  }

  /** `compress_video` once past the output directory: a file already close to the
      target is copied; otherwise up to five two-pass encodes, where `size(k)` is the
      output size at `k` kbps, or `None` when ffmpeg fails. The `finally` clause
      removes the scratch file after every attempt, so the ±15% fallback after the
      loop never finds it. */
  method CompressVideo(inputSize: int, target: int, duration: real, size: int -> Option<nat>)
    returns (end: SearchEnd, exit: LoopExit, tried: seq<real>)
    requires duration > 0.0
    ensures CloseToTarget(inputSize, target) <==> end == Direct
    ensures end == Direct ==> tried == []
    ensures |tried| <= MaxVideoAttempts
    ensures forall k :: 0 <= k < |tried| ==> tried[k] >= MinBitrate
    ensures |tried| > 0 ==> tried[0] == InitialBitrate(target, duration)
    ensures forall k :: 0 <= k < |tried| ==> tried[k] == BitrateAttempt(target, duration, size, k).bitrate
    ensures |tried| > 0 ==> BitrateRuns(target, duration, size, |tried| - 1)
    ensures forall k :: 0 <= k < |tried| - 1 ==>
              size(Kbps(tried[k])).Some? && !Within(size(Kbps(tried[k])).value, target, 10)
    ensures end.Hit? ==> exit == Accepted && |tried| > 0 && size(Kbps(tried[|tried| - 1])) == Some(end.size)
                         && Within(end.size, target, 10)
    ensures end == EncoderFailed <==> exit == Raised
    ensures end == EncoderFailed ==> |tried| > 0 && size(Kbps(tried[|tried| - 1])).None?
    ensures !end.Near?
    ensures end == Miss ==> exit == Converged || exit == Exhausted
  {
    if CloseToTarget(inputSize, target) {
      return Direct, Skipped, [];
    }
    var scratch, n;
    exit, n, scratch := BitrateLoop(target, duration, size);
    tried := Bitrates(target, duration, size, n + 1);
    TriedBitrates(target, duration, size, n, tried);
    var last := size(Kbps(tried[n]));
    if exit == Raised {
      end := EncoderFailed;
    } else if exit == Accepted {
      end := Hit(last.value);
    } else {
      end := Fallback(scratch, last, target);
    }
  }

  /** The video search with the fallback working as evidently intended: the scratch
      file of an attempt is removed only when another attempt replaces it, so the last
      encode is still there when the loop ends. */
  method CompressVideoKeepingLast(inputSize: int, target: int, duration: real, size: int -> Option<nat>)
    returns (end: SearchEnd, exit: LoopExit, tried: seq<real>)
    requires duration > 0.0
    ensures CloseToTarget(inputSize, target) <==> end == Direct
    ensures |tried| <= MaxVideoAttempts
    ensures forall k :: 0 <= k < |tried| ==> tried[k] >= MinBitrate
    ensures end == EncoderFailed <==> exit == Raised
    ensures (exit == Converged || exit == Exhausted) ==>
              |tried| > 0 && size(Kbps(tried[|tried| - 1])).Some?
              && var last := size(Kbps(tried[|tried| - 1])).value;
                 !Within(last, target, 10)
                 && (Within(last, target, 15) <==> end == Near(last))
                 && (!Within(last, target, 15) <==> end == Miss)
  {
    tried := [];
    if CloseToTarget(inputSize, target) {
      return Direct, Skipped, tried;
    }
    var w := BitrateWindow(MinBitrate, MaxBitrate, InitialBitrate(target, duration));
    var attempt: nat := 0;
    var scratch := false;
    exit := Exhausted;
    while attempt < MaxVideoAttempts
      invariant attempt == |tried| <= MaxVideoAttempts
      invariant w.lo >= MinBitrate && w.bitrate >= MinBitrate
      invariant forall k :: 0 <= k < |tried| ==> tried[k] >= MinBitrate
      invariant scratch <==> |tried| > 0
      invariant |tried| > 0 ==> size(Kbps(tried[|tried| - 1])).Some?
                                && !Within(size(Kbps(tried[|tried| - 1])).value, target, 10)
      decreases MaxVideoAttempts - attempt
    {
      tried := tried + [w.bitrate];
      attempt := attempt + 1;
      var result := size(Kbps(w.bitrate));
      if result.None? {
        return EncoderFailed, Raised, tried;
      }
      scratch := true;
      if Within(result.value, target, 10) {
        return Hit(result.value), Accepted, tried;
      }
      var next := NarrowBitrate(w, result.value, target);
      if next.hi <= next.lo {
        exit := Converged;
        break;
      }
      w := next;
    }
    end := Fallback(scratch, size(Kbps(tried[|tried| - 1])), target);
  }

  // ------------------------------------------------------------ the script

  /** The conditions under which `main` gets as far as a search result: four
      arguments, a target that parses, an input that exists and that ffprobe reads;
      then an image needs a writable output folder and a working Pillow, and a video
      a positive duration and, unless it is copied as it is, a writable folder. */
  predicate Compresses(argv: seq<string>, inputExists: bool, probeOk: bool, inputSize: int, duration: real,
                       formatName: string, outputDirOk: bool, pillowOk: bool)
  {
    |argv| == 4 && ParseTargetSize(argv[3]).Ok? && inputExists && probeOk
    && if ImageSuffix(argv[1]) && ImageFormat(formatName) then outputDirOk && pillowOk
       else duration > 0.0 && (CloseToTarget(inputSize, ParseTargetSize(argv[3]).value) || outputDirOk)
  }

  /** `main`: `argv` includes the script name. The exit status is 0 only when the
      target parses, the input exists, ffprobe answers, the image or video
      compression returns and the output's size can be read; a video needs a
      positive duration. Whether ffprobe answers, the image/video decision and the
      duration come from ffprobe and are parameters, as are the file system's
      answers: whether the output folder can be made and written (`outputDirOk`),
      whether Pillow opens, converts and saves the image (`pillowOk`), and whether
      the final `stat` of the output succeeds. An image checks the folder before
      anything else; a video copied because it is already close to the target never
      reaches the folder check. */
  method Run(argv: seq<string>, inputExists: bool, probeOk: bool, inputSize: int, duration: real,
             formatName: string, outputDirOk: bool, pillowOk: bool, imageSize: int -> nat,
             videoSize: int -> Option<nat>, outputReadable: bool)
    returns (status: int, end: Option<SearchEnd>)
    ensures status == 0 || status == 1
    ensures status == 0 <==> end.Some? && end.value.Succeeded() && outputReadable
    ensures end.Some? <==> Compresses(argv, inputExists, probeOk, inputSize, duration, formatName, outputDirOk, pillowOk)
    ensures end.Some? && !(ImageSuffix(argv[1]) && ImageFormat(formatName)) ==> !end.value.Near?
  {
    if |argv| != 4 {
      return 1, None;
    }
    var target := ParseTargetSize(argv[3]);
    if target.Err? || !inputExists || !probeOk {
      return 1, None;
    }
    var e;
    var image := IsImage(argv[1], formatName);
    if image {
      if !outputDirOk || !pillowOk {
        return 1, None;
      }
      var exit, windows;
      e, exit, windows := CompressImage(inputSize, target.value, imageSize);
    } else {
      if duration <= 0.0 || (!CloseToTarget(inputSize, target.value) && !outputDirOk) {
        return 1, None;
      }
      var exit, tried;
      e, exit, tried := CompressVideo(inputSize, target.value, duration, videoSize);
    }
    end := Some(e);
    status := if e.Succeeded() && outputReadable then 0 else 1;
  }
}

=== FILE: compression_service.dfy ===
/** The compression service around the size-target script: the target-size format it
    accepts, the record an upload stores, the statuses a compression run leaves, and
    the gate on changing the target. The file system, the repository and the script
    run are parameters: whether each file exists, the script's exit code and output. */
module CompressionService {
  import opened Wrappers
  import opened Text
  import CompressMedia

  datatype Status = Uploaded | Failed | Succeeded

  /** A `CompressedMedia` row. Absent processed fields are null in Java. */
  datatype CompressedMedia = CompressedMedia(
    owner: nat,
    originalFileName: string,
    originalPath: string,
    targetSize: string,
    status: Status,
    errorMessage: Option<string>,
    processedFileName: Option<string>,
    processedPath: Option<string>)

  /** `targetSize.matches("\\d+(KB|MB)")`: the whole string, upper-case unit only. */
  predicate JavaTargetForm(s: string) {
    |s| >= 3 && AllDigits(s[..|s| - 2]) && (s[|s| - 2..] == "KB" || s[|s| - 2..] == "MB")
  }

  /** The null-or-malformed check shared by upload and update. */
  function CheckTarget(targetSize: Option<string>): (r: Outcome)
    ensures r.Pass? <==> targetSize.Some? && JavaTargetForm(targetSize.value)
    ensures r.Fail? ==> r.error.kind == IllegalArgument
  {
    Need(targetSize.Some? && JavaTargetForm(targetSize.value), IllegalArgument,
         "Target size must be in format 'numberKB' or 'numberMB'")
  }

  /** Every target the service accepts is one the script parses, to the same number of
      kibibytes or mebibytes. */
  lemma JavaFormParses(s: string)
    requires JavaTargetForm(s)
    ensures CompressMedia.ParseTargetSize(s).Ok?
    ensures CompressMedia.ParseTargetSize(s).value
            == DigitsValue(s[..|s| - 2]) * (if s[|s| - 2..] == "KB" then CompressMedia.KiB else CompressMedia.MiB)
  {
    assert CompressMedia.WithoutFinalNewline(s) == s;
    var unit := s[|s| - 2..];
    assert Upper(unit) == unit by {
      assert unit[0] == 'K' || unit[0] == 'M';
      assert unit[1] == 'B';
    }
  }

  /** The script is more lenient than the service: a lower-case unit and a trailing
      newline parse there but are refused here. */
  lemma ScriptAcceptsMore()
    ensures !JavaTargetForm("5kb") && CompressMedia.ParseTargetSize("5kb").Ok?
    ensures !JavaTargetForm("5KB\n") && CompressMedia.ParseTargetSize("5KB\n").Ok?
  {
    LowerUnitParses();
    NewlineParses();
  }

  lemma LowerUnitParses()
    ensures CompressMedia.ParseTargetSize("5kb").Ok?
  {
    assert "5kb"[..1] == "5";
    assert "5kb"[1..] == "kb";
    assert Upper("kb") == "KB";
  }

  lemma NewlineParses()
    ensures CompressMedia.ParseTargetSize("5KB\n").Ok?
  {
    assert CompressMedia.WithoutFinalNewline("5KB\n") == "5KB";
    assert "5KB"[..1] == "5";
    assert "5KB"[1..] == "KB";
    assert Upper("KB") == "KB";
  }

  /** `"compression/" + userId + "/" + folder + "/" + name`, the relative path of a file. */
  function StoredPath(owner: nat, folder: string, name: string): string {
    "compression/" + Decimal(owner) + "/" + folder + "/" + name
  }

  /** `uploadMedia`, with the upload's byte count (`None` for a null file), the
      outcome of creating the two folders, and the length of the saved copy. */
  function Upload(owner: nat, fileSize: Option<nat>, fileName: string, targetSize: Option<string>,
                  foldersCreated: bool, savedLength: nat): (r: Result<CompressedMedia>)
    ensures r.Ok? <==> fileSize.Some? && fileSize.value > 0 && targetSize.Some?
                       && JavaTargetForm(targetSize.value) && foldersCreated && savedLength > 0
    ensures r.Ok? ==> r.value.status == Uploaded && r.value.owner == owner
                      && r.value.targetSize == targetSize.value
                      && r.value.originalPath == StoredPath(owner, "original", fileName)
                      && r.value.processedPath.None? && r.value.errorMessage.None?
    ensures r.Err? && (fileSize.None? || fileSize.value == 0) ==> r.error.kind == IllegalArgument
  {
    if fileSize.None? || fileSize.value == 0 then Throw(IllegalArgument, "Media file is null or empty")
    else
      :- CheckTarget(targetSize);
      if !foldersCreated then Throw(IOFailure, "Failed to create directory")
      else if savedLength == 0 then Throw(IOFailure, "Input file is empty")
      else
        Ok(CompressedMedia(owner, fileName, StoredPath(owner, "original", fileName), targetSize.value,
                           Uploaded, None, None, None))
  }

  /** What a call leaves in the repository (the row, if there is one) and what it
      throws, if anything. */
  datatype Saved = Saved(row: Option<CompressedMedia>, error: Option<Error>)

  /** The name of the compressed copy. */
  function ProcessedName(originalFileName: string): string {
    "compressed_" + originalFileName
  }

  /** `compressMedia`, with the looked-up row, the state of the input file and the
      script, whether `Files.createDirectories` made the output folder, and the
      script's exit code, output and written file. The row changes
      only once the script has run: a non-zero exit code or a missing output gives
      FAILED with a message, a clean run SUCCESS with the processed name and path.
      The status is not consulted: a finished or failed row can be compressed again. */
  function Compress(row: Option<CompressedMedia>, user: nat, inputPresent: bool, scriptPresent: bool,
                    dirCreated: bool, exitCode: int, output: string, outputPresent: bool): (r: Saved)
    ensures row.None? ==> r.row.None? && r.error.Some? && r.error.value.kind == IllegalArgument
    ensures row.Some? ==> r.row.Some?
    ensures r.error.None? <==> row.Some? && row.value.owner == user && inputPresent && scriptPresent
                               && dirCreated && exitCode == 0 && outputPresent
    ensures row.Some? && !(row.value.owner == user && inputPresent && scriptPresent && dirCreated) ==> r.row == row
    ensures row.Some? && row.value.owner == user && inputPresent && scriptPresent && !dirCreated ==>
              r.error.value.kind == IOFailure
    ensures row.Some? && row.value.owner == user && inputPresent && scriptPresent && dirCreated && exitCode != 0 ==>
              r.row.value.status == Failed && r.row.value.errorMessage == Some("Compression failed: " + output)
    ensures row.Some? && row.value.owner == user && inputPresent && scriptPresent && dirCreated && exitCode == 0
            && !outputPresent ==>
              r.row.value.status == Failed && r.row.value.errorMessage.Some?
    ensures r.error.None? ==>
              var name := ProcessedName(row.value.originalFileName);
              r.row.value.status == Succeeded && r.row.value.processedFileName == Some(name)
              && r.row.value.processedPath == Some(StoredPath(user, "processed", name))
    ensures row.Some? ==> r.row.value.owner == row.value.owner && r.row.value.targetSize == row.value.targetSize
                          && r.row.value.originalPath == row.value.originalPath
  {
    match row
    case None => Saved(None, Some(Error(IllegalArgument, "Media not found")))
    case Some(m) =>
      if m.owner != user then Saved(row, Some(Error(IllegalArgument, "Not authorized to compress this media")))
      else if !inputPresent then Saved(row, Some(Error(IOFailure, "Input file is missing or empty")))
      else if !scriptPresent then Saved(row, Some(Error(IOFailure, "Compression script not found")))
      else if !dirCreated then Saved(row, Some(Error(IOFailure, "Could not create the output directory")))
      else if exitCode != 0 then
        Saved(Some(m.(status := Failed, errorMessage := Some("Compression failed: " + output))),
              Some(Error(IOFailure, "Compression failed with exit code")))
      else if !outputPresent then
        Saved(Some(m.(status := Failed, errorMessage := Some("Output file not created"))),
              Some(Error(IOFailure, "Output file not created")))
      else
        var name := ProcessedName(m.originalFileName);
        Saved(Some(m.(status := Succeeded, processedFileName := Some(name),
                      processedPath := Some(StoredPath(user, "processed", name)))), None)
  }

  /** `updateTargetSize`: the format is checked first, then the row must exist, belong
      to the caller and still be UPLOADED; only the target changes. */
  function UpdateTargetSize(row: Option<CompressedMedia>, user: nat, newTargetSize: Option<string>)
    : (r: Result<CompressedMedia>)
    ensures r.Ok? <==> newTargetSize.Some? && JavaTargetForm(newTargetSize.value) && row.Some?
                       && row.value.owner == user && row.value.status == Uploaded
    ensures r.Ok? ==> r.value == row.value.(targetSize := newTargetSize.value)
    ensures r.Err? && row.Some? && row.value.owner == user && row.value.status != Uploaded
            && newTargetSize.Some? && JavaTargetForm(newTargetSize.value)
            ==> r.error.kind == IllegalState
    ensures r.Err? && !(row.Some? && row.value.owner == user && row.value.status != Uploaded)
            ==> r.error.kind == IllegalArgument
  {
    var checked := CheckTarget(newTargetSize);
    :- checked;
    if row.None? then Throw(IllegalArgument, "Media not found")
    else if row.value.owner != user then Throw(IllegalArgument, "Not authorized to update this media")
    else if row.value.status != Uploaded then
      Throw(IllegalState, "Media target size can only be updated in UPLOADED state")
    else Ok(row.value.(targetSize := newTargetSize.value))
  }

  /** Every row the service writes carries a target the script can parse. */
  lemma StoredTargetsParse(owner: nat, fileSize: Option<nat>, fileName: string, targetSize: Option<string>,
                           foldersCreated: bool, savedLength: nat, row: Option<CompressedMedia>,
                           newTargetSize: Option<string>)
    ensures var u := Upload(owner, fileSize, fileName, targetSize, foldersCreated, savedLength);
            u.Ok? ==> CompressMedia.ParseTargetSize(u.value.targetSize).Ok?
    ensures var r := UpdateTargetSize(row, owner, newTargetSize);
            r.Ok? ==> CompressMedia.ParseTargetSize(r.value.targetSize).Ok?
  {
    if Upload(owner, fileSize, fileName, targetSize, foldersCreated, savedLength).Ok? {
      JavaFormParses(targetSize.value);
    }
    if UpdateTargetSize(row, owner, newTargetSize).Ok? {
      JavaFormParses(newTargetSize.value);
    }
  }
}

=== FILE: filters.dfy ===
/** Filters attached to video and image segments, and the four deletes of the editing
    service. A segment keeps at most one filter per name as long as filters are added
    through `applyFilter`; deleting a video or image segment takes its filters along. */
module Filters {
  import opened Wrappers
  import opened Lists
  import opened VideoSegments
  import opened TextSegments
  import opened AudioSegments
  import opened ImageSegments
  import opened Timeline

  predicate HasVideo(t: TimelineState, id: string) {
    exists i :: 0 <= i < |t.segments| && t.segments[i].id == id
  }

  predicate HasImage(t: TimelineState, id: string) {
    exists i :: 0 <= i < |t.imageSegments| && t.imageSegments[i].id == id
  }

  predicate HasText(t: TimelineState, id: string) {
    exists i :: 0 <= i < |t.textSegments| && t.textSegments[i].id == id
  }

  predicate HasAudio(t: TimelineState, id: string) {
    exists i :: 0 <= i < |t.audioSegments| && t.audioSegments[i].id == id
  }

  /** The lookup shared by `applyFilter` and `updateFilter`: videos, then images. */
  function NeedFilterable(t: TimelineState, segmentId: string): (o: Outcome)
    ensures o.Pass? <==> HasVideo(t, segmentId) || HasImage(t, segmentId)
  {
    Need(HasVideo(t, segmentId) || HasImage(t, segmentId), Runtime, "Segment not found with ID: " + segmentId)
  }

  predicate SameSlot(f: Filter, segmentId: string, filterName: string) {
    f.segmentId == segmentId && f.filterName == filterName
  }

  /** At most one filter per segment and filter name. */
  predicate FiltersUnique(filters: seq<Filter>) {
    forall i, j :: 0 <= i < j < |filters| ==>
      !(filters[i].segmentId == filters[j].segmentId && filters[i].filterName == filters[j].filterName)
  }

  /** `applyFilter`: the segment must be a video or an image; an earlier filter of the
      same name on the segment is replaced by the new one, which goes last.
      `filterId` is the fresh UUID of the new filter. */
  function ApplyFilter(t: TimelineState, segmentId: string, filterName: string, filterValue: string,
                       filterId: string): (r: Result<TimelineState>)
    ensures r.Ok? <==> HasVideo(t, segmentId) || HasImage(t, segmentId)
    ensures r.Ok? ==>
              var fs := r.value.filters;
              r.value == t.(filters := fs)
              && |fs| >= 1 && fs[|fs| - 1] == Filter(filterId, segmentId, filterName, filterValue)
              && (forall f :: f in fs[..|fs| - 1] <==> f in t.filters && !SameSlot(f, segmentId, filterName))
  {
    var filterable := NeedFilterable(t, segmentId);
    :- filterable;
    var kept := Keep(t.filters, (f: Filter) => !SameSlot(f, segmentId, filterName));
    var fs := kept + [Filter(filterId, segmentId, filterName, filterValue)];
    assert fs[..|fs| - 1] == kept;
    Ok(t.(filters := fs))
  }

  /** After `applyFilter` the segment has exactly one filter of that name: the new one. */
  lemma ApplyFilterLeavesOne(t: TimelineState, segmentId: string, filterName: string, filterValue: string,
                             filterId: string)
    requires ApplyFilter(t, segmentId, filterName, filterValue, filterId).Ok?
    ensures var fs := ApplyFilter(t, segmentId, filterName, filterValue, filterId).value.filters;
            forall i :: 0 <= i < |fs| && SameSlot(fs[i], segmentId, filterName) ==>
              i == |fs| - 1 && fs[i].filterValue == filterValue
  {
  }

  /** Applying a filter keeps filters unique per segment and name. */
  lemma ApplyFilterKeepsUnique(t: TimelineState, segmentId: string, filterName: string, filterValue: string,
                               filterId: string)
    requires FiltersUnique(t.filters)
    requires ApplyFilter(t, segmentId, filterName, filterValue, filterId).Ok?
    ensures FiltersUnique(ApplyFilter(t, segmentId, filterName, filterValue, filterId).value.filters)
  {
    var fs := ApplyFilter(t, segmentId, filterName, filterValue, filterId).value.filters;
    var kept := Keep(t.filters, (f: Filter) => !SameSlot(f, segmentId, filterName));
    assert fs == kept + [Filter(filterId, segmentId, filterName, filterValue)];
    KeepKeepsUnique(t.filters, (f: Filter) => !SameSlot(f, segmentId, filterName));
    forall i, j | 0 <= i < j < |fs|
      ensures !(fs[i].segmentId == fs[j].segmentId && fs[i].filterName == fs[j].filterName)
    {
      if j == |fs| - 1 {
        assert fs[i] in kept;
      } else {
        assert fs[i] == kept[i] && fs[j] == kept[j];
      }
    }
  }

  /** Filtering a list keeps it free of duplicate slots. */
  lemma {:induction false} KeepKeepsUnique(filters: seq<Filter>, keep: Filter -> bool)
    requires FiltersUnique(filters)
    ensures FiltersUnique(Keep(filters, keep))
    decreases |filters|
  {
    if |filters| > 0 {
      var init := filters[..|filters| - 1];
      var last := filters[|filters| - 1];
      assert FiltersUnique(init) by {
        forall i, j | 0 <= i < j < |init|
          ensures !(init[i].segmentId == init[j].segmentId && init[i].filterName == init[j].filterName)
        {
          assert init[i] == filters[i] && init[j] == filters[j];
        }
      }
      KeepKeepsUnique(init, keep);
      var r := Keep(init, keep);
      if keep(last) {
        var s := r + [last];
        forall i, j | 0 <= i < j < |s|
          ensures !(s[i].segmentId == s[j].segmentId && s[i].filterName == s[j].filterName)
        {
          if j == |s| - 1 {
            assert s[i] in init;
            var k :| 0 <= k < |init| && init[k] == s[i];
            assert filters[k] == s[i] && filters[|filters| - 1] == last;
          } else {
            assert s[i] == r[i] && s[j] == r[j];
          }
        }
      }
    }
  }

  /** `removeFilter`: every filter of the segment goes; throws when there was none. */
  function RemoveFilter(t: TimelineState, segmentId: string): (r: Result<TimelineState>)
    ensures r.Ok? <==> exists i :: 0 <= i < |t.filters| && t.filters[i].segmentId == segmentId
    ensures r.Ok? ==>
              r.value == t.(filters := r.value.filters)
              && forall f :: f in r.value.filters <==> f in t.filters && f.segmentId != segmentId
  {
    if forall i :: 0 <= i < |t.filters| ==> t.filters[i].segmentId != segmentId then
      Throw(Runtime, "Filter not found with ID:  for segment: " + segmentId)
    else
      Ok(t.(filters := Keep(t.filters, (f: Filter) => f.segmentId != segmentId)))
  }

  /** `getFiltersForSegment`: the id may name a segment of any kind; the filters come
      back in list order. */
  function FiltersForSegment(t: TimelineState, segmentId: string): (r: Result<seq<Filter>>)
    ensures r.Ok? <==> HasVideo(t, segmentId) || HasImage(t, segmentId) || HasText(t, segmentId) || HasAudio(t, segmentId)
    ensures r.Ok? ==> forall f :: f in r.value <==> f in t.filters && f.segmentId == segmentId
  {
    if !(HasVideo(t, segmentId) || HasImage(t, segmentId) || HasText(t, segmentId) || HasAudio(t, segmentId)) then
      Throw(Runtime, "Segment not found with ID: " + segmentId)
    else
      Ok(Keep(t.filters, (f: Filter) => f.segmentId == segmentId))
  }

  /** `updateFilter`: renames and revalues, in place, the first filter of the segment
      with the id. */
  function UpdateFilter(t: TimelineState, segmentId: string, filterId: string, filterName: string,
                        filterValue: string): (r: Result<TimelineState>)
    ensures r.Ok? <==> (HasVideo(t, segmentId) || HasImage(t, segmentId))
                       && exists i :: 0 <= i < |t.filters| && t.filters[i].segmentId == segmentId
                                      && t.filters[i].filterId == filterId
    ensures r.Ok? ==>
              var fs := r.value.filters;
              r.value == t.(filters := fs) && |fs| == |t.filters|
              && exists k :: 0 <= k < |fs| && fs[k] == Filter(filterId, segmentId, filterName, filterValue)
                             && forall i :: 0 <= i < |fs| && i != k ==> fs[i] == t.filters[i]
  {
    var filterable := NeedFilterable(t, segmentId);
    :- filterable;
    match FirstIndex(t.filters, (f: Filter) => f.segmentId == segmentId && f.filterId == filterId)
    case None => Throw(Runtime, "Filter not found with ID: " + filterId + " for segment: " + segmentId)
    case Some(k) =>
      var fs := t.filters[k := t.filters[k].(filterName := filterName, filterValue := filterValue)];
      assert fs[k] == Filter(filterId, segmentId, filterName, filterValue);
      Ok(t.(filters := fs))
  }

  /** Unlike `applyFilter`, an update does not look for another filter of the new name,
      so it can leave a segment with two filters of one name. */
  lemma UpdateFilterCanDuplicateName()
    ensures var v := VideoSegments.New("v");
            var t := Empty().(segments := [v],
                              filters := [Filter("f1", "v", "blur", "1"), Filter("f2", "v", "sepia", "1")]);
            var r := UpdateFilter(t, "v", "f2", "blur", "2");
            FiltersUnique(t.filters) && r.Ok? && !FiltersUnique(r.value.filters)
  {
    var v := VideoSegments.New("v");
    var t := Empty().(segments := [v],
                      filters := [Filter("f1", "v", "blur", "1"), Filter("f2", "v", "sepia", "1")]);
    assert t.segments[0].id == "v";
    assert t.filters[1].segmentId == "v" && t.filters[1].filterId == "f2";
    assert "blur" != "sepia";
    var fs := UpdateFilter(t, "v", "f2", "blur", "2").value.filters;
    assert fs[0].filterId == "f1";
    assert fs[1] == Filter("f2", "v", "blur", "2");
  }

  // ------------------------------------------------------------ deletes

  /** `deleteVideoFromTimeline`: every video segment with the id goes, with its filters. */
  function DeleteVideo(t: TimelineState, id: string): (r: Result<TimelineState>)
    ensures r.Ok? <==> HasVideo(t, id)
    ensures r.Ok? ==>
              r.value == t.(segments := r.value.segments, filters := r.value.filters)
              && (forall x :: x in r.value.segments <==> x in t.segments && x.id != id)
              && (forall f :: f in r.value.filters <==> f in t.filters && f.segmentId != id)
  {
    if !HasVideo(t, id) then Throw(Runtime, "Video segment not found with ID: " + id)
    else
      Ok(t.(segments := Keep(t.segments, (x: VideoSegment) => x.id != id),
            filters := Keep(t.filters, (f: Filter) => f.segmentId != id)))
  }

  /** `deleteImageFromTimeline`, and `removeImageSegment`, which does the same: every
      image segment with the id goes, with its filters. */
  function DeleteImage(t: TimelineState, id: string): (r: Result<TimelineState>)
    ensures r.Ok? <==> HasImage(t, id)
    ensures r.Ok? ==>
              r.value == t.(imageSegments := r.value.imageSegments, filters := r.value.filters)
              && (forall x :: x in r.value.imageSegments <==> x in t.imageSegments && x.id != id)
              && (forall f :: f in r.value.filters <==> f in t.filters && f.segmentId != id)
  {
    if !HasImage(t, id) then Throw(Runtime, "Image segment not found with ID: " + id)
    else
      Ok(t.(imageSegments := Keep(t.imageSegments, (x: ImageSegment) => x.id != id),
            filters := Keep(t.filters, (f: Filter) => f.segmentId != id)))
  }

  /** `deleteAudioFromTimeline`, and `removeAudioSegment`, which does the same: every
      audio segment with the id goes; filters stay. */
  function DeleteAudio(t: TimelineState, id: string): (r: Result<TimelineState>)
    ensures r.Ok? <==> HasAudio(t, id)
    ensures r.Ok? ==>
              r.value == t.(audioSegments := r.value.audioSegments)
              && forall x :: x in r.value.audioSegments <==> x in t.audioSegments && x.id != id
  {
    if !HasAudio(t, id) then Throw(Runtime, "Audio segment not found with ID: " + id)
    else Ok(t.(audioSegments := Keep(t.audioSegments, (x: AudioSegment) => x.id != id)))
  }

  /** `deleteTextFromTimeline`: every text segment with the id goes; filters stay. */
  function DeleteText(t: TimelineState, id: string): (r: Result<TimelineState>)
    ensures r.Ok? <==> HasText(t, id)
    ensures r.Ok? ==>
              r.value == t.(textSegments := r.value.textSegments)
              && forall x :: x in r.value.textSegments <==> x in t.textSegments && x.id != id
  {
    if !HasText(t, id) then Throw(Runtime, "Text segment not found with ID: " + id)
    else Ok(t.(textSegments := Keep(t.textSegments, (x: TextSegment) => x.id != id)))
  }

  /** Deleting a video or an image leaves no filter pointing at it, and keeps filters
      unique. */
  lemma DeleteCascades(t: TimelineState, id: string)
    requires FiltersUnique(t.filters)
    ensures DeleteVideo(t, id).Ok? ==>
              FiltersUnique(DeleteVideo(t, id).value.filters)
              && forall i :: 0 <= i < |DeleteVideo(t, id).value.filters| ==> DeleteVideo(t, id).value.filters[i].segmentId != id
    ensures DeleteImage(t, id).Ok? ==>
              FiltersUnique(DeleteImage(t, id).value.filters)
              && forall i :: 0 <= i < |DeleteImage(t, id).value.filters| ==> DeleteImage(t, id).value.filters[i].segmentId != id
  {
    KeepKeepsUnique(t.filters, (f: Filter) => f.segmentId != id);
    if DeleteVideo(t, id).Ok? {
      var fs := DeleteVideo(t, id).value.filters;
      forall i | 0 <= i < |fs| ensures fs[i].segmentId != id {
        assert fs[i] in fs;
      }
    }
    if DeleteImage(t, id).Ok? {
      var fs := DeleteImage(t, id).value.filters;
      forall i | 0 <= i < |fs| ensures fs[i].segmentId != id {
        assert fs[i] in fs;
      }
    }
  }
}

=== FILE: global_element_service.dfy ===
/** The developer upload of global elements: each image keeps its name unless a
    file of that name already exists, in which case it becomes `base_k.ext` for
    the least free `k`. The directory listing is the set of names already taken;
    the element ids the database assigns are a parameter. */
module GlobalElementService {
  import opened Wrappers
  import opened Text

  /** `isValidFileType`: the lower-cased name ends in an accepted image suffix. */
  predicate ValidFileType(name: string) {
    var n := Lower(name);
    EndsWith(n, ".png") || EndsWith(n, ".jpg") || EndsWith(n, ".jpeg") || EndsWith(n, ".gif") || EndsWith(n, ".webp")
  }

  /** A lower-cased dot was a dot. */
  lemma LowerDot(name: string, k: nat)
    requires k < |name| && Lower(name)[k] == '.'
    ensures name[k] == '.'
  {
  }

  /** An accepted name has a dot, the one its suffix starts with. */
  lemma ValidHasDot(name: string)
    requires ValidFileType(name)
    ensures '.' in name
  {
    var n := Lower(name);
    var k := if EndsWith(n, ".png") then |n| - 4
             else if EndsWith(n, ".jpg") then |n| - 4
             else if EndsWith(n, ".jpeg") then |n| - 5
             else if EndsWith(n, ".gif") then |n| - 4
             else |n| - 5;
    assert n[k] == n[k..][0];
    LowerDot(name, k);
  }

  /** The `k`-th alternative name: `base_k.ext`, split at the last dot. */
  function Candidate(name: string, k: nat): (r: string)
    requires '.' in name
  {
    var i := LastIndexOf(name, '.').value;
    name[..i] + "_" + Decimal(k) + name[i..]
  }

  /** Different counters give different names. */
  lemma CandidateInjective(name: string, j: nat, k: nat)
    requires '.' in name && Candidate(name, j) == Candidate(name, k)
    ensures j == k
  {
    var i := LastIndexOf(name, '.').value;
    var p := name[..i] + "_";
    var e := name[i..];
    var c := Candidate(name, j);
    assert c == p + Decimal(j) + e;
    assert c == p + Decimal(k) + e;
    assert c[|p|..|c| - |e|] == Decimal(j);
    assert c[|p|..|c| - |e|] == Decimal(k);
    DecimalValue(j);
    DecimalValue(k);
  }

  /** The candidates tried before `k`. */
  function Tried(name: string, k: nat): (r: set<string>)
    requires '.' in name
    ensures forall j :: 1 <= j < k ==> Candidate(name, j) in r
  {
    set j | 1 <= j < k :: Candidate(name, j)
  }

  /** The conflict loop: the name itself when it is free; otherwise the first free
      `base_k.ext` counting from `k = 1`. `k` is 0 when the name was kept. */
  method ResolveName(name: string, taken: set<string>) returns (r: string, k: nat)
    requires ValidFileType(name)
    ensures r !in taken
    ensures k == 0 <==> name !in taken
    ensures k == 0 ==> r == name
    ensures k > 0 ==> '.' in name && r == Candidate(name, k) && forall j :: 1 <= j < k ==> Candidate(name, j) in taken
  {
    if name !in taken {
      return name, 0;
    }
    ValidHasDot(name);
    k := 1;
    r := Candidate(name, 1);
    while r in taken
      invariant k >= 1 && r == Candidate(name, k)
      invariant forall j :: 1 <= j < k ==> Candidate(name, j) in taken
      decreases |taken - Tried(name, k)|
    {
      if r in Tried(name, k) {
        var j :| 1 <= j < k && Candidate(name, j) == r;
        CandidateInjective(name, j, k);
        assert false;
      }
      assert Tried(name, k + 1) == Tried(name, k) + {r};
      assert r in taken - Tried(name, k);
      assert taken - Tried(name, k + 1) < taken - Tried(name, k);
      k := k + 1;
      r := Candidate(name, k);
    }
  }

  /** The chosen name is the only one the rule allows: any free candidate with
      every earlier one taken is the one the loop stops at. */
  lemma LeastFreeCandidate(name: string, taken: set<string>, k1: nat, k2: nat)
    requires '.' in name && k1 >= 1 && k2 >= 1
    requires Candidate(name, k1) !in taken && forall j :: 1 <= j < k1 ==> Candidate(name, j) in taken
    requires Candidate(name, k2) !in taken && forall j :: 1 <= j < k2 ==> Candidate(name, j) in taken
    ensures k1 == k2
  {
  }

  /** What the service returns for an element. */
  datatype ElementDto = ElementDto(id: nat, filePath: string, fileName: string)

  /** A `GlobalElement` row: its id and its JSON object, as a map. */
  datatype Element = Element(id: nat, json: map<string, string>)

  const Folder := "elements/"

  /** The JSON stored for a file. */
  function ElementJson(fileName: string): (j: map<string, string>)
    ensures j.Keys == {"imagePath", "imageFileName"}
  {
    map["imagePath" := Folder + fileName, "imageFileName" := fileName]
  }

  /** `toElementDto`: the listing reads the two keys back. */
  function ToDto(e: Element): (d: Option<ElementDto>)
    ensures d.Some? <==> "imagePath" in e.json && "imageFileName" in e.json
  {
    if "imagePath" in e.json && "imageFileName" in e.json then
      Some(ElementDto(e.id, e.json["imagePath"], e.json["imageFileName"]))
    else None
  }

  /** The listing shows an element as the upload returned it. */
  lemma StoredMatchesReturned(id: nat, fileName: string)
    ensures ToDto(Element(id, ElementJson(fileName))) == Some(ElementDto(id, Folder + fileName, fileName))
  {
  }

  /** `uploadGlobalElements`: the developer must exist; every file must be named and
      of an accepted type, else the call throws. Each file takes a free name, so the
      names of one upload differ from each other and from what was on disk. The
      files written before a refused file stay on disk; the rows are rolled back. */
  method UploadGlobalElements(files: seq<Option<string>>, developerExists: bool, taken: set<string>, firstId: nat)
    returns (r: Result<seq<(Element, ElementDto)>>, disk: set<string>)
    ensures !developerExists ==> r.Err? && disk == taken
    ensures r.Ok? <==> developerExists && forall i :: 0 <= i < |files| ==> files[i].Some? && ValidFileType(files[i].value)
    ensures taken <= disk
    ensures r.Ok? ==> |r.value| == |files|
    ensures r.Ok? ==> forall i :: 0 <= i < |r.value| ==>
              var (e, d) := r.value[i];
              d.fileName !in taken && d.fileName in disk && d.filePath == Folder + d.fileName
              && e.json == ElementJson(d.fileName) && ToDto(e) == Some(d) && d.id == firstId + i
    ensures r.Ok? ==> forall i, j :: 0 <= i < j < |r.value| ==> r.value[i].1.fileName != r.value[j].1.fileName
  {
    disk := taken;
    if !developerExists {
      return Throw(Runtime, "Developer not found"), disk;
    }
    var out: seq<(Element, ElementDto)> := [];
    var n := 0;
    while n < |files|
      invariant 0 <= n <= |files| && |out| == n && taken <= disk
      invariant forall i :: 0 <= i < n ==> files[i].Some? && ValidFileType(files[i].value)
      invariant forall i :: 0 <= i < n ==>
                  var (e, d) := out[i];
                  d.fileName !in taken && d.fileName in disk && d.filePath == Folder + d.fileName
                  && e.json == ElementJson(d.fileName) && ToDto(e) == Some(d) && d.id == firstId + i
      invariant forall i, j :: 0 <= i < j < n ==> out[i].1.fileName != out[j].1.fileName
    {
      if files[n].None? || !ValidFileType(files[n].value) {
        return Throw(Runtime, "Invalid file type. Only PNG, JPEG, GIF, or WEBP allowed."), disk;
      }
      var fileName, _ := ResolveName(files[n].value, disk);
      var d := ElementDto(firstId + n, Folder + fileName, fileName);
      out := out + [(Element(firstId + n, ElementJson(fileName)), d)];
      disk := disk + {fileName};
      n := n + 1;
    }
    return Ok(out), disk;
  }
}

=== FILE: image_editor.dfy ===
/** The image editor's project service (the one in `imageservice`): creating a
    project with a one-page design, updating its name and design, and exporting one
    page of it. The project row is what the service last saved; the JSON codec and
    the renderer are parameters. */
module ImageEditor {
  import opened Wrappers
  import opened Text
  import ImageLayers

  /** The export status a project row carries. */
  datatype Status = Draft | Processing | Completed | Failed

  /** An image project row. The design is the stored JSON text. */
  datatype Project = Project(name: string, width: int, height: int, background: string, status: Status,
                             design: Option<string>, lastUrl: Option<string>, lastFormat: Option<string>)

  /** The fields of a create request; a missing field is `None`. */
  datatype CreateRequest = CreateRequest(name: Option<string>, width: Option<int>, height: Option<int>,
                                         background: Option<string>)

  /** A page's canvas. */
  datatype Canvas = Canvas(width: int, height: int, background: string)

  /** One page of a design; a missing key is `None`. */
  datatype Page = Page(id: Option<string>, canvas: Option<Canvas>, layers: Option<seq<ImageLayers.Layer>>)

  /** A parsed design document: its version and its pages, each possibly missing. */
  datatype Doc = Doc(version: Option<string>, pages: Option<seq<Page>>)

  /** A single-page design: what the renderer receives. */
  datatype Single = Single(version: string, canvas: Canvas, layers: seq<ImageLayers.Layer>)

  /** What the JSON reader makes of a text: not JSON at all, the JSON `null`, some
      other non-object value, or an object. */
  datatype Parsed = Malformed | NullValue | NonObject | Object(doc: Doc)

  /** What an export leaves in the repository (the row, if one was found) and what
      it throws, if anything. */
  datatype Attempt = Attempt(stored: Option<Project>, error: Option<Error>)

  const White := "#FFFFFF"
  const Version := "1.0"
  const Host := "http://localhost:8080/"

  const NameRequired := "Project name is required"
  const BadWidth := "Invalid canvas width"
  const BadHeight := "Invalid canvas height"
  const NotFound := "Project not found"
  const BadJson := "Invalid design JSON format"
  const NoDesign := "Project has no design to export"
  const NoPages := "No pages found in project"
  const BadPage := "Invalid page index"
  const BadFormat := "Invalid export format. Supported: PNG, JPG, PDF"
  const NullInDesign := "null value in the export design"
  const NotAMap := "design is not a JSON object"

  // ------------------------------------------------------------------ create

  /** The checks and fields `createProject` shares in both editors: a blank name,
      then a missing or non-positive width, then height, are refused; the background
      defaults to white and the status is DRAFT. The design is filled in by the
      caller. */
  function NewProject(req: CreateRequest): (r: Result<Project>)
    ensures r.Ok? <==> !NullOrTrimEmpty(req.name) && req.width.Some? && req.width.value > 0
                       && req.height.Some? && req.height.value > 0
    ensures NullOrTrimEmpty(req.name) ==> r == Throw(IllegalArgument, NameRequired)
    ensures r.Err? ==> r.error.kind == IllegalArgument
    ensures r.Ok? ==> r.value == Project(req.name.value, req.width.value, req.height.value, req.background.GetOr(White),
                                         Draft, None, None, None)
  {
    if NullOrTrimEmpty(req.name) then Throw(IllegalArgument, NameRequired)
    else if req.width.None? || req.width.value <= 0 then Throw(IllegalArgument, BadWidth)
    else if req.height.None? || req.height.value <= 0 then Throw(IllegalArgument, BadHeight)
    else Ok(Project(req.name.value, req.width.value, req.height.value, req.background.GetOr(White),
                    Draft, None, None, None))
  }

  /** The initial design: version 1.0 and a single page with the project's canvas
      and no layers. */
  function InitialDoc(p: Project, pageId: string): Doc {
    Doc(Some(Version), Some([Page(Some(pageId), Some(Canvas(p.width, p.height, p.background)), Some([]))]))
  }

  /** `createProject`; the page id comes from the clock, and `write` is the JSON
      writer. */
  function CreateProject(req: CreateRequest, pageId: string, write: Doc -> string): (r: Result<Project>)
    ensures r.Ok? <==> NewProject(req).Ok?
    ensures r.Err? ==> r == NewProject(req)
    ensures r.Ok? ==> r.value.design == Some(write(InitialDoc(NewProject(req).value, pageId)))
                      && r.value == NewProject(req).value.(design := r.value.design)
  {
    var p :- NewProject(req);
    Ok(p.(design := Some(write(InitialDoc(p, pageId)))))
  }

  /** The initial design holds exactly one page, with the requested size and
      background and an empty layer list. */
  lemma InitialDesignHasOnePage(req: CreateRequest, pageId: string)
    requires NewProject(req).Ok?
    ensures var d := InitialDoc(NewProject(req).value, pageId);
            d.pages.Some? && |d.pages.value| == 1
            && d.pages.value[0].canvas == Some(Canvas(req.width.value, req.height.value, req.background.GetOr(White)))
            && d.pages.value[0].layers == Some([])
  {
  }

  // ------------------------------------------------------------------ update

  /** `updateProject`: a project the caller does not own is not found; the name
      changes only to a non-blank one, the design only to a text the JSON reader
      accepts, and an unreadable design refuses the whole update. */
  function UpdateProject(found: Option<Project>, name: Option<string>, design: Option<string>,
                         parse: string -> Parsed): (r: Result<Project>)
    ensures r.Ok? <==> found.Some? && (design.None? || !parse(design.value).Malformed?)
    ensures found.None? ==> r == Throw(IllegalArgument, NotFound)
    ensures r.Err? ==> r.error.kind == IllegalArgument
    ensures r.Ok? ==> r.value.name == (if NullOrTrimEmpty(name) then found.value.name else name.value)
    ensures r.Ok? ==> r.value.design == (if design.None? then found.value.design else design)
    ensures r.Ok? ==> r.value == found.value.(name := r.value.name, design := r.value.design)
  {
    var p :- if found.None? then Throw(IllegalArgument, NotFound) else Ok(found.value);
    var named := if NullOrTrimEmpty(name) then p else p.(name := name.value);
    if design.None? then Ok(named)
    else if parse(design.value).Malformed? then Throw(IllegalArgument, BadJson)
    else Ok(named.(design := design))
  }

  /** Sending the same update twice leaves the project as sending it once. */
  lemma UpdateIdempotent(found: Option<Project>, name: Option<string>, design: Option<string>, parse: string -> Parsed)
    requires UpdateProject(found, name, design, parse).Ok?
    ensures UpdateProject(Some(UpdateProject(found, name, design, parse).value), name, design, parse)
            == UpdateProject(found, name, design, parse)
  {
  }

  /** An update that carries neither a usable name nor a design changes nothing. */
  lemma EmptyUpdateKeepsProject(p: Project, name: Option<string>, parse: string -> Parsed)
    requires NullOrTrimEmpty(name)
    ensures UpdateProject(Some(p), name, None, parse) == Ok(p)
  {
  }

  // ------------------------------------------------------------------ export

  /** The requested format, upper-cased; PNG when none is given. */
  function Normalize(format: Option<string>): string {
    if format.Some? then Upper(format.value) else "PNG"
  }

  /** The formats the export accepts. */
  predicate Accepted(f: string) {
    f == "PNG" || f == "JPG" || f == "JPEG" || f == "PDF"
  }

  /** The requested page; page 0 when none is given. */
  function PageIndex(pageIndex: Option<int>): int {
    pageIndex.GetOr(0)
  }

  /** The stored design is present and not blank. */
  predicate HasDesign(p: Project) {
    p.design.Some? && Trim(p.design.value) != ""
  }

  /** The page at the requested index, when the parsed document has one. */
  predicate PageInRange(doc: Doc, pageIndex: Option<int>) {
    doc.pages.Some? && 0 <= PageIndex(pageIndex) < |doc.pages.value|
  }

  /** A page whose canvas and layers are present, of a document with a version. */
  predicate Complete(doc: Doc, page: Page) {
    doc.version.Some? && page.canvas.Some? && page.layers.Some?
  }

  /** Every check `exportProject` makes before the status changes, in its order:
      the row must exist, the design be present and not blank and read as an
      object (a non-object throws an I/O error, the JSON `null` a null-pointer
      error), the pages be present and non-empty, the index be in range, the
      single-page design have no null part (a null-pointer error from the map
      factory), and the upper-cased format be PNG, JPG, JPEG or PDF. The result is
      the row, the page to render and the format. */
  function Prepare(found: Option<Project>, parse: string -> Parsed, format: Option<string>, pageIndex: Option<int>)
    : (r: Result<(Project, Single, string)>)
    ensures found.None? ==> r == Throw(IllegalArgument, NotFound)
    ensures found.Some? && !HasDesign(found.value) ==> r == Throw(IllegalArgument, NoDesign)
    ensures r.Ok? <==>
              found.Some? && HasDesign(found.value) && parse(found.value.design.value).Object?
              && var doc := parse(found.value.design.value).doc;
                 doc.pages.Some? && doc.pages.value != [] && PageInRange(doc, pageIndex)
                 && Complete(doc, doc.pages.value[PageIndex(pageIndex)]) && Accepted(Normalize(format))
    ensures r.Ok? ==>
              var doc := parse(found.value.design.value).doc;
              doc.pages.Some? && 0 <= PageIndex(pageIndex) < |doc.pages.value|
              && var page := doc.pages.value[PageIndex(pageIndex)];
                 page.canvas.Some? && page.layers.Some? && doc.version.Some?
                 && r.value == (found.value, Single(doc.version.value, page.canvas.value, page.layers.value), Normalize(format))
  {
    var p :- if found.None? then Throw(IllegalArgument, NotFound) else Ok(found.value);
    if !HasDesign(p) then Throw(IllegalArgument, NoDesign)
    else match parse(p.design.value)
      case Malformed => Throw(IOFailure, BadJson)
      case NonObject => Throw(IOFailure, NotAMap)
      case NullValue => Throw(Runtime, NullInDesign)
      case Object(doc) =>
        if doc.pages.None? || doc.pages.value == [] then Throw(IllegalArgument, NoPages)
        else if !PageInRange(doc, pageIndex) then Throw(IllegalArgument, BadPage)
        else
          var page := doc.pages.value[PageIndex(pageIndex)];
          if !Complete(doc, page) then Throw(Runtime, NullInDesign)
          else if !Accepted(Normalize(format)) then Throw(IllegalArgument, BadFormat)
          else Ok((p, Single(doc.version.value, page.canvas.value, page.layers.value), Normalize(format)))
  }

  /** The part of an export after the checks: the row is saved PROCESSING, then the
      renderer runs; its relative path becomes the exported URL and the row
      COMPLETED, or the row is saved FAILED and the renderer's exception rethrown. */
  function Run(p: Project, format: string, rendered: Result<string>): (r: Attempt)
    ensures r.stored.Some?
    ensures r.error.None? <==> rendered.Ok?
    ensures rendered.Ok? ==> r.stored.value == p.(status := Completed, lastUrl := Some(Host + rendered.value),
                                                  lastFormat := Some(format))
    ensures rendered.Err? ==> r.stored.value == p.(status := Failed) && r.error == Some(rendered.error)
  {
    var processing := p.(status := Processing);
    match rendered
    case Ok(path) =>
      Attempt(Some(processing.(lastUrl := Some(Host + path), lastFormat := Some(format), status := Completed)), None)
    case Err(e) => Attempt(Some(processing.(status := Failed)), Some(e))
  }

  /** `exportProject`: the checks, then the run. `render` is the renderer, given the
      single-page design, the format and the quality. */
  function ExportProject(found: Option<Project>, parse: string -> Parsed, format: Option<string>, quality: Option<int>,
                         pageIndex: Option<int>, render: (Single, string, Option<int>) -> Result<string>): (r: Attempt)
    ensures r.stored.None? <==> found.None?
    ensures Prepare(found, parse, format, pageIndex).Err? ==>
              r == Attempt(found, Some(Prepare(found, parse, format, pageIndex).error))
    ensures Prepare(found, parse, format, pageIndex).Ok? ==>
              var (p, single, f) := Prepare(found, parse, format, pageIndex).value;
              r == Run(p, f, render(single, f, quality))
  {
    match Prepare(found, parse, format, pageIndex)
    case Err(e) => Attempt(found, Some(e))
    case Ok((p, single, f)) => Run(p, f, render(single, f, quality))
  }

  /** An export that gets past its checks never leaves the row PROCESSING: it is
      COMPLETED when the call returns and FAILED when the renderer threw; a refused
      export leaves the row untouched. */
  lemma ExportStatus(found: Option<Project>, parse: string -> Parsed, format: Option<string>, quality: Option<int>,
                     pageIndex: Option<int>, render: (Single, string, Option<int>) -> Result<string>)
    requires found.Some?
    ensures var r := ExportProject(found, parse, format, quality, pageIndex, render);
            r.stored.Some?
            && (Prepare(found, parse, format, pageIndex).Ok? ==> r.stored.value.status in {Completed, Failed})
            && (r.error.None? ==> r.stored.value.status == Completed && r.stored.value.lastFormat == Some(Normalize(format))
                                  && Accepted(Normalize(format)))
            && (Prepare(found, parse, format, pageIndex).Err? ==> r.stored == found && r.error.Some?)
  {
  }

  /** The format check ignores case: a format is accepted exactly when its lower-case
      form is png, jpg, jpeg or pdf. */
  lemma FormatIgnoresCase(format: string)
    ensures Accepted(Normalize(Some(format))) <==> Lower(format) in {"png", "jpg", "jpeg", "pdf"}
  {
    UpperLowerSame(format);
    LowerOfUpper(format);
    assert Lower("PNG") == "png" && Lower("JPG") == "jpg" && Lower("JPEG") == "jpeg" && Lower("PDF") == "pdf";
    assert Upper("png") == "PNG" && Upper("jpg") == "JPG" && Upper("jpeg") == "JPEG" && Upper("pdf") == "PDF";
  }

  /** Lower-casing after upper-casing forgets the upper-casing. */
  lemma LowerOfUpper(s: string)
    ensures Lower(Upper(s)) == Lower(s)
  {
    assert forall i :: 0 <= i < |s| ==> LowerChar(UpperChar(s[i])) == LowerChar(s[i]);
  }

  /** Upper-casing after lower-casing forgets the lower-casing. */
  lemma UpperLowerSame(s: string)
    ensures Upper(Lower(s)) == Upper(s)
  {
    assert forall i :: 0 <= i < |s| ==> UpperChar(LowerChar(s[i])) == UpperChar(s[i]);
  }

  /** Every accepted format reaches the renderer's export step as meant: PNG as is,
      JPG and JPEG flattened with the given quality or 90, PDF at 300 dpi. */
  lemma AcceptedFormatsExport(f: string, quality: Option<int>)
    requires Accepted(f)
    ensures f == "PNG" ==> ImageLayers.Export(Some(f), quality) == ImageLayers.AsIs
    ensures f in {"JPG", "JPEG"} ==> ImageLayers.Export(Some(f), quality) == ImageLayers.Flatten(quality.GetOr(90))
    ensures f == "PDF" ==> ImageLayers.Export(Some(f), quality) == ImageLayers.Density(300)
  {
    assert Lower("PNG") == "png";
    assert Lower("JPG") == "jpg";
    assert Lower("JPEG") == "jpeg";
    assert Lower("PDF") == "pdf";
  }

  /** A page index is usable exactly when it lies in [0, pages): a negative or
      too-large index is refused before anything is saved, whatever the format. */
  lemma PageIndexChecked(p: Project, parse: string -> Parsed, format: Option<string>, pageIndex: Option<int>)
    requires HasDesign(p) && parse(p.design.value).Object?
    requires var doc := parse(p.design.value).doc; doc.pages.Some? && doc.pages.value != []
    ensures var doc := parse(p.design.value).doc;
            !PageInRange(doc, pageIndex) <==> Prepare(Some(p), parse, format, pageIndex) == Throw(IllegalArgument, BadPage)
  {
    var doc := parse(p.design.value).doc;
    var r := Prepare(Some(p), parse, format, pageIndex);
    if PageInRange(doc, pageIndex) {
      ReasonsDiffer();
      assert r.Ok? || r.error.kind == Runtime || r.error.reason == BadFormat;
    }
  }

  lemma ReasonsDiffer()
    ensures BadPage != BadFormat
  {
    assert |BadPage| == 18;
  }

  /** The checks on a project just created: when the JSON writer and reader agree,
      page 0 yields version 1.0, the requested canvas and no layers, and any other
      page index is refused. */
  lemma FreshProjectPrepares(req: CreateRequest, pageId: string, write: Doc -> string, parse: string -> Parsed,
                             format: Option<string>, pageIndex: Option<int>)
    requires CreateProject(req, pageId, write).Ok?
    requires forall d :: parse(write(d)) == Object(d)
    requires forall d :: Trim(write(d)) != ""
    requires Accepted(Normalize(format))
    ensures var p := CreateProject(req, pageId, write).value;
            var single := Single(Version, Canvas(req.width.value, req.height.value, req.background.GetOr(White)), []);
            (PageIndex(pageIndex) == 0 ==> Prepare(Some(p), parse, format, pageIndex) == Ok((p, single, Normalize(format))))
            && (PageIndex(pageIndex) != 0 ==> Prepare(Some(p), parse, format, pageIndex) == Throw(IllegalArgument, BadPage))
  {
    var p := CreateProject(req, pageId, write).value;
    var d := InitialDoc(NewProject(req).value, pageId);
    assert p.design == Some(write(d));
    assert parse(write(d)) == Object(d);
    assert Trim(write(d)) != "";
  }

  /** A project just created exports its only page: the renderer receives version
      1.0, the requested canvas and no layers, and when it succeeds the row ends
      COMPLETED; any other page index is refused with the row untouched. */
  lemma FreshProjectExports(req: CreateRequest, pageId: string, write: Doc -> string, parse: string -> Parsed,
                            format: Option<string>, quality: Option<int>, pageIndex: Option<int>,
                            render: (Single, string, Option<int>) -> Result<string>)
    requires CreateProject(req, pageId, write).Ok?
    requires forall d :: parse(write(d)) == Object(d)
    requires forall d :: Trim(write(d)) != ""
    requires Accepted(Normalize(format))
    ensures var p := CreateProject(req, pageId, write).value;
            var single := Single(Version, Canvas(req.width.value, req.height.value, req.background.GetOr(White)), []);
            var r := ExportProject(Some(p), parse, format, quality, pageIndex, render);
            (PageIndex(pageIndex) == 0 && render(single, Normalize(format), quality).Ok? ==>
               r.error.None? && r.stored.value.status == Completed
               && r.stored.value.lastUrl == Some(Host + render(single, Normalize(format), quality).value))
            && (PageIndex(pageIndex) != 0 ==> r == Attempt(Some(p), Some(Error(IllegalArgument, BadPage))))
  {
    FreshProjectPrepares(req, pageId, write, parse, format, pageIndex);
  }
}

=== FILE: image_layers.dfy ===
/** What both image renderers share: a design's layers are composited onto the
    base canvas in ascending zIndex order, layers of an unknown type are skipped,
    shapes are drawn with the same defaults, and the export options follow the
    format. The ImageMagick calls are left out; a rendered image is modelled as
    the list of layers composited onto the canvas, in order. */
module ImageLayers {
  import opened Wrappers
  import opened Text
  import opened Sorting
  import Lists
  import JavaNum

  /** The part of a layer the compositing loop reads. */
  datatype Layer = Layer(id: string, kind: Option<string>, zIndex: Option<int>)

  /** The sort key: a missing zIndex counts as 0. */
  function ZKey(l: Layer): real {
    (if l.zIndex.Some? then l.zIndex.value else 0) as real
  }

  /** The layer types the renderer can draw, matched after lower-casing. */
  predicate Known(l: Layer) {
    l.kind.Some? && Lower(l.kind.value) in {"image", "text", "shape", "background"}
  }

  const NullType := "layer type is null"

  /** `processAndCompositeLayer`: the type is lower-cased (a null type throws);
      an unknown type hands the base image back; any other layer is drawn and
      composited on top. */
  function Composite(image: seq<Layer>, l: Layer): (r: Result<seq<Layer>>)
    ensures r.Err? <==> l.kind.None?
    ensures r.Ok? && !Known(l) ==> r.value == image
    ensures r.Ok? && Known(l) ==> r.value == image + [l]
  {
    if l.kind.None? then Throw(Runtime, NullType)
    else if Known(l) then Ok(image + [l])
    else Ok(image)
  }

  /** The loop over the sorted layers, each composited onto the previous result. */
  function CompositeAll(image: seq<Layer>, layers: seq<Layer>): (r: Result<seq<Layer>>)
    decreases |layers|
  {
    if layers == [] then Ok(image)
    else
      var next :- Composite(image, layers[0]);
      CompositeAll(next, layers[1..])
  }

  /** The loop composites exactly the known layers, in the order given, and throws
      exactly when some layer has no type. */
  lemma {:induction false} CompositeAllKeeps(image: seq<Layer>, layers: seq<Layer>)
    ensures CompositeAll(image, layers).Ok? <==> forall i :: 0 <= i < |layers| ==> layers[i].kind.Some?
    ensures CompositeAll(image, layers).Ok? ==> CompositeAll(image, layers).value == image + Lists.Keep(layers, Known)
    decreases |layers|
  {
    if layers != [] {
      var l := layers[0];
      var rest := layers[1..];
      assert layers == [l] + rest;
      Lists.KeepAppend([l], rest, Known);
      assert Lists.Keep([l], Known) == (if Known(l) then [l] else []) by {
        assert [l][..0] == [];
      }
      if l.kind.Some? {
        var next := Composite(image, l).value;
        CompositeAllKeeps(next, rest);
      }
    }
  }

  /** A subsequence of a sorted list is sorted. */
  lemma {:induction false} KeepSorted(s: seq<Layer>)
    requires SortedBy(s, ZKey)
    ensures SortedBy(Lists.Keep(s, Known), ZKey)
    decreases |s|
  {
    if |s| > 0 {
      var init := s[..|s| - 1];
      var last := s[|s| - 1];
      assert SortedBy(init, ZKey);
      KeepSorted(init);
      var k := Lists.Keep(init, Known);
      if Known(last) {
        assert forall y :: y in k ==> y in init;
        forall i, j | 0 <= i < j < |k + [last]|
          ensures ZKey((k + [last])[i]) <= ZKey((k + [last])[j])
        {
          if j == |k| {
            assert (k + [last])[i] == k[i];
            assert k[i] in init;
          }
        }
      }
    }
  }

  /** `renderDesign`'s ordering and compositing: the layers sorted stably by zIndex,
      then composited one by one. */
  function Render(layers: seq<Layer>): (r: Result<seq<Layer>>)
  {
    CompositeAll([], SortBy(layers, ZKey))
  }

  /** The rendered image holds every known layer and no other, in ascending zIndex
      order; the call throws exactly when a layer has no type. */
  lemma RenderLaws(layers: seq<Layer>)
    ensures Render(layers).Ok? <==> forall i :: 0 <= i < |layers| ==> layers[i].kind.Some?
    ensures Render(layers).Ok? ==> SortedBy(Render(layers).value, ZKey)
    ensures Render(layers).Ok? ==> forall l :: l in Render(layers).value <==> l in layers && Known(l)
  {
    var sorted := SortBy(layers, ZKey);
    CompositeAllKeeps([], sorted);
    SameLayers(layers, sorted);
    KeepSorted(sorted);
    var kept := Lists.Keep(sorted, Known);
    assert [] + kept == kept;
  }

  /** Two orderings of the same layers hold the same layers, and the same untyped
      ones. */
  lemma SameLayers(a: seq<Layer>, b: seq<Layer>)
    requires multiset(a) == multiset(b)
    ensures forall l :: l in a <==> l in b
    ensures (forall i :: 0 <= i < |a| ==> a[i].kind.Some?) <==> (forall i :: 0 <= i < |b| ==> b[i].kind.Some?)
  {
    forall l
      ensures l in a <==> l in b
    {
      assert l in a <==> l in multiset(a);
      assert l in b <==> l in multiset(b);
    }
    if exists i :: 0 <= i < |a| && a[i].kind.None? {
      var i :| 0 <= i < |a| && a[i].kind.None?;
      assert a[i] in b;
    }
    if exists i :: 0 <= i < |b| && b[i].kind.None? {
      var i :| 0 <= i < |b| && b[i].kind.None?;
      assert b[i] in a;
    }
  }

  /** When every layer is known, layers with equal zIndex keep their relative
      order from the design. */
  lemma RenderStable(layers: seq<Layer>, z: int)
    requires forall i :: 0 <= i < |layers| ==> Known(layers[i])
    ensures Render(layers).Ok?
    ensures Select(Render(layers).value, ZKey, z as real) == Select(layers, ZKey, z as real)
  {
    var sorted := SortBy(layers, ZKey);
    CompositeAllKeeps([], sorted);
    forall i | 0 <= i < |sorted|
      ensures Known(sorted[i])
    {
      var x := sorted[i];
      assert x in multiset(sorted);
      assert x in layers;
    }
    Lists.KeepAll(sorted, Known);
    assert [] + sorted == sorted;
    assert Render(layers).value == sorted;
    SortByStable(layers, ZKey, z as real);
  }

  // ------------------------------------------------------------------ shapes

  /** The shape fields of a layer; sizes are doubles in the design. */
  datatype ShapeSpec = ShapeSpec(width: Option<real>, height: Option<real>, fill: Option<string>,
                                 stroke: Option<string>, strokeWidth: Option<int>, shape: Option<string>,
                                 borderRadius: Option<int>)

  /** What gets drawn inside the shape's own canvas. */
  datatype Draw = Rectangle | RoundRectangle(radius: int) | Circle(radius: int) | Ellipse(rx: int, ry: int) | Triangle

  /** The shape canvas, its fill, the outline (colour and width) if any, and the
      figure. */
  datatype ShapeImage = ShapeImage(width: int, height: int, fill: string, stroke: Option<(string, int)>, draw: Draw)

  const Black := "#000000"

  /** `processShapeLayer`: 100×100 and black unless given; the outline only with a
      colour and a positive width; the figure picked by the lower-cased shape name,
      a rectangle by default. */
  function RenderShape(s: ShapeSpec): (r: ShapeImage)
    ensures r.width == (if s.width.Some? then JavaNum.IntCast(s.width.value) else 100)
    ensures r.height == (if s.height.Some? then JavaNum.IntCast(s.height.value) else 100)
    ensures r.fill == s.fill.GetOr(Black)
    ensures r.stroke.Some? <==> s.stroke.Some? && s.strokeWidth.GetOr(0) > 0
    ensures r.stroke.Some? ==> r.stroke.value == (s.stroke.value, s.strokeWidth.value)
  {
    var w := if s.width.Some? then JavaNum.IntCast(s.width.value) else 100;
    var h := if s.height.Some? then JavaNum.IntCast(s.height.value) else 100;
    var sw := s.strokeWidth.GetOr(0);
    var stroke := if s.stroke.Some? && sw > 0 then Some((s.stroke.value, sw)) else None;
    var name := if s.shape.Some? then Lower(s.shape.value) else "rectangle";
    var draw :=
      if name == "rectangle" then
        (if s.borderRadius.Some? && s.borderRadius.value > 0 then RoundRectangle(s.borderRadius.value) else Rectangle)
      else if name == "circle" then Circle(JavaNum.Div(if w < h then w else h, 2))
      else if name == "ellipse" then Ellipse(JavaNum.Div(w, 2), JavaNum.Div(h, 2))
      else if name == "triangle" then Triangle
      else Rectangle;
    ShapeImage(w, h, s.fill.GetOr(Black), stroke, draw)
  }

  /** A layer that sets nothing is a black 100×100 square without outline. */
  lemma ShapeDefaults()
    ensures RenderShape(ShapeSpec(None, None, None, None, None, None, None)) == ShapeImage(100, 100, Black, None, Rectangle)
  {
  }

  /** A circle, centred at (r, r) through (r, 0), fits its canvas: its diameter is
      at most the smaller side. */
  lemma CircleFits(s: ShapeSpec)
    requires RenderShape(s).draw.Circle?
    ensures var r := RenderShape(s);
            var d := 2 * r.draw.radius;
            r.width >= 0 && r.height >= 0 ==> 0 <= d <= r.width && d <= r.height
  {
  }

  /** A shape name the renderer does not know is drawn as a plain rectangle, even
      with a border radius. */
  lemma UnknownShapeIsRectangle(s: ShapeSpec)
    requires s.shape.Some? && Lower(s.shape.value) !in {"rectangle", "circle", "ellipse", "triangle"}
    ensures RenderShape(s).draw == Rectangle
  {
  }

  // ------------------------------------------------------------------ export

  /** How the final image is written: flattened on white with a JPEG quality,
      at 300 dpi for PDF, or as is. */
  datatype ExportOptions = Flatten(quality: int) | Density(dpi: nat) | AsIs

  /** `exportFinalImage`: the format is compared ignoring case; a JPEG export uses
      the given quality or 90. */
  function Export(format: Option<string>, quality: Option<int>): (r: ExportOptions)
    ensures r.Flatten? <==> format.Some? && (EqualsIgnoreCase(format.value, "JPG") || EqualsIgnoreCase(format.value, "JPEG"))
    ensures r.Flatten? ==> r.quality == quality.GetOr(90)
    ensures r.Density? <==> format.Some? && !r.Flatten? && EqualsIgnoreCase(format.value, "PDF")
    ensures r.Density? ==> r.dpi == 300
  {
    if format.Some? && (EqualsIgnoreCase(format.value, "JPG") || EqualsIgnoreCase(format.value, "JPEG")) then
      Flatten(quality.GetOr(90))
    else if format.Some? && EqualsIgnoreCase(format.value, "PDF") then Density(300)
    else AsIs
  }
}

=== FILE: image_render.dfy ===
/** The image editor's renderer (the `imageservice` one): where a text layer's
    text is anchored, how its displayed text is transformed, the padding that
    keeps underlines and background borders inside the text canvas, and how
    multi-colour text is split into coloured and default-coloured pieces. Font
    measurement and the ImageMagick calls are left out. */
module ImageRender {
  import opened Wrappers
  import opened Text
  import opened Sorting
  import JavaNum

  // ------------------------------------------------------------------ gravity

  datatype Row = Top | Middle | Bottom
  datatype Column = Left | Centre | Right

  /** ImageMagick's nine anchor points. */
  datatype Gravity = NorthWest | North | NorthEast | West | Center | East | SouthWest | South | SouthEast

  /** The row named by `verticalAlign`, lower-cased, `middle` when absent or
      unrecognised. */
  function RowOf(verticalAlign: Option<string>): Row {
    var v := Lower(verticalAlign.GetOr("middle"));
    if v == "top" then Top else if v == "bottom" then Bottom else Middle
  }

  /** The column named by `textAlign`, lower-cased, `center` when absent or
      unrecognised. */
  function ColumnOf(textAlign: Option<string>): Column {
    var h := Lower(textAlign.GetOr("center"));
    if h == "left" then Left else if h == "right" then Right else Centre
  }

  /** The compass table: rows north to south, columns west to east. */
  function Place(row: Row, column: Column): Gravity {
    match (row, column)
    case (Top, Left) => NorthWest
    case (Top, Centre) => North
    case (Top, Right) => NorthEast
    case (Middle, Left) => West
    case (Middle, Centre) => Center
    case (Middle, Right) => East
    case (Bottom, Left) => SouthWest
    case (Bottom, Centre) => South
    case (Bottom, Right) => SouthEast
  }

  /** `processTextLayer`'s combined gravity: the vertical alignment picks a switch
      on the horizontal one. */
  function TextGravity(textAlign: Option<string>, verticalAlign: Option<string>): (g: Gravity) {
    var h := Lower(textAlign.GetOr("center"));
    var v := Lower(verticalAlign.GetOr("middle"));
    if v == "top" then (if h == "left" then NorthWest else if h == "right" then NorthEast else North)
    else if v == "bottom" then (if h == "left" then SouthWest else if h == "right" then SouthEast else South)
    else (if h == "left" then West else if h == "right" then East else Center)
  }

  /** The gravity is the compass point of the requested row and column, so the
      mapping is total, and no two (row, column) pairs share a gravity. */
  lemma GravityIsCompass(textAlign: Option<string>, verticalAlign: Option<string>)
    ensures TextGravity(textAlign, verticalAlign) == Place(RowOf(verticalAlign), ColumnOf(textAlign))
    ensures TextGravity(None, None) == Center
  {
    DefaultsAreLower();
  }

  lemma DefaultsAreLower()
    ensures Lower("center") == "center" && Lower("middle") == "middle"
  {
    assert forall i :: 0 <= i < 6 ==> LowerChar("center"[i]) == "center"[i];
    assert forall i :: 0 <= i < 6 ==> LowerChar("middle"[i]) == "middle"[i];
  }

  lemma PlaceInjective(r1: Row, c1: Column, r2: Row, c2: Column)
    requires Place(r1, c1) == Place(r2, c2)
    ensures r1 == r2 && c1 == c2
  {
  }

  // ------------------------------------------------------------------ text

  const DefaultFontSize := 32
  const DefaultText := "Text"

  /** One word of `capitalize`: the first character upper-cased, the rest
      lower-cased. */
  function CapWord(w: string): (r: string)
    ensures |r| == |w|
  {
    if w == "" then "" else [UpperChar(w[0])] + Lower(w[1..])
  }

  function CapWords(ws: seq<string>): (r: seq<string>)
    ensures |r| == |ws|
    ensures forall i :: 0 <= i < |ws| ==> r[i] == CapWord(ws[i])
  {
    if ws == [] then [] else [CapWord(ws[0])] + CapWords(ws[1..])
  }

  /** `capitalize`: split at runs of whitespace, each word capitalised, joined with
      single spaces. */
  function Capitalize(s: string): (r: string) {
    Join(CapWords(JavaSplitSpaces(s)), " ")
  }

  /** A capitalised word is its own capitalisation. */
  lemma CapWordIdempotent(w: string)
    ensures CapWord(CapWord(w)) == CapWord(w)
  {
    if w != "" {
      var c := CapWord(w);
      assert c[0] == UpperChar(w[0]);
      assert c[1..] == Lower(w[1..]);
      LowerIdempotent(w[1..]);
    }
  }

  /** Capitalising a word changes only letter case. */
  lemma CapWordLower(w: string)
    ensures Lower(CapWord(w)) == Lower(w)
  {
    if w != "" {
      LowerAppend([UpperChar(w[0])], Lower(w[1..]));
      LowerIdempotent(w[1..]);
      LowerAppend([w[0]], w[1..]);
      assert [w[0]] + w[1..] == w;
    }
  }

  /** `capitalize` changes nothing but letter case and the whitespace between
      words: lower-cased, it is the words joined with single spaces. */
  lemma CapitalizeChangesOnlyCase(s: string)
    ensures Lower(Capitalize(s)) == Lower(Join(JavaSplitSpaces(s), " "))
    ensures |Capitalize(s)| == |Join(JavaSplitSpaces(s), " ")|
  {
    JoinLower(JavaSplitSpaces(s));
  }

  lemma {:induction false} JoinLower(ws: seq<string>)
    ensures Lower(Join(CapWords(ws), " ")) == Lower(Join(ws, " "))
    decreases |ws|
  {
    if |ws| == 1 {
      CapWordLower(ws[0]);
    } else if |ws| > 1 {
      var c := CapWords(ws);
      assert c[1..] == CapWords(ws[1..]);
      JoinLower(ws[1..]);
      CapWordLower(ws[0]);
      LowerAppend(c[0] + " ", Join(c[1..], " "));
      LowerAppend(c[0], " ");
      LowerAppend(ws[0] + " ", Join(ws[1..], " "));
      LowerAppend(ws[0], " ");
    }
  }

  /** The displayed text: the text or `Text`, then the transform, compared ignoring
      case. */
  function DisplayedText(text: Option<string>, transform: Option<string>): (r: string)
    ensures transform.None? ==> r == text.GetOr(DefaultText)
  {
    var t := text.GetOr(DefaultText);
    if transform.None? then t
    else if EqualsIgnoreCase(transform.value, "uppercase") then Upper(t)
    else if EqualsIgnoreCase(transform.value, "lowercase") then Lower(t)
    else if EqualsIgnoreCase(transform.value, "capitalize") then Capitalize(t)
    else t
  }

  /** Every transform keeps the text the same up to letter case, except that
      `capitalize` also normalises the whitespace. */
  lemma TransformKeepsLetters(text: Option<string>, transform: Option<string>)
    requires transform.Some? && !EqualsIgnoreCase(transform.value, "capitalize")
    ensures Lower(DisplayedText(text, transform)) == Lower(text.GetOr(DefaultText))
  {
    var t := text.GetOr(DefaultText);
    LowerIdempotent(t);
    UpperLower(t);
  }

  lemma UpperLower(s: string)
    ensures Lower(Upper(s)) == Lower(s)
  {
    assert forall i :: 0 <= i < |s| ==> LowerChar(UpperChar(s[i])) == LowerChar(s[i]);
  }

  // ------------------------------------------------------------------ padding

  function Max(a: int, b: int): int { if a >= b then a else b }

  predicate Underlined(decoration: Option<string>) {
    decoration.Some? && EqualsIgnoreCase(decoration.value, "underline")
  }

  /** The room below the text an underline needs: a quarter of the font size, at
      least 8 pixels. */
  function UnderlinePadding(decoration: Option<string>, fontSize: Option<int>): (p: int)
    ensures Underlined(decoration) ==> p >= 8
    ensures !Underlined(decoration) ==> p == 0
  {
    if Underlined(decoration) then Max(8, JavaNum.Div(fontSize.GetOr(DefaultFontSize), 4)) else 0
  }

  /** The width of an underline or strike-through: a sixteenth of the font size,
      at least 2. */
  function DecorationStroke(fontSize: Option<int>): (w: int)
    ensures w >= 2
  {
    Max(2, JavaNum.Div(fontSize.GetOr(DefaultFontSize), 16))
  }

  /** The gap between the text and its underline: a tenth of the font size, at
      least 3. */
  function UnderlineGap(fontSize: Option<int>): (g: int)
    ensures g >= 3
  {
    Max(3, JavaNum.Div(fontSize.GetOr(DefaultFontSize), 10))
  }

  /** The default size gives an 8-pixel pad, a 2-pixel line and a 3-pixel gap; from
      32 points up the pad is exactly a quarter of the size, and every measure
      grows with the font. The line is never wider than the gap above it. */
  lemma DecorationMeasures(decoration: Option<string>, f1: int, f2: int)
    requires Underlined(decoration) && f1 <= f2
    ensures UnderlinePadding(decoration, None) == 8 && DecorationStroke(None) == 2 && UnderlineGap(None) == 3
    ensures f1 >= 32 ==> UnderlinePadding(decoration, Some(f1)) == f1 / 4
    ensures UnderlinePadding(decoration, Some(f1)) <= UnderlinePadding(decoration, Some(f2))
    ensures DecorationStroke(Some(f1)) <= DecorationStroke(Some(f2))
    ensures UnderlineGap(Some(f1)) <= UnderlineGap(Some(f2))
    ensures DecorationStroke(Some(f1)) <= UnderlineGap(Some(f1))
  {
    DivMonotone(f1, f2, 4);
    DivMonotone(f1, f2, 16);
    DivMonotone(f1, f2, 10);
    if f1 >= 0 {
      DivisorMonotone(f1, 10, 16);
    }
  }

  lemma DivMonotone(a: int, b: int, d: int)
    requires a <= b && d > 0
    ensures JavaNum.Div(a, d) <= JavaNum.Div(b, d)
  {
    if a >= 0 {
      assert JavaNum.Div(a, d) == a / d && JavaNum.Div(b, d) == b / d;
      NatDivMonotone(a, b, d);
    } else if b < 0 {
      assert JavaNum.Div(a, d) == -((-a) / d) && JavaNum.Div(b, d) == -((-b) / d);
      NatDivMonotone(-b, -a, d);
    } else {
      assert JavaNum.Div(a, d) == -((-a) / d) && JavaNum.Div(b, d) == b / d;
      NatDivMonotone(0, -a, d);
      NatDivMonotone(0, b, d);
    }
  }

  lemma MulMonotone(x: int, y: int, d: int)
    requires x <= y && d >= 0
    ensures x * d <= y * d
  {
    assert y * d - x * d == (y - x) * d;
  }

  /** A multiple of `d` not above `a` is at most `a / d` times `d`. */
  lemma DivBound(q: int, a: nat, d: int)
    requires d > 0 && q * d <= a
    ensures q <= a / d
  {
    if q > a / d {
      MulMonotone(a / d + 1, q, d);
    }
  }

  lemma NatDivMonotone(a: nat, b: nat, d: int)
    requires a <= b && d > 0
    ensures a / d <= b / d
  {
    DivBound(a / d, b, d);
  }

  /** A larger divisor gives a smaller quotient. */
  lemma DivisorMonotone(a: nat, d1: int, d2: int)
    requires 0 < d1 <= d2
    ensures a / d2 <= a / d1
  {
    MulMonotone(d1, d2, a / d2);
    assert a / d2 * d1 == d1 * (a / d2);
    DivBound(a / d2, a, d1);
  }

  /** The sizes of a single-colour text layer's canvas and of its background box. */
  datatype TextCanvas = TextCanvas(width: int, height: int, boxLeft: int, boxTop: int, boxRight: int, boxBottom: int, stroke: int)

  /** `processTextLayer`'s canvas: the box is the background size when one is set
      (positive), otherwise the estimate from the text; the canvas adds the
      underline room below and the border width twice on every side; the box is
      drawn from (bw, bw), bw being the border width. */
  function LayoutText(estimatedWidth: int, estimatedHeight: int, backgroundWidth: Option<real>, backgroundHeight: Option<real>,
                      decoration: Option<string>, fontSize: Option<int>, borderWidth: Option<int>): (c: TextCanvas)
    ensures c.width - c.boxRight - 1 == c.boxLeft && c.boxLeft == c.stroke
    ensures c.height - c.boxBottom - 1 >= c.boxTop && c.boxTop == c.stroke
  {
    var w := if backgroundWidth.Some? && backgroundWidth.value > 0.0 then JavaNum.IntCast(backgroundWidth.value) else estimatedWidth;
    var h := if backgroundHeight.Some? && backgroundHeight.value > 0.0 then JavaNum.IntCast(backgroundHeight.value) else estimatedHeight;
    var under := UnderlinePadding(decoration, fontSize);
    var bw := borderWidth.GetOr(0);
    var boxHeight := if backgroundHeight.Some? && backgroundHeight.value > 0.0 then h else h + under;
    TextCanvas(w + 2 * bw, h + under + 2 * bw, bw, bw, w + bw - 1, boxHeight + bw - 1, bw)
  }

  /** The background border stays inside the canvas: the box starts one border
      width in and, with a non-negative border, the half of the stroke outside the
      box edge still lands on the canvas on all four sides. */
  lemma BorderInsideCanvas(estimatedWidth: int, estimatedHeight: int, backgroundWidth: Option<real>, backgroundHeight: Option<real>,
                           decoration: Option<string>, fontSize: Option<int>, borderWidth: Option<int>)
    requires borderWidth.GetOr(0) >= 0
    ensures var c := LayoutText(estimatedWidth, estimatedHeight, backgroundWidth, backgroundHeight, decoration, fontSize, borderWidth);
            var half := c.stroke / 2;
            0 <= c.boxLeft - half && c.boxRight + half < c.width
            && 0 <= c.boxTop - half && c.boxBottom + half < c.height
  {
  }

  // ------------------------------------------------------------------ colours

  /** A coloured range of the layer's text, as the design gives it. */
  datatype Run = Run(text: string, color: Option<string>, start: int, end: int)

  /** One call that draws text in one colour. */
  datatype Piece = Piece(text: string, color: Option<string>)

  function StartKey(r: Run): real { r.start as real }

  const BadRange := "substring out of range"

  /** The loop of `processMultiColorText` from the range ending at `last`: the text
      before each run in the default `ink` (Java's `substring` throws on a bad
      range), the run's own text in its colour, and finally the rest of the text. */
  function Paint(runs: seq<Run>, full: string, last: int, ink: string): (r: Result<seq<Piece>>)
    decreases |runs|
  {
    if runs == [] then
      if last < |full| then
        if last < 0 then Throw(Runtime, BadRange) else Ok([Piece(full[last..], Some(ink))])
      else Ok([])
    else
      var run := runs[0];
      var gap :- if run.start > last then
                   (if last < 0 || run.start > |full| then Throw(Runtime, BadRange)
                    else Ok([Piece(full[last..run.start], Some(ink))]))
                 else Ok([]);
      var rest :- Paint(runs[1..], full, run.end, ink);
      Ok(gap + [Piece(run.text, run.color)] + rest)
  }

  /** The runs, from `last` on, lie in order inside the text without overlapping,
      each carrying the text of its range. */
  predicate Tiles(runs: seq<Run>, full: string, last: int)
    decreases |runs|
  {
    if runs == [] then 0 <= last <= |full|
    else
      var run := runs[0];
      0 <= last <= run.start <= run.end <= |full| && run.text == full[run.start..run.end]
      && Tiles(runs[1..], full, run.end)
  }

  function Texts(pieces: seq<Piece>): string {
    if pieces == [] then "" else pieces[0].text + Texts(pieces[1..])
  }

  lemma {:induction false} TextsAppend(a: seq<Piece>, b: seq<Piece>)
    ensures Texts(a + b) == Texts(a) + Texts(b)
    decreases |a|
  {
    if a != [] {
      assert (a + b)[1..] == a[1..] + b;
      TextsAppend(a[1..], b);
    } else {
      assert a + b == b;
    }
  }

  /** Runs that tile the text are drawn without error, and the pieces, read in
      order, spell out the text from `last` exactly once. */
  lemma {:induction false} PaintCovers(runs: seq<Run>, full: string, last: int, ink: string)
    requires Tiles(runs, full, last)
    ensures Paint(runs, full, last, ink).Ok?
    ensures Texts(Paint(runs, full, last, ink).value) == full[last..]
    decreases |runs|
  {
    if runs == [] {
      if last < |full| {
        assert Texts([Piece(full[last..], Some(ink))]) == full[last..];
      }
    } else {
      PaintCovers(runs[1..], full, runs[0].end, ink);
      PaintStep(runs, full, last, ink);
    }
  }

  /** One run: the gap before it, the run, and the pieces after it spell the text
      from `last`, given that the pieces after it spell the text from its end. */
  lemma PaintStep(runs: seq<Run>, full: string, last: int, ink: string)
    requires runs != [] && Tiles(runs, full, last)
    requires Paint(runs[1..], full, runs[0].end, ink).Ok?
    requires Texts(Paint(runs[1..], full, runs[0].end, ink).value) == full[runs[0].end..]
    ensures Paint(runs, full, last, ink).Ok?
    ensures Texts(Paint(runs, full, last, ink).value) == full[last..]
  {
    var run := runs[0];
    var rest := Paint(runs[1..], full, run.end, ink).value;
    var gap := if run.start > last then [Piece(full[last..run.start], Some(ink))] else [];
    assert Paint(runs, full, last, ink) == Ok(gap + [Piece(run.text, run.color)] + rest);
    TextsAppend(gap + [Piece(run.text, run.color)], rest);
    TextsAppend(gap, [Piece(run.text, run.color)]);
    assert Texts([Piece(run.text, run.color)]) == run.text;
    assert Texts(gap) == full[last..run.start];
    assert full[last..] == full[last..run.start] + full[run.start..run.end] + full[run.end..];
  }

  /** `processMultiColorText`: the runs sorted stably by start index, the text
      defaulting to empty and the default colour to black. */
  function MultiColour(full: Option<string>, runs: seq<Run>, color: Option<string>): (r: Result<seq<Piece>>) {
    Paint(SortBy(runs, StartKey), full.GetOr(""), 0, color.GetOr("#000000"))
  }

  /** Runs that, once sorted, tile the text are rendered with every uncoloured gap
      and the tail filled in the default colour: together the pieces spell the
      whole text. */
  lemma MultiColourCovers(full: string, runs: seq<Run>, color: Option<string>)
    requires Tiles(SortBy(runs, StartKey), full, 0)
    ensures MultiColour(Some(full), runs, color).Ok?
    ensures Texts(MultiColour(Some(full), runs, color).value) == full
  {
    PaintCovers(SortBy(runs, StartKey), full, 0, color.GetOr("#000000"));
  }

  /** Without any run the whole text is one default-coloured piece. */
  lemma NoRunsOnePiece(full: string, ink: string)
    requires full != ""
    ensures Paint([], full, 0, ink) == Ok([Piece(full, Some(ink))])
  {
    assert full[0..] == full;
  }
}

=== FILE: image_segment.dfy ===
/** An image (or design element) on the timeline, with its natural size, an
    optional custom size, crops and keyframes. */
module ImageSegments {
  import opened Wrappers
  import opened JavaNum
  import opened Sorting
  import opened Keyframes

  datatype ImageSegment = ImageSegment(
    id: string,
    imagePath: string,
    layer: int,
    positionX: Option<int>,
    positionY: Option<int>,
    scale: Option<real>,
    opacity: Option<real>,
    timelineStartTime: real,
    timelineEndTime: real,
    width: int,
    height: int,
    customWidth: int,
    customHeight: int,
    maintainAspectRatio: bool,
    isElement: bool,
    cropL: real,
    cropR: real,
    cropT: real,
    cropB: real,
    keyframes: KeyframeMap)

  predicate CropsValid(s: ImageSegment) {
    0.0 <= s.cropL <= 100.0 && 0.0 <= s.cropR <= 100.0
    && 0.0 <= s.cropT <= 100.0 && 0.0 <= s.cropB <= 100.0
    && s.cropL + s.cropR < 100.0 && s.cropT + s.cropB < 100.0
  }

  /** Field defaults, with the fresh UUID passed in. */
  function New(id: string): (s: ImageSegment)
    ensures s.id == id && s.maintainAspectRatio
    ensures s.scale == Some(1.0) && s.opacity == Some(1.0)
    ensures CropsValid(s) && s.cropL + s.cropR + s.cropT + s.cropB == 0.0
    ensures s.keyframes == map[]
  {
    ImageSegment(id, "", 0, Some(0), Some(0), Some(1.0), Some(1.0), 0.0, 0.0, 0, 0, 0, 0,
                 true, false, 0.0, 0.0, 0.0, 0.0, map[])
  }

  /** `customSize` when positive, else the natural size times the scale (null scale
      counting as 1), narrowed to `int` as Java's cast does. */
  function EffectiveSize(custom: int, natural: int, scale: Option<real>): (r: int)
    ensures custom > 0 ==> r == custom
    ensures custom <= 0 ==> r == IntCast(natural as real * scale.GetOr(1.0))
    ensures custom <= 0 && natural >= 0 && scale.GetOr(1.0) >= 0.0 && IsInt(natural) ==>
              0 <= r && r as real <= natural as real * scale.GetOr(1.0)
  {
    if custom > 0 then custom else IntCast(natural as real * scale.GetOr(1.0))
  }

  function EffectiveWidth(s: ImageSegment): int {
    EffectiveSize(s.customWidth, s.width, s.scale)
  }

  function EffectiveHeight(s: ImageSegment): int {
    EffectiveSize(s.customHeight, s.height, s.scale)
  }

  /** Without a custom size and at unit (or null) scale, the effective size is the
      natural size. */
  lemma EffectiveSizeUnscaled(s: ImageSegment)
    requires s.customWidth <= 0 && s.customHeight <= 0
    requires s.scale.None? || s.scale == Some(1.0)
    requires IsInt(s.width) && IsInt(s.height)
    ensures EffectiveWidth(s) == s.width && EffectiveHeight(s) == s.height
  {
    assert s.width as real * s.scale.GetOr(1.0) == s.width as real;
    assert s.height as real * s.scale.GetOr(1.0) == s.height as real;
    IntCastOfInt(s.width);
    IntCastOfInt(s.height);
  }

  /** A positive custom size wins over any scale. */
  lemma EffectiveSizeCustom(s: ImageSegment, scale: Option<real>)
    requires s.customWidth > 0
    ensures EffectiveWidth(s.(scale := scale)) == EffectiveWidth(s) == s.customWidth
  {
  }

  function AddKeyframe(s: ImageSegment, p: string, k: Keyframe): (r: ImageSegment)
    ensures r == s.(keyframes := r.keyframes)
    ensures r.keyframes.Keys == s.keyframes.Keys + {p}
    ensures SortedBy(r.keyframes[p], Time) && k in r.keyframes[p]
    ensures forall j :: j in r.keyframes[p] && j != k ==> !Near(j.time, k.time)
    ensures forall j :: j in r.keyframes[p] <==> j == k || (j in ListOf(s.keyframes, p) && !Near(j.time, k.time))
    ensures forall q :: q in s.keyframes && q != p ==> r.keyframes[q] == s.keyframes[q]
  {
    s.(keyframes := Add(s.keyframes, p, k))
  }

  function RemoveKeyframe(s: ImageSegment, p: string, t: real): (r: ImageSegment)
    ensures r == s.(keyframes := r.keyframes)
    ensures r.keyframes.Keys == s.keyframes.Keys
    ensures forall q :: q in s.keyframes && q != p ==> r.keyframes[q] == s.keyframes[q]
    ensures p in s.keyframes ==> forall j :: j in r.keyframes[p] <==> j in s.keyframes[p] && !Near(j.time, t)
  {
    s.(keyframes := Remove(s.keyframes, p, t))
  }
}

=== FILE: java_num.dfy ===
/** Java's 32-bit integer semantics where the editor depends on them: the `int`
    range, two's-complement wrap-around, `/` truncating toward zero and the
    narrowing cast `(int)` from `double`. */
module JavaNum {

  const IntMin: int := -0x8000_0000
  const IntMax: int := 0x7FFF_FFFF
  const Modulus: int := 0x1_0000_0000

  predicate IsInt(x: int) { IntMin <= x <= IntMax }

  /** The value a Java `int` expression holds when the mathematical result is `x`. */
  function Wrap(x: int): (r: int)
    ensures IsInt(r)
    ensures (x - r) % Modulus == 0
    ensures IsInt(x) ==> r == x
  {
    (x - IntMin) % Modulus + IntMin
  }

  /** Java `a / b` for a positive divisor: the quotient rounded toward zero. */
  function Div(a: int, b: int): (q: int)
    requires b > 0
    ensures a >= 0 ==> q * b <= a < q * b + b
    ensures a < 0 ==> q * b - b < a <= q * b
  {
    if a >= 0 then a / b else -((-a) / b)
  }

  /** Division toward zero is symmetric under negation, unlike Dafny's `/`. */
  lemma DivNegate(a: int, b: int)
    requires b > 0
    ensures Div(-a, b) == -Div(a, b)
  {
    if a > 0 {
      assert -a < 0;
    } else if a < 0 {
      assert -(-a) == a;
    }
  }

  /** The real number rounded toward zero. */
  function Truncate(x: real): (r: int)
    ensures x >= 0.0 ==> r as real <= x < r as real + 1.0
    ensures x < 0.0 ==> r as real - 1.0 < x <= r as real
  {
    if x >= 0.0 then x.Floor else -((-x).Floor)
  }

  /** Java `(int) d`: rounds toward zero and saturates at the ends of the `int` range. */
  function IntCast(x: real): (r: int)
    ensures IsInt(r)
    ensures IntMin as real <= x < IntMax as real + 1.0 ==> r == Truncate(x)
    ensures x >= IntMax as real ==> r == IntMax
    ensures x <= IntMin as real ==> r == IntMin
  {
    var t := Truncate(x);
    if t > IntMax then IntMax else if t < IntMin then IntMin else t
  }

  /** Casting an `int` that was widened to `double` gives it back. */
  lemma IntCastOfInt(n: int)
    requires IsInt(n)
    ensures IntCast(n as real) == n
  {
    assert Truncate(n as real) == n;
  }

  /** `Integer.valueOf` shares one boxed object per value only for these values. */
  predicate InBoxCache(x: int) { -128 <= x <= 127 }

  /** Java `==` between two boxed `Integer`s: it compares the objects, so two equal
      values boxed separately are the same object only inside the cache. */
  predicate BoxedSame(a: int, b: int) { a == b && InBoxCache(a) }

  /** `v % 2 == 0 ? v : v + 1` with the sum taken without overflow: the least even
      number not below `v`. Java's `%` and Dafny's agree on whether a number is even. */
  function EvenUp(v: int): (r: int)
    ensures r % 2 == 0 && v <= r <= v + 1
    ensures v % 2 == 0 ==> r == v
  {
    if v % 2 == 0 then v else v + 1
  }

  /** The same in `int` arithmetic, as the editor writes it: the sum wraps. */
  function EvenUpWrapping(v: int): (r: int)
    requires IsInt(v)
    ensures IsInt(r)
    ensures v < IntMax ==> r == EvenUp(v)
  {
    if v % 2 == 0 then v else Wrap(v + 1)
  }

  /** The one `int` where the two differ: the largest, which is odd, wraps to the
      most negative. */
  lemma EvenUpWrapsAtMax()
    ensures EvenUp(IntMax) == IntMax + 1
    ensures EvenUpWrapping(IntMax) == IntMin < 0
  {
  }
}

=== FILE: keyframes.dfy ===
/** Keyframe lists attached to timeline segments. Every segment holds a map from an
    animatable property name to a list of keyframes; adding replaces every keyframe
    whose time lies within 0.0001 of the new one and keeps the list sorted by time. */
module Keyframes {
  import opened Wrappers
  import opened Sorting

  /** A keyframe's value is a number here; Java stores an untyped Object. */
  datatype Keyframe = Keyframe(time: real, value: real, interpolationType: string)

  type KeyframeMap = map<string, seq<Keyframe>>

  const Epsilon: real := 0.0001
  const DefaultInterpolation: string := "linear"

  /** The three-argument constructor: a null interpolation type becomes "linear". */
  function NewKeyframe(time: real, value: real, interpolationType: Option<string>): (k: Keyframe)
    ensures k.time == time && k.value == value
    ensures interpolationType.Some? ==> k.interpolationType == interpolationType.value
    ensures interpolationType.None? ==> k.interpolationType == DefaultInterpolation
  {
    Keyframe(time, value, interpolationType.GetOr(DefaultInterpolation))
  }

  /** `Math.abs(a - b) < 0.0001`. */
  predicate Near(a: real, b: real) {
    -Epsilon < a - b < Epsilon
  }

  function Time(k: Keyframe): real { k.time }

  /** The list `removeIf(|k.time - t| < 0.0001)` leaves behind. */
  function Kept(s: seq<Keyframe>, t: real): (r: seq<Keyframe>)
    ensures |r| <= |s|
    ensures forall k :: k in r <==> k in s && !Near(k.time, t)
  {
    if |s| == 0 then []
    else (if Near(s[0].time, t) then [] else [s[0]]) + Kept(s[1..], t)
  }

  /** The list stored for `p`, with an absent entry read as empty. */
  function ListOf(m: KeyframeMap, p: string): seq<Keyframe> {
    if p in m then m[p] else []
  }

  // ---------------------------------------------------------------- one list

  /** One list after `addKeyframe`: near keyframes dropped, `k` appended, sorted by time. */
  function Added(s: seq<Keyframe>, k: Keyframe): (r: seq<Keyframe>)
    ensures SortedBy(r, Time)
    ensures multiset(r) == multiset(Kept(s, k.time)) + multiset{k}
  {
    var kept := Kept(s, k.time);
    var sorted := SortBy(kept + [k], Time);
    assert multiset(kept + [k]) == multiset(kept) + multiset{k};
    sorted
  }

  /** The members of an added list: `k` and the old keyframes not near it. */
  lemma AddedMembers(s: seq<Keyframe>, k: Keyframe, r: seq<Keyframe>)
    requires multiset(r) == multiset(Kept(s, k.time)) + multiset{k}
    ensures forall j :: j in r <==> j == k || (j in s && !Near(j.time, k.time))
  {
    forall j ensures j in r <==> j == k || (j in s && !Near(j.time, k.time)) {
      calc {
        j in r;
        j in multiset(r);
        j == k || j in multiset(Kept(s, k.time));
        j == k || j in Kept(s, k.time);
      }
    }
  }

  /** Index of the first keyframe within 0.0001 of `t`. */
  function FirstNear(s: seq<Keyframe>, t: real): (r: Option<nat>)
    ensures r.None? <==> forall i :: 0 <= i < |s| ==> !Near(s[i].time, t)
    ensures r.Some? ==> r.value < |s| && Near(s[r.value].time, t)
    ensures r.Some? ==> forall i :: 0 <= i < r.value ==> !Near(s[i].time, t)
  {
    if |s| == 0 then None
    else if Near(s[0].time, t) then Some(0)
    else
      match FirstNear(s[1..], t)
      case None => None
      case Some(i) => Some(i + 1)
  }

  /** One list after `updateKeyframe` as written: the first near keyframe is
      overwritten in place and the list is not sorted again. */
  function Replaced(s: seq<Keyframe>, k: Keyframe): (r: seq<Keyframe>)
    ensures |r| == |s|
    ensures FirstNear(s, k.time).Some? ==>
      var i := FirstNear(s, k.time).value;
      r[i] == k && forall j :: 0 <= j < |s| && j != i ==> r[j] == s[j]
    ensures FirstNear(s, k.time).None? ==> r == s
  {
    match FirstNear(s, k.time)
    case None => s
    case Some(i) => s[i := k]
  }

  // ---------------------------------------------------------------- the map

  /** `addKeyframe`: the property's list is created if absent; other lists are untouched. */
  function Add(m: KeyframeMap, p: string, k: Keyframe): (r: KeyframeMap)
    ensures r.Keys == m.Keys + {p}
    ensures forall q :: q in m && q != p ==> r[q] == m[q]
    ensures SortedBy(r[p], Time)
    ensures forall j :: j in r[p] <==> j == k || (j in ListOf(m, p) && !Near(j.time, k.time))
  {
    var r := Added(ListOf(m, p), k);
    AddedMembers(ListOf(m, p), k, r);
    m[p := r]
  }

  /** `removeKeyframe`: drop every keyframe within 0.0001 of `t`; no-op for an absent property. */
  function Remove(m: KeyframeMap, p: string, t: real): (r: KeyframeMap)
    ensures r.Keys == m.Keys
    ensures forall q :: q in m && q != p ==> r[q] == m[q]
    ensures p in m ==> forall j :: j in r[p] <==> j in m[p] && !Near(j.time, t)
  {
    if p in m then m[p := Kept(m[p], t)] else m
  }

  /** `updateKeyframe` as written: the first near keyframe is overwritten in place and
      the list is not re-sorted; without a near keyframe (or list) nothing changes. */
  function UpdateInPlace(m: KeyframeMap, p: string, k: Keyframe): (r: KeyframeMap)
    ensures r.Keys == m.Keys
    ensures forall q :: q in m && q != p ==> r[q] == m[q]
    ensures p in m ==> |r[p]| == |m[p]|
    ensures p in m && FirstNear(m[p], k.time).Some? ==>
      var i := FirstNear(m[p], k.time).value;
      r[p][i] == k && forall j :: 0 <= j < |m[p]| && j != i ==> r[p][j] == m[p][j]
    ensures p !in m || FirstNear(m[p], k.time).None? ==> r == m
  {
    if p in m then m[p := Replaced(m[p], k)] else m
  }

  /** `updateKeyframe` with the time order restored: the replaced list is sorted
      again, as `addKeyframe` does. Without a near keyframe (or list) nothing
      changes; with one, the list keeps its length and its other keyframes, holds
      `k`, and is in time order. */
  function Update(m: KeyframeMap, p: string, k: Keyframe): (r: KeyframeMap)
    ensures r.Keys == m.Keys
    ensures forall q :: q in m && q != p ==> r[q] == m[q]
    ensures p !in m || FirstNear(m[p], k.time).None? ==> r == m
    ensures p in m && FirstNear(m[p], k.time).Some? ==>
              SortedBy(r[p], Time) && k in r[p] && |r[p]| == |m[p]|
    ensures p in m ==> multiset(r[p]) == multiset(UpdateInPlace(m, p, k)[p])
  {
    if p in m && FirstNear(m[p], k.time).Some? then
      var written := Replaced(m[p], k);
      assert k in multiset(written) by {
        assert written[FirstNear(m[p], k.time).value] == k;
      }
      m[p := SortBy(written, Time)]
    else m
  }

  // ---------------------------------------------------------------- update

  /** The re-sort only matters when the in-place write broke the order: whenever the
      as-written result is sorted, the corrected update agrees with it exactly. */
  lemma UpdateAgreesWhenSorted(m: KeyframeMap, p: string, k: Keyframe)
    requires p in m && SortedBy(UpdateInPlace(m, p, k)[p], Time)
    ensures Update(m, p, k) == UpdateInPlace(m, p, k)
  {
    if FirstNear(m[p], k.time).Some? {
      SortBySortedIsIdentity(Replaced(m[p], k), Time);
    }
  }

  lemma AddedToEmpty(a: Keyframe)
    ensures Added([], a) == [a]
  {
    AddedIsInsert([], a);
    assert Kept([], a.time) == [];
  }

  /** Two `addKeyframe` calls at least 0.0001 apart keep both keyframes, in time order. */
  lemma TwoAddsKeepBoth(a: Keyframe, b: Keyframe)
    requires a.time + Epsilon <= b.time
    ensures Added(Added([], a), b) == [a, b]
  {
    AddedToEmpty(a);
    AddedIsInsert([a], b);
    assert Kept([a], b.time) == [a] + Kept([], b.time);
    SortBySortedIsIdentity([a], Time);
    assert Insert([a], b, Time) == [a] + Insert([], b, Time);
  }

  /** Counterexample: on the list two `addKeyframe` calls build at times 1.0 and
      1.0001, in-place updates at 1.00009 and then 1.00011 leave it out of time order. */
  lemma UpdateInPlaceCanUnsort(a: Keyframe, b: Keyframe, c: Keyframe, d: Keyframe)
    requires a.time == 1.0 && b.time == 1.0001 && c.time == 1.00009 && d.time == 1.00011
    ensures
      var m1 := map["x" := [a, b]];
      var m3 := UpdateInPlace(UpdateInPlace(m1, "x", c), "x", d);
      m3["x"] == [d, b] && !SortedBy(m3["x"], Time)
  {
    var m1 := map["x" := [a, b]];
    assert FirstNear([a, b], c.time) == Some(0);
    assert Replaced([a, b], c) == [c, b];
    var m2 := UpdateInPlace(m1, "x", c);
    assert m2 == map["x" := [c, b]];
    assert FirstNear([c, b], d.time) == Some(0);
    assert Replaced([c, b], d) == [d, b];
    var m3 := UpdateInPlace(m2, "x", d);
    assert m3["x"] == [d, b];
    assert Time(m3["x"][0]) > Time(m3["x"][1]);
  }

  // ---------------------------------------------------------------- add and remove

  lemma {:induction false} KeptSorted(s: seq<Keyframe>, t: real)
    requires SortedBy(s, Time)
    ensures SortedBy(Kept(s, t), Time)
  {
    if |s| > 0 {
      SortedTail(s, Time);
      KeptSorted(s[1..], t);
      var tail := Kept(s[1..], t);
      if !Near(s[0].time, t) {
        assert Kept(s, t) == [s[0]] + tail;
        SortedCons(s[0], tail, Time);
      } else {
        assert Kept(s, t) == tail;
      }
    }
  }

  /** Filtering twice at the same time is filtering once. */
  lemma {:induction false} KeptIdempotent(s: seq<Keyframe>, t: real)
    ensures Kept(Kept(s, t), t) == Kept(s, t)
  {
    if |s| > 0 {
      KeptIdempotent(s[1..], t);
      var tail := Kept(s[1..], t);
      if !Near(s[0].time, t) {
        var r := [s[0]] + tail;
        assert r[1..] == tail;
      } else {
        assert Kept(s, t) == tail;
      }
    }
  }

  /** Inserting a keyframe that the filter removes does not change the filtered list. */
  lemma {:induction false} KeptInsert(s: seq<Keyframe>, x: Keyframe, t: real)
    requires Near(x.time, t)
    ensures Kept(Insert(s, x, Time), t) == Kept(s, t)
  {
    if |s| == 0 {
      assert Insert(s, x, Time) == [x];
      assert Kept([x], t) == [] + Kept([], t);
    } else if x.time < s[0].time {
      var r := [x] + s;
      assert Insert(s, x, Time) == r;
      assert r[1..] == s;
    } else {
      KeptInsert(s[1..], x, t);
      var r := [s[0]] + Insert(s[1..], x, Time);
      assert Insert(s, x, Time) == r;
      assert r[1..] == Insert(s[1..], x, Time);
    }
  }

  lemma {:induction false} KeptNoneNear(s: seq<Keyframe>, t: real)
    requires forall j :: j in s ==> !Near(j.time, t)
    ensures Kept(s, t) == s
  {
    if |s| > 0 {
      assert s[0] in s;
      forall j | j in s[1..] ensures !Near(j.time, t) {
        assert j in s;
      }
      KeptNoneNear(s[1..], t);
      assert s == [s[0]] + s[1..];
    }
  }

  lemma SortByAppend(s: seq<Keyframe>, x: Keyframe)
    ensures SortBy(s + [x], Time) == Insert(SortBy(s, Time), x, Time)
  {
    assert (s + [x])[..|s|] == s;
  }

  /** The list `addKeyframe` builds is the sorted filtered list with `k` inserted. */
  lemma AddedIsInsert(s: seq<Keyframe>, k: Keyframe)
    ensures Added(s, k) == Insert(SortBy(Kept(s, k.time), Time), k, Time)
  {
    SortByAppend(Kept(s, k.time), k);
  }

  lemma SortedKeptHasNoNear(s: seq<Keyframe>, t: real)
    ensures Kept(SortBy(Kept(s, t), Time), t) == SortBy(Kept(s, t), Time)
  {
    var sorted := SortBy(Kept(s, t), Time);
    forall j | j in sorted ensures !Near(j.time, t) {
      assert j in multiset(sorted);
    }
    KeptNoneNear(sorted, t);
  }

  /** Adding a keyframe and then removing it at its own time is the same as only
      removing at that time, for any list that was already in time order. */
  lemma RemoveUndoesAdd(m: KeyframeMap, p: string, k: Keyframe)
    requires SortedBy(ListOf(m, p), Time)
    ensures Remove(Add(m, p, k), p, k.time)[p] == Kept(ListOf(m, p), k.time)
  {
    var t := k.time;
    var kept := Kept(ListOf(m, p), t);
    KeptSorted(ListOf(m, p), t);
    AddedIsInsert(ListOf(m, p), k);
    SortBySortedIsIdentity(kept, Time);
    KeptInsert(kept, k, t);
    KeptIdempotent(ListOf(m, p), t);
  }

  /** Adding the same keyframe twice is adding it once. */
  lemma AddedIdempotent(s: seq<Keyframe>, k: Keyframe)
    ensures Added(Added(s, k), k) == Added(s, k)
  {
    var t := k.time;
    var sorted := SortBy(Kept(s, t), Time);
    AddedIsInsert(s, k);
    KeptInsert(sorted, k, t);
    SortedKeptHasNoNear(s, t);
    assert Kept(Added(s, k), t) == sorted;
    AddedIsInsert(Added(s, k), k);
    SortBySortedIsIdentity(sorted, Time);
  }
}

=== FILE: lists.dfy ===
/** The list operations the services perform through Java's `List` and streams:
    first match, removal at an index, `removeIf` and `filter`. */
module Lists {
  import opened Wrappers

  /** `stream().filter(p).findFirst()` as an index. */
  function FirstIndex<T>(s: seq<T>, p: T -> bool): (r: Option<nat>)
    ensures r.None? <==> forall i :: 0 <= i < |s| ==> !p(s[i])
    ensures r.Some? ==> r.value < |s| && p(s[r.value])
    ensures r.Some? ==> forall i :: 0 <= i < r.value ==> !p(s[i])
    decreases |s|
  {
    if |s| == 0 then None
    else if p(s[0]) then Some(0)
    else
      match FirstIndex(s[1..], p)
      case None => None
      case Some(i) => Some(i + 1)
  }

  function RemoveAt<T>(s: seq<T>, i: nat): (r: seq<T>)
    requires i < |s|
    ensures |r| == |s| - 1
    ensures forall j :: 0 <= j < i ==> r[j] == s[j]
    ensures forall j :: i <= j < |r| ==> r[j] == s[j + 1]
  {
    s[..i] + s[i + 1..]
  }

  /** The elements satisfying `keep`, in order (`filter`, or `removeIf` of the negation). */
  function Keep<T(!new)>(s: seq<T>, keep: T -> bool): (r: seq<T>)
    ensures |r| <= |s|
    ensures forall x :: x in r <==> x in s && keep(x)
    decreases |s|
  {
    if |s| == 0 then []
    else
      var init := s[..|s| - 1];
      var last := s[|s| - 1];
      assert s == init + [last];
      var r := Keep(init, keep);
      if keep(last) then r + [last] else r
  }

  /** Filtering distributes over concatenation, so relative order is kept. */
  lemma {:induction false} KeepAppend<T(!new)>(a: seq<T>, b: seq<T>, keep: T -> bool)
    ensures Keep(a + b, keep) == Keep(a, keep) + Keep(b, keep)
    decreases |b|
  {
    if |b| > 0 {
      var b0 := b[..|b| - 1];
      assert a + b == (a + b0) + [b[|b| - 1]];
      assert (a + b)[..|a + b| - 1] == a + b0;
      KeepAppend(a, b0, keep);
    } else {
      assert a + b == a;
    }
  }

  /** Filtering keeps everything exactly when everything passes. */
  lemma {:induction false} KeepAll<T(!new)>(s: seq<T>, keep: T -> bool)
    requires forall i :: 0 <= i < |s| ==> keep(s[i])
    ensures Keep(s, keep) == s
    decreases |s|
  {
    if |s| > 0 {
      KeepAll(s[..|s| - 1], keep);
      assert s == s[..|s| - 1] + [s[|s| - 1]];
    }
  }
}

=== FILE: media_conversion_service.dfy ===
/** The media-conversion service: an upload is classified as video or image by its
    content type, a target format is checked against that kind's whitelist, and a
    conversion run writes `converted_<name>` with the target's extension. The file
    system, the converter script and the image codecs are parameters. */
module MediaConversionService {
  import opened Wrappers
  import opened Text

  datatype MediaType = Video | Image

  datatype Status = Uploaded | Processing | Failed | Succeeded

  /** A `ConvertedMedia` row. The target format is stored upper-cased. */
  datatype ConvertedMedia = ConvertedMedia(
    owner: nat,
    originalFileName: string,
    originalPath: string,
    mediaType: MediaType,
    targetFormat: string,
    status: Status,
    errorMessage: Option<string>,
    processedFileName: Option<string>,
    processedPath: Option<string>)

  const VideoFormats: seq<string> := ["MP4", "AVI", "MKV", "MOV", "WEBM", "FLV", "WMV"]
  const ImageFormats: seq<string> := ["PNG", "JPG", "BMP", "GIF", "TIFF", "WEBP"]

  function Formats(t: MediaType): seq<string> {
    if t == Video then VideoFormats else ImageFormats
  }

  /** `determineMediaType`: the content type's `video/` or `image/` prefix decides;
      a null or any other content type is refused. */
  function DetermineMediaType(contentType: Option<string>): (r: Result<MediaType>)
    ensures r.Ok? <==> contentType.Some? && (StartsWith(contentType.value, "video/") || StartsWith(contentType.value, "image/"))
    ensures r.Ok? ==> (r.value == Video <==> StartsWith(contentType.value, "video/"))
    ensures r.Err? ==> r.error.kind == IllegalArgument
  {
    if contentType.None? then Throw(IllegalArgument, "Cannot determine media type")
    else if StartsWith(contentType.value, "video/") then Ok(Video)
    else if StartsWith(contentType.value, "image/") then Ok(Image)
    else Throw(IllegalArgument, "Unsupported media type")
  }

  /** A format the service accepts for a kind of media, in any case. */
  predicate Allowed(t: MediaType, format: string) {
    Upper(format) in Formats(t)
  }

  /** No format is both a video and an image format, and every listed name is already
      upper-case. */
  lemma WhitelistsDisjoint(f: string)
    ensures !(f in VideoFormats && f in ImageFormats)
    ensures f in VideoFormats + ImageFormats ==> Upper(f) == f
  {
  }

  /** `validateInputs`, after the media type is known: an empty file, a null or blank
      format, and a format outside the kind's list are refused. */
  function ValidateInputs(fileSize: nat, t: MediaType, targetFormat: Option<string>): (r: Outcome)
    ensures r.Pass? <==> fileSize > 0 && targetFormat.Some? && Trim(targetFormat.value) != ""
                         && Allowed(t, targetFormat.value)
    ensures r.Fail? ==> r.error.kind == IllegalArgument
  {
    if fileSize == 0 then Fail(Error(IllegalArgument, "Media file is null or empty"))
    else if targetFormat.None? || Trim(targetFormat.value) == "" then Fail(Error(IllegalArgument, "Target format is required"))
    else if !Allowed(t, targetFormat.value) then Fail(Error(IllegalArgument, "Invalid format"))
    else Pass
  }

  /** A listed format is never blank, so the blank check only matters for the error
      it reports. */
  lemma AllowedIsNotBlank(t: MediaType, format: string)
    requires Allowed(t, format)
    ensures Trim(format) != ""
  {
    var u := Upper(format);
    assert |u| >= 3 && |format| == |u|;
    assert !IsTrimmed(UpperChar(format[0]));
    StripEmptyIff(format, IsTrimmed);
  }

  /** What every stored row satisfies: its target is upper-case and listed for its
      kind of media. */
  predicate Sound(m: ConvertedMedia) {
    m.targetFormat in Formats(m.mediaType)
  }

  /** The uploaded file as the controller passes it: `None` for a null part,
      otherwise its content type and byte count. */
  datatype Part = Part(contentType: Option<string>, size: nat)

  function StoredPath(owner: nat, folder: string, name: string): string {
    "conversions/" + Decimal(owner) + "/" + folder + "/" + name
  }

  /** `uploadMedia`. The type is read before the file is checked, so a null part
      fails on the content-type read. */
  function Upload(owner: nat, file: Option<Part>, fileName: string, targetFormat: Option<string>,
                  folderCreated: bool, savedLength: nat): (r: Result<ConvertedMedia>)
    ensures r.Ok? <==> file.Some? && DetermineMediaType(file.value.contentType).Ok?
                       && ValidateInputs(file.value.size, DetermineMediaType(file.value.contentType).value, targetFormat).Pass?
                       && folderCreated && savedLength > 0
    ensures file.None? ==> r.Err? && r.error.kind == Runtime
    ensures r.Ok? ==> r.value.status == Uploaded && r.value.owner == owner && Sound(r.value)
                      && r.value.targetFormat == Upper(targetFormat.value)
                      && r.value.mediaType == DetermineMediaType(file.value.contentType).value
                      && r.value.originalPath == StoredPath(owner, "original", fileName)
  {
    if file.None? then Throw(Runtime, "NullPointerException")
    else
      var t :- DetermineMediaType(file.value.contentType);
      :- ValidateInputs(file.value.size, t, targetFormat);
      if !folderCreated then Throw(IOFailure, "Failed to create original directory")
      else if savedLength == 0 then Throw(IOFailure, "Input file is empty")
      else
        Ok(ConvertedMedia(owner, fileName, StoredPath(owner, "original", fileName), t, Upper(targetFormat.value),
                          Uploaded, None, None, None))
  }

  /** `updateTargetFormat`: the same list check, without the blank check; a null
      format fails on the upper-casing. Only the target changes. */
  function UpdateTargetFormat(row: Option<ConvertedMedia>, user: nat, format: Option<string>)
    : (r: Result<ConvertedMedia>)
    ensures r.Ok? <==> row.Some? && row.value.owner == user && format.Some? && Allowed(row.value.mediaType, format.value)
    ensures r.Ok? ==> r.value == row.value.(targetFormat := Upper(format.value)) && Sound(r.value)
    ensures r.Err? && row.Some? && row.value.owner == user && format.None? ==> r.error.kind == Runtime
  {
    if row.None? then Throw(IllegalArgument, "Media not found")
    else if row.value.owner != user then Throw(IllegalArgument, "Not authorized to update this media")
    else if format.None? then Throw(Runtime, "NullPointerException")
    else if !Allowed(row.value.mediaType, format.value) then Throw(IllegalArgument, "Invalid format")
    else Ok(row.value.(targetFormat := Upper(format.value)))
  }

  /** Setting a stored row's own target again changes nothing. */
  lemma UpdateIdempotent(m: ConvertedMedia)
    requires Sound(m)
    ensures UpdateTargetFormat(Some(m), m.owner, Some(m.targetFormat)) == Ok(m)
  {
    WhitelistsDisjoint(m.targetFormat);
  }

  // ------------------------------------------------------------ output names

  /** `replaceFirst("[.][^.]+$", "")`: the last dot and what follows it are removed
      when at least one character follows. */
  function StripExtension(name: string): (r: string)
    ensures |r| <= |name| && r == name[..|r|]
    ensures r != name ==> |r| < |name| - 1 && name[|r|] == '.' && '.' !in name[|r| + 1..]
    ensures r == name ==> '.' !in name || name[|name| - 1] == '.'
  {
    match LastIndexOf(name, '.')
    case None => name
    case Some(i) => if i < |name| - 1 then name[..i] else name
  }

  /** The stem of `base.ext` is `base`, when the extension has no dot. */
  lemma StripExtensionOf(base: string, ext: string)
    requires |ext| > 0 && '.' !in ext
    ensures StripExtension(base + "." + ext) == base
  {
    var s := base + "." + ext;
    assert s[|base| + 1..] == ext;
    LastIndexOfAt(s, '.', |base|);
  }

  /** The name `convertMedia` writes under `processed/`: a video gets the stem and
      the target as extension; an image keeps its whole original name, whatever the
      target. */
  function OutputName(m: ConvertedMedia): (r: string)
    ensures StartsWith(r, "converted_")
    ensures m.mediaType == Video ==> r == "converted_" + StripExtension(m.originalFileName) + "." + Lower(m.targetFormat)
    ensures m.mediaType == Image ==> r == "converted_" + m.originalFileName
  {
    if m.mediaType == Video then "converted_" + StripExtension(m.originalFileName) + "." + Lower(m.targetFormat)
    else "converted_" + m.originalFileName
  }

  /** `toLowerCase().replace("jpg", "jpeg")` on a listed image format. */
  function ImageFormat(format: string): (r: string)
    ensures Lower(format) == "jpg" ==> r == "jpeg"
    ensures Lower(format) != "jpg" ==> r == Lower(format)
  {
    if Lower(format) == "jpg" then "jpeg" else Lower(format)
  }

  /** The extension an image is written with: `jpg` for JPEG, the lower-cased
      format otherwise. */
  function ImageExtension(format: string): (r: string)
    ensures Lower(r) == r
    ensures Lower(format) == "jpg" || Lower(format) == "jpeg" ==> r == "jpg"
    ensures Lower(format) != "jpg" && Lower(format) != "jpeg" ==> r == Lower(format)
  {
    var f := ImageFormat(format);
    LowerIdempotent(format);
    if f == "jpeg" then "jpg" else Lower(f)
  }

  /** The extension the converter for `m`'s kind puts on its output. */
  function TargetExtension(m: ConvertedMedia): (r: string)
    ensures Lower(r) == r
    ensures m.mediaType == Video ==> r == Lower(m.targetFormat)
  {
    LowerIdempotent(m.targetFormat);
    if m.mediaType == Video then Lower(m.targetFormat) else ImageExtension(m.targetFormat)
  }

  /** The corrected output name: the stem and the extension the converter writes,
      for images as for videos. */
  function FixedOutputName(m: ConvertedMedia): (r: string)
    ensures StartsWith(r, "converted_") && EndsWith(r, "." + TargetExtension(m))
    ensures m.mediaType == Video ==> r == OutputName(m)
  {
    var stem := "converted_" + StripExtension(m.originalFileName);
    EndsWithAppend(stem, "." + TargetExtension(m));
    stem + ("." + TargetExtension(m))
  }

  /** Forcing an extension onto a path: kept when the path already ends with it (in
      any case), otherwise the text after the path's last dot is replaced; a path
      without any dot makes `substring(0, -1)` throw. */
  function ForceExtension(path: string, ext: string): (r: Result<string>)
    ensures EndsWith(Lower(path), "." + ext) ==> r == Ok(path)
    ensures r.Ok? ==> r.value == path || EndsWith(r.value, "." + ext)
    ensures r.Err? <==> !EndsWith(Lower(path), "." + ext) && '.' !in path
    ensures r.Err? ==> r.error.kind == Runtime
  {
    if EndsWith(Lower(path), "." + ext) then Ok(path)
    else
      match LastIndexOf(path, '.')
      case None => Throw(Runtime, "StringIndexOutOfBoundsException")
      case Some(i) =>
        var forced := path[..i] + "." + ext;
        assert forced[|forced| - |"." + ext|..] == "." + ext;
        Ok(forced)
  }

  /** A path that already ends with a lower-case extension is left alone. */
  lemma ForceKeeps(path: string, ext: string)
    requires Lower(ext) == ext && EndsWith(path, "." + ext)
    ensures ForceExtension(path, ext) == Ok(path)
  {
    var b := "." + ext;
    var a := path[..|path| - |b|];
    assert path == a + b;
    LowerAppend(".", ext);
    assert Lower(".") == ".";
    assert Lower(b) == b;
    LowerAppend(a, b);
    assert Lower(path) == Lower(a) + b;
    EndsWithAppend(Lower(a), b);
  }

  /** `p.t` does not end with `.e` when neither `t` nor `e` holds a dot and they
      differ. */
  lemma OtherSuffix(p: string, t: string, e: string)
    requires '.' !in t && '.' !in e && t != e
    ensures !EndsWith(p + "." + t, "." + e)
  {
    var s := p + "." + t;
    var n := |s|;
    assert s[n - |t| - 1] == '.' && s[n - |t|..] == t;
    if |e| < |t| {
      assert s[n - |e| - 1] == t[|t| - |e| - 1];
      assert t[|t| - |e| - 1] in t;
    } else if |e| > |t| {
      assert ("." + e)[|e| - |t|] == e[|e| - |t| - 1];
      assert e[|e| - |t| - 1] in e;
    }
  }

  /** Lower-casing neither adds nor removes dots. */
  lemma LowerKeepsDots(s: string)
    requires '.' !in s
    ensures '.' !in Lower(s)
  {
    forall j | 0 <= j < |s|
      ensures Lower(s)[j] != '.'
    {
    }
  }

  lemma LowerDotted(stem: string, was: string)
    ensures Lower(stem + "." + was) == Lower(stem) + "." + Lower(was)
  {
    LowerAppend(stem + ".", was);
    LowerAppend(stem, ".");
  }

  /** A path that ends with another extension is renamed: the forced path ends with
      the wanted extension and differs from the one asked for. */
  lemma ForceRenames(stem: string, was: string, ext: string)
    requires |was| > 0 && '.' !in was && '.' !in ext && Lower(ext) == ext && Lower(was) != ext
    ensures ForceExtension(stem + "." + was, ext) == Ok(stem + "." + ext)
    ensures stem + "." + ext != stem + "." + was
  {
    var path := stem + "." + was;
    LowerDotted(stem, was);
    LowerKeepsDots(was);
    OtherSuffix(Lower(stem), Lower(was), ext);
    assert path[|stem| + 1..] == was;
    LastIndexOfAt(path, '.', |stem|);
    assert path[..|stem|] == stem;
  }

  // ------------------------------------------------------------ conversion runs

  /** What the external steps of a conversion report: the absolute path of the
      output folder, whether the input is present and the folder could be made,
      whether the Python interpreter, script and ffmpeg exist (video), the script's
      exit code (video), whether the image could be decoded (image), whether the
      converter wrote a non-empty file, and which paths already held one. */
  datatype ConvertRun = ConvertRun(
    dir: string,
    inputPresent: bool,
    folderCreated: bool,
    toolsPresent: bool,
    exitCode: int,
    imageReadable: bool,
    written: bool,
    existing: string -> bool)

  /** What a call leaves in the repository and what it throws, if anything. */
  datatype Saved = Saved(row: Option<ConvertedMedia>, error: Option<Error>)

  /** `convertVideo` / `convertImage`: the path the converter writes, after forcing
      the kind's extension onto `path`, or what it throws. */
  function Converter(m: ConvertedMedia, path: string, run: ConvertRun): (r: Result<string>)
    ensures r.Ok? <==> (if m.mediaType == Video then run.toolsPresent && run.exitCode == 0 else run.imageReadable)
                       && ForceExtension(path, TargetExtension(m)).Ok? && run.written
    ensures r.Ok? ==> r == ForceExtension(path, TargetExtension(m))
  {
    if m.mediaType == Video then
      if !run.toolsPresent then Throw(IOFailure, "Conversion tool not found")
      else
        var forced :- ForceExtension(path, Lower(m.targetFormat));
        if run.exitCode != 0 then Throw(IOFailure, "Video conversion failed")
        else if !run.written then Throw(IOFailure, "Output video file not created or empty")
        else Ok(forced)
    else
      if !run.imageReadable then Throw(IOFailure, "Image conversion failed: Failed to read image")
      else
        var forced :- ForceExtension(path, ImageExtension(m.targetFormat));
        if !run.written then Throw(IOFailure, "Image conversion failed")
        else Ok(forced)
  }

  /** `convertMedia`. `fixed` selects the corrected output name; the readiness check
      and the stored name both use the name computed here, before the converter
      forced an extension onto it. */
  function Convert(row: Option<ConvertedMedia>, user: nat, run: ConvertRun, fixed: bool): (r: Saved)
    ensures row.None? ==> r.row.None? && r.error.Some? && r.error.value.kind == IllegalArgument
    ensures row.Some? && row.value.owner != user ==> r.row == row && r.error.Some?
    ensures row.Some? && row.value.owner == user ==>
              r.row.Some? && r.row.value == row.value.(status := r.row.value.status, errorMessage := r.row.value.errorMessage,
                                                       processedFileName := r.row.value.processedFileName,
                                                       processedPath := r.row.value.processedPath)
    ensures r.error.None? <==> row.Some? && row.value.owner == user && r.row.value.status == Succeeded
    ensures r.error.None? ==> r.row.value.processedFileName.Some?
                              && r.row.value.processedPath == Some(StoredPath(user, "processed", r.row.value.processedFileName.value))
    ensures row.Some? && row.value.owner == user && (!run.inputPresent || !run.folderCreated) ==>
              r.row.value.status == Failed && r.row.value.errorMessage.Some?
    ensures r.error.Some? && r.error.value.kind == Runtime ==> r.row.value.status == Processing
  {
    match row
    case None => Saved(None, Some(Error(IllegalArgument, "Media not found")))
    case Some(m) =>
      if m.owner != user then Saved(row, Some(Error(IllegalArgument, "Not authorized to convert this media")))
      else
        var started := m.(status := Processing);
        if !run.inputPresent then
          Saved(Some(started.(status := Failed, errorMessage := Some("Input file is missing or empty"))),
                Some(Error(IOFailure, "Input file is missing or empty")))
        else if !run.folderCreated then
          Saved(Some(started.(status := Failed, errorMessage := Some("Failed to create processed directory"))),
                Some(Error(IOFailure, "Failed to create processed directory")))
        else
          var name := if fixed then FixedOutputName(m) else OutputName(m);
          var path := run.dir + "/" + name;
          var written := Converter(m, path, run);
          if written.Err? then Saved(Some(started), Some(written.error))
          else if !(path == written.value || run.existing(path)) then
            Saved(Some(started.(status := Failed, errorMessage := Some("Output file not created or empty after retries"))),
                  Some(Error(IOFailure, "Output file not created or empty after retries")))
          else
            Saved(Some(started.(status := Succeeded, processedFileName := Some(name),
                                processedPath := Some(StoredPath(user, "processed", name)))), None)
  }

  /** With the corrected name the converter never renames its output, so the run
      succeeds exactly when every step does, and the stored name is the file the
      converter wrote, carrying the target's extension. */
  lemma FixedStoresWrittenFile(m: ConvertedMedia, run: ConvertRun)
    requires run.inputPresent && run.folderCreated
    ensures var written := Converter(m, run.dir + "/" + FixedOutputName(m), run);
            var r := Convert(Some(m), m.owner, run, true);
            (r.error.None? <==> written.Ok?)
            && (r.error.None? ==> written.value == run.dir + "/" + r.row.value.processedFileName.value
                                  && EndsWith(r.row.value.processedFileName.value, "." + TargetExtension(m)))
  {
    var name := FixedOutputName(m);
    var path := run.dir + "/" + name;
    var ext := "." + TargetExtension(m);
    assert path[|path| - |ext|..] == name[|name| - |ext|..];
    ForceKeeps(path, TargetExtension(m));
  }

  /** Videos already got the right name: the corrected name changes nothing for them. */
  lemma VideoUnchanged(m: ConvertedMedia, user: nat, run: ConvertRun)
    requires m.mediaType == Video
    ensures Convert(Some(m), user, run, true) == Convert(Some(m), user, run, false)
  {
  }

  /** As written, an image converted to another extension is written under the new
      extension while the readiness check looks for the was name, so the run fails
      unless a file of that name was already there. */
  lemma ImageRenamedFails(m: ConvertedMedia, run: ConvertRun, stem: string, was: string)
    requires m.mediaType == Image && m.originalFileName == stem + "." + was
    requires |was| > 0 && '.' !in was && '.' !in ImageExtension(m.targetFormat)
    requires Lower(was) != ImageExtension(m.targetFormat)
    requires run.inputPresent && run.folderCreated && run.imageReadable && run.written
    requires !run.existing(run.dir + "/" + OutputName(m))
    ensures Converter(m, run.dir + "/" + OutputName(m), run)
              == Ok(run.dir + "/converted_" + stem + "." + ImageExtension(m.targetFormat))
    ensures Convert(Some(m), m.owner, run, false).row.value.status == Failed
  {
    var pre := run.dir + "/converted_" + stem;
    var path := run.dir + "/" + OutputName(m);
    assert path == pre + "." + was;
    ForceRenames(pre, was, ImageExtension(m.targetFormat));
    ConvertMisses(m, run, path);
  }

  /** The readiness check fails when the converter wrote somewhere other than the
      path it was given and nothing was there before. */
  lemma ConvertMisses(m: ConvertedMedia, run: ConvertRun, path: string)
    requires path == run.dir + "/" + OutputName(m)
    requires run.inputPresent && run.folderCreated
    requires Converter(m, path, run).Ok? && Converter(m, path, run).value != path && !run.existing(path)
    ensures Convert(Some(m), m.owner, run, false).row.value.status == Failed
  {
  }

  /** The row of a `photo.png` upload to be converted to JPG. */
  function Photo(): (m: ConvertedMedia)
    ensures m.mediaType == Image && m.originalFileName == "photo.png" && m.targetFormat == "JPG"
  {
    ConvertedMedia(1, "photo.png", StoredPath(1, "original", "photo.png"), Image, "JPG", Uploaded, None, None, None)
  }

  /** A concrete instance: as written, `photo.png` converted to JPG is written as
      `converted_photo.jpg` and the run fails. */
  lemma PhotoToJpgFails(run: ConvertRun)
    requires run.inputPresent && run.folderCreated && run.imageReadable && run.written
    requires !run.existing(run.dir + "/converted_photo.png")
    ensures Converter(Photo(), run.dir + "/converted_photo.png", run) == Ok(run.dir + "/converted_photo.jpg")
    ensures Convert(Some(Photo()), 1, run, false).row.value.status == Failed
  {
    var m := Photo();
    assert "photo" + "." + "png" == "photo.png";
    assert "converted_" + "photo.png" == "converted_photo.png";
    assert run.dir + "/" + "converted_photo.png" == run.dir + "/converted_photo.png";
    assert run.dir + "/converted_" + "photo" + "." + "jpg" == run.dir + "/converted_photo.jpg";
    assert Lower("JPG") == "jpg";
    assert Lower("png") == "png";
    assert ImageExtension(m.targetFormat) == "jpg";
    ImageRenamedFails(m, run, "photo", "png");
  }

  /** With the corrected name the same run stores `converted_photo.jpg`. */
  lemma PhotoToJpgFixed(run: ConvertRun)
    requires run.inputPresent && run.folderCreated && run.imageReadable && run.written
    ensures Convert(Some(Photo()), 1, run, true).row.value.processedFileName == Some("converted_photo.jpg")
  {
    var m := Photo();
    assert "converted_" + "photo" + ("." + "jpg") == "converted_photo.jpg";
    assert "photo" + "." + "png" == "photo.png";
    assert Lower("JPG") == "jpg";
    assert ImageExtension(m.targetFormat) == "jpg";
    assert TargetExtension(m) == "jpg";
    StripExtensionOf("photo", "png");
    FixedStoresWrittenFile(m, run);
  }
}

=== FILE: podcast_clip_service.dfy ===
/** The podcast clip service: where an upload comes from, how a transcription is cut
    into 30 to 40 second candidate clips and scored, which clips are kept, the
    subtitles each clip carries and the batches they are burnt in. Downloads, ffmpeg
    and the transcriber are left to parameters; fresh ids come from `uuid`. */
module PodcastClipService {
  import opened Wrappers
  import opened Text
  import opened Lists
  import opened Sorting
  import opened TextStyle
  import opened SubtitleDto

  function Max(a: real, b: real): real { if a >= b then a else b }
  function Min(a: real, b: real): real { if a <= b then a else b }

  // ------------------------------------------------------------ upload

  /** `^(https?://)?(www\.)?(youtube\.com|youtu\.be)/.+` over the whole URL, as
      `String.matches` reads it; `.` matches anything but a line terminator. */
  predicate YouTubeUrl(u: string) {
    var a := if StartsWith(u, "https://") then u[8..] else if StartsWith(u, "http://") then u[7..] else u;
    var b := if StartsWith(a, "www.") then a[4..] else a;
    var c := if StartsWith(b, "youtube.com/") then Some(b[12..])
             else if StartsWith(b, "youtu.be/") then Some(b[9..])
             else None;
    c.Some? && |c.value| > 0 && forall i :: 0 <= i < |c.value| ==> !IsLineTerminator(c.value[i])
  }

  predicate IsLineTerminator(c: char) {
    c == '\n' || c == '\r' || c == '\U{0085}' || c == '\U{2028}' || c == '\U{2029}'
  }

  /** A `PodcastClipMedia` row after upload. */
  datatype PodcastMedia = PodcastMedia(owner: nat, status: string, sourceUrl: Option<string>,
                                       originalFileName: string, originalPath: string)

  function OriginalPath(owner: nat, name: string): string {
    "podcast_clips/" + Decimal(owner) + "/original/" + name
  }

  /** `uploadMedia`: a non-empty URL wins over a file and must be a YouTube link; a
      file must be non-empty and saved non-empty; with neither the call fails. */
  function Upload(owner: nat, folderCreated: bool, url: Option<string>, fileName: Option<string>,
                  fileSize: nat, savedLength: nat, uuid: string): (r: Result<PodcastMedia>)
    ensures r.Ok? ==> r.value.status == "UPLOADED" && r.value.owner == owner
                      && r.value.originalPath == OriginalPath(owner, r.value.originalFileName)
    ensures r.Ok? && url.Some? && url.value != "" ==>
              YouTubeUrl(url.value) && r.value.sourceUrl == url
              && r.value.originalFileName == "youtube_" + uuid + ".mp4"
    ensures r.Ok? && !(url.Some? && url.value != "") ==>
              fileName.Some? && fileSize > 0 && savedLength > 0
              && r.value.sourceUrl.None? && r.value.originalFileName == fileName.value
    ensures r.Ok? <==> folderCreated && (if url.Some? && url.value != "" then YouTubeUrl(url.value)
                                         else fileName.Some? && fileSize > 0 && savedLength > 0)
    ensures folderCreated && url.Some? && url.value != "" && !YouTubeUrl(url.value) ==>
              r.Err? && r.error.kind == IllegalArgument
    ensures folderCreated && !(url.Some? && url.value != "") && !(fileName.Some? && fileSize > 0) ==>
              r.Err? && r.error.kind == IllegalArgument
  {
    if !folderCreated then Throw(IOFailure, "Failed to create original directory")
    else if url.Some? && url.value != "" then
      if !YouTubeUrl(url.value) then Throw(IllegalArgument, "Invalid YouTube URL")
      else
        var name := "youtube_" + uuid + ".mp4";
        Ok(PodcastMedia(owner, "UPLOADED", url, name, OriginalPath(owner, name)))
    else if fileName.Some? && fileSize > 0 then
      if savedLength == 0 then Throw(IOFailure, "Input file is empty")
      else Ok(PodcastMedia(owner, "UPLOADED", None, fileName.value, OriginalPath(owner, fileName.value)))
    else Throw(IllegalArgument, "Either a file or YouTube URL must be provided")
  }

  // ------------------------------------------------------------ virality

  const PositiveKeywords: seq<string> := ["amazing", "shocking", "incredible", "secret", "why", "how"]
  const NegativeKeywords: seq<string> := ["worst", "fail", "disaster", "controversial"]

  /** The number of keywords the text contains. */
  function Hits(text: string, keywords: seq<string>): (r: nat)
    ensures r <= |keywords|
  {
    if |keywords| == 0 then 0
    else (if Contains(text, keywords[0]) then 1 else 0) + Hits(text, keywords[1..])
  }

  predicate SentenceEnd(c: char) { c == '.' || c == '!' || c == '?' }

  /** `text.split("[.!?]").length`. */
  function SentenceCount(text: string): nat {
    |JavaSplit(text, SentenceEnd)|
  }

  /** `calculateViralityScore`: on the lower-cased text, 10 per positive keyword,
      15 per negative one, 20 for at most three sentences and 15 for a question mark,
      capped at 100. */
  function ViralityScore(text: string): (r: real)
    ensures 0.0 <= r <= 100.0
    ensures '?' in text ==> r >= 15.0
    ensures SentenceCount(Lower(text)) <= 3 ==> r >= 20.0
  {
    var t := Lower(text);
    var score := 10.0 * Hits(t, PositiveKeywords) as real + 15.0 * Hits(t, NegativeKeywords) as real
                 + (if SentenceCount(t) <= 3 then 20.0 else 0.0)
                 + (if '?' in t then 15.0 else 0.0);
    assert '?' in text ==> '?' in t by {
      if '?' in text {
        var i :| 0 <= i < |text| && text[i] == '?';
        assert t[i] == '?';
      }
    }
    Min(score, 100.0)
  }

  /** The score ignores case: a text and its lower-cased form score the same. */
  lemma ViralityIgnoresCase(text: string)
    ensures ViralityScore(Lower(text)) == ViralityScore(text)
  {
    LowerIdempotent(text);
  }

  // ------------------------------------------------------------ candidate windows

  /** One transcription segment; the text may be null. */
  datatype Segment = Segment(start: real, end: real, text: Option<string>)

  /** What `StringBuilder.append` adds for a segment's text: a null text reads "null". */
  function Appended(t: Option<string>): string {
    (if t.Some? then t.value else "null") + " "
  }

  /** The window's span when it ends at segment `j`. */
  function Span(segs: seq<Segment>, from: nat, j: nat): real
    requires from <= j < |segs|
  {
    segs[j].end - segs[from].start
  }

  /** The inner loop of `selectViralClips`: the last segment a window starting at
      `from` takes, given it has already reached `j`. It stops when the span lies in
      [30, 40], reaches 35, or the segments run out. */
  function WindowEnd(segs: seq<Segment>, from: nat, j: nat): (r: nat)
    requires from <= j < |segs|
    ensures j <= r < |segs|
    ensures forall k :: j <= k < r ==> Span(segs, from, k) < 30.0
    ensures Span(segs, from, r) >= 30.0 || r == |segs| - 1
    decreases |segs| - j
  {
    var d := Span(segs, from, j);
    if 30.0 <= d <= 40.0 then j
    else if j + 1 < |segs| && d < 35.0 then WindowEnd(segs, from, j + 1)
    else j
  }

  /** The texts of segments `from` to `to`, each followed by a space. */
  function WindowText(segs: seq<Segment>, from: nat, to: nat): string
    requires from <= to <= |segs|
    decreases |segs| - from
  {
    if from == to then "" else Appended(segs[from].text) + WindowText(segs, from + 1, to)
  }

  datatype Clip = Clip(id: string, startTime: real, endTime: real, text: string, score: real)

  predicate ClipLength(c: Clip) {
    30.0 <= c.endTime - c.startTime <= 40.0
  }

  /** A candidate spans 30 to 40 seconds and scores between 0 and 100. */
  predicate Qualifies(c: Clip) {
    ClipLength(c) && 0.0 <= c.score <= 100.0
  }

  /** The candidate a window from segment `from` to segment `last` gives, scored on
      its untrimmed text. */
  function WindowClip(segs: seq<Segment>, from: nat, last: nat, id: string): (c: Clip)
    requires from <= last < |segs| && 30.0 <= Span(segs, from, last) <= 40.0
    ensures Qualifies(c)
    ensures c.startTime == segs[from].start && c.endTime == segs[last].end
    ensures c.score == ViralityScore(WindowText(segs, from, last + 1)) && c.id == id
  {
    var text := WindowText(segs, from, last + 1);
    Clip(id, segs[from].start, segs[last].end, Trim(text), ViralityScore(text))
  }

  /** A window of consecutive segments, by its first and last segment. */
  type Window = (nat, nat)

  /** The windows the outer loop of `selectViralClips` opens from segment `from` on:
      each window ends where the inner loop stops, the next one starts right after
      it, and the last one ends at the last segment, so the windows cover every
      segment once. */
  function Windows(segs: seq<Segment>, from: nat): (r: seq<Window>)
    requires from <= |segs|
    ensures |r| > 0 <==> from < |segs|
    ensures |r| <= |segs| - from
    ensures forall k :: 0 <= k < |r| ==>
              from <= r[k].0 <= r[k].1 < |segs| && r[k].1 == WindowEnd(segs, r[k].0, r[k].0)
    ensures |r| > 0 ==> r[0].0 == from && r[|r| - 1].1 == |segs| - 1
    ensures forall k, l :: 0 <= k < l < |r| && l == k + 1 ==> r[l].0 == r[k].1 + 1
    decreases |segs| - from
  {
    if from == |segs| then []
    else
      var last := WindowEnd(segs, from, from);
      [(from, last)] + Windows(segs, last + 1)
  }

  /** Window `w` lies within the segments. */
  predicate InRange(segs: seq<Segment>, w: Window) {
    w.0 <= w.1 < |segs|
  }

  /** Window `w` spans 30 to 40 seconds. */
  predicate Fits(segs: seq<Segment>, w: Window)
    requires InRange(segs, w)
  {
    30.0 <= Span(segs, w.0, w.1) <= 40.0
  }

  /** The windows that fit, in order. */
  function Fitting(segs: seq<Segment>, ws: seq<Window>): (r: seq<Window>)
    requires forall k :: 0 <= k < |ws| ==> InRange(segs, ws[k])
    ensures |r| <= |ws|
    ensures forall w :: w in r <==> w in ws && Fits(segs, w)
    ensures forall k :: 0 <= k < |r| ==> InRange(segs, r[k]) && Fits(segs, r[k])
  {
    if |ws| == 0 then []
    else (if Fits(segs, ws[0]) then [ws[0]] else []) + Fitting(segs, ws[1..])
  }

  /** The clip a fitting window gives: its first segment's start, its last segment's
      end, and the score of its text. */
  function ClipAt(segs: seq<Segment>, w: Window, uuid: nat -> string): (c: Clip)
    requires InRange(segs, w) && Fits(segs, w)
    ensures c.startTime == segs[w.0].start && c.endTime == segs[w.1].end
    ensures c.score == ViralityScore(WindowText(segs, w.0, w.1 + 1)) && c.id == uuid(w.0)
    ensures Qualifies(c)
  {
    WindowClip(segs, w.0, w.1, uuid(w.0))
  }

  /** The candidates of `selectViralClips` from segment `from` on: the outer loop
      opens the windows of the partition in turn, and each window that spans 30 to 40
      seconds becomes a candidate. So the candidates are exactly the fitting windows,
      in window order, each with its first segment's start, its last segment's end
      and the score of its text. */
  function Candidates(segs: seq<Segment>, from: nat, uuid: nat -> string): (r: seq<Clip>)
    requires from <= |segs|
    ensures |r| <= |segs| - from
    ensures forall c :: c in r ==> Qualifies(c)
    ensures |r| == |Fitting(segs, Windows(segs, from))|
    ensures forall k :: 0 <= k < |r| ==> r[k] == ClipAt(segs, Fitting(segs, Windows(segs, from))[k], uuid)
  {
    Clips(segs, Fitting(segs, Windows(segs, from)), uuid)
  }

  /** The clips of fitting windows, one per window, in order. */
  function Clips(segs: seq<Segment>, ws: seq<Window>, uuid: nat -> string): (r: seq<Clip>)
    requires forall k :: 0 <= k < |ws| ==> InRange(segs, ws[k]) && Fits(segs, ws[k])
    ensures |r| == |ws|
    ensures forall k :: 0 <= k < |r| ==> r[k] == ClipAt(segs, ws[k], uuid)
    ensures forall c :: c in r ==> Qualifies(c)
  {
    seq(|ws|, k requires 0 <= k < |ws| => ClipAt(segs, ws[k], uuid))
  }

  /** Every candidate comes from a fitting window of the partition. */
  lemma CandidateIsWindow(segs: seq<Segment>, from: nat, uuid: nat -> string, c: Clip)
    requires from <= |segs| && c in Candidates(segs, from, uuid)
    ensures exists w :: w in Windows(segs, from) && InRange(segs, w) && Fits(segs, w) && c == ClipAt(segs, w, uuid)
  {
    var cs := Candidates(segs, from, uuid);
    var fitting := Fitting(segs, Windows(segs, from));
    var k :| 0 <= k < |cs| && cs[k] == c;
    assert fitting[k] in Windows(segs, from) && Fits(segs, fitting[k]);
  }

  const TargetClipCount: nat := 15

  function NegatedScore(c: Clip): real { -c.score }

  /** The top of a candidate list: ordered by score, highest first, cut to the first
      fifteen. The sort is stable: among clips of equal score the earliest windows
      are kept, in window order. */
  function Top(candidates: seq<Clip>): (r: seq<Clip>)
    ensures |r| == if |candidates| < TargetClipCount then |candidates| else TargetClipCount
    ensures forall i, j :: 0 <= i < j < |r| ==> r[i].score >= r[j].score
    ensures multiset(r) <= multiset(candidates)
    ensures forall k :: Select(r, NegatedScore, k) <= Select(candidates, NegatedScore, k)
  {
    var sorted := SortBy(candidates, NegatedScore);
    var n := if |candidates| < TargetClipCount then |candidates| else TargetClipCount;
    assert sorted == sorted[..n] + sorted[n..];
    assert multiset(sorted) == multiset(sorted[..n]) + multiset(sorted[n..]);
    assert forall i, j :: 0 <= i < j < n ==> NegatedScore(sorted[i]) <= NegatedScore(sorted[j]);
    forall k ensures Select(sorted[..n], NegatedScore, k) <= Select(candidates, NegatedScore, k) {
      SelectPrefix(sorted, n, NegatedScore, k);
      SortByStable(candidates, NegatedScore, k);
    }
    sorted[..n]
  }

  /** No candidate left out scores above a selected one. */
  lemma TopIsTop(candidates: seq<Clip>, x: Clip, y: Clip)
    requires x in Top(candidates)
    requires y in multiset(candidates) - multiset(Top(candidates))
    ensures x.score >= y.score
  {
    var sorted := SortBy(candidates, NegatedScore);
    var n := |Top(candidates)|;
    assert Top(candidates) == sorted[..n];
    LeftOver(sorted, n, y);
    PrefixBeatsSuffix(sorted, n, x, y);
  }

  /** What the prefix does not account for lies in the suffix. */
  lemma LeftOver(s: seq<Clip>, n: nat, y: Clip)
    requires n <= |s| && y in multiset(s) - multiset(s[..n])
    ensures y in s[n..]
  {
    assert s == s[..n] + s[n..];
    assert multiset(s) == multiset(s[..n]) + multiset(s[n..]);
  }

  /** In a list sorted by descending score, the prefix outscores the suffix. */
  lemma PrefixBeatsSuffix(s: seq<Clip>, n: nat, x: Clip, y: Clip)
    requires n <= |s| && SortedBy(s, NegatedScore) && x in s[..n] && y in s[n..]
    ensures x.score >= y.score
  {
    var i :| 0 <= i < n && s[..n][i] == x;
    var j :| 0 <= j < |s| - n && s[n..][j] == y;
    assert NegatedScore(s[i]) <= NegatedScore(s[n + j]);
  }

  /** `selectViralClips`: the best fifteen candidates by score. */
  function SelectViralClips(segs: seq<Segment>, uuid: nat -> string): (r: seq<Clip>)
    ensures r == Top(Candidates(segs, 0, uuid))
    ensures forall c :: c in r ==> Qualifies(c) && c in Candidates(segs, 0, uuid)
    ensures |r| <= TargetClipCount
    ensures forall i, j :: 0 <= i < j < |r| ==> r[i].score >= r[j].score
  {
    var candidates := Candidates(segs, 0, uuid);
    var r := Top(candidates);
    forall c | c in r ensures Qualifies(c) && c in candidates {
      assert c in multiset(r);
      assert c in candidates;
    }
    r
  }

  /** Every clip selected comes from a fitting window of the partition, and no
      left-out candidate scores above it. */
  lemma SelectedClipsAreWindows(segs: seq<Segment>, uuid: nat -> string, c: Clip)
    requires c in SelectViralClips(segs, uuid)
    ensures exists w :: w in Windows(segs, 0) && InRange(segs, w) && Fits(segs, w) && c == ClipAt(segs, w, uuid)
    ensures forall y :: y in multiset(Candidates(segs, 0, uuid)) - multiset(SelectViralClips(segs, uuid)) ==>
              c.score >= y.score
  {
    var cs := Candidates(segs, 0, uuid);
    CandidateIsWindow(segs, 0, uuid, c);
    forall y | y in multiset(cs) - multiset(SelectViralClips(segs, uuid)) ensures c.score >= y.score {
      TopIsTop(cs, c, y);
    }
  }

  /** The window loop always stops: it stops at the first segment that brings the span
      to 30 seconds, so a window ends before 30 seconds only at the last segment. */
  lemma WindowStopsAtThirty(segs: seq<Segment>, from: nat)
    requires from < |segs|
    ensures var last := WindowEnd(segs, from, from);
            forall k :: from <= k < last ==> Span(segs, from, k) < 30.0
    ensures var last := WindowEnd(segs, from, from);
            last < |segs| - 1 ==> Span(segs, from, last) >= 30.0
  {
  }

  // ------------------------------------------------------------ clip subtitles

  /** The podcast style of a clip subtitle. */
  const ClipStyle: Style := DefaultStyle.(backgroundOpacity := 0.85, backgroundH := 40, backgroundW := 60,
                                          backgroundBorderRadius := 15, textBorderWidth := 2,
                                          textBorderOpacity := 1.0)

  /** The podcast look every clip subtitle has: white Arial on a black box, a black
      text border, low on the screen and scaled by 1.2. */
  predicate PodcastLook(s: Subtitle) {
    s.fontFamily == "Arial" && s.fontColor == "#FFFFFF" && s.backgroundColor == "#000000"
    && s.textBorderColor == "#000000" && s.positionX == Some(0) && s.positionY == Some(450)
    && s.scale == Some(1.2) && s.style == ClipStyle
  }

  /** The subtitle a segment gives inside a clip, in times relative to the clip: it
      needs an overlap, a non-empty relative window and a non-blank text. */
  function ClipSubtitle(seg: Segment, clipStart: real, clipEnd: real, id: string): (r: Option<Subtitle>)
    ensures r.Some? <==> seg.end > clipStart && seg.start < clipEnd && seg.start < seg.end
                         && clipStart < clipEnd && seg.text.Some? && Trim(seg.text.value) != ""
    ensures r.Some? ==> r.value.timelineStartTime.Some? && r.value.timelineEndTime.Some?
                        && 0.0 <= r.value.timelineStartTime.value < r.value.timelineEndTime.value
                        && r.value.timelineEndTime.value <= clipEnd - clipStart
                        && r.value.text == Trim(seg.text.value) && Valid(r.value.style)
    ensures r.Some? ==> PodcastLook(r.value) && r.value.id == id && r.value.isSubtitle
  {
    if !(seg.end > clipStart && seg.start < clipEnd) then None
    else
      var from := Max(0.0, seg.start - clipStart);
      var to := Min(clipEnd - clipStart, seg.end - clipStart);
      if to > from && seg.text.Some? && Trim(seg.text.value) != "" then
        Some(New(id).(timelineStartTime := Some(from), timelineEndTime := Some(to),
                      text := Trim(seg.text.value), fontFamily := "Arial", fontColor := "#FFFFFF",
                      backgroundColor := "#000000", textBorderColor := "#000000", positionX := Some(0), positionY := Some(450),
                      scale := Some(1.2), style := ClipStyle))
      else None
  }

  /** `generateSubtitlesForClip`: one subtitle per qualifying segment, in order. */
  function ClipSubtitles(segs: seq<Segment>, clipStart: real, clipEnd: real, uuid: nat -> string): (r: seq<Subtitle>)
    ensures |r| <= |segs|
    ensures forall k :: 0 <= k < |r| ==>
              r[k].timelineStartTime.Some? && r[k].timelineEndTime.Some?
              && 0.0 <= r[k].timelineStartTime.value < r[k].timelineEndTime.value <= clipEnd - clipStart
    ensures forall k :: 0 <= k < |r| ==> PodcastLook(r[k])
    decreases |segs|
  {
    if |segs| == 0 then []
    else
      var init := ClipSubtitles(segs[..|segs| - 1], clipStart, clipEnd, uuid);
      match ClipSubtitle(segs[|segs| - 1], clipStart, clipEnd, uuid(|segs| - 1))
      case None => init
      case Some(s) => init + [s]
  }

  // ------------------------------------------------------------ clips and batches

  datatype ClipMetadata = ClipMetadata(id: string, startTime: real, endTime: real, score: real,
                                       text: string, processedPath: string)

  /** The output path of clip number `index`; the id's first eight characters name it. */
  function ProcessedPath(owner: nat, mediaId: nat, index: nat, id: string): string
    requires |id| >= 8
  {
    "podcast_clips/" + Decimal(owner) + "/processed/media_" + Decimal(mediaId) + "/"
    + "media_" + Decimal(mediaId) + "_clip_" + Decimal(index) + "_" + id[..8] + ".mp4"
  }

  /** `generateClips` from clip number `index` on: one entry per clip, in order; an id
      shorter than eight characters is the `substring` failure. */
  function GenerateClips(clips: seq<Clip>, owner: nat, mediaId: nat, index: nat): (r: Result<seq<ClipMetadata>>)
    ensures r.Ok? <==> forall k :: 0 <= k < |clips| ==> |clips[k].id| >= 8
    ensures r.Ok? ==> |r.value| == |clips|
                      && forall k :: 0 <= k < |clips| ==>
                           r.value[k].id == clips[k].id && r.value[k].startTime == clips[k].startTime
                           && r.value[k].endTime == clips[k].endTime && r.value[k].score == clips[k].score
                           && r.value[k].processedPath == ProcessedPath(owner, mediaId, index + k, clips[k].id)
    decreases |clips|
  {
    if |clips| == 0 then Ok([])
    else
      var c := clips[0];
      if |c.id| < 8 then Throw(Runtime, "StringIndexOutOfBoundsException")
      else
        var duration := c.endTime - c.startTime;
        var entry := ClipMetadata(c.id, c.startTime, c.startTime + duration, c.score, c.text,
                                  ProcessedPath(owner, mediaId, index, c.id));
        var rest :- GenerateClips(clips[1..], owner, mediaId, index + 1);
        Ok([entry] + rest)
  }

  const OverlayBatch: nat := 3

  /** Batch `k` of `n` subtitles. */
  function Batch(k: nat, n: nat): (nat, nat) {
    (k * OverlayBatch, if k * OverlayBatch + OverlayBatch < n then k * OverlayBatch + OverlayBatch else n)
  }

  /** The batch loop of `generateClipWithSubtitles`: index ranges of three subtitles,
      the last one possibly shorter. */
  method SubtitleBatches(n: nat) returns (batches: seq<(nat, nat)>)
    ensures n == 0 <==> |batches| == 0
    ensures forall k :: 0 <= k < |batches| ==>
              batches[k].0 < batches[k].1 <= n && batches[k].1 - batches[k].0 <= OverlayBatch
    ensures forall k :: 0 <= k < |batches| - 1 ==>
              batches[k].1 == batches[k + 1].0 && batches[k].1 - batches[k].0 == OverlayBatch
    ensures |batches| > 0 ==> batches[0].0 == 0 && batches[|batches| - 1].1 == n
  {
    batches := [];
    var i := 0;
    while i < n
      invariant i <= n && |batches| * OverlayBatch >= i
      invariant i < n ==> i == |batches| * OverlayBatch
      invariant forall k :: 0 <= k < |batches| ==> batches[k] == Batch(k, n)
      invariant |batches| == 0 <==> i == 0
      invariant |batches| > 0 ==> (|batches| - 1) * OverlayBatch < n && i == Batch(|batches| - 1, n).1
    {
      var end := if i + OverlayBatch < n then i + OverlayBatch else n;
      batches := batches + [(i, end)];
      i := end;
    }
    forall k | 0 <= k < |batches| - 1
      ensures batches[k].1 == batches[k + 1].0 && batches[k].1 - batches[k].0 == OverlayBatch
    {
      assert (k + 1) * OverlayBatch <= (|batches| - 1) * OverlayBatch;
    }
    forall k | 0 <= k < |batches|
      ensures batches[k].0 < batches[k].1 <= n
    {
      assert k * OverlayBatch <= (|batches| - 1) * OverlayBatch;
    }
  }
}

=== FILE: project_controller.dfy ===
/** The project controller's own decisions: the content-type tables it serves files
    with, and the checks it applies to a request before handing it to the editing
    service. A rejected request is answered with 400 and its message. */
module ProjectController {
  import opened Wrappers
  import opened Text
  import TextStyle

  // ------------------------------------------------------------ content types

  const Octet := "application/octet-stream"

  /** `determineContentType`: the lower-cased name's suffix picks an image type. */
  function ImageContentType(name: string): (r: string)
    ensures r in {"image/png", "image/jpeg", "image/gif", "image/webp", Octet}
  {
    var n := Lower(name);
    if EndsWith(n, ".png") then "image/png"
    else if EndsWith(n, ".jpg") || EndsWith(n, ".jpeg") then "image/jpeg"
    else if EndsWith(n, ".gif") then "image/gif"
    else if EndsWith(n, ".webp") then "image/webp"
    else Octet
  }

  /** The image suffixes the tables know. */
  predicate ImageSuffix(name: string) {
    var n := Lower(name);
    EndsWith(n, ".png") || EndsWith(n, ".jpg") || EndsWith(n, ".jpeg") || EndsWith(n, ".gif") || EndsWith(n, ".webp")
  }

  /** The table falls back to the generic type exactly for names without a known
      suffix, and so never answers an empty type; it ignores case. */
  lemma ImageContentTypeLaws(name: string)
    ensures ImageContentType(name) == Octet <==> !ImageSuffix(name)
    ensures ImageContentType(name) != ""
    ensures ImageContentType(Lower(name)) == ImageContentType(name)
  {
    LowerIdempotent(name);
  }

  /** `determineAudioContentType`. */
  function AudioContentType(name: string): (r: string)
    ensures r in {"audio/mpeg", "audio/wav", "audio/ogg", Octet}
    ensures r == "audio/mpeg" <==> EndsWith(Lower(name), ".mp3")
    ensures r == "audio/wav" <==> !EndsWith(Lower(name), ".mp3") && EndsWith(Lower(name), ".wav")
    ensures r == "audio/ogg" <==> !EndsWith(Lower(name), ".mp3") && !EndsWith(Lower(name), ".wav")
                                  && EndsWith(Lower(name), ".ogg")
  {
    var n := Lower(name);
    if EndsWith(n, ".mp3") then "audio/mpeg"
    else if EndsWith(n, ".wav") then "audio/wav"
    else if EndsWith(n, ".ogg") then "audio/ogg"
    else Octet
  }

  // ------------------------------------------------------------ request checks

  /** A `Double` the controller parses from a request value's text with
      `Double.valueOf`, which also reads "NaN", "Infinity" and "-Infinity". */
  datatype Num = Finite(v: real) | NaN | Infinite(positive: bool)

  /** Java's `x < c` on a double: false for NaN. */
  predicate Below(x: Num, c: real) {
    match x
    case Finite(v) => v < c
    case NaN => false
    case Infinite(positive) => !positive
  }

  /** Java's `x > c` on a double: false for NaN. */
  predicate Above(x: Num, c: real) {
    match x
    case Finite(v) => v > c
    case NaN => false
    case Infinite(positive) => positive
  }

  /** Java's `x >= c` on a double: false for NaN. */
  predicate AtLeast(x: Num, c: real) {
    match x
    case Finite(v) => v >= c
    case NaN => false
    case Infinite(positive) => positive
  }

  /** Java's `x <= c` on a double: false for NaN. */
  predicate AtMost(x: Num, c: real) {
    match x
    case Finite(v) => v <= c
    case NaN => false
    case Infinite(positive) => !positive
  }

  /** Java's `x + y` on doubles, for finite sums that stay in range (the crops it
      adds are at most 100 by then): NaN absorbs everything, and opposite
      infinities give NaN. */
  function Plus(x: Num, y: Num): Num {
    if x.NaN? || y.NaN? then NaN
    else if x.Infinite? && y.Infinite? then (if x.positive == y.positive then x else NaN)
    else if x.Infinite? then x
    else if y.Infinite? then y
    else Finite(x.v + y.v)
  }

  /** The value of an optional request field, null counting as `d`; a non-finite
      value also reads as `d` (only used where every field is finite). */
  function ValueOr(x: Option<Num>, d: real): real {
    if x.Some? && x.value.Finite? then x.value.v else d
  }

  function BadRequest(message: string): (r: Outcome)
    ensures r.Fail? && r.error.reason == message
  {
    Fail(Error(IllegalArgument, message))
  }

  // The messages of the 400 answers.
  const AlignmentMessage := "Alignment must be 'left', 'right', or 'center'"
  const AudioLayerMessage := "Audio layer must be negative"
  const AudioNameMissing := "Audio filename is required"
  const BackgroundBorderMessage := "Background border width must be non-negative"
  const BackgroundHeightMessage := "Background height must be non-negative"
  const BackgroundOpacityMessage := "Background opacity must be between 0 and 1"
  const BackgroundRadiusMessage := "Background border radius must be non-negative"
  const BackgroundWidthMessage := "Background width must be non-negative"
  const CropBMessage := "cropB must be between 0 and 100"
  const CropLMessage := "cropL must be between 0 and 100"
  const CropRMessage := "cropR must be between 0 and 100"
  const CropTMessage := "cropT must be between 0 and 100"
  const EndTimeMessage := "Timeline end time must be greater than start time"
  const HorizontalCropMessage := "Total horizontal crop (cropL + cropR) cannot be 100% or more"
  const ImageLayerMessage := "Layer must be a non-negative integer"
  const ImageNameMissing := "Image or element filename is required"
  const LetterSpacingMessage := "Letter spacing must be non-negative"
  const LineSpacingMessage := "Line spacing must be non-negative"
  const OpacityMessage := "Opacity must be between 0 and 1"
  const RotationKeyframeMessage := "Rotation keyframe value must be a valid number"
  const RotationMessage := "Rotation must be a valid number"
  const SegmentIdMissing := "Missing required parameter: segmentId"
  const SpeedMessage := "Speed must be between 0.1 and 5.0"
  const StartTimeMessage := "Start time must be non-negative"
  const TextBorderOpacityMessage := "Text border opacity must be between 0 and 1"
  const TextBorderWidthMessage := "Text border width must be non-negative"
  const TextFieldsMissing := "Missing required parameters: text, layer, timelineStartTime, timelineEndTime"
  const TimelineStartMessage := "Timeline start time must be non-negative"
  const VerticalCropMessage := "Total vertical crop (cropT + cropB) cannot be 100% or more"
  const VolumeMessage := "Volume must be between 0 and 15"
  const TransitionMissing := "Missing required parameters: type, duration, segmentId, start, end, layer"
  const TransitionDuration := "Duration must be positive"
  const TransitionNowhere := "Transition must be applied at start, end, or both"

  predicate InRange(x: Option<real>, lo: real, hi: real) {
    x.None? || lo <= x.value <= hi
  }

  predicate FiniteOrAbsent(x: Option<Num>) {
    x.None? || x.value.Finite?
  }

  /** Passes Java's `x != null && (x < lo || x > hi)` test, which lets NaN through. */
  predicate Within(x: Option<Num>, lo: real, hi: real) {
    x.None? || !(Below(x.value, lo) || Above(x.value, hi))
  }

  /** Passes Java's `x != null && x < c` test, which lets NaN and +Infinity through. */
  predicate NotBelow(x: Option<Num>, c: real) {
    x.None? || !Below(x.value, c)
  }

  /** Absent, or a number in [lo, hi]. */
  predicate RealIn(x: Option<Num>, lo: real, hi: real) {
    x.None? || (x.value.Finite? && lo <= x.value.v <= hi)
  }

  /** On finite values Java's tests are the plain comparisons; NaN passes every
      test, +Infinity passes the lower bound only, and -Infinity passes neither. */
  lemma DoubleTests(x: Num, lo: real, hi: real)
    ensures x.Finite? ==> (Within(Some(x), lo, hi) <==> lo <= x.v <= hi)
    ensures x.Finite? ==> (NotBelow(Some(x), lo) <==> x.v >= lo)
    ensures x.NaN? ==> Within(Some(x), lo, hi) && NotBelow(Some(x), lo)
    ensures x == Infinite(true) ==> !Within(Some(x), lo, hi) && NotBelow(Some(x), lo)
    ensures x == Infinite(false) ==> !Within(Some(x), lo, hi) && !NotBelow(Some(x), lo)
  {
  }

  /** The crop fields and the names of the keyframed properties of an update-segment
      request. */
  datatype CropRequest = CropRequest(
    cropL: Option<Num>, cropR: Option<Num>, cropT: Option<Num>, cropB: Option<Num>,
    keyframed: set<string>)

  predicate CropsFinite(c: CropRequest) {
    FiniteOrAbsent(c.cropL) && FiniteOrAbsent(c.cropR) && FiniteOrAbsent(c.cropT) && FiniteOrAbsent(c.cropB)
  }

  /** Java's `(x != null ? x : 0.0) + (y != null ? y : 0.0)`. */
  function CropSum(x: Option<Num>, y: Option<Num>): Num {
    Plus(x.GetOr(Finite(0.0)), y.GetOr(Finite(0.0)))
  }

  predicate CropKeyframed(c: CropRequest) {
    "cropL" in c.keyframed || "cropR" in c.keyframed || "cropT" in c.keyframed || "cropB" in c.keyframed
  }

  /** An update-segment request's fields that the controller checks. */
  datatype SegmentUpdate = SegmentUpdate(
    segmentId: Option<string>,
    opacity: Option<Num>,
    crop: CropRequest,
    speed: Option<Num>,
    rotation: Option<Num>,
    rotationKeyframesFinite: bool)

  /** `updateVideoSegment`'s checks: the id, the opacity, each crop in [0, 100], the
      speed in [0.1, 5], a finite rotation, and, only when no crop property is
      keyframed, each opposite pair of crops below 100 in total (a null crop
      counting as 0). Only the rotation is tested for finiteness, so a NaN passes
      every range test. */
  function ValidateSegmentUpdate(q: SegmentUpdate): (r: Outcome)
    ensures r.Pass? <==> q.rotationKeyframesFinite && q.segmentId.Some? && Within(q.opacity, 0.0, 1.0)
                         && Within(q.crop.cropL, 0.0, 100.0) && Within(q.crop.cropR, 0.0, 100.0)
                         && Within(q.crop.cropT, 0.0, 100.0) && Within(q.crop.cropB, 0.0, 100.0)
                         && Within(q.speed, 0.1, 5.0) && FiniteOrAbsent(q.rotation)
                         && (!CropKeyframed(q.crop) ==>
                               !AtLeast(CropSum(q.crop.cropL, q.crop.cropR), 100.0)
                               && !AtLeast(CropSum(q.crop.cropT, q.crop.cropB), 100.0))
  {
    var c := q.crop;
    if !q.rotationKeyframesFinite then BadRequest(RotationKeyframeMessage)
    else if q.segmentId.None? then BadRequest(SegmentIdMissing)
    else if !Within(q.opacity, 0.0, 1.0) then BadRequest(OpacityMessage)
    else if !Within(c.cropL, 0.0, 100.0) then BadRequest(CropLMessage)
    else if !Within(c.cropR, 0.0, 100.0) then BadRequest(CropRMessage)
    else if !Within(c.cropT, 0.0, 100.0) then BadRequest(CropTMessage)
    else if !Within(c.cropB, 0.0, 100.0) then BadRequest(CropBMessage)
    else if !Within(q.speed, 0.1, 5.0) then BadRequest(SpeedMessage)
    else if !FiniteOrAbsent(q.rotation) then BadRequest(RotationMessage)
    else if !CropKeyframed(c) && AtLeast(CropSum(c.cropL, c.cropR), 100.0) then
      BadRequest(HorizontalCropMessage)
    else if !CropKeyframed(c) && AtLeast(CropSum(c.cropT, c.cropB), 100.0) then
      BadRequest(VerticalCropMessage)
    else Pass
  }

  /** A finite field passes Java's range test exactly when it lies in the range. */
  lemma WithinFinite(x: Option<Num>, lo: real, hi: real)
    requires FiniteOrAbsent(x)
    ensures Within(x, lo, hi) <==> RealIn(x, lo, hi)
  {
  }

  /** On numeric fields the checks are the plain comparisons: the request passes
      exactly when each value lies in its range and, without crop keyframes, each
      pair of crops sums to less than 100. */
  lemma SegmentChecksOnNumbers(q: SegmentUpdate)
    requires FiniteOrAbsent(q.opacity) && FiniteOrAbsent(q.speed) && CropsFinite(q.crop)
    ensures ValidateSegmentUpdate(q).Pass? <==>
              q.rotationKeyframesFinite && q.segmentId.Some? && RealIn(q.opacity, 0.0, 1.0)
              && RealIn(q.crop.cropL, 0.0, 100.0) && RealIn(q.crop.cropR, 0.0, 100.0)
              && RealIn(q.crop.cropT, 0.0, 100.0) && RealIn(q.crop.cropB, 0.0, 100.0)
              && RealIn(q.speed, 0.1, 5.0) && FiniteOrAbsent(q.rotation)
              && (!CropKeyframed(q.crop) ==>
                    ValueOr(q.crop.cropL, 0.0) + ValueOr(q.crop.cropR, 0.0) < 100.0
                    && ValueOr(q.crop.cropT, 0.0) + ValueOr(q.crop.cropB, 0.0) < 100.0)
  {
    var c := q.crop;
    WithinFinite(q.opacity, 0.0, 1.0);
    WithinFinite(c.cropL, 0.0, 100.0);
    WithinFinite(c.cropR, 0.0, 100.0);
    WithinFinite(c.cropT, 0.0, 100.0);
    WithinFinite(c.cropB, 0.0, 100.0);
    WithinFinite(q.speed, 0.1, 5.0);
    assert CropSum(c.cropL, c.cropR) == Finite(ValueOr(c.cropL, 0.0) + ValueOr(c.cropR, 0.0));
    assert CropSum(c.cropT, c.cropB) == Finite(ValueOr(c.cropT, 0.0) + ValueOr(c.cropB, 0.0));
  }

  /** The total-crop rule depends only on whether some crop is keyframed: keyframing
      any one crop lets a request through that crops a whole axis away, which the
      same request without keyframes is refused for. */
  lemma KeyframedCropSkipsTotal(q: SegmentUpdate)
    requires q.rotationKeyframesFinite && q.segmentId.Some? && q.opacity.None? && q.speed.None? && q.rotation.None?
    requires q.crop == CropRequest(Some(Finite(60.0)), Some(Finite(40.0)), None, None, {"cropT"})
    ensures ValidateSegmentUpdate(q).Pass?
    ensures ValidateSegmentUpdate(q.(crop := q.crop.(keyframed := {}))).Fail?
  {
    assert CropKeyframed(q.crop);
    assert CropSum(q.crop.cropL, q.crop.cropR) == Finite(100.0);
  }

  /** An accepted request without crop keyframes and with numeric crops leaves a
      visible picture: some width and some height remain after cropping. */
  lemma AcceptedCropLeavesPicture(q: SegmentUpdate)
    requires ValidateSegmentUpdate(q).Pass? && !CropKeyframed(q.crop)
    ensures CropsFinite(q.crop) ==> 100.0 - ValueOr(q.crop.cropL, 0.0) - ValueOr(q.crop.cropR, 0.0) > 0.0
    ensures CropsFinite(q.crop) ==> 100.0 - ValueOr(q.crop.cropT, 0.0) - ValueOr(q.crop.cropB, 0.0) > 0.0
  {
    var c := q.crop;
    if CropsFinite(c) {
      NumericCropSum(c.cropL, c.cropR);
      NumericCropSum(c.cropT, c.cropB);
    }
  }

  /** Two absent-or-finite crops that pass Java's `>= 100` test sum to less than 100. */
  lemma NumericCropSum(x: Option<Num>, y: Option<Num>)
    requires FiniteOrAbsent(x) && FiniteOrAbsent(y) && !AtLeast(CropSum(x, y), 100.0)
    ensures ValueOr(x, 0.0) + ValueOr(y, 0.0) < 100.0
  {
    assert CropSum(x, y) == Finite(ValueOr(x, 0.0) + ValueOr(y, 0.0));
  }

  /** A "NaN" opacity, crop and speed pass every range test and the total-crop
      test, so the request reaches the editing service. */
  lemma NaNSegmentUpdatePasses(id: string)
    ensures var nan := Some(NaN);
            ValidateSegmentUpdate(SegmentUpdate(Some(id), nan, CropRequest(nan, nan, nan, nan, {}), nan, None, true)).Pass?
  {
  }

  /** An add-project-audio request, with the controller's defaults already applied
      for absent fields: layer -1, start times 0, volume 1. */
  datatype AudioRequest = AudioRequest(
    layer: Option<int>, startTime: Option<real>, timelineStartTime: Option<real>,
    audioFileName: Option<string>, volume: Option<real>)

  /** `addProjectAudioToTimeline`'s checks: a negative layer, non-negative start
      times, a non-empty file name and a volume in [0, 15]. */
  function ValidateAudio(q: AudioRequest): (r: Outcome)
    ensures r.Pass? <==> q.layer.GetOr(-1) < 0 && q.startTime.GetOr(0.0) >= 0.0
                         && q.timelineStartTime.GetOr(0.0) >= 0.0
                         && q.audioFileName.Some? && q.audioFileName.value != ""
                         && 0.0 <= q.volume.GetOr(1.0) <= 15.0
  {
    if q.layer.GetOr(-1) >= 0 then BadRequest(AudioLayerMessage)
    else if q.startTime.GetOr(0.0) < 0.0 then BadRequest(StartTimeMessage)
    else if q.timelineStartTime.GetOr(0.0) < 0.0 then BadRequest(TimelineStartMessage)
    else if q.audioFileName.None? || q.audioFileName.value == "" then BadRequest(AudioNameMissing)
    else if q.volume.GetOr(1.0) < 0.0 || q.volume.GetOr(1.0) > 15.0 then BadRequest(VolumeMessage)
    else Pass
  }

  /** The defaults are themselves acceptable: a request naming only a file passes,
      and a request without a file name never does. */
  lemma AudioDefaultsPass(name: string)
    requires name != ""
    ensures ValidateAudio(AudioRequest(None, None, None, Some(name), None)).Pass?
    ensures forall q: AudioRequest | q.audioFileName.None? :: ValidateAudio(q).Fail?
  {
  }

  /** An add-transition request. */
  datatype TransitionRequest = TransitionRequest(
    kind: Option<string>, duration: Option<Num>, segmentId: Option<string>,
    start: Option<bool>, end: Option<bool>, layer: Option<int>)

  /** `addTransition`'s checks: every field present, a duration that is not
      `<= 0` (so NaN and +Infinity pass), and at least one of start and end. */
  function ValidateTransition(q: TransitionRequest): (r: Outcome)
    ensures r.Pass? <==> q.kind.Some? && q.duration.Some? && q.segmentId.Some? && q.start.Some?
                         && q.end.Some? && q.layer.Some? && !AtMost(q.duration.value, 0.0)
                         && (q.start.value || q.end.value)
    ensures FiniteOrAbsent(q.duration) ==>
              (r.Pass? <==> q.kind.Some? && q.duration.Some? && q.segmentId.Some? && q.start.Some?
                            && q.end.Some? && q.layer.Some? && q.duration.value.v > 0.0
                            && (q.start.value || q.end.value))
    ensures q.duration.Some? && q.duration.value.NaN? ==>
              (r.Pass? <==> q.kind.Some? && q.segmentId.Some? && q.start.Some? && q.end.Some? && q.layer.Some?
                            && (q.start.value || q.end.value))
  {
    if q.kind.None? || q.duration.None? || q.segmentId.None? || q.start.None? || q.end.None? || q.layer.None? then
      BadRequest(TransitionMissing)
    else if AtMost(q.duration.value, 0.0) then BadRequest(TransitionDuration)
    else if !q.start.value && !q.end.value then BadRequest(TransitionNowhere)
    else Pass
  }

  /** An add-text request's checked fields. */
  datatype TextRequest = TextRequest(
    text: Option<string>, layer: Option<int>, timelineStartTime: Option<real>, timelineEndTime: Option<real>,
    opacity: Option<Num>, alignment: Option<string>, rotation: Option<Num>,
    backgroundOpacity: Option<Num>, backgroundBorderWidth: Option<int>, backgroundH: Option<int>,
    backgroundW: Option<int>, backgroundBorderRadius: Option<int>, textBorderWidth: Option<int>,
    textBorderOpacity: Option<Num>, letterSpacing: Option<Num>, lineSpacing: Option<Num>)

  /** Every double-valued field of an add-text request is absent or finite. */
  predicate TextFinite(q: TextRequest) {
    FiniteOrAbsent(q.opacity) && FiniteOrAbsent(q.rotation) && FiniteOrAbsent(q.backgroundOpacity)
    && FiniteOrAbsent(q.textBorderOpacity) && FiniteOrAbsent(q.letterSpacing) && FiniteOrAbsent(q.lineSpacing)
  }

  /** A finite request field as the real the style setters take. */
  function Real(x: Option<Num>): Option<real>
    requires FiniteOrAbsent(x)
  {
    if x.Some? then Some(x.value.v) else None
  }

  predicate NonNegative(x: Option<int>) { x.None? || x.value >= 0 }

  /** `addTextToTimeline`'s checks, in order. Only the rotation is tested for
      finiteness: NaN passes every range test, and +Infinity the spacing tests. */
  function ValidateText(q: TextRequest): (r: Outcome)
    ensures r.Pass? <==> q.text.Some? && q.layer.Some? && q.timelineStartTime.Some? && q.timelineEndTime.Some?
                         && Within(q.opacity, 0.0, 1.0)
                         && (q.alignment.None? || TextStyle.IsAlignment(q.alignment.value))
                         && FiniteOrAbsent(q.rotation)
                         && Within(q.backgroundOpacity, 0.0, 1.0) && NonNegative(q.backgroundBorderWidth)
                         && NonNegative(q.backgroundH) && NonNegative(q.backgroundW)
                         && NonNegative(q.backgroundBorderRadius) && NonNegative(q.textBorderWidth)
                         && Within(q.textBorderOpacity, 0.0, 1.0)
                         && NotBelow(q.letterSpacing, 0.0) && NotBelow(q.lineSpacing, 0.0)
    ensures TextFinite(q) ==>
              (r.Pass? <==> q.text.Some? && q.layer.Some? && q.timelineStartTime.Some? && q.timelineEndTime.Some?
                            && RealIn(q.opacity, 0.0, 1.0)
                            && (q.alignment.None? || TextStyle.IsAlignment(q.alignment.value))
                            && RealIn(q.backgroundOpacity, 0.0, 1.0) && NonNegative(q.backgroundBorderWidth)
                            && NonNegative(q.backgroundH) && NonNegative(q.backgroundW)
                            && NonNegative(q.backgroundBorderRadius) && NonNegative(q.textBorderWidth)
                            && RealIn(q.textBorderOpacity, 0.0, 1.0)
                            && (q.letterSpacing.None? || q.letterSpacing.value.v >= 0.0)
                            && (q.lineSpacing.None? || q.lineSpacing.value.v >= 0.0))
  {
    if q.text.None? || q.layer.None? || q.timelineStartTime.None? || q.timelineEndTime.None? then
      BadRequest(TextFieldsMissing)
    else if !Within(q.opacity, 0.0, 1.0) then BadRequest(OpacityMessage)
    else if q.alignment.Some? && !TextStyle.IsAlignment(q.alignment.value) then
      BadRequest(AlignmentMessage)
    else if !FiniteOrAbsent(q.rotation) then BadRequest(RotationMessage)
    else if !Within(q.backgroundOpacity, 0.0, 1.0) then BadRequest(BackgroundOpacityMessage)
    else if !NonNegative(q.backgroundBorderWidth) then BadRequest(BackgroundBorderMessage)
    else if !NonNegative(q.backgroundH) then BadRequest(BackgroundHeightMessage)
    else if !NonNegative(q.backgroundW) then BadRequest(BackgroundWidthMessage)
    else if !NonNegative(q.backgroundBorderRadius) then BadRequest(BackgroundRadiusMessage)
    else if !NonNegative(q.textBorderWidth) then BadRequest(TextBorderWidthMessage)
    else if !Within(q.textBorderOpacity, 0.0, 1.0) then BadRequest(TextBorderOpacityMessage)
    else if !NotBelow(q.letterSpacing, 0.0) then BadRequest(LetterSpacingMessage)
    else if !NotBelow(q.lineSpacing, 0.0) then BadRequest(LineSpacingMessage)
    else Pass
  }

  /** Whether every style setter the editing service calls for an add-text request
      accepts its argument; the alignment defaults to "left" before its setter
      sees it. */
  predicate SettersAccept(q: TextRequest)
    requires TextFinite(q)
  {
    TextStyle.Accepts(TextStyle.Alignment(Some(q.alignment.GetOr("left"))))
    && TextStyle.Accepts(TextStyle.BackgroundOpacity(Real(q.backgroundOpacity)))
    && TextStyle.Accepts(TextStyle.BackgroundBorderWidth(q.backgroundBorderWidth))
    && TextStyle.Accepts(TextStyle.BackgroundH(q.backgroundH))
    && TextStyle.Accepts(TextStyle.BackgroundW(q.backgroundW))
    && TextStyle.Accepts(TextStyle.BackgroundBorderRadius(q.backgroundBorderRadius))
    && TextStyle.Accepts(TextStyle.TextBorderWidth(q.textBorderWidth))
    && TextStyle.Accepts(TextStyle.TextBorderOpacity(Real(q.textBorderOpacity)))
    && TextStyle.Accepts(TextStyle.LetterSpacing(Real(q.letterSpacing)))
    && TextStyle.Accepts(TextStyle.LineSpacing(Real(q.lineSpacing)))
  }

  /** The controller's style checks are the setters' checks: once the required
      fields, the opacity and the rotation are fine, a request passes exactly when
      no style setter would throw on it. */
  lemma TextChecksMatchSetters(q: TextRequest)
    requires q.text.Some? && q.layer.Some? && q.timelineStartTime.Some? && q.timelineEndTime.Some?
    requires TextFinite(q) && RealIn(q.opacity, 0.0, 1.0)
    ensures ValidateText(q).Pass? <==> SettersAccept(q)
  {
  }

  /** A "NaN" opacity of every kind and "Infinity" spacings pass every check of an
      add-text request. */
  lemma NonFiniteTextPasses(text: string, layer: int, start: real, end: real)
    ensures var nan := Some(NaN); var inf := Some(Infinite(true));
            ValidateText(TextRequest(Some(text), Some(layer), Some(start), Some(end), nan, None, None,
                                     nan, None, None, None, None, None, nan, inf, inf)).Pass?
  {
  }

  /** An add-project-image request, with the defaults applied: layer 0 and start 0. */
  datatype ImageRequest = ImageRequest(
    layer: Option<int>, timelineStartTime: Option<real>, timelineEndTime: Option<real>,
    imageFileName: Option<string>, opacity: Option<real>, rotation: Option<Num>)

  /** `addProjectImageToTimeline`'s checks: a non-negative layer and start, an end
      not before the start, a non-empty file name, an opacity in [0, 1] and a finite
      rotation. */
  function ValidateImage(q: ImageRequest): (r: Outcome)
    ensures r.Pass? <==> q.layer.GetOr(0) >= 0 && q.timelineStartTime.GetOr(0.0) >= 0.0
                         && (q.timelineEndTime.None? || q.timelineEndTime.value >= q.timelineStartTime.GetOr(0.0))
                         && q.imageFileName.Some? && q.imageFileName.value != ""
                         && InRange(q.opacity, 0.0, 1.0) && FiniteOrAbsent(q.rotation)
  {
    var start := q.timelineStartTime.GetOr(0.0);
    if q.layer.GetOr(0) < 0 then BadRequest(ImageLayerMessage)
    else if start < 0.0 then BadRequest(TimelineStartMessage)
    else if q.timelineEndTime.Some? && q.timelineEndTime.value < start then
      BadRequest(EndTimeMessage)
    else if q.imageFileName.None? || q.imageFileName.value == "" then BadRequest(ImageNameMissing)
    else if !InRange(q.opacity, 0.0, 1.0) then BadRequest(OpacityMessage)
    else if !FiniteOrAbsent(q.rotation) then BadRequest(RotationMessage)
    else Pass
  }

  /** The end-time check is `end < start`, so an end equal to the start passes and
      an end before it does not. */
  lemma ImageZeroLengthAccepted(name: string, t: real)
    requires name != "" && t >= 0.0
    ensures ValidateImage(ImageRequest(None, Some(t), Some(t), Some(name), None, None)).Pass?
    ensures ValidateImage(ImageRequest(None, Some(t + 1.0), Some(t), Some(name), None, None)).Fail?
  {
  }
}

=== FILE: render_helpers.dfy ===
/** Three helpers of the editing service's rendering code: the default direction of a
    transition, the x offset of a text line, and the font file for a family name. */
module RenderHelpers {
  import opened Wrappers
  import opened Lists
  import opened Text
  import opened JavaNum

  // ------------------------------------------------------------ transitions

  /** The transition types that have a direction, with their default one. */
  const Directions: seq<(string, string)> :=
    [("Zoom", "in"), ("Rotate", "clockwise"), ("Slide", "right"), ("Push", "right"), ("Wipe", "left")]

  /** `getDefaultDirection`: the direction a transition uses when its parameters name none. */
  function DefaultDirection(transitionType: string): (r: string)
    ensures (forall i :: 0 <= i < |Directions| ==> Directions[i].0 != transitionType) ==> r == ""
    ensures forall i :: 0 <= i < |Directions| && Directions[i].0 == transitionType ==> r == Directions[i].1
  {
    match transitionType
    case "Zoom" => assert Directions[0].0 == "Zoom"; "in"
    case "Rotate" => assert Directions[1].0 == "Rotate"; "clockwise"
    case "Slide" => assert Directions[2].0 == "Slide"; "right"
    case "Push" => assert Directions[3].0 == "Push"; "right"
    case "Wipe" => assert Directions[4].0 == "Wipe"; "left"
    case _ => ""
  }

  // ------------------------------------------------------------ text lines

  /** `calculateXPosition`, with the measured width of the line passed in: flush left
      inside the padding and border, flush right likewise, anything else centred with
      Java's integer division. */
  function XPosition(alignment: string, lineWidth: int, totalWidth: int, padding: int, borderWidth: int): (x: int)
  {
    if alignment == "left" then padding + borderWidth
    else if alignment == "right" then totalWidth - lineWidth - padding - borderWidth
    else Div(totalWidth - lineWidth, 2)
  }

  /** Left and right alignment leave the same margin on their side; centring splits the
      free width into two gaps that differ by at most one pixel, the left one never the
      wider when the line fits. */
  lemma XPositionMargins(lineWidth: int, totalWidth: int, padding: int, borderWidth: int, alignment: string)
    ensures XPosition("left", lineWidth, totalWidth, padding, borderWidth) == padding + borderWidth
    ensures totalWidth - (XPosition("right", lineWidth, totalWidth, padding, borderWidth) + lineWidth)
            == padding + borderWidth
    ensures alignment != "left" && alignment != "right" ==>
              var x := XPosition(alignment, lineWidth, totalWidth, padding, borderWidth);
              var rightGap := totalWidth - lineWidth - x;
              -1 <= rightGap - x <= 1
              && (totalWidth >= lineWidth ==> 0 <= rightGap - x <= 1)
  {
  }

  // ------------------------------------------------------------ fonts

  /** The font families the service knows, with their file under the Windows font folder. */
  const FontFiles: seq<(string, string)> :=
    [("Arial", "Arial.ttf"), ("Times New Roman", "times.ttf"), ("Courier New", "cour.ttf"),
     ("Calibri", "calibri.ttf"), ("Verdana", "verdana.ttf"), ("Georgia", "georgia.ttf"),
     ("Comic Sans MS", "comic.ttf"), ("Impact", "impact.ttf"), ("Tahoma", "tahoma.ttf")]

  const FontFolder: string := "C:/Windows/Fonts/"

  /** The same folder with its drive colon escaped for an ffmpeg filter argument. */
  const EscapedFontFolder: string := "C\\:/Windows/Fonts/"

  const DefaultFontPath: string := "C:/Windows/Fonts/Arial.ttf"

  /** The family table with every file under `folder`. */
  function FontTable(folder: string): (r: seq<(string, string)>)
    ensures |r| == |FontFiles|
    ensures forall i :: 0 <= i < |r| ==> r[i] == (FontFiles[i].0, folder + FontFiles[i].1)
  {
    seq(|FontFiles|, i requires 0 <= i < |FontFiles| => (FontFiles[i].0, folder + FontFiles[i].1))
  }

  /** The lookup of `getFontPathByFamily` over a table: null or blank gives the default;
      the trimmed name is matched exactly, then ignoring case; anything else gives the
      default. */
  function FontLookup(table: seq<(string, string)>, family: Option<string>): (r: string)
    ensures NullOrTrimEmpty(family) ==> r == DefaultFontPath
    ensures r == DefaultFontPath || exists i :: 0 <= i < |table| && r == table[i].1
    ensures !NullOrTrimEmpty(family) ==>
              forall i :: 0 <= i < |table| && table[i].0 == Trim(family.value) ==>
                exists j :: 0 <= j <= i && r == table[j].1
  {
    if NullOrTrimEmpty(family) then DefaultFontPath
    else
      var name := Trim(family.value);
      match FirstIndex(table, (e: (string, string)) => e.0 == name)
      case Some(i) => table[i].1
      case None =>
        match FirstIndex(table, (e: (string, string)) => EqualsIgnoreCase(e.0, name))
        case Some(i) => table[i].1
        case None => DefaultFontPath
  }

  /** `getFontPathByFamily` as written: the table holds ffmpeg-escaped paths, while the
      result goes to `new File(...)`, and the default is a plain path. */
  function FontPathByFamily(family: Option<string>): string {
    FontLookup(FontTable(EscapedFontFolder), family)
  }

  /** As written, the family "Arial" and a missing family name the same font but give
      different paths, and a known family's path carries the escape backslash. */
  lemma FontPathsDisagree()
    ensures FontPathByFamily(Some("Arial")) == "C\\:/Windows/Fonts/Arial.ttf"
    ensures FontPathByFamily(None) == "C:/Windows/Fonts/Arial.ttf"
    ensures FontPathByFamily(Some("Arial")) != FontPathByFamily(None)
  {
    EscapedArialEntry();
    ArialTrimmed();
    FirstEntryFound(FontTable(EscapedFontFolder), "Arial");
    assert "C\\:/Windows/Fonts/Arial.ttf"[1] != "C:/Windows/Fonts/Arial.ttf"[1];
  }

  /** A table whose first family is the trimmed, non-blank name maps the name to
      its first path. */
  lemma FirstEntryFound(table: seq<(string, string)>, name: string)
    requires |table| > 0 && table[0].0 == name && Trim(name) == name && name != ""
    ensures FontLookup(table, Some(name)) == table[0].1
  {
    var j :| 0 <= j <= 0 && FontLookup(table, Some(name)) == table[j].1;
  }

  lemma ArialTrimmed()
    ensures Trim("Arial") == "Arial"
  {
    assert DropLeading("Arial", IsTrimmed) == "Arial";
    assert DropTrailing("Arial", IsTrimmed) == "Arial";
  }

  lemma EscapedArialEntry()
    ensures FontTable(EscapedFontFolder)[0] == ("Arial", "C\\:/Windows/Fonts/Arial.ttf")
  {
    assert FontFiles[0] == ("Arial", "Arial.ttf");
    assert EscapedFontFolder + "Arial.ttf" == "C\\:/Windows/Fonts/Arial.ttf";
  }

  /** The lookup as evidently intended: plain file paths throughout. */
  function FontPath(family: Option<string>): (r: string)
    ensures exists i :: 0 <= i < |FontFiles| && r == FontFolder + FontFiles[i].1
  {
    assert DefaultFontPath == FontFolder + FontFiles[0].1;
    FontLookup(FontTable(FontFolder), family)
  }

  /** The family names are distinct: no two agree in both length and first letter. */
  lemma FontNamesDistinct()
    ensures forall i, j :: 0 <= i < j < |FontFiles| ==> FontFiles[i].0 != FontFiles[j].0
  {
    forall i, j | 0 <= i < j < |FontFiles|
      ensures |FontFiles[i].0| != |FontFiles[j].0| || FontFiles[i].0[0] != FontFiles[j].0[0]
    {
    }
  }

  /** With the plain table, a family given by its exact name maps to that family's own
      file. */
  lemma FontPathAgrees(family: string, i: nat)
    requires i < |FontFiles| && !NullOrTrimEmpty(Some(family)) && Trim(family) == FontFiles[i].0
    ensures FontPath(Some(family)) == FontFolder + FontFiles[i].1
  {
    FontNamesDistinct();
  }
}

=== FILE: segment_updates.dfy ===
/** The update operations of the editing service for video, image and audio segments.
    Each finds the segment by id, validates part of the request, applies keyframes and
    field changes, takes the segment out to run the placement check, and puts it back
    at the end of its list, rolling back some fields when the check fails. Exceptions
    thrown after fields have changed leave those changes in place, so each update
    returns an `Effect`. Rounding to three decimals is not modelled. */
module SegmentUpdates {
  import opened Wrappers
  import opened Lists
  import opened Keyframes
  import opened VideoSegments
  import opened AudioSegments
  import opened ImageSegments
  import opened Timeline
  import opened Transitions

  // ------------------------------------------------------------ crops

  predicate CropInRange(c: Option<real>) { c.None? || 0.0 <= c.value <= 100.0 }

  /** The crop arguments of an update; `None` keeps the current value. */
  datatype Crops = Crops(l: Option<real>, r: Option<real>, t: Option<real>, b: Option<real>)

  /** The crop checks of the video and image updates, made before anything changes:
      every given crop within [0, 100], and the crops in effect afterwards below 100 on
      each axis. */
  function CheckCrops(c: Crops, curL: real, curR: real, curT: real, curB: real): (o: Outcome)
    ensures o.Pass? <==> CropInRange(c.l) && CropInRange(c.r) && CropInRange(c.t) && CropInRange(c.b)
                         && c.l.GetOr(curL) + c.r.GetOr(curR) < 100.0
                         && c.t.GetOr(curT) + c.b.GetOr(curB) < 100.0
    ensures o.Fail? ==> o.error.kind == IllegalArgument
  {
    if !CropInRange(c.l) then Fail(Error(IllegalArgument, "cropL must be between 0 and 100"))
    else if !CropInRange(c.r) then Fail(Error(IllegalArgument, "cropR must be between 0 and 100"))
    else if !CropInRange(c.t) then Fail(Error(IllegalArgument, "cropT must be between 0 and 100"))
    else if !CropInRange(c.b) then Fail(Error(IllegalArgument, "cropB must be between 0 and 100"))
    else if c.l.GetOr(curL) + c.r.GetOr(curR) >= 100.0 then
      Fail(Error(IllegalArgument, "Total crop percentage (left + right) must be less than 100"))
    else if c.t.GetOr(curT) + c.b.GetOr(curB) >= 100.0 then
      Fail(Error(IllegalArgument, "Total crop percentage (top + bottom) must be less than 100"))
    else Pass
  }

  // ------------------------------------------------------------ keyframes

  /** The keyframes of an update request: one entry per property, in the map's
      iteration order. */
  type KeyframeEntries = seq<(string, seq<Keyframe>)>

  /** A keyframe time within the segment's timeline span. */
  predicate InBounds(k: Keyframe, bound: real) { 0.0 <= k.time <= bound }

  predicate AllInBounds(entries: KeyframeEntries, bound: real) {
    forall i, j :: 0 <= i < |entries| && 0 <= j < |entries[i].1| ==> InBounds(entries[i].1[j], bound)
  }

  /** Keyframes added to one property in order. */
  function AddAll(m: KeyframeMap, p: string, ks: seq<Keyframe>): (r: KeyframeMap)
    ensures |ks| == 0 ==> r == m
    ensures |ks| > 0 ==> r.Keys == m.Keys + {p} && ks[|ks| - 1] in r[p]
    ensures forall q :: q in m && q != p ==> r[q] == m[q]
    decreases |ks|
  {
    if |ks| == 0 then m else Add(AddAll(m, p, ks[..|ks| - 1]), p, ks[|ks| - 1])
  }

  /** One property's keyframes added in order; the first out of bounds throws, the
      ones before it staying added. */
  function AddList(m: KeyframeMap, p: string, kfs: seq<Keyframe>, bound: real): (r: (KeyframeMap, bool))
    ensures r.1 <==> forall j :: 0 <= j < |kfs| ==> InBounds(kfs[j], bound)
    ensures m.Keys <= r.0.Keys <= m.Keys + {p}
    ensures forall q :: q in m && q != p ==> r.0[q] == m[q]
    ensures r.1 && |kfs| > 0 ==> p in r.0 && kfs[|kfs| - 1] in r.0[p]
  {
    match FirstIndex(kfs, (k: Keyframe) => !InBounds(k, bound))
    case None => (AddAll(m, p, kfs), true)
    case Some(n) => (AddAll(m, p, kfs[..n]), false)
  }

  /** The properties named by some entries. */
  function Properties(entries: KeyframeEntries): set<string> {
    set i | 0 <= i < |entries| :: entries[i].0
  }

  predicate ListInBounds(kfs: seq<Keyframe>, bound: real) {
    forall j :: 0 <= j < |kfs| ==> InBounds(kfs[j], bound)
  }

  /** Whole entries added in order. */
  function AddEntriesAll(m: KeyframeMap, entries: KeyframeEntries): (r: KeyframeMap)
    ensures m.Keys <= r.Keys
    ensures forall q :: q in m && q !in Properties(entries) ==> r[q] == m[q]
    decreases |entries|
  {
    if |entries| == 0 then m
    else
      var init := entries[..|entries| - 1];
      assert Properties(init) <= Properties(entries);
      AddAll(AddEntriesAll(m, init), entries[|entries| - 1].0, entries[|entries| - 1].1)
  }

  /** The keyframe map after the request's entries, the properties whose entries were
      completed, and the exception if one was out of bounds. */
  datatype KeyframeRun = KeyframeRun(keyframes: KeyframeMap, finished: set<string>, error: Option<Error>)

  /** The keyframe loop shared by the three updates: entries are processed in order,
      and the first keyframe out of bounds throws with the keyframes before it added. */
  function AddEntries(m: KeyframeMap, entries: KeyframeEntries, bound: real): (r: KeyframeRun)
    ensures r.error.None? <==> AllInBounds(entries, bound)
    ensures r.error.Some? ==> r.error.value.kind == IllegalArgument
    ensures r.error.None? ==> r.finished == Properties(entries)
    ensures r.finished <= Properties(entries)
    ensures m.Keys <= r.keyframes.Keys
    ensures forall q :: q in m && q !in Properties(entries) ==> r.keyframes[q] == m[q]
  {
    match FirstIndex(entries, (e: (string, seq<Keyframe>)) => !ListInBounds(e.1, bound))
    case None =>
      KeyframeRun(AddEntriesAll(m, entries), Properties(entries), None)
    case Some(n) =>
      var done := entries[..n];
      assert Properties(done) <= Properties(entries);
      var partial := AddList(AddEntriesAll(m, done), entries[n].0, entries[n].1, bound).0;
      KeyframeRun(partial, Properties(done), Some(Error(IllegalArgument, "Keyframe time out of segment bounds")))
  }

  // ------------------------------------------------------------ video

  /** The arguments of `updateVideoSegment`; `None` leaves a field as it is. */
  datatype VideoChanges = VideoChanges(
    positionX: Option<int>,
    positionY: Option<int>,
    scale: Option<real>,
    opacity: Option<real>,
    timelineStartTime: Option<real>,
    layer: Option<int>,
    timelineEndTime: Option<real>,
    startTime: Option<real>,
    endTime: Option<real>,
    crops: Crops,
    keyframes: KeyframeEntries)

  /** A static property is cleared once its keyframes are all in, since the animation
      takes over. */
  function Cleared<T>(value: Option<T>, property: string, run: KeyframeRun): (r: Option<T>)
    ensures property in run.finished ==> r.None?
    ensures property !in run.finished ==> r == value
  {
    if property in run.finished then None else value
  }

  function VideoWithKeyframes(s: VideoSegment, run: KeyframeRun): VideoSegment {
    s.(keyframes := run.keyframes,
       positionX := Cleared(s.positionX, "positionX", run),
       positionY := Cleared(s.positionY, "positionY", run),
       scale := Cleared(s.scale, "scale", run),
       opacity := Cleared(s.opacity, "opacity", run))
  }

  /** The timeline after a keyframe exception: the segment keeps its place and holds
      the keyframes added before the throw. */
  function KeyframesOnly(t: TimelineState, i: nat, run: KeyframeRun): (r: TimelineState)
    requires i < |t.segments|
  {
    t.(segments := t.segments[i := VideoWithKeyframes(t.segments[i], run)])
  }

  /** The timeline span stretched, when shorter than the clip, to the clip's length. */
  function StretchedSpan(start: real, end: real, clip: real): (r: real)
    ensures r - start >= clip
    ensures end - start >= clip ==> r == end
  {
    if end - start < clip then start + clip else end
  }

  /** The clip range after an update: a new start is clamped at 0 and a new end at the
      source video's duration. */
  function ClampedStart(start: Option<real>, current: real): (r: real)
    ensures start.Some? ==> r >= 0.0 && (start.value >= 0.0 ==> r == start.value)
    ensures start.None? ==> r == current
  {
    if start.Some? then (if start.value < 0.0 then 0.0 else start.value) else current
  }

  function ClampedEnd(end: Option<real>, current: real, sourceDuration: real): (r: real)
    ensures end.Some? ==> r <= sourceDuration && (end.value <= sourceDuration ==> r == end.value)
    ensures end.None? ==> r == current
  {
    if end.Some? then (if end.value > sourceDuration then sourceDuration else end.value) else current
  }

  /** The field changes of `updateVideoSegment`. */
  function ApplyVideoChanges(s: VideoSegment, c: VideoChanges, sourceDuration: real): (r: VideoSegment)
  {
    var tlStart := c.timelineStartTime.GetOr(s.timelineStartTime);
    var start := ClampedStart(c.startTime, s.startTime);
    var end := ClampedEnd(c.endTime, s.endTime, sourceDuration);
    s.(positionX := if c.positionX.Some? then c.positionX else s.positionX,
       positionY := if c.positionY.Some? then c.positionY else s.positionY,
       scale := if c.scale.Some? then c.scale else s.scale,
       opacity := if c.opacity.Some? then c.opacity else s.opacity,
       layer := c.layer.GetOr(s.layer),
       timelineStartTime := tlStart,
       timelineEndTime := StretchedSpan(tlStart, c.timelineEndTime.GetOr(s.timelineEndTime), end - start),
       startTime := start, endTime := end,
       cropL := c.crops.l.GetOr(s.cropL), cropR := c.crops.r.GetOr(s.cropR),
       cropT := c.crops.t.GetOr(s.cropT), cropB := c.crops.b.GetOr(s.cropB))
  }

  /** What the overlap rollback restores: times, layer and crops, but not position,
      scale, opacity or keyframes. */
  function RestoreVideoPlacement(s: VideoSegment, original: VideoSegment): VideoSegment {
    s.(timelineStartTime := original.timelineStartTime, timelineEndTime := original.timelineEndTime,
       startTime := original.startTime, endTime := original.endTime, layer := original.layer,
       cropL := original.cropL, cropR := original.cropR, cropT := original.cropT, cropB := original.cropB)
  }

  function VideoIndex(t: TimelineState, id: string): Option<nat> {
    FirstIndex(t.segments, (v: VideoSegment) => v.id == id)
  }

  /** Whether the update touches the layer or the timeline span, which moves the
      segment's transitions along. */
  predicate Moves(layer: Option<int>, timelineStartTime: Option<real>, timelineEndTime: Option<real>) {
    layer.Some? || timelineStartTime.Some? || timelineEndTime.Some?
  }

  predicate VideoMoves(c: VideoChanges) {
    Moves(c.layer, c.timelineStartTime, c.timelineEndTime)
  }

  /** `updateVideoSegment`; `sourceDuration` is what ffprobe reports for the video file. */
  function UpdateVideoSegment(t: TimelineState, id: string, c: VideoChanges, sourceDuration: real): (r: Effect)
    ensures r.state == t.(segments := r.state.segments, transitions := r.state.transitions)
    ensures |r.state.segments| == |t.segments|
    ensures VideoIndex(t, id).None? ==> r == Effect(t, Some(Error(Runtime, "No segment found with ID: " + id)))
    ensures VideoIndex(t, id).Some? ==>
              var s := t.segments[VideoIndex(t, id).value];
              CheckCrops(c.crops, s.cropL, s.cropR, s.cropT, s.cropB).Fail? ==>
                r.state == t && r.error.Some? && r.error.value.kind == IllegalArgument
    ensures r.error.None? ==> r.state.segments[|t.segments| - 1].id == id
    ensures LayersDisjoint(t) ==> LayersDisjoint(r.state)
  {
    match VideoIndex(t, id)
    case None => Effect(t, Some(Error(Runtime, "No segment found with ID: " + id)))
    case Some(i) =>
      var s := t.segments[i];
      var check := CheckCrops(c.crops, s.cropL, s.cropR, s.cropT, s.cropB);
      if check.Fail? then Effect(t, Some(check.error))
      else
        var run := AddEntries(s.keyframes, c.keyframes, s.timelineEndTime - s.timelineStartTime);
        VideoAfterKeyframesKeepsDisjoint(t, i, run, id, c, sourceDuration);
        VideoAfterKeyframes(t, i, run, id, c, sourceDuration)
  }

  /** The rest of `updateVideoSegment` once the keyframe loop has run: a keyframe error
      leaves what the loop added, otherwise the field changes are applied and committed. */
  function VideoAfterKeyframes(t: TimelineState, i: nat, run: KeyframeRun, id: string, c: VideoChanges,
                               sourceDuration: real): (r: Effect)
    requires i < |t.segments|
  {
    if run.error.Some? then Effect(KeyframesOnly(t, i, run), run.error)
    else CommitVideo(t, i, ApplyVideoChanges(VideoWithKeyframes(t.segments[i], run), c, sourceDuration), id, c)
  }

  /** The remove, check and re-add that ends `updateVideoSegment`, with the overlap
      rollback and the transitions that follow a moved segment. */
  function CommitVideo(t: TimelineState, i: nat, s2: VideoSegment, id: string, c: VideoChanges): (r: Effect)
    requires i < |t.segments|
  {
    var others := RemoveAt(t.segments, i);
    if !PositionAvailable(t.(segments := others), s2.timelineStartTime, s2.timelineEndTime, s2.layer) then
      Effect(t.(segments := others + [RestoreVideoPlacement(s2, t.segments[i])]),
             Some(Error(Runtime, OverlapMessage)))
    else
      var moved := t.(segments := others + [s2]);
      if VideoMoves(c) then
        var retimed := RetimeTransitions(t.transitions, id, VideoSpan(s2));
        Effect(moved.(transitions := retimed.transitions), retimed.error)
      else Effect(moved, None)
  }

  lemma CommitVideoKeepsDisjoint(t: TimelineState, i: nat, s2: VideoSegment, id: string, c: VideoChanges)
    requires i < |t.segments| && LayersDisjoint(t)
    ensures LayersDisjoint(CommitVideo(t, i, s2, id, c).state)
  {
    var rest := t.(segments := RemoveAt(t.segments, i));
    RemoveAtKeepsDisjoint(t, i);
    if PositionAvailable(rest, s2.timelineStartTime, s2.timelineEndTime, s2.layer) {
      AppendAvailableKeepsDisjoint(rest, s2);
    } else {
      var back := RestoreVideoPlacement(s2, t.segments[i]);
      FitsBySamePlacement(rest, t.segments[i], back);
      AppendFittingKeepsDisjoint(rest, back);
    }
  }

  lemma KeyframesOnlyKeepsDisjoint(t: TimelineState, i: nat, run: KeyframeRun)
    requires i < |t.segments| && LayersDisjoint(t)
    ensures LayersDisjoint(KeyframesOnly(t, i, run))
  {
    SamePlacementSameDisjoint(t, KeyframesOnly(t, i, run).segments);
  }

  lemma VideoAfterKeyframesKeepsDisjoint(t: TimelineState, i: nat, run: KeyframeRun, id: string, c: VideoChanges,
                                         sourceDuration: real)
    requires i < |t.segments|
    ensures LayersDisjoint(t) ==> LayersDisjoint(VideoAfterKeyframes(t, i, run, id, c, sourceDuration).state)
  {
    if LayersDisjoint(t) {
      if run.error.Some? {
        KeyframesOnlyKeepsDisjoint(t, i, run);
      } else {
        CommitVideoKeepsDisjoint(t, i, ApplyVideoChanges(VideoWithKeyframes(t.segments[i], run), c, sourceDuration), id, c);
      }
    }
  }

  /** The overlap exception of the re-placement puts back the segment with its old
      placement and crops. */
  lemma CommitVideoRollback(t: TimelineState, i: nat, s2: VideoSegment, id: string, c: VideoChanges)
    requires i < |t.segments|
    requires CommitVideo(t, i, s2, id, c).error == Some(Error(Runtime, OverlapMessage))
    ensures CommitVideo(t, i, s2, id, c).state.segments
            == RemoveAt(t.segments, i) + [RestoreVideoPlacement(s2, t.segments[i])]
  {
    assert |OverlapMessage| != |RetimeMessage|;
  }

  /** The overlap rollback of a video update restores times, layer and crops but keeps
      the new position, scale and opacity. */
  lemma VideoRollbackKeepsPosition(t: TimelineState, id: string, c: VideoChanges, sourceDuration: real)
    requires VideoIndex(t, id).Some?
    requires UpdateVideoSegment(t, id, c, sourceDuration).error == Some(Error(Runtime, OverlapMessage))
    ensures var s := t.segments[VideoIndex(t, id).value];
            var r := UpdateVideoSegment(t, id, c, sourceDuration);
            var last := r.state.segments[|t.segments| - 1];
            last.id == id && last.layer == s.layer
            && last.timelineStartTime == s.timelineStartTime && last.timelineEndTime == s.timelineEndTime
            && last.startTime == s.startTime && last.endTime == s.endTime
            && last.cropL == s.cropL && last.cropR == s.cropR && last.cropT == s.cropT && last.cropB == s.cropB
            && (c.positionX.Some? ==> last.positionX == c.positionX)
            && (c.opacity.Some? ==> last.opacity == c.opacity)
  {
    var i := VideoIndex(t, id).value;
    var s := t.segments[i];
    var run := AddEntries(s.keyframes, c.keyframes, s.timelineEndTime - s.timelineStartTime);
    var s2 := ApplyVideoChanges(VideoWithKeyframes(s, run), c, sourceDuration);
    CommitVideoRollback(t, i, s2, id, c);
  }

  lemma CommitVideoPlaces(t: TimelineState, i: nat, s2: VideoSegment, id: string, c: VideoChanges)
    requires i < |t.segments| && CommitVideo(t, i, s2, id, c).error.None?
    ensures var r := CommitVideo(t, i, s2, id, c).state;
            r.segments == RemoveAt(t.segments, i) + [s2]
            && PositionAvailable(t.(segments := RemoveAt(t.segments, i)), s2.timelineStartTime, s2.timelineEndTime, s2.layer)
            && (VideoMoves(c) ==>
                  forall k :: 0 <= k < |r.transitions| && r.transitions[k].segmentId == id ==>
                    Within(r.transitions[k], VideoSpan(s2)))
  {
    if VideoMoves(c) {
      RetimedWithin(t.transitions, id, VideoSpan(s2));
    }
  }

  /** A successful video update leaves the segment last in the list, at a position
      nothing else on its layer occupies, with a timeline span at least as long as its
      clip and valid crops, and its transitions inside the new span. */
  lemma UpdateVideoPlaces(t: TimelineState, id: string, c: VideoChanges, sourceDuration: real)
    requires VideoIndex(t, id).Some? && VideoSegments.CropsValid(t.segments[VideoIndex(t, id).value])
    requires UpdateVideoSegment(t, id, c, sourceDuration).error.None?
    ensures var r := UpdateVideoSegment(t, id, c, sourceDuration).state;
            var last := r.segments[|t.segments| - 1];
            var rest := t.(segments := r.segments[..|t.segments| - 1]);
            PositionAvailable(rest, last.timelineStartTime, last.timelineEndTime, last.layer)
            && last.timelineEndTime - last.timelineStartTime >= last.endTime - last.startTime
            && VideoSegments.CropsValid(last)
            && forall k :: 0 <= k < |r.transitions| && r.transitions[k].segmentId == id && VideoMoves(c) ==>
                 Within(r.transitions[k], VideoSpan(last))
  {
    var i := VideoIndex(t, id).value;
    var s := t.segments[i];
    var run := AddEntries(s.keyframes, c.keyframes, s.timelineEndTime - s.timelineStartTime);
    var s2 := ApplyVideoChanges(VideoWithKeyframes(s, run), c, sourceDuration);
    CommitVideoPlaces(t, i, s2, id, c);
    var r := UpdateVideoSegment(t, id, c, sourceDuration).state;
    assert r.segments[..|t.segments| - 1] == RemoveAt(t.segments, i);
  }

  // ------------------------------------------------------------ image

  /** The arguments of `updateImageSegment`; `None` leaves a field as it is. */
  datatype ImageChanges = ImageChanges(
    positionX: Option<int>,
    positionY: Option<int>,
    scale: Option<real>,
    opacity: Option<real>,
    layer: Option<int>,
    customWidth: Option<int>,
    customHeight: Option<int>,
    maintainAspectRatio: Option<bool>,
    timelineStartTime: Option<real>,
    timelineEndTime: Option<real>,
    crops: Crops,
    keyframes: KeyframeEntries)

  function ImageWithKeyframes(s: ImageSegment, run: KeyframeRun): ImageSegment {
    s.(keyframes := run.keyframes,
       positionX := Cleared(s.positionX, "positionX", run),
       positionY := Cleared(s.positionY, "positionY", run),
       scale := Cleared(s.scale, "scale", run),
       opacity := Cleared(s.opacity, "opacity", run))
  }

  /** The field changes of `updateImageSegment`; unlike a video, the span is taken as
      given. */
  function ApplyImageChanges(s: ImageSegment, c: ImageChanges): ImageSegment {
    s.(positionX := if c.positionX.Some? then c.positionX else s.positionX,
       positionY := if c.positionY.Some? then c.positionY else s.positionY,
       scale := if c.scale.Some? then c.scale else s.scale,
       opacity := if c.opacity.Some? then c.opacity else s.opacity,
       layer := c.layer.GetOr(s.layer),
       customWidth := c.customWidth.GetOr(s.customWidth),
       customHeight := c.customHeight.GetOr(s.customHeight),
       maintainAspectRatio := c.maintainAspectRatio.GetOr(s.maintainAspectRatio),
       timelineStartTime := c.timelineStartTime.GetOr(s.timelineStartTime),
       timelineEndTime := c.timelineEndTime.GetOr(s.timelineEndTime),
       cropL := c.crops.l.GetOr(s.cropL), cropR := c.crops.r.GetOr(s.cropR),
       cropT := c.crops.t.GetOr(s.cropT), cropB := c.crops.b.GetOr(s.cropB))
  }

  /** What the overlap rollback of an image restores: timeline span, layer and crops. */
  function RestoreImagePlacement(s: ImageSegment, original: ImageSegment): ImageSegment {
    s.(timelineStartTime := original.timelineStartTime, timelineEndTime := original.timelineEndTime,
       layer := original.layer,
       cropL := original.cropL, cropR := original.cropR, cropT := original.cropT, cropB := original.cropB)
  }

  function ImageIndex(t: TimelineState, id: string): Option<nat> {
    FirstIndex(t.imageSegments, (v: ImageSegment) => v.id == id)
  }

  /** `updateImageSegment`. */
  function UpdateImageSegment(t: TimelineState, id: string, c: ImageChanges): (r: Effect)
    ensures r.state == t.(imageSegments := r.state.imageSegments, transitions := r.state.transitions)
    ensures |r.state.imageSegments| == |t.imageSegments|
    ensures ImageIndex(t, id).None? ==> r == Effect(t, Some(Error(Runtime, "Image segment not found: " + id)))
    ensures ImageIndex(t, id).Some? ==>
              var s := t.imageSegments[ImageIndex(t, id).value];
              CheckCrops(c.crops, s.cropL, s.cropR, s.cropT, s.cropB).Fail? ==>
                r.state == t && r.error.Some? && r.error.value.kind == IllegalArgument
    ensures r.error.None? ==> r.state.imageSegments[|t.imageSegments| - 1].id == id
  {
    match ImageIndex(t, id)
    case None => Effect(t, Some(Error(Runtime, "Image segment not found: " + id)))
    case Some(i) =>
      var s := t.imageSegments[i];
      var check := CheckCrops(c.crops, s.cropL, s.cropR, s.cropT, s.cropB);
      if check.Fail? then Effect(t, Some(check.error))
      else ImageAfterCrops(t, i, id, c)
  }

  function ImageAfterCrops(t: TimelineState, i: nat, id: string, c: ImageChanges): (r: Effect)
    requires i < |t.imageSegments|
  {
    var s := t.imageSegments[i];
    var run := AddEntries(s.keyframes, c.keyframes, s.timelineEndTime - s.timelineStartTime);
    if run.error.Some? then
      Effect(t.(imageSegments := t.imageSegments[i := ImageWithKeyframes(s, run)]), run.error)
    else CommitImage(t, i, ApplyImageChanges(ImageWithKeyframes(s, run), c), id, c)
  }

  /** The remove, check and re-add of `updateImageSegment`. The check does not look at
      images, so the image taken out plays no part in it. */
  function CommitImage(t: TimelineState, i: nat, s2: ImageSegment, id: string, c: ImageChanges): (r: Effect)
    requires i < |t.imageSegments|
  {
    var others := RemoveAt(t.imageSegments, i);
    if !PositionAvailable(t.(imageSegments := others), s2.timelineStartTime, s2.timelineEndTime, s2.layer) then
      Effect(t.(imageSegments := others + [RestoreImagePlacement(s2, t.imageSegments[i])]),
             Some(Error(Runtime, OverlapMessage)))
    else
      var moved := t.(imageSegments := others + [s2]);
      if Moves(c.layer, c.timelineStartTime, c.timelineEndTime) then
        var retimed := RetimeTransitions(t.transitions, id, ImageSpan(s2));
        Effect(moved.(transitions := retimed.transitions), retimed.error)
      else Effect(moved, None)
  }

  lemma CommitImageRollback(t: TimelineState, i: nat, s2: ImageSegment, id: string, c: ImageChanges)
    requires i < |t.imageSegments|
    requires CommitImage(t, i, s2, id, c).error == Some(Error(Runtime, OverlapMessage))
    ensures CommitImage(t, i, s2, id, c).state.imageSegments
            == RemoveAt(t.imageSegments, i) + [RestoreImagePlacement(s2, t.imageSegments[i])]
  {
    assert |OverlapMessage| != |RetimeMessage|;
  }

  /** The overlap rollback of an image update restores span, layer and crops, and keeps
      the new size and position. */
  lemma ImageRollbackRestores(t: TimelineState, id: string, c: ImageChanges)
    requires ImageIndex(t, id).Some?
    requires UpdateImageSegment(t, id, c).error == Some(Error(Runtime, OverlapMessage))
    ensures var s := t.imageSegments[ImageIndex(t, id).value];
            var last := UpdateImageSegment(t, id, c).state.imageSegments[|t.imageSegments| - 1];
            last.id == id && last.layer == s.layer
            && last.timelineStartTime == s.timelineStartTime && last.timelineEndTime == s.timelineEndTime
            && last.cropL == s.cropL && last.cropR == s.cropR && last.cropT == s.cropT && last.cropB == s.cropB
            && (c.customWidth.Some? ==> last.customWidth == c.customWidth.value)
            && (c.positionX.Some? ==> last.positionX == c.positionX)
  {
    var i := ImageIndex(t, id).value;
    var s := t.imageSegments[i];
    var run := AddEntries(s.keyframes, c.keyframes, s.timelineEndTime - s.timelineStartTime);
    CommitImageRollback(t, i, ApplyImageChanges(ImageWithKeyframes(s, run), c), id, c);
  }

  lemma CommitImagePlaces(t: TimelineState, i: nat, s2: ImageSegment, id: string, c: ImageChanges)
    requires i < |t.imageSegments| && CommitImage(t, i, s2, id, c).error.None?
    ensures var r := CommitImage(t, i, s2, id, c).state;
            r.imageSegments[|t.imageSegments| - 1] == s2
            && PositionAvailable(t, s2.timelineStartTime, s2.timelineEndTime, s2.layer)
            && (Moves(c.layer, c.timelineStartTime, c.timelineEndTime) ==>
                  forall k :: 0 <= k < |r.transitions| && r.transitions[k].segmentId == id ==>
                    Within(r.transitions[k], ImageSpan(s2)))
  {
    if Moves(c.layer, c.timelineStartTime, c.timelineEndTime) {
      RetimedWithin(t.transitions, id, ImageSpan(s2));
    }
  }

  /** A successful image update leaves the image last in its list, at a position no
      video, text or audio segment on its layer occupies, with valid crops, the
      requested size, and its transitions inside the new span. */
  lemma UpdateImagePlaces(t: TimelineState, id: string, c: ImageChanges)
    requires ImageIndex(t, id).Some? && ImageSegments.CropsValid(t.imageSegments[ImageIndex(t, id).value])
    requires UpdateImageSegment(t, id, c).error.None?
    ensures var r := UpdateImageSegment(t, id, c).state;
            var last := r.imageSegments[|t.imageSegments| - 1];
            PositionAvailable(t, last.timelineStartTime, last.timelineEndTime, last.layer)
            && ImageSegments.CropsValid(last)
            && (c.customWidth.Some? ==> last.customWidth == c.customWidth.value)
            && (c.customHeight.Some? ==> last.customHeight == c.customHeight.value)
            && forall k :: 0 <= k < |r.transitions| && r.transitions[k].segmentId == id
                             && Moves(c.layer, c.timelineStartTime, c.timelineEndTime) ==>
                 Within(r.transitions[k], ImageSpan(last))
  {
    var i := ImageIndex(t, id).value;
    var s := t.imageSegments[i];
    var run := AddEntries(s.keyframes, c.keyframes, s.timelineEndTime - s.timelineStartTime);
    CommitImagePlaces(t, i, ApplyImageChanges(ImageWithKeyframes(s, run), c), id, c);
  }
}

=== FILE: serving.dfy ===
/** The file-serving endpoints: who may fetch a user's file, the status each
    refusal answers with, and the content type a served file is sent as. The
    file system is a parameter: whether the file is there (and readable). */
module Serving {
  import opened Wrappers
  import opened Text
  import ProjectController
  import GlobalElementService

  /** Who the optional `Authorization` header names. A header that is absent or
      empty names nobody; one whose user cannot be found makes the lookup throw. */
  datatype Caller = Anonymous | Unknown | Known(id: nat)

  /** The answer of an endpoint: the file with its content type, or a status. */
  datatype Response = Served(contentType: string) | BadRequest | Forbidden | NotFound

  /** Reading the header: the lookup maps a token to the id of its user, if any. */
  function Identify(token: Option<string>, lookup: string -> Option<nat>): (c: Caller)
    ensures c.Anonymous? <==> token.None? || token.value == ""
    ensures c.Known? ==> token.Some? && lookup(token.value) == Some(c.id)
  {
    if token.None? || token.value == "" then Anonymous
    else match lookup(token.value)
      case None => Unknown
      case Some(id) => Known(id)
  }

  /** The ownership rule of the user-scoped routes: no header at all, or the
      header's user is the one in the path. */
  predicate MayRead(c: Caller, userId: nat) {
    c.Anonymous? || c == Known(userId)
  }

  /** `serveStandaloneImage`: a header naming another user answers 403, an unknown
      user throws and the catch answers 404; then the type must be `original` or
      `processed` (400); then the file must be readable (404). */
  function ServeStandaloneImage(c: Caller, userId: nat, kind: string, filename: string, readable: bool): (r: Response)
    ensures r.Forbidden? <==> c.Known? && c.id != userId
    ensures r.BadRequest? <==> MayRead(c, userId) && kind != "original" && kind != "processed"
    ensures r.NotFound? <==> c.Unknown? || (MayRead(c, userId) && (kind == "original" || kind == "processed") && !readable)
    ensures r.Served? ==> MayRead(c, userId) && readable && r.contentType == ProjectController.ImageContentType(filename)
  {
    if c.Unknown? then NotFound
    else if c.Known? && c.id != userId then Forbidden
    else if kind != "original" && kind != "processed" then BadRequest
    else if readable then Served(ProjectController.ImageContentType(filename))
    else NotFound
  }

  /** The shape every user-scoped route of the serve controller shares: 403 for
      another user, 404 when the lookup throws or the file is missing. */
  function ServeOwned(c: Caller, userId: nat, present: bool, contentType: string): (r: Response)
    ensures r.Forbidden? <==> c.Known? && c.id != userId
    ensures r.NotFound? <==> c.Unknown? || (MayRead(c, userId) && !present)
    ensures !r.BadRequest?
    ensures r.Served? ==> MayRead(c, userId) && present && r.contentType == contentType
  {
    if c.Unknown? then NotFound
    else if c.Known? && c.id != userId then Forbidden
    else if present then Served(contentType)
    else NotFound
  }

  /** `serveVideo`: the project (`owner` holds its user's id when it exists) is
      looked up before the caller is compared with its owner, so a missing project
      answers 404 to every caller; then the file must exist, and is sent as MP4. */
  function ServeVideo(c: Caller, owner: Option<nat>, present: bool): (r: Response)
    ensures r.Forbidden? <==> owner.Some? && c.Known? && c.id != owner.value
    ensures r.NotFound? <==> c.Unknown? || owner.None? || (MayRead(c, owner.value) && !present)
    ensures !r.BadRequest?
    ensures r.Served? ==> owner.Some? && MayRead(c, owner.value) && present && r.contentType == "video/mp4"
  {
    if c.Unknown? then NotFound
    else if owner.None? then NotFound
    else if c.Known? && c.id != owner.value then Forbidden
    else if present then Served("video/mp4")
    else NotFound
  }

  /** The video route answers a missing project with 404 where the user-scoped
      routes answer a foreign caller with 403; with the project present, the two
      agree. */
  lemma VideoLooksUpProjectFirst(c: Caller, owner: nat, present: bool)
    requires c.Known? && c.id != owner
    ensures ServeVideo(c, None, present) == NotFound
    ensures ServeOwned(c, owner, present, "video/mp4") == Forbidden
    ensures ServeVideo(c, Some(owner), present) == ServeOwned(c, owner, present, "video/mp4")
  {
  }

  /** Only the owner, or a request without a header, ever receives a user's file. */
  lemma OnlyOwnerServed(c: Caller, userId: nat, present: bool, contentType: string)
    ensures ServeOwned(c, userId, present, contentType).Served? <==> MayRead(c, userId) && present
  {
  }

  /** A request without a header is never refused for ownership: an absent token
      is allowed on these routes. */
  lemma AnonymousAllowed(userId: nat, kind: string, filename: string, readable: bool, present: bool, contentType: string)
    ensures !ServeOwned(Anonymous, userId, present, contentType).Forbidden?
    ensures !ServeStandaloneImage(Anonymous, userId, kind, filename, readable).Forbidden?
  {
  }

  const Subrip := "application/x-subrip"
  const PlainText := "text/plain"
  const Vtt := "text/vtt"

  /** The subtitle route's content type: by suffix, case-sensitively, with WebVTT
      the default. */
  function SubtitleContentType(name: string): (r: string)
    ensures r == Subrip <==> EndsWith(name, ".srt")
    ensures r == PlainText <==> !EndsWith(name, ".srt") && EndsWith(name, ".txt")
    ensures r == Vtt <==> !EndsWith(name, ".srt") && !EndsWith(name, ".txt")
  {
    if EndsWith(name, ".srt") then Subrip
    else if EndsWith(name, ".txt") then PlainText
    else Vtt
  }

  /** The suffix test is case-sensitive: an upper-case `.SRT` or `.TXT` is served as
      WebVTT. */
  lemma SubtitleSuffixCaseSensitive(name: string)
    requires EndsWith(name, ".SRT") || EndsWith(name, ".TXT")
    ensures SubtitleContentType(name) == Vtt
  {
    var t := name[|name| - 4..];
    assert t[1] == 'S' || t[1] == 'T';
  }

  /** The subtitle route. */
  function ServeSubtitle(c: Caller, userId: nat, name: string, present: bool): (r: Response)
    ensures r.Served? ==> MayRead(c, userId) && present && r.contentType == SubtitleContentType(name)
    ensures r.Forbidden? <==> c.Known? && c.id != userId
  {
    ServeOwned(c, userId, present, SubtitleContentType(name))
  }

  /** The "safe fallback" of the export and element routes: a null or empty content
      type becomes `application/octet-stream`. */
  function OrOctet(contentType: string): (r: string)
    ensures r != ""
    ensures contentType != "" ==> r == contentType
  {
    if contentType == "" then ProjectController.Octet else contentType
  }

  /** The fallback never changes anything: the image table always names a type. */
  lemma FallbackNeverFires(filename: string)
    ensures OrOctet(ProjectController.ImageContentType(filename)) == ProjectController.ImageContentType(filename)
  {
  }

  /** The image-editor export route: owner check, existence, then the image table
      behind the fallback. */
  function ServeExport(c: Caller, userId: nat, filename: string, present: bool): (r: Response)
    ensures r.Served? ==> MayRead(c, userId) && present && r.contentType == ProjectController.ImageContentType(filename)
    ensures r.Forbidden? <==> c.Known? && c.id != userId
  {
    FallbackNeverFires(filename);
    ServeOwned(c, userId, present, OrOctet(ProjectController.ImageContentType(filename)))
  }

  /** The image-editor element route: no owner, existence only. */
  function ServeEditorElement(filename: string, present: bool): (r: Response)
    ensures r.Served? <==> present
    ensures r.Served? ==> r.contentType == ProjectController.ImageContentType(filename)
  {
    FallbackNeverFires(filename);
    if present then Served(OrOctet(ProjectController.ImageContentType(filename))) else NotFound
  }

  /** `serveElement` of the developer's global elements: 404 unless the name is an
      existing regular file, otherwise served with the image table. */
  function ServeGlobalElement(filename: string, isFile: bool): (r: Response)
    ensures r.NotFound? <==> !isFile
    ensures r.Served? ==> r.contentType == ProjectController.ImageContentType(filename)
  {
    if !isFile then NotFound else Served(ProjectController.ImageContentType(filename))
  }

  /** The image table, row by row: `.png`, then `.jpg`/`.jpeg`, then `.gif`, then
      `.webp`, on the lower-cased name; anything else is an octet stream. */
  lemma ImageContentTypeTable(name: string)
    ensures var n := Lower(name); var r := ProjectController.ImageContentType(name);
            (r == "image/png" <==> EndsWith(n, ".png"))
            && (r == "image/jpeg" <==> !EndsWith(n, ".png") && (EndsWith(n, ".jpg") || EndsWith(n, ".jpeg")))
            && (r == "image/gif" <==> !EndsWith(n, ".png") && !EndsWith(n, ".jpg") && !EndsWith(n, ".jpeg") && EndsWith(n, ".gif"))
            && (r == "image/webp" <==> !EndsWith(n, ".png") && !EndsWith(n, ".jpg") && !EndsWith(n, ".jpeg")
                                        && !EndsWith(n, ".gif") && EndsWith(n, ".webp"))
  {
  }

  /** Every file the developer upload accepts is later served with an image type,
      and every name the upload refuses would be served as an octet stream. */
  lemma UploadedElementsServedAsImages(name: string)
    ensures GlobalElementService.ValidFileType(name) <==> ProjectController.ImageContentType(name) != ProjectController.Octet
  {
    ProjectController.ImageContentTypeLaws(name);
  }
}

=== FILE: simple_image_editor.dfy ===
/** The older image editor's project service (the one outside `imageservice`): the
    same creation checks and update rules as the newer one, a design that is one
    canvas rather than a list of pages, and an export that hands the stored design
    to the renderer as it is. */
module SimpleImageEditor {
  import opened Wrappers
  import opened Text
  import opened ImageEditor

  /** The older initial design: version 1.0, the project's canvas and no layers. */
  function InitialDesign(p: Project): Single {
    Single(Version, Canvas(p.width, p.height, p.background), [])
  }

  /** `createProject` of the older editor; `write` is the JSON writer. */
  function CreateSingle(req: CreateRequest, write: Single -> string): (r: Result<Project>)
    ensures r.Ok? <==> NewProject(req).Ok?
    ensures r.Err? ==> r == NewProject(req)
    ensures r.Ok? ==> r.value.status == Draft && r.value.background == req.background.GetOr(White)
    ensures r.Ok? ==> r.value.design == Some(write(Single(Version, Canvas(req.width.value, req.height.value,
                                                                           req.background.GetOr(White)), [])))
  {
    var p :- NewProject(req);
    Ok(p.(design := Some(write(InitialDesign(p)))))
  }

  /** The older editor's `updateProject`: the same rules as the newer one. */
  function UpdateSingle(found: Option<Project>, name: Option<string>, design: Option<string>,
                        parse: string -> Parsed): (r: Result<Project>)
    ensures r.Ok? <==> found.Some? && (design.None? || !parse(design.value).Malformed?)
    ensures r.Ok? ==> r.value.name == (if NullOrTrimEmpty(name) then found.value.name else name.value)
    ensures r.Ok? ==> r.value.design == (if design.None? then found.value.design else design)
    ensures r.Ok? ==> r.value == found.value.(name := r.value.name, design := r.value.design)
  {
    UpdateProject(found, name, design, parse)
  }

  /** `exportProject` of the older editor: the row must exist, the design be
      present and not blank, and the format be accepted; then the stored text goes
      to the renderer. */
  function ExportSingle(found: Option<Project>, format: Option<string>, quality: Option<int>,
                        render: (string, string, Option<int>) -> Result<string>): (r: Attempt)
    ensures r.stored.None? <==> found.None?
    ensures found.None? ==> r.error == Some(Error(IllegalArgument, NotFound))
    ensures found.Some? && !HasDesign(found.value) ==> r == Attempt(found, Some(Error(IllegalArgument, NoDesign)))
    ensures found.Some? && HasDesign(found.value) && !Accepted(Normalize(format)) ==>
              r == Attempt(found, Some(Error(IllegalArgument, BadFormat)))
    ensures found.Some? && HasDesign(found.value) && Accepted(Normalize(format)) ==>
              r == Run(found.value, Normalize(format), render(found.value.design.value, Normalize(format), quality))
  {
    match found
    case None => Attempt(None, Some(Error(IllegalArgument, NotFound)))
    case Some(p) =>
      if !HasDesign(p) then Attempt(found, Some(Error(IllegalArgument, NoDesign)))
      else
        var f := Normalize(format);
        if !Accepted(f) then Attempt(found, Some(Error(IllegalArgument, BadFormat)))
        else Run(p, f, render(p.design.value, f, quality))
  }

  /** The older export ends in the same states as the newer one: COMPLETED with the
      renderer's path when the call returns, FAILED when the renderer threw, and
      untouched when a check refused. */
  lemma ExportSingleStatus(p: Project, format: Option<string>, quality: Option<int>,
                           render: (string, string, Option<int>) -> Result<string>)
    ensures var r := ExportSingle(Some(p), format, quality, render);
            (r.error.None? <==> HasDesign(p) && Accepted(Normalize(format))
                                && render(p.design.value, Normalize(format), quality).Ok?)
            && (r.error.None? ==> r.stored.value.status == Completed && r.stored.value.lastFormat == Some(Normalize(format)))
            && (r.stored.value.status != Failed && r.stored.value.status != Completed ==> r.stored == Some(p))
  {
  }

  /** Both editors refuse the same formats and the same missing designs: when the
      newer editor's design reads as a one-page document, its export and the older
      one agree on whether the checks pass. */
  lemma ChecksAgree(p: Project, parse: string -> Parsed, format: Option<string>,
                    render: (string, string, Option<int>) -> Result<string>, quality: Option<int>)
    requires HasDesign(p) ==> parse(p.design.value).Object?
                              && var doc := parse(p.design.value).doc;
                                 doc.version.Some? && doc.pages.Some? && |doc.pages.value| == 1
                                 && doc.pages.value[0].canvas.Some? && doc.pages.value[0].layers.Some?
    ensures Prepare(Some(p), parse, format, None).Ok? <==> HasDesign(p) && Accepted(Normalize(format))
    ensures Prepare(Some(p), parse, format, None).Err? ==>
              ExportSingle(Some(p), format, quality, render) == Attempt(Some(p), Some(Prepare(Some(p), parse, format, None).error))
  {
    if HasDesign(p) {
      var doc := parse(p.design.value).doc;
      assert PageIndex(None) == 0;
      assert PageInRange(doc, None);
      assert Complete(doc, doc.pages.value[0]);
      if !Accepted(Normalize(format)) {
        assert Prepare(Some(p), parse, format, None) == Throw(IllegalArgument, BadFormat);
      }
    }
  }

  /** What the older editor creates is the page the newer editor renders for a
      project created from the same request. */
  lemma SameInitialCanvas(req: CreateRequest, pageId: string, write: Doc -> string, parse: string -> Parsed,
                          format: Option<string>)
    requires CreateProject(req, pageId, write).Ok?
    requires forall d :: parse(write(d)) == Object(d)
    requires forall d :: Trim(write(d)) != ""
    requires Accepted(Normalize(format))
    ensures Prepare(Some(CreateProject(req, pageId, write).value), parse, format, None).value.1
            == InitialDesign(NewProject(req).value)
  {
    FreshProjectPrepares(req, pageId, write, parse, format, None);
  }
}

=== FILE: simple_image_render.dfy ===
/** The older image renderer (the one outside `imageservice`): the same zIndex
    compositing, shape drawing and export options as the newer one (see
    `ImageLayers`), with simpler text layers: a fixed-size canvas and a gravity
    chosen by the horizontal alignment alone. */
module SimpleImageRender {
  import opened Wrappers
  import opened Text
  import JavaNum
  import ImageLayers
  import ImageRender

  /** The text fields the older renderer reads. */
  datatype TextSpec = TextSpec(width: Option<real>, height: Option<real>, color: Option<string>, fontFamily: Option<string>,
                               fontSize: Option<int>, textAlign: Option<string>)

  /** The text canvas and how the text is drawn on it. */
  datatype TextImage = TextImage(width: int, height: int, fill: string, font: string, pointSize: int, gravity: ImageRender.Gravity)

  /** Text alignment, compared ignoring case: `center` and `right` are honoured,
      anything else (absent included) anchors the text on the west side. */
  function SimpleGravity(textAlign: Option<string>): (g: ImageRender.Gravity)
    ensures g == ImageRender.Center <==> textAlign.Some? && EqualsIgnoreCase(textAlign.value, "center")
    ensures g == ImageRender.East <==> textAlign.Some? && EqualsIgnoreCase(textAlign.value, "right")
    ensures g in {ImageRender.West, ImageRender.Center, ImageRender.East}
  {
    if textAlign.Some? && EqualsIgnoreCase(textAlign.value, "center") then ImageRender.Center
    else if textAlign.Some? && EqualsIgnoreCase(textAlign.value, "right") then ImageRender.East
    else ImageRender.West
  }

  /** For `left`, `right` and `center` the older renderer anchors the text as the
      newer one does on the middle row; an unrecognised alignment goes west in the
      older renderer but is centred by the newer one. */
  lemma SimpleGravityVersusCompass(textAlign: string)
    ensures Lower(textAlign) != "left" && Lower(textAlign) != "right" && Lower(textAlign) != "center" ==>
              SimpleGravity(Some(textAlign)) == ImageRender.West
              && ImageRender.TextGravity(Some(textAlign), None) == ImageRender.Center
    ensures Lower(textAlign) in {"left", "right", "center"} ==>
              SimpleGravity(Some(textAlign)) == ImageRender.TextGravity(Some(textAlign), None)
  {
    ImageRender.DefaultsAreLower();
    LowerIdempotent(textAlign);
  }

  /** `processTextLayer`: a 200×50 canvas unless the layer is sized, black Arial at
      32 points unless set. */
  function RenderText(t: TextSpec): (r: TextImage)
    ensures t.width.None? ==> r.width == 200
    ensures t.height.None? ==> r.height == 50
    ensures t.width.Some? ==> r.width == JavaNum.IntCast(t.width.value)
    ensures t.height.Some? ==> r.height == JavaNum.IntCast(t.height.value)
    ensures r.gravity == SimpleGravity(t.textAlign)
  {
    TextImage(if t.width.Some? then JavaNum.IntCast(t.width.value) else 200,
              if t.height.Some? then JavaNum.IntCast(t.height.value) else 50,
              t.color.GetOr("#000000"), t.fontFamily.GetOr("Arial"), t.fontSize.GetOr(32),
              SimpleGravity(t.textAlign))
  }

  /** A text layer that sets nothing: 200×50, black Arial at 32 points, anchored
      west. */
  lemma TextDefaults()
    ensures RenderText(TextSpec(None, None, None, None, None, None)) == TextImage(200, 50, "#000000", "Arial", 32, ImageRender.West)
  {
  }

  /** The older renderer's shapes: 100×100 black by default, with a circle that
      fits its canvas, as in the newer one. */
  lemma ShapesAsInNewer(s: ImageLayers.ShapeSpec)
    ensures s.width.None? && s.height.None? ==> ImageLayers.RenderShape(s).width == 100 && ImageLayers.RenderShape(s).height == 100
    ensures s.fill.None? ==> ImageLayers.RenderShape(s).fill == ImageLayers.Black
    ensures ImageLayers.RenderShape(s).draw.Circle? && ImageLayers.RenderShape(s).width >= 0 && ImageLayers.RenderShape(s).height >= 0 ==>
              2 * ImageLayers.RenderShape(s).draw.radius <= ImageLayers.RenderShape(s).width
              && 2 * ImageLayers.RenderShape(s).draw.radius <= ImageLayers.RenderShape(s).height
  {
    if ImageLayers.RenderShape(s).draw.Circle? {
      ImageLayers.CircleFits(s);
    }
  }
}

=== FILE: sole_tts.dfy ===
/** The text-to-speech service's input checks and its monthly character quota.
    The speech synthesis call and the file it writes are parameters. */
module SoleTts {
  import opened Wrappers
  import opened Text

  /** About fifteen minutes of speech, per user and month. */
  const Limit: nat := 13500

  /** Characters used, keyed by user and month; a missing key has used nothing. */
  type Usage = map<(nat, int), nat>

  function Used(usage: Usage, user: nat, month: int): nat {
    if (user, month) in usage then usage[(user, month)] else 0
  }

  predicate WithinQuota(usage: Usage) {
    forall k | k in usage :: usage[k] <= Limit
  }

  /** A `SoleTTS` row. */
  datatype Speech = Speech(owner: nat, audioPath: string)

  /** `trim().isEmpty()` on a possibly null string. */
  predicate Blank(s: Option<string>) {
    NullOrTrimEmpty(s)
  }

  /** `updateUserTtsUsage`: the month's count grows by `characters`, starting from 0
      when there is no record. */
  function AddUsage(usage: Usage, user: nat, month: int, characters: nat): (r: Usage)
    ensures Used(r, user, month) == Used(usage, user, month) + characters
    ensures forall u: nat, m: int | (u, m) != (user, month) :: Used(r, u, m) == Used(usage, u, m)
    ensures r.Keys == usage.Keys + {(user, month)}
  {
    usage[(user, month) := Used(usage, user, month) + characters]
  }

  /** `generateTTS`: text, voice and language must be non-blank, the text at most
      13,500 characters, and the month's usage plus the text within the limit;
      only a successful synthesis records the usage. */
  function GenerateTts(usage: Usage, user: nat, month: int, text: Option<string>, voice: Option<string>,
                       language: Option<string>, synthesized: bool, clock: nat): (r: Result<(Usage, Speech)>)
    ensures r.Ok? <==> !Blank(text) && !Blank(voice) && !Blank(language)
                       && Used(usage, user, month) + |text.value| <= Limit && synthesized
    ensures r.Err? && (Blank(text) || Blank(voice) || Blank(language) || |text.value| > Limit) ==>
              r.error.kind == IllegalArgument
    ensures r.Err? && !Blank(text) && !Blank(voice) && !Blank(language) && |text.value| <= Limit ==>
              (r.error.kind == IllegalState <==> Used(usage, user, month) + |text.value| > Limit)
    ensures r.Ok? ==> r.value.0 == AddUsage(usage, user, month, |text.value|) && r.value.1.owner == user
  {
    if Blank(text) then Throw(IllegalArgument, "Text is required and cannot be empty")
    else if Blank(voice) then Throw(IllegalArgument, "Voice name is required")
    else if Blank(language) then Throw(IllegalArgument, "Language code is required")
    else if |text.value| > Limit then Throw(IllegalArgument, "Text exceeds 15-minute limit")
    else if Used(usage, user, month) + |text.value| > Limit then Throw(IllegalState, "User exceeded monthly TTS limit")
    else if !synthesized then Throw(IOFailure, "Speech synthesis failed")
    else
      var name := "tts_" + Decimal(clock) + ".mp3";
      Ok((AddUsage(usage, user, month, |text.value|), Speech(user, "audio/sole_tts/" + Decimal(user) + "/" + name)))
  }

  /** No sequence of calls takes any user's month past the limit, and a call only
      ever charges the caller's current month. */
  lemma QuotaKept(usage: Usage, user: nat, month: int, text: Option<string>, voice: Option<string>,
                  language: Option<string>, synthesized: bool, clock: nat)
    requires WithinQuota(usage)
    ensures var r := GenerateTts(usage, user, month, text, voice, language, synthesized, clock);
            r.Ok? ==> WithinQuota(r.value.0)
                      && forall u: nat, m: int | (u, m) != (user, month) :: Used(r.value.0, u, m) == Used(usage, u, m)
  {
    var r := GenerateTts(usage, user, month, text, voice, language, synthesized, clock);
    if r.Ok? {
      var n := r.value.0;
      forall k | k in n
        ensures n[k] <= Limit
      {
        if k != (user, month) {
          assert Used(n, k.0, k.1) == Used(usage, k.0, k.1);
        }
      }
    }
  }

  /** The length check can only decide the kind of error: whenever the text alone is
      too long, the quota check would refuse it too. */
  lemma LengthCheckSubsumed(usage: Usage, user: nat, month: int, text: string)
    requires |text| > Limit
    ensures Used(usage, user, month) + |text| > Limit
  {
  }
}

=== FILE: sorting.dfy ===
/** The stable sort that Java's `List.sort` performs, as an insertion sort on a
    real-valued key. Keyframe lists sort by time, podcast clips by negated score,
    image layers by zIndex and coloured text segments by start index. */
module Sorting {

  predicate SortedBy<T>(s: seq<T>, key: T -> real) {
    forall i, j :: 0 <= i < j < |s| ==> key(s[i]) <= key(s[j])
  }

  /** Inserts `x` after every leading element whose key is at most `key(x)`. */
  function Insert<T>(t: seq<T>, x: T, key: T -> real): (r: seq<T>)
    ensures |r| == |t| + 1
  {
    if |t| == 0 then [x]
    else if key(x) < key(t[0]) then [x] + t
    else [t[0]] + Insert(t[1..], x, key)
  }

  lemma {:induction false} InsertPermutes<T>(t: seq<T>, x: T, key: T -> real)
    ensures multiset(Insert(t, x, key)) == multiset(t) + multiset{x}
  {
    if |t| > 0 && key(x) >= key(t[0]) {
      InsertPermutes(t[1..], x, key);
      assert t == [t[0]] + t[1..];
    }
  }

  /** A sequence is sorted when its head is below every later element and its tail is sorted. */
  lemma SortedCons<T>(x: T, tail: seq<T>, key: T -> real)
    requires SortedBy(tail, key)
    requires forall y :: y in tail ==> key(x) <= key(y)
    ensures SortedBy([x] + tail, key)
  {
    var r := [x] + tail;
    forall i, j | 0 <= i < j < |r| ensures key(r[i]) <= key(r[j]) {
      assert r[j] == tail[j - 1] && r[j] in tail;
      if i > 0 {
        assert r[i] == tail[i - 1];
      }
    }
  }

  lemma SortedTail<T>(s: seq<T>, key: T -> real)
    requires |s| > 0 && SortedBy(s, key)
    ensures SortedBy(s[1..], key)
    ensures forall y :: y in s[1..] ==> key(s[0]) <= key(y)
  {
    forall y | y in s[1..] ensures key(s[0]) <= key(y) {
      var i :| 0 <= i < |s[1..]| && s[1..][i] == y;
      assert s[i + 1] == y;
    }
  }

  lemma {:induction false} InsertKeepsSorted<T>(t: seq<T>, x: T, key: T -> real)
    requires SortedBy(t, key)
    ensures SortedBy(Insert(t, x, key), key)
    ensures forall y :: y in Insert(t, x, key) ==> y == x || y in t
  {
    if |t| > 0 && key(x) >= key(t[0]) {
      SortedTail(t, key);
      InsertKeepsSorted(t[1..], x, key);
      var tail := Insert(t[1..], x, key);
      assert Insert(t, x, key) == [t[0]] + tail;
      forall y | y in tail ensures key(t[0]) <= key(y) {
        if y != x {
          assert y in t[1..];
        }
      }
      SortedCons(t[0], tail, key);
    } else if |t| > 0 {
      forall y | y in t ensures key(x) <= key(y) {
        var i :| 0 <= i < |t| && t[i] == y;
        assert i == 0 || key(t[0]) <= key(t[i]);
      }
      SortedCons(x, t, key);
    }
  }

  /** Stable sort: sorted by `key`, a permutation of the input. */
  function SortBy<T>(s: seq<T>, key: T -> real): (r: seq<T>)
    ensures |r| == |s|
    ensures multiset(r) == multiset(s)
    ensures SortedBy(r, key)
  {
    if |s| == 0 then []
    else
      var prefix := SortBy(s[..|s| - 1], key);
      InsertKeepsSorted(prefix, s[|s| - 1], key);
      InsertPermutes(prefix, s[|s| - 1], key);
      assert s == s[..|s| - 1] + [s[|s| - 1]];
      Insert(prefix, s[|s| - 1], key)
  }

  /** The elements whose key equals `k`, in order. */
  function Select<T>(s: seq<T>, key: T -> real, k: real): seq<T> {
    if |s| == 0 then []
    else (if key(s[0]) == k then [s[0]] else []) + Select(s[1..], key, k)
  }

  lemma {:induction false} SelectAppend<T>(a: seq<T>, b: seq<T>, key: T -> real, k: real)
    ensures Select(a + b, key, k) == Select(a, key, k) + Select(b, key, k)
  {
    if |a| == 0 {
      assert a + b == b;
    } else {
      var head: seq<T> := if key(a[0]) == k then [a[0]] else [];
      assert (a + b)[0] == a[0];
      assert (a + b)[1..] == a[1..] + b;
      assert Select(a + b, key, k) == head + Select(a[1..] + b, key, k);
      SelectAppend(a[1..], b, key, k);
      assert Select(a, key, k) == head + Select(a[1..], key, k);
    }
  }

  lemma {:induction false} SelectNone<T>(s: seq<T>, key: T -> real, k: real)
    requires forall i :: 0 <= i < |s| ==> key(s[i]) != k
    ensures Select(s, key, k) == []
  {
    if |s| > 0 {
      SelectNone(s[1..], key, k);
    }
  }

  lemma {:induction false} InsertStable<T>(t: seq<T>, x: T, key: T -> real, k: real)
    requires SortedBy(t, key)
    ensures Select(Insert(t, x, key), key, k) ==
            Select(t, key, k) + (if key(x) == k then [x] else [])
  {
    var mine: seq<T> := if key(x) == k then [x] else [];
    if |t| == 0 {
      assert Insert(t, x, key) == [x];
      assert Select([x], key, k) == mine + Select([x][1..], key, k);
    } else if key(x) < key(t[0]) {
      var r := [x] + t;
      assert Insert(t, x, key) == r;
      assert r[0] == x && r[1..] == t;
      assert Select(r, key, k) == mine + Select(t, key, k);
      if key(x) == k {
        forall i | 0 <= i < |t| ensures key(t[i]) != k {
          assert i == 0 || key(t[0]) <= key(t[i]);
        }
        SelectNone(t, key, k);
      }
    } else {
      var head: seq<T> := if key(t[0]) == k then [t[0]] else [];
      var tail := Insert(t[1..], x, key);
      var r := [t[0]] + tail;
      assert Insert(t, x, key) == r;
      assert r[0] == t[0] && r[1..] == tail;
      assert Select(r, key, k) == head + Select(tail, key, k);
      assert SortedBy(t[1..], key);
      InsertStable(t[1..], x, key, k);
      assert Select(t, key, k) == head + Select(t[1..], key, k);
    }
  }

  lemma SelectLast<T>(s: seq<T>, key: T -> real, k: real)
    requires |s| > 0
    ensures Select(s, key, k) ==
            Select(s[..|s| - 1], key, k) + (if key(s[|s| - 1]) == k then [s[|s| - 1]] else [])
  {
    var x := s[|s| - 1];
    SelectAppend(s[..|s| - 1], [x], key, k);
    assert s[..|s| - 1] + [x] == s;
    assert Select([x], key, k) == (if key(x) == k then [x] else []) + Select([x][1..], key, k);
  }

  /** A prefix keeps, for every key value, a prefix of the elements carrying it. */
  lemma SelectPrefix<T>(s: seq<T>, n: nat, key: T -> real, k: real)
    requires n <= |s|
    ensures Select(s[..n], key, k) <= Select(s, key, k)
  {
    SelectAppend(s[..n], s[n..], key, k);
    assert s[..n] + s[n..] == s;
  }

  /** Stability: for every key value, the elements carrying it keep their order. */
  lemma {:induction false} SortByStable<T>(s: seq<T>, key: T -> real, k: real)
    ensures Select(SortBy(s, key), key, k) == Select(s, key, k)
  {
    if |s| > 0 {
      var p := s[..|s| - 1];
      var x := s[|s| - 1];
      var sorted := SortBy(p, key);
      assert SortBy(s, key) == Insert(sorted, x, key);
      InsertStable(sorted, x, key, k);
      SortByStable(p, key, k);
      SelectLast(s, key, k);
    }
  }

  lemma {:induction false} InsertAtEnd<T>(t: seq<T>, x: T, key: T -> real)
    requires forall i :: 0 <= i < |t| ==> key(t[i]) <= key(x)
    ensures Insert(t, x, key) == t + [x]
  {
    if |t| > 0 {
      InsertAtEnd(t[1..], x, key);
      assert t == [t[0]] + t[1..];
    }
  }

  /** Sorting an already sorted sequence changes nothing. */
  lemma {:induction false} SortBySortedIsIdentity<T>(s: seq<T>, key: T -> real)
    requires SortedBy(s, key)
    ensures SortBy(s, key) == s
  {
    if |s| > 0 {
      var p := s[..|s| - 1];
      var x := s[|s| - 1];
      forall i, j | 0 <= i < j < |p| ensures key(p[i]) <= key(p[j]) {
        assert p[i] == s[i] && p[j] == s[j];
      }
      SortBySortedIsIdentity(p, key);
      assert SortBy(s, key) == Insert(p, x, key);
      forall i | 0 <= i < |p| ensures key(p[i]) <= key(x) {
        assert p[i] == s[i];
      }
      InsertAtEnd(p, x, key);
      assert p + [x] == s;
    }
  }
}

=== FILE: subtitle_dto.dfy ===
/** A subtitle as the subtitle service stores it: the text segment's style with
    subtitle defaults (centred, a 50x50 rounded background box). */
module SubtitleDto {
  import opened Wrappers
  import opened TextStyle

  datatype Subtitle = Subtitle(
    id: string,
    text: string,
    fontFamily: string,
    scale: Option<real>,
    fontColor: string,
    backgroundColor: string,
    positionX: Option<int>,
    positionY: Option<int>,
    opacity: Option<real>,
    timelineStartTime: Option<real>,
    timelineEndTime: Option<real>,
    layer: int,
    rotation: Option<real>,
    backgroundBorderColor: string,
    textBorderColor: string,
    style: Style,
    isSubtitle: bool)

  const DefaultStyle: Style := Style("center", 1.0, 0, 50, 50, 15, 0, 1.0, 0.0, 1.2)

  /** Unlike a text segment's, a subtitle's null background size resets to 50 and its
      null corner radius to 15. */
  const NullResets: Resets := Resets(1.0, 0, 50, 50, 15, 0, 1.0, 0.0, 1.2)

  function New(id: string): (s: Subtitle)
    ensures s.id == id && s.isSubtitle && s.fontFamily == "Arial"
    ensures Valid(s.style) && s.style.alignment == "center"
    ensures s.timelineStartTime.None? && s.timelineEndTime.None?
  {
    Subtitle(id, "", "Arial", Some(1.0), "white", "transparent", Some(0), Some(0), Some(1.0),
             None, None, 0, Some(0.0), "transparent", "transparent", DefaultStyle, true)
  }

  lemma SettersKeepDefaultsValid(cs: seq<Call>)
    ensures Valid(ApplyAll(DefaultStyle, cs, NullResets))
  {
    ApplyAllKeepsValid(DefaultStyle, cs, NullResets);
  }

  /** Null arguments reset the background box to its declared subtitle defaults. */
  lemma NullResetsAreDefaults(s: Style)
    ensures SetBackgroundH(s, None, NullResets) == Ok(s.(backgroundH := DefaultStyle.backgroundH))
    ensures SetBackgroundW(s, None, NullResets) == Ok(s.(backgroundW := DefaultStyle.backgroundW))
    ensures SetBackgroundBorderRadius(s, None, NullResets) == Ok(s.(backgroundBorderRadius := DefaultStyle.backgroundBorderRadius))
    ensures SetLineSpacing(s, None, NullResets) == Ok(s.(lineSpacing := DefaultStyle.lineSpacing))
    ensures SetLetterSpacing(s, None, NullResets) == Ok(s.(letterSpacing := DefaultStyle.letterSpacing))
  {
  }

  function SetStyle(t: Subtitle, c: Call): (r: Result<Subtitle>)
    ensures r.Ok? <==> Apply(t.style, c, NullResets).Ok?
    ensures r.Ok? ==> r.value == t.(style := Apply(t.style, c, NullResets).value)
  {
    var s :- Apply(t.style, c, NullResets);
    Ok(t.(style := s))
  }
}

=== FILE: subtitle_service.dfy ===
/** The subtitle service: turning a transcription into subtitles clamped to the audio,
    the three ways of editing them, and the timing and size arithmetic of burning them
    into the video in 8-second batches. The transcriber, ffprobe and the font metrics
    are parameters; fresh ids come from a `uuid` function. */
module SubtitleService {
  import opened Wrappers
  import opened Text
  import opened Lists
  import opened TextStyle
  import opened SubtitleDto

  datatype MediaStatus = Uploaded | Processing | Failed | Succeeded

  /** A `SubtitleMedia` row; `subtitles` is `None` while its JSON column is null or empty. */
  datatype Media = Media(owner: nat, status: MediaStatus, subtitles: Option<seq<Subtitle>>)

  /** What a call leaves in the repository and what it throws, if anything. */
  datatype Saved = Saved(row: Option<Media>, error: Option<Error>)

  function Max(a: real, b: real): real { if a >= b then a else b }
  function Min(a: real, b: real): real { if a <= b then a else b }

  // ------------------------------------------------------------ generation

  /** One entry of the transcriber's output; the text may be null. */
  datatype Transcribed = Transcribed(start: real, end: real, text: Option<string>)

  /** A subtitle's start and end are both set, and in order inside [0, duration]. */
  predicate WellTimed(s: Subtitle, duration: real) {
    s.timelineStartTime.Some? && s.timelineEndTime.Some?
    && 0.0 <= s.timelineStartTime.value < s.timelineEndTime.value <= duration
  }

  /** The text is already trimmed and not blank. */
  predicate CleanText(s: string) {
    Trim(s) == s && s != ""
  }

  /** The entry survives clamping into [0, duration]: some of it is left, and it has text. */
  predicate Survives(t: Transcribed, duration: real) {
    Max(0.0, t.start) < Min(duration, t.end) && t.text.Some? && Trim(t.text.value) != ""
  }

  /** The style a key of the request overrides, or the built-in default. */
  function StyleOr(style: Option<map<string, string>>, key: string, default: string): string {
    if style.Some? && key in style.value then style.value[key] else default
  }

  /** The subtitle `generateSubtitles` builds from a surviving entry. */
  function FromEntry(t: Transcribed, duration: real, style: Option<map<string, string>>, id: string): (s: Subtitle)
    requires Survives(t, duration)
    ensures WellTimed(s, duration) && s.id == id && s.isSubtitle
    ensures s.timelineStartTime == Some(Max(0.0, t.start)) && s.timelineEndTime == Some(Min(duration, t.end))
    ensures s.text == Trim(t.text.value) && Valid(s.style)
  {
    New(id).(text := Trim(t.text.value),
             timelineStartTime := Some(Max(0.0, t.start)),
             timelineEndTime := Some(Min(duration, t.end)),
             fontFamily := StyleOr(style, "fontFamily", "Montserrat Alternates Black"),
             fontColor := StyleOr(style, "fontColor", "black"),
             backgroundColor := StyleOr(style, "backgroundColor", "white"),
             positionX := Some(0), positionY := Some(350), scale := Some(1.5),
             style := DefaultStyle)
  }

  /** Trimming twice trims no more. */
  lemma TrimIdempotent(s: string)
    ensures Trim(Trim(s)) == Trim(s)
  {
    var t := Trim(s);
    StripEmptyIff(s, IsTrimmed);
    StripIsTrimmed(s);
    StripOfTrimmed(t);
  }

  /** The ends of a stripped string are never dropped characters. */
  lemma StripIsTrimmed(s: string)
    ensures var t := Trim(s); |t| > 0 ==> !IsTrimmed(t[0]) && !IsTrimmed(t[|t| - 1])
  {
    var l := DropLeading(s, IsTrimmed);
    var t := DropTrailing(l, IsTrimmed);
    assert Trim(s) == t;
    DropLeadingStops(s, IsTrimmed);
    DropTrailingStops(l, IsTrimmed);
    DropTrailingPrefix(l, IsTrimmed);
    if |t| > 0 {
      assert t[0] == l[0];
    }
  }

  lemma StripOfTrimmed(t: string)
    requires |t| > 0 ==> !IsTrimmed(t[0]) && !IsTrimmed(t[|t| - 1])
    ensures Trim(t) == t
  {
    if |t| > 0 {
      assert DropLeading(t, IsTrimmed) == t;
      assert DropTrailing(t, IsTrimmed) == t;
    }
  }

  lemma {:induction false} DropLeadingStops(s: string, drop: char -> bool)
    ensures var t := DropLeading(s, drop); |t| > 0 ==> !drop(t[0])
    decreases |s|
  {
    if |s| > 0 && drop(s[0]) {
      DropLeadingStops(s[1..], drop);
    }
  }

  lemma {:induction false} DropTrailingStops(s: string, drop: char -> bool)
    ensures var t := DropTrailing(s, drop); |t| > 0 ==> !drop(t[|t| - 1])
    decreases |s|
  {
    if |s| > 0 && drop(s[|s| - 1]) {
      DropTrailingStops(s[..|s| - 1], drop);
    }
  }

  lemma {:induction false} DropTrailingPrefix(s: string, drop: char -> bool)
    ensures var t := DropTrailing(s, drop); t == s[..|t|]
    decreases |s|
  {
    if |s| > 0 && drop(s[|s| - 1]) {
      DropTrailingPrefix(s[..|s| - 1], drop);
    }
  }

  /** The loop over the transcription, from entry `from` on: each surviving entry gives
      one subtitle, in order, with the id `uuid(k)` of its position. */
  function Transcript(raw: seq<Transcribed>, duration: real, style: Option<map<string, string>>,
                      uuid: nat -> string, from: nat): (r: seq<Subtitle>)
    requires from <= |raw|
    ensures |r| <= |raw| - from
    ensures forall k :: 0 <= k < |r| ==> WellTimed(r[k], duration) && CleanText(r[k].text)
    decreases |raw| - from
  {
    if from == |raw| then []
    else
      var rest := Transcript(raw, duration, style, uuid, from + 1);
      if Survives(raw[from], duration) then
        var s := FromEntry(raw[from], duration, style, uuid(from));
        EntryIsClean(raw[from], duration, style, uuid(from));
        ConsKeeps(s, rest, duration);
        [s] + rest
      else rest
  }

  /** A generated subtitle lies inside the audio and carries trimmed, non-blank text. */
  lemma EntryIsClean(t: Transcribed, duration: real, style: Option<map<string, string>>, id: string)
    requires Survives(t, duration)
    ensures WellTimed(FromEntry(t, duration, style, id), duration) && CleanText(FromEntry(t, duration, style, id).text)
  {
    TrimIdempotent(t.text.value);
  }

  lemma ConsKeeps(s: Subtitle, rest: seq<Subtitle>, duration: real)
    requires WellTimed(s, duration) && CleanText(s.text)
    requires forall k :: 0 <= k < |rest| ==> WellTimed(rest[k], duration) && CleanText(rest[k].text)
    ensures forall k :: 0 <= k < |[s] + rest| ==> WellTimed(([s] + rest)[k], duration) && CleanText(([s] + rest)[k].text)
  {
    forall k | 0 <= k < |[s] + rest|
      ensures WellTimed(([s] + rest)[k], duration) && CleanText(([s] + rest)[k].text)
    {
      if k > 0 {
        assert ([s] + rest)[k] == rest[k - 1];
      }
    }
  }

  /** Every surviving entry, and only those, gives a subtitle. */
  lemma {:induction false} TranscriptCount(raw: seq<Transcribed>, duration: real, style: Option<map<string, string>>,
                                           uuid: nat -> string, from: nat)
    requires from <= |raw|
    ensures |Transcript(raw, duration, style, uuid, from)| == |Keep(raw[from..], (t: Transcribed) => Survives(t, duration))|
    decreases |raw| - from
  {
    if from < |raw| {
      var survives := (t: Transcribed) => Survives(t, duration);
      TranscriptCount(raw, duration, style, uuid, from + 1);
      TranscriptStep(raw, duration, style, uuid, from);
      assert raw[from..] == [raw[from]] + raw[from + 1..];
      KeepAppend([raw[from]], raw[from + 1..], survives);
      assert |Keep([raw[from]], survives)| == if Survives(raw[from], duration) then 1 else 0;
    }
  }

  /** One step of the loop adds one subtitle for a surviving entry and none otherwise. */
  lemma TranscriptStep(raw: seq<Transcribed>, duration: real, style: Option<map<string, string>>,
                       uuid: nat -> string, from: nat)
    requires from < |raw|
    ensures |Transcript(raw, duration, style, uuid, from)|
            == (if Survives(raw[from], duration) then 1 else 0) + |Transcript(raw, duration, style, uuid, from + 1)|
  {
  }

  /** An entry that already lies inside the audio keeps its times. */
  lemma ClampKeepsInside(t: Transcribed, duration: real, style: Option<map<string, string>>, id: string)
    requires 0.0 <= t.start < t.end <= duration && t.text.Some? && Trim(t.text.value) != ""
    ensures Survives(t, duration)
    ensures FromEntry(t, duration, style, id).timelineStartTime == Some(t.start)
    ensures FromEntry(t, duration, style, id).timelineEndTime == Some(t.end)
  {
  }

  /** Clamping is idempotent: a generated subtitle, transcribed again, survives with the
      same times and text. */
  lemma ClampIdempotent(t: Transcribed, duration: real, style: Option<map<string, string>>, id: string, id2: string)
    requires Survives(t, duration)
    ensures var s := FromEntry(t, duration, style, id);
            var again := Transcribed(s.timelineStartTime.value, s.timelineEndTime.value, Some(s.text));
            Survives(again, duration)
            && FromEntry(again, duration, style, id2).timelineStartTime == s.timelineStartTime
            && FromEntry(again, duration, style, id2).timelineEndTime == s.timelineEndTime
            && FromEntry(again, duration, style, id2).text == s.text
  {
    TrimIdempotent(t.text.value);
  }

  /** `generateSubtitles`, with the state of the input file, whether audio extraction
      and ffprobe succeed (`duration` is `None` when they throw), and the transcriber's
      result. The row goes to PROCESSING first; the checks that fail afterwards set
      FAILED, except an extraction or probe failure, which leaves PROCESSING behind. */
  function Generate(row: Option<Media>, user: nat, inputPresent: bool, duration: Option<real>,
                    transcript: Result<seq<Transcribed>>, style: Option<map<string, string>>,
                    uuid: nat -> string): (r: Saved)
    ensures row.None? ==> r.row.None? && r.error.Some?
    ensures row.Some? ==> r.row.Some? && r.row.value.owner == row.value.owner
    ensures r.error.None? <==> row.Some? && row.value.owner == user && inputPresent && duration.Some?
                               && duration.value > 0.0 && transcript.Ok? && |transcript.value| > 0
    ensures r.error.None? ==> r.row.value.status == Succeeded && r.row.value.subtitles.Some?
                              && forall k :: 0 <= k < |r.row.value.subtitles.value| ==>
                                   WellTimed(r.row.value.subtitles.value[k], duration.value)
                                   && CleanText(r.row.value.subtitles.value[k].text)
    ensures row.Some? && row.value.owner == user && r.error.Some? ==>
              r.row.value.status == (if inputPresent && duration.None? then Processing else Failed)
  {
    match row
    case None => Saved(None, Some(Error(IllegalArgument, "Media not found")))
    case Some(m) =>
      if m.owner != user then Saved(row, Some(Error(IllegalArgument, "Not authorized to generate subtitles")))
      else
        var processing := m.(status := Processing);
        if !inputPresent then Saved(Some(m.(status := Failed)), Some(Error(IOFailure, "Input file is missing or empty")))
        else if duration.None? then Saved(Some(processing), Some(Error(IOFailure, "ffprobe failed")))
        else if duration.value <= 0.0 then
          Saved(Some(m.(status := Failed)), Some(Error(IOFailure, "Audio file has invalid duration")))
        else if transcript.Err? then Saved(Some(m.(status := Failed)), Some(transcript.error))
        else if |transcript.value| == 0 then
          Saved(Some(m.(status := Failed)), Some(Error(IOFailure, "No subtitles generated")))
        else
          var subs := Transcript(transcript.value, duration.value, style, uuid, 0);
          Saved(Some(m.(status := Succeeded, subtitles := Some(subs))), None)
  }

  // ------------------------------------------------------------ editing

  /** The fields of an edit request; a null field leaves the subtitle's value alone. */
  datatype Patch = Patch(
    text: Option<string>,
    start: Option<real>,
    end: Option<real>,
    fontFamily: Option<string>,
    fontColor: Option<string>,
    backgroundColor: Option<string>,
    scale: Option<real>,
    backgroundOpacity: Option<real>,
    positionX: Option<int>,
    positionY: Option<int>,
    alignment: Option<string>,
    opacity: Option<real>,
    rotation: Option<real>,
    backgroundH: Option<int>,
    backgroundW: Option<int>,
    backgroundBorderRadius: Option<int>,
    backgroundBorderWidth: Option<int>,
    backgroundBorderColor: Option<string>,
    textBorderColor: Option<string>,
    textBorderWidth: Option<int>,
    textBorderOpacity: Option<real>,
    letterSpacing: Option<real>,
    lineSpacing: Option<real>)

  /** Every validated field the request sets passes its setter. */
  predicate PatchStyleValid(p: Patch) {
    (p.backgroundOpacity.None? || IsOpacity(p.backgroundOpacity.value))
    && (p.alignment.None? || IsAlignment(p.alignment.value))
    && (p.backgroundH.None? || p.backgroundH.value >= 0)
    && (p.backgroundW.None? || p.backgroundW.value >= 0)
    && (p.backgroundBorderRadius.None? || p.backgroundBorderRadius.value >= 0)
    && (p.backgroundBorderWidth.None? || p.backgroundBorderWidth.value >= 0)
    && (p.textBorderWidth.None? || p.textBorderWidth.value >= 0)
    && (p.textBorderOpacity.None? || IsOpacity(p.textBorderOpacity.value))
    && (p.letterSpacing.None? || p.letterSpacing.value >= 0.0)
    && (p.lineSpacing.None? || p.lineSpacing.value >= 0.0)
  }

  /** A setter call only for a field the request sets. */
  function IfGiven(s: Style, given: bool, setter: Result<Style>): (r: Result<Style>)
    ensures !given ==> r == Ok(s)
    ensures given ==> r == setter
  {
    if given then setter else Ok(s)
  }

  /** The first five validated style fields of a request, set in the service's order. */
  function MergeBackground(s: Style, p: Patch): (r: Result<Style>)
    ensures r.Ok? <==> (p.backgroundOpacity.None? || IsOpacity(p.backgroundOpacity.value))
                       && (p.alignment.None? || IsAlignment(p.alignment.value))
                       && (p.backgroundH.None? || p.backgroundH.value >= 0)
                       && (p.backgroundW.None? || p.backgroundW.value >= 0)
                       && (p.backgroundBorderRadius.None? || p.backgroundBorderRadius.value >= 0)
    ensures r.Ok? ==> r.value == s.(backgroundOpacity := p.backgroundOpacity.GetOr(s.backgroundOpacity),
                                    alignment := p.alignment.GetOr(s.alignment),
                                    backgroundH := p.backgroundH.GetOr(s.backgroundH),
                                    backgroundW := p.backgroundW.GetOr(s.backgroundW),
                                    backgroundBorderRadius := p.backgroundBorderRadius.GetOr(s.backgroundBorderRadius))
  {
    var s1 :- IfGiven(s, p.backgroundOpacity.Some?, SetBackgroundOpacity(s, p.backgroundOpacity, NullResets));
    var s2 :- IfGiven(s1, p.alignment.Some?, SetAlignment(s1, p.alignment));
    var s3 :- IfGiven(s2, p.backgroundH.Some?, SetBackgroundH(s2, p.backgroundH, NullResets));
    var s4 :- IfGiven(s3, p.backgroundW.Some?, SetBackgroundW(s3, p.backgroundW, NullResets));
    IfGiven(s4, p.backgroundBorderRadius.Some?, SetBackgroundBorderRadius(s4, p.backgroundBorderRadius, NullResets))
  }

  /** The last five validated style fields of a request, set in the service's order. */
  function MergeBorders(s: Style, p: Patch): (r: Result<Style>)
    ensures r.Ok? <==> (p.backgroundBorderWidth.None? || p.backgroundBorderWidth.value >= 0)
                       && (p.textBorderWidth.None? || p.textBorderWidth.value >= 0)
                       && (p.textBorderOpacity.None? || IsOpacity(p.textBorderOpacity.value))
                       && (p.letterSpacing.None? || p.letterSpacing.value >= 0.0)
                       && (p.lineSpacing.None? || p.lineSpacing.value >= 0.0)
    ensures r.Ok? ==> r.value == s.(backgroundBorderWidth := p.backgroundBorderWidth.GetOr(s.backgroundBorderWidth),
                                    textBorderWidth := p.textBorderWidth.GetOr(s.textBorderWidth),
                                    textBorderOpacity := p.textBorderOpacity.GetOr(s.textBorderOpacity),
                                    letterSpacing := p.letterSpacing.GetOr(s.letterSpacing),
                                    lineSpacing := p.lineSpacing.GetOr(s.lineSpacing))
  {
    var s1 :- IfGiven(s, p.backgroundBorderWidth.Some?, SetBackgroundBorderWidth(s, p.backgroundBorderWidth, NullResets));
    var s2 :- IfGiven(s1, p.textBorderWidth.Some?, SetTextBorderWidth(s1, p.textBorderWidth, NullResets));
    var s3 :- IfGiven(s2, p.textBorderOpacity.Some?, SetTextBorderOpacity(s2, p.textBorderOpacity, NullResets));
    var s4 :- IfGiven(s3, p.letterSpacing.Some?, SetLetterSpacing(s3, p.letterSpacing, NullResets));
    IfGiven(s4, p.lineSpacing.Some?, SetLineSpacing(s4, p.lineSpacing, NullResets))
  }

  /** The validated style fields of a request: each one the request sets must pass its
      setter, and replaces the stored value. */
  function MergeStyle(s: Style, p: Patch): (r: Result<Style>)
    ensures r.Ok? <==> PatchStyleValid(p)
    ensures r.Ok? ==> r.value == s.(backgroundOpacity := p.backgroundOpacity.GetOr(s.backgroundOpacity),
                                    alignment := p.alignment.GetOr(s.alignment),
                                    backgroundH := p.backgroundH.GetOr(s.backgroundH),
                                    backgroundW := p.backgroundW.GetOr(s.backgroundW),
                                    backgroundBorderRadius := p.backgroundBorderRadius.GetOr(s.backgroundBorderRadius),
                                    backgroundBorderWidth := p.backgroundBorderWidth.GetOr(s.backgroundBorderWidth),
                                    textBorderWidth := p.textBorderWidth.GetOr(s.textBorderWidth),
                                    textBorderOpacity := p.textBorderOpacity.GetOr(s.textBorderOpacity),
                                    letterSpacing := p.letterSpacing.GetOr(s.letterSpacing),
                                    lineSpacing := p.lineSpacing.GetOr(s.lineSpacing))
  {
    var s1 :- MergeBackground(s, p);
    MergeBorders(s1, p)
  }

  /** The first position holding the id. */
  function IndexOfId(subs: seq<Subtitle>, id: string): (r: Option<nat>)
    ensures r.Some? ==> r.value < |subs| && subs[r.value].id == id
                        && forall j :: 0 <= j < r.value ==> subs[j].id != id
    ensures r.None? ==> forall j :: 0 <= j < |subs| ==> subs[j].id != id
  {
    FirstIndex(subs, (s: Subtitle) => s.id == id)
  }

  /** A field after the merge: the request's value when it sets one. */
  function Given<T>(given: Option<T>, stored: Option<T>): (r: Option<T>)
    ensures given.Some? ==> r == given
    ensures given.None? ==> r == stored
  {
    if given.Some? then given else stored
  }

  /** The merged times are both set and in order. */
  predicate MergedTimesValid(s: Subtitle, p: Patch) {
    var start := Given(p.start, s.timelineStartTime);
    var end := Given(p.end, s.timelineEndTime);
    start.Some? && end.Some? && start.value < end.value
  }

  /** The merge of `updateSingleSubtitle`: each field the request sets, the rest kept;
      then the merged end must come after the merged start (a missing time is a
      NullPointerException). */
  function Merge(s: Subtitle, p: Patch): (r: Result<Subtitle>)
    ensures r.Ok? <==> PatchStyleValid(p) && MergedTimesValid(s, p)
    ensures r.Ok? ==> r.value == s.(text := p.text.GetOr(s.text),
                                    timelineStartTime := Given(p.start, s.timelineStartTime),
                                    timelineEndTime := Given(p.end, s.timelineEndTime),
                                    fontFamily := p.fontFamily.GetOr(s.fontFamily),
                                    fontColor := p.fontColor.GetOr(s.fontColor),
                                    backgroundColor := p.backgroundColor.GetOr(s.backgroundColor),
                                    scale := Given(p.scale, s.scale),
                                    positionX := Given(p.positionX, s.positionX),
                                    positionY := Given(p.positionY, s.positionY),
                                    opacity := Given(p.opacity, s.opacity),
                                    rotation := Given(p.rotation, s.rotation),
                                    backgroundBorderColor := p.backgroundBorderColor.GetOr(s.backgroundBorderColor),
                                    textBorderColor := p.textBorderColor.GetOr(s.textBorderColor),
                                    style := MergeStyle(s.style, p).value)
  {
    var style :- MergeStyle(s.style, p);
    var start := Given(p.start, s.timelineStartTime);
    var end := Given(p.end, s.timelineEndTime);
    if start.None? || end.None? then Throw(Runtime, "NullPointerException")
    else if end.value <= start.value then Throw(IllegalArgument, "End time must be greater than start time")
    else
      Ok(s.(text := p.text.GetOr(s.text), timelineStartTime := start, timelineEndTime := end,
            fontFamily := p.fontFamily.GetOr(s.fontFamily), fontColor := p.fontColor.GetOr(s.fontColor),
            backgroundColor := p.backgroundColor.GetOr(s.backgroundColor),
            scale := Given(p.scale, s.scale), positionX := Given(p.positionX, s.positionX),
            positionY := Given(p.positionY, s.positionY), opacity := Given(p.opacity, s.opacity),
            rotation := Given(p.rotation, s.rotation),
            backgroundBorderColor := p.backgroundBorderColor.GetOr(s.backgroundBorderColor),
            textBorderColor := p.textBorderColor.GetOr(s.textBorderColor),
            style := style))
  }

  /** Merging the same request a second time changes nothing more. */
  lemma MergeIdempotent(s: Subtitle, p: Patch)
    requires Merge(s, p).Ok?
    ensures Merge(Merge(s, p).value, p) == Merge(s, p)
  {
  }

  /** The request body of `updateSingleSubtitle` as Jackson builds it from the keys the
      JSON carries (`sent`): a key left out keeps the field's initialiser, so every style
      field reaches the merge set, and only the text and the two times can be missing. */
  function Body(sent: Patch): (p: Patch)
    ensures p.text == sent.text && p.start == sent.start && p.end == sent.end
    ensures PatchStyleValid(p) <==> PatchStyleValid(sent)
    ensures p.fontFamily.Some? && p.fontColor.Some? && p.backgroundColor.Some? && p.scale.Some?
            && p.positionX.Some? && p.positionY.Some? && p.opacity.Some? && p.rotation.Some?
            && p.backgroundBorderColor.Some? && p.textBorderColor.Some? && p.alignment.Some?
            && p.backgroundOpacity.Some? && p.backgroundH.Some? && p.backgroundW.Some?
            && p.backgroundBorderRadius.Some? && p.backgroundBorderWidth.Some? && p.textBorderWidth.Some?
            && p.textBorderOpacity.Some? && p.letterSpacing.Some? && p.lineSpacing.Some?
    ensures sent.fontColor.Some? ==> p.fontColor == sent.fontColor
    ensures sent.lineSpacing.Some? ==> p.lineSpacing == sent.lineSpacing
  {
    var d := New("");
    var ds := DefaultStyle;
    Patch(sent.text, sent.start, sent.end,
          Some(sent.fontFamily.GetOr(d.fontFamily)), Some(sent.fontColor.GetOr(d.fontColor)),
          Some(sent.backgroundColor.GetOr(d.backgroundColor)), Given(sent.scale, d.scale),
          Some(sent.backgroundOpacity.GetOr(ds.backgroundOpacity)),
          Given(sent.positionX, d.positionX), Given(sent.positionY, d.positionY),
          Some(sent.alignment.GetOr(ds.alignment)), Given(sent.opacity, d.opacity),
          Given(sent.rotation, d.rotation),
          Some(sent.backgroundH.GetOr(ds.backgroundH)), Some(sent.backgroundW.GetOr(ds.backgroundW)),
          Some(sent.backgroundBorderRadius.GetOr(ds.backgroundBorderRadius)),
          Some(sent.backgroundBorderWidth.GetOr(ds.backgroundBorderWidth)),
          Some(sent.backgroundBorderColor.GetOr(d.backgroundBorderColor)),
          Some(sent.textBorderColor.GetOr(d.textBorderColor)),
          Some(sent.textBorderWidth.GetOr(ds.textBorderWidth)),
          Some(sent.textBorderOpacity.GetOr(ds.textBorderOpacity)),
          Some(sent.letterSpacing.GetOr(ds.letterSpacing)), Some(sent.lineSpacing.GetOr(ds.lineSpacing)))
  }

  /** A subtitle whose style fields the request leaves out are put back to the
      subtitle defaults. */
  function ResetOmitted(s: Subtitle, sent: Patch): Subtitle {
    var d := New("");
    var ds := DefaultStyle;
    s.(fontFamily := if sent.fontFamily.None? then d.fontFamily else s.fontFamily,
       fontColor := if sent.fontColor.None? then d.fontColor else s.fontColor,
       backgroundColor := if sent.backgroundColor.None? then d.backgroundColor else s.backgroundColor,
       scale := if sent.scale.None? then d.scale else s.scale,
       positionX := if sent.positionX.None? then d.positionX else s.positionX,
       positionY := if sent.positionY.None? then d.positionY else s.positionY,
       opacity := if sent.opacity.None? then d.opacity else s.opacity,
       rotation := if sent.rotation.None? then d.rotation else s.rotation,
       backgroundBorderColor := if sent.backgroundBorderColor.None? then d.backgroundBorderColor else s.backgroundBorderColor,
       textBorderColor := if sent.textBorderColor.None? then d.textBorderColor else s.textBorderColor,
       style := s.style.(
         alignment := if sent.alignment.None? then ds.alignment else s.style.alignment,
         backgroundOpacity := if sent.backgroundOpacity.None? then ds.backgroundOpacity else s.style.backgroundOpacity,
         backgroundH := if sent.backgroundH.None? then ds.backgroundH else s.style.backgroundH,
         backgroundW := if sent.backgroundW.None? then ds.backgroundW else s.style.backgroundW,
         backgroundBorderRadius := if sent.backgroundBorderRadius.None? then ds.backgroundBorderRadius
                                   else s.style.backgroundBorderRadius,
         backgroundBorderWidth := if sent.backgroundBorderWidth.None? then ds.backgroundBorderWidth
                                  else s.style.backgroundBorderWidth,
         textBorderWidth := if sent.textBorderWidth.None? then ds.textBorderWidth else s.style.textBorderWidth,
         textBorderOpacity := if sent.textBorderOpacity.None? then ds.textBorderOpacity else s.style.textBorderOpacity,
         letterSpacing := if sent.letterSpacing.None? then ds.letterSpacing else s.style.letterSpacing,
         lineSpacing := if sent.lineSpacing.None? then ds.lineSpacing else s.style.lineSpacing))
  }

  /** Merging the body Jackson builds is merging the keys sent and then resetting every
      style field left out to its default: an edit that sends only the text loses the
      subtitle's colours, position and box. */
  lemma MergeOfBody(s: Subtitle, sent: Patch)
    ensures Merge(s, Body(sent)).Ok? <==> Merge(s, sent).Ok?
    ensures Merge(s, sent).Ok? ==> Merge(s, Body(sent)).value == ResetOmitted(Merge(s, sent).value, sent)
  {
  }

  /** A subtitle shown in yellow at y = 400 whose text alone is edited comes back white
      at y = 0, where merging only the keys sent keeps its colour and place. */
  lemma TextEditResetsStyle()
    ensures var s := New("a").(fontColor := "yellow", positionY := Some(400),
                               timelineStartTime := Some(0.0), timelineEndTime := Some(2.0));
            var sent := NoChange.(text := Some("hello"));
            Merge(s, Body(sent)).Ok? && Merge(s, Body(sent)).value.fontColor == "white"
            && Merge(s, Body(sent)).value.positionY == Some(0)
            && Merge(s, sent).Ok? && Merge(s, sent).value.fontColor == "yellow"
            && Merge(s, sent).value.positionY == Some(400)
  {
  }

  /** A request that sends no key. */
  const NoChange: Patch := Patch(None, None, None, None, None, None, None, None, None, None, None, None,
                                 None, None, None, None, None, None, None, None, None, None, None)

  /** `updateSingleSubtitle` as written: the request's omitted keys arrive as the DTO's
      defaults, so the edit succeeds exactly when the merge of the keys sent does, and
      then resets every style field the request left out. */
  function UpdateSingleAsWritten(row: Option<Media>, user: nat, id: string, sent: Patch): (r: Result<Media>)
    ensures r.Ok? <==> UpdateSingle(row, user, id, sent).Ok?
    ensures r.Ok? ==>
              row.Some? && row.value.subtitles.Some? && IndexOfId(row.value.subtitles.value, id).Some?
              && r.value.subtitles.Some? && UpdateSingle(row, user, id, sent).Ok?
              && var before := row.value.subtitles.value;
              var i := IndexOfId(before, id).value;
              |r.value.subtitles.value| == |before|
              && r.value.subtitles.value[i] == ResetOmitted(UpdateSingle(row, user, id, sent).value.subtitles.value[i], sent)
              && (forall j :: 0 <= j < |before| && j != i ==> r.value.subtitles.value[j] == before[j])
  {
    if row.Some? && row.value.owner == user && row.value.subtitles.Some?
       && IndexOfId(row.value.subtitles.value, id).Some? then
      MergeOfBody(row.value.subtitles.value[IndexOfId(row.value.subtitles.value, id).value], sent);
      UpdateSingle(row, user, id, Body(sent))
    else
      UpdateSingle(row, user, id, Body(sent))
  }

  /** The row checks every edit starts with. */
  function Editable(row: Option<Media>, user: nat): (r: Outcome)
    ensures r.Pass? <==> row.Some? && row.value.owner == user
    ensures r.Fail? ==> r.error.kind == IllegalArgument
  {
    if row.None? then Fail(Error(IllegalArgument, "Media not found"))
    else if row.value.owner != user then Fail(Error(IllegalArgument, "Not authorized to update subtitles"))
    else Pass
  }

  /** `updateSingleSubtitle`: the first subtitle with the id is merged with the request
      and every other subtitle is left as it was; the row is marked SUCCESS. */
  function UpdateSingle(row: Option<Media>, user: nat, id: string, p: Patch): (r: Result<Media>)
    ensures r.Ok? ==> row.Some? && row.value.owner == user && row.value.subtitles.Some?
    ensures r.Ok? ==>
              var before := row.value.subtitles.value;
              var i := IndexOfId(before, id);
              i.Some? && r.value.subtitles.Some? && |r.value.subtitles.value| == |before|
              && Merge(before[i.value], p) == Ok(r.value.subtitles.value[i.value])
              && (forall j :: 0 <= j < |before| && j != i.value ==> r.value.subtitles.value[j] == before[j])
              && r.value.status == Succeeded && r.value.owner == row.value.owner
    ensures row.Some? && row.value.owner == user && row.value.subtitles.Some? ==>
              (r.Ok? <==> (IndexOfId(row.value.subtitles.value, id).Some?
                           && Merge(row.value.subtitles.value[IndexOfId(row.value.subtitles.value, id).value], p).Ok?))
    ensures row.Some? && row.value.owner == user && row.value.subtitles.None? ==>
              r.Err? && r.error.kind == IllegalState
  {
    var editable := Editable(row, user);
    :- editable;
    var m := row.value;
    if m.subtitles.None? then Throw(IllegalState, "No subtitles available to update")
    else
      var subs := m.subtitles.value;
      match IndexOfId(subs, id)
      case None => Throw(IllegalArgument, "Subtitle not found")
      case Some(i) =>
        var merged :- Merge(subs[i], p);
        Ok(m.(status := Succeeded, subtitles := Some(subs[i := merged])))
  }

  /** A replacement passes the per-entry checks of `updateMultipleSubtitles` (null ids
      and texts cannot occur in this model; a missing time is a NullPointerException). */
  function CheckReplacement(s: Subtitle): (r: Outcome)
    ensures r.Pass? <==> Trim(s.text) != "" && s.timelineStartTime.Some? && s.timelineEndTime.Some?
                         && s.timelineEndTime.value > s.timelineStartTime.value
  {
    if Trim(s.text) == "" then Fail(Error(IllegalArgument, "Subtitle id and text cannot be empty"))
    else if s.timelineStartTime.None? || s.timelineEndTime.None? then Fail(Error(Runtime, "NullPointerException"))
    else if s.timelineEndTime.value <= s.timelineStartTime.value then
      Fail(Error(IllegalArgument, "End time must be greater than start time"))
    else Pass
  }

  /** Every replacement passes, checked front to back. */
  function CheckAll(updates: seq<Subtitle>): (r: Outcome)
    ensures r.Pass? <==> forall k :: 0 <= k < |updates| ==> CheckReplacement(updates[k]).Pass?
  {
    if |updates| == 0 then Pass
    else
      var first := CheckReplacement(updates[0]);
      if first.Fail? then first else CheckAll(updates[1..])
  }

  /** The position of the last entry with the id. */
  function LastIndexOfId(updates: seq<Subtitle>, id: string): (r: Option<nat>)
    ensures r.None? <==> forall k :: 0 <= k < |updates| ==> updates[k].id != id
    ensures r.Some? ==> r.value < |updates| && updates[r.value].id == id
                        && forall j :: r.value < j < |updates| ==> updates[j].id != id
    decreases |updates|
  {
    if |updates| == 0 then None
    else if updates[|updates| - 1].id == id then Some(|updates| - 1)
    else LastIndexOfId(updates[..|updates| - 1], id)
  }

  /** The replacement a request holds for an id: the last entry with that id, as the
      map built from the list keeps it. */
  function LastWithId(updates: seq<Subtitle>, id: string): (r: Option<Subtitle>)
    ensures r.None? <==> forall k :: 0 <= k < |updates| ==> updates[k].id != id
    ensures r.Some? ==> r.value.id == id
                        && exists k :: 0 <= k < |updates| && updates[k] == r.value
                                       && forall j :: k < j < |updates| ==> updates[j].id != id
  {
    match LastIndexOfId(updates, id)
    case None => None
    case Some(k) => Some(updates[k])
  }

  /** The stored list with every subtitle that has a replacement replaced. */
  function ReplaceById(subs: seq<Subtitle>, updates: seq<Subtitle>): (r: seq<Subtitle>)
    ensures |r| == |subs|
    ensures forall k :: 0 <= k < |subs| ==> r[k].id == subs[k].id
    ensures forall k :: 0 <= k < |subs| ==>
              r[k] == (if LastWithId(updates, subs[k].id).Some? then LastWithId(updates, subs[k].id).value else subs[k])
  {
    seq(|subs|, k requires 0 <= k < |subs| =>
      var u := LastWithId(updates, subs[k].id);
      if u.Some? then u.value else subs[k])
  }

  /** `updateMultipleSubtitles`: a non-empty request, every entry valid, then each stored
      subtitle whose id the request mentions is replaced by the request's entry; ids
      the list does not hold are ignored. The row is marked SUCCESS. */
  function UpdateMultiple(row: Option<Media>, user: nat, updates: seq<Subtitle>): (r: Result<Media>)
    ensures r.Ok? <==> row.Some? && row.value.owner == user && |updates| > 0
                       && (forall k :: 0 <= k < |updates| ==> CheckReplacement(updates[k]).Pass?)
                       && row.value.subtitles.Some?
    ensures r.Ok? ==> r.value.status == Succeeded && r.value.owner == row.value.owner
                      && r.value.subtitles == Some(ReplaceById(row.value.subtitles.value, updates))
  {
    var editable := Editable(row, user);
    :- editable;
    if |updates| == 0 then Throw(IllegalArgument, "Subtitles list cannot be empty")
    else
      :- CheckAll(updates);
      var m := row.value;
      if m.subtitles.None? then Throw(IllegalArgument, "Subtitles JSON is null")
      else Ok(m.(status := Succeeded, subtitles := Some(ReplaceById(m.subtitles.value, updates))))
  }

  /** A replaced list keeps the stored order of ids, and every subtitle the request
      does not mention is untouched. */
  lemma ReplaceByIdKeepsOthers(subs: seq<Subtitle>, updates: seq<Subtitle>, k: nat)
    requires k < |subs| && forall j :: 0 <= j < |updates| ==> updates[j].id != subs[k].id
    ensures ReplaceById(subs, updates)[k] == subs[k]
  {
  }

  /** `updateAllSubtitles`: only the three colours and font named by the request's keys
      change, on every subtitle. */
  function UpdateAll(row: Option<Media>, user: nat, style: map<string, string>): (r: Result<Media>)
    ensures r.Ok? <==> row.Some? && row.value.owner == user && row.value.subtitles.Some?
    ensures r.Ok? ==>
              var before := row.value.subtitles.value;
              r.value.subtitles.Some? && |r.value.subtitles.value| == |before| && r.value.status == Succeeded
              && forall k :: 0 <= k < |before| ==>
                   var s := r.value.subtitles.value[k];
                   s.(fontFamily := before[k].fontFamily, fontColor := before[k].fontColor,
                      backgroundColor := before[k].backgroundColor) == before[k]
                   && s.fontFamily == (if "fontFamily" in style then style["fontFamily"] else before[k].fontFamily)
                   && s.fontColor == (if "fontColor" in style then style["fontColor"] else before[k].fontColor)
                   && s.backgroundColor
                      == (if "backgroundColor" in style then style["backgroundColor"] else before[k].backgroundColor)
  {
    var editable := Editable(row, user);
    :- editable;
    var m := row.value;
    if m.subtitles.None? then Throw(IllegalState, "No subtitles available to update")
    else
      var subs := m.subtitles.value;
      Ok(m.(status := Succeeded, subtitles := Some(seq(|subs|, k requires 0 <= k < |subs| =>
        subs[k].(fontFamily := StyleOr(Some(style), "fontFamily", subs[k].fontFamily),
                 fontColor := StyleOr(Some(style), "fontColor", subs[k].fontColor),
                 backgroundColor := StyleOr(Some(style), "backgroundColor", subs[k].backgroundColor))))))
  }

  // ------------------------------------------------------------ rendering batches

  const BatchSize: real := 8.0

  /** The batch loop of `renderSubtitledVideo`: batch k covers [8k, min(8k + 8, total)). */
  method RenderBatches(total: real) returns (batches: seq<(nat, real, real)>)
    ensures total <= 0.0 <==> |batches| == 0
    ensures forall k :: 0 <= k < |batches| ==>
              batches[k].0 == k && batches[k].1 == BatchSize * k as real
              && batches[k].2 == Min(BatchSize * k as real + BatchSize, total)
              && batches[k].1 < batches[k].2
    ensures forall k :: 0 <= k < |batches| - 1 ==> batches[k].2 == batches[k + 1].1
    ensures |batches| > 0 ==> batches[0].1 == 0.0 && batches[|batches| - 1].2 == total
  {
    batches := [];
    var start := 0.0;
    var index: nat := 0;
    while start < total
      invariant index == |batches| && start == BatchSize * index as real
      invariant forall k :: 0 <= k < |batches| ==>
                  batches[k].0 == k && batches[k].1 == BatchSize * k as real
                  && batches[k].2 == Min(BatchSize * k as real + BatchSize, total)
                  && batches[k].1 < batches[k].2
      invariant forall k :: 0 <= k < |batches| ==> batches[k].2 == Min(batches[k].1 + BatchSize, total)
      invariant |batches| > 0 ==> batches[|batches| - 1].2 == Min(start, total)
      invariant |batches| > 0 ==> batches[|batches| - 1].1 < total
      decreases (total - start).Floor + 1
    {
      var end := Min(start + BatchSize, total);
      batches := batches + [(index, start, end)];
      start := start + BatchSize;
      index := index + 1;
    }
  }

  /** Where a subtitle shows inside a batch, relative to the batch start. */
  datatype Overlay = Overlay(id: string, from: real, to: real)

  /** `renderBatch` for one subtitle: it must overlap the batch, have text, end after it
      starts and have its text image written; it then shows over the overlapping part. */
  function BatchOverlay(s: Subtitle, batchStart: real, batchEnd: real, pngWritten: bool): (r: Option<Overlay>)
    requires s.timelineStartTime.Some? && s.timelineEndTime.Some?
    ensures r.Some? <==> batchStart < batchEnd
                         && s.timelineStartTime.value < batchEnd && s.timelineEndTime.value > batchStart
                         && Trim(s.text) != "" && s.timelineEndTime.value > s.timelineStartTime.value
                         && pngWritten
    ensures r.Some? ==> r.value.id == s.id && 0.0 <= r.value.from < r.value.to <= batchEnd - batchStart
  {
    var start := s.timelineStartTime.value;
    var end := s.timelineEndTime.value;
    if !(start < batchEnd && end > batchStart) then None
    else if Trim(s.text) == "" || end <= start || !pngWritten then None
    else
      var from := Max(start, batchStart) - batchStart;
      var to := Min(end, batchEnd) - batchStart;
      if from >= to then None else Some(Overlay(s.id, from, to))
  }

  /** The overlays of one batch, in list order; a subtitle without times is the
      NullPointerException of the relevance filter. */
  function BatchOverlays(subs: seq<Subtitle>, batchStart: real, batchEnd: real, pngWritten: string -> bool)
    : (r: Result<seq<Overlay>>)
    ensures r.Ok? <==> forall k :: 0 <= k < |subs| ==> subs[k].timelineStartTime.Some? && subs[k].timelineEndTime.Some?
    ensures r.Ok? ==> |r.value| <= |subs|
                      && forall k :: 0 <= k < |r.value| ==> 0.0 <= r.value[k].from < r.value[k].to <= batchEnd - batchStart
    decreases |subs|
  {
    if |subs| == 0 then Ok([])
    else
      var s := subs[0];
      if s.timelineStartTime.None? || s.timelineEndTime.None? then Throw(Runtime, "NullPointerException")
      else
        var rest :- BatchOverlays(subs[1..], batchStart, batchEnd, pngWritten);
        match BatchOverlay(s, batchStart, batchEnd, pngWritten(s.id))
        case None => Ok(rest)
        case Some(o) => Ok([o] + rest)
  }

  /** Every list the service stores has times on all its subtitles, so the batch filter
      never throws on it. */
  lemma StoredListsAreTimed(raw: seq<Transcribed>, duration: real, style: Option<map<string, string>>,
                            uuid: nat -> string, batchStart: real, batchEnd: real, pngWritten: string -> bool)
    ensures BatchOverlays(Transcript(raw, duration, style, uuid, 0), batchStart, batchEnd, pngWritten).Ok?
  {
  }

  // ------------------------------------------------------------ text image size

  // The even rounding of the image's width and height is `JavaNum.EvenUp`.

  /** The largest scale the subtitle reaches: its own scale (1.0 when null) or any
      scale keyframe above it. */
  function MaxScale(scale: Option<real>, keyframes: seq<real>): (r: real)
    ensures r >= scale.GetOr(1.0)
    ensures forall k :: 0 <= k < |keyframes| ==> r >= keyframes[k]
    ensures r == scale.GetOr(1.0) || r in keyframes
    decreases |keyframes|
  {
    if |keyframes| == 0 then scale.GetOr(1.0)
    else
      var m := MaxScale(scale, keyframes[..|keyframes| - 1]);
      var last := keyframes[|keyframes| - 1];
      assert forall k :: 0 <= k < |keyframes| - 1 ==> keyframes[..|keyframes| - 1][k] == keyframes[k];
      if last > m then last else m
  }

  /** The shrink factor for a text image whose framed size exceeds the limit, never
      below one half; 1.0 when it fits. */
  function ScaleDown(framedWidth: int, framedHeight: int, maxDimension: int): (r: real)
    requires framedWidth > 0 && framedHeight > 0
    ensures r >= 0.5
    ensures framedWidth <= maxDimension && framedHeight <= maxDimension ==> r == 1.0
    ensures maxDimension > 0 ==> r <= 1.0
  {
    if framedWidth > maxDimension || framedHeight > maxDimension then
      var w := maxDimension as real / framedWidth as real;
      var h := maxDimension as real / framedHeight as real;
      Max(Min(w, h), 0.5)
    else 1.0
  }
}

=== FILE: text.dfy ===
/** String helpers with the semantics of the Java and Python library calls the
    editor uses: ASCII case mapping, trimming, blank tests, prefix/suffix tests,
    regex-free splitting and integer parsing. Only the ASCII range is modelled. */
module Text {
  import opened Wrappers
  import opened JavaNum

  predicate IsDigit(c: char) { '0' <= c <= '9' }
  predicate IsAsciiLetter(c: char) { 'a' <= c <= 'z' || 'A' <= c <= 'Z' }
  predicate IsLowerLetter(c: char) { 'a' <= c <= 'z' }

  function LowerChar(c: char): char {
    if 'A' <= c <= 'Z' then (c as int + 32) as char else c
  }

  function UpperChar(c: char): char {
    if 'a' <= c <= 'z' then (c as int - 32) as char else c
  }

  /** `String.toLowerCase()` / `str.lower()` on the ASCII range. */
  function Lower(s: string): (r: string)
    ensures |r| == |s|
    ensures forall i :: 0 <= i < |s| ==> r[i] == LowerChar(s[i])
  {
    seq(|s|, i requires 0 <= i < |s| => LowerChar(s[i]))
  }

  /** `String.toUpperCase()` / `str.upper()` on the ASCII range. */
  function Upper(s: string): (r: string)
    ensures |r| == |s|
    ensures forall i :: 0 <= i < |s| ==> r[i] == UpperChar(s[i])
  {
    seq(|s|, i requires 0 <= i < |s| => UpperChar(s[i]))
  }

  lemma LowerIdempotent(s: string)
    ensures Lower(Lower(s)) == Lower(s)
  {
  }

  lemma UpperIdempotent(s: string)
    ensures Upper(Upper(s)) == Upper(s)
  {
  }

  /** Case mapping works character by character, so it distributes over `+`. */
  lemma LowerAppend(a: string, b: string)
    ensures Lower(a + b) == Lower(a) + Lower(b)
  {
    assert forall i :: 0 <= i < |a + b| ==> Lower(a + b)[i] == (Lower(a) + Lower(b))[i];
  }

  predicate EqualsIgnoreCase(a: string, b: string) {
    Lower(a) == Lower(b)
  }

  predicate StartsWith(s: string, prefix: string) {
    |prefix| <= |s| && s[..|prefix|] == prefix
  }

  predicate EndsWith(s: string, suffix: string) {
    |suffix| <= |s| && s[|s| - |suffix|..] == suffix
  }

  lemma EndsWithAppend(a: string, b: string)
    ensures EndsWith(a + b, b)
  {
    assert (a + b)[|a|..] == b;
  }

  /** `s.contains(sub)` / `sub in s`. */
  predicate Contains(s: string, sub: string)
    decreases |s|
  {
    StartsWith(s, sub) || (|s| > 0 && Contains(s[1..], sub))
  }

  predicate ContainsChar(s: string, c: char) {
    c in s
  }

  /** Java `Character.isWhitespace` and Python `str.isspace` agree on the ASCII range. */
  predicate IsWhitespace(c: char) {
    c == ' ' || c == '\t' || c == '\n' || c == '\U{0B}' || c == '\U{0C}' || c == '\r'
    || c == '\U{1C}' || c == '\U{1D}' || c == '\U{1E}' || c == '\U{1F}'
  }

  /** The Java regex class `\s`. */
  predicate IsRegexSpace(c: char) {
    c == ' ' || c == '\t' || c == '\n' || c == '\U{0B}' || c == '\U{0C}' || c == '\r'
  }

  /** Characters removed by Java `String.trim()`. */
  predicate IsTrimmed(c: char) {
    c <= ' '
  }

  function DropLeading(s: string, drop: char -> bool): (r: string)
    ensures |r| <= |s| && r == s[|s| - |r|..]
    ensures |r| > 0 ==> !drop(r[0])
    ensures forall i :: 0 <= i < |s| - |r| ==> drop(s[i])
    decreases |s|
  {
    if |s| > 0 && drop(s[0]) then DropLeading(s[1..], drop) else s
  }

  function DropTrailing(s: string, drop: char -> bool): (r: string)
    ensures |r| <= |s| && r == s[..|r|]
    ensures |r| > 0 ==> !drop(r[|r| - 1])
    ensures forall i :: |r| <= i < |s| ==> drop(s[i])
    decreases |s|
  {
    if |s| > 0 && drop(s[|s| - 1]) then DropTrailing(s[..|s| - 1], drop) else s
  }

  function Strip(s: string, drop: char -> bool): string {
    DropTrailing(DropLeading(s, drop), drop)
  }

  /** Java `String.trim()`. */
  function Trim(s: string): string { Strip(s, IsTrimmed) }

  /** Python `str.strip()` (no argument). */
  function PyStrip(s: string): string { Strip(s, IsWhitespace) }

  /** `s == null || s.trim().isEmpty()`, with null as None. */
  predicate NullOrTrimEmpty(s: Option<string>) {
    s.None? || Trim(s.value) == ""
  }

  lemma StripEmptyIff(s: string, drop: char -> bool)
    ensures Strip(s, drop) == "" <==> forall i :: 0 <= i < |s| ==> drop(s[i])
  {
    var t := DropLeading(s, drop);
    if t != "" {
      assert !drop(t[0]);
      assert s[|s| - |t|] == t[0];
    }
  }

  /** Index of the first occurrence of `c`, if any. */
  function IndexOf(s: string, c: char): (r: Option<nat>)
    ensures r.None? <==> c !in s
    ensures r.Some? ==> r.value < |s| && s[r.value] == c && c !in s[..r.value]
  {
    if |s| == 0 then None
    else if s[0] == c then Some(0)
    else
      match IndexOf(s[1..], c)
      case None => None
      case Some(i) => assert s[1..][..i] == s[1..i + 1]; Some(i + 1)
  }

  /** Index of the last occurrence of `c`, if any. */
  function LastIndexOf(s: string, c: char): (r: Option<nat>)
    ensures r.None? <==> c !in s
    ensures r.Some? ==> r.value < |s| && s[r.value] == c && c !in s[r.value + 1..]
    decreases |s|
  {
    if |s| == 0 then None
    else if s[|s| - 1] == c then Some(|s| - 1)
    else
      var r := LastIndexOf(s[..|s| - 1], c);
      assert s == s[..|s| - 1] + [s[|s| - 1]];
      if r.Some? then assert s[r.value + 1..] == s[..|s| - 1][r.value + 1..] + [s[|s| - 1]]; r else r
  }

  /** The first `c` is at `k` when `s[k]` is `c` and no `c` precedes it. */
  lemma IndexOfAt(s: string, c: char, k: nat)
    requires k < |s| && s[k] == c && c !in s[..k]
    ensures IndexOf(s, c) == Some(k)
  {
    var i := IndexOf(s, c).value;
    forall j | 0 <= j < k ensures s[j] != c {
      assert s[j] == s[..k][j];
    }
    forall j | 0 <= j < i ensures s[j] != c {
      assert s[j] == s[..i][j];
    }
  }

  /** The last `c` is at `k` when `s[k]` is `c` and no `c` follows it. */
  lemma LastIndexOfAt(s: string, c: char, k: nat)
    requires k < |s| && s[k] == c && c !in s[k + 1..]
    ensures LastIndexOf(s, c) == Some(k)
  {
    var i := LastIndexOf(s, c).value;
    forall j | k < j < |s| ensures s[j] != c {
      assert s[j] == s[k + 1..][j - k - 1];
    }
    forall j | i < j < |s| ensures s[j] != c {
      assert s[j] == s[i + 1..][j - i - 1];
    }
  }

  /** The leading run of characters outside `space`. */
  function WordPrefix(s: string, space: char -> bool): (r: nat)
    ensures r <= |s|
    ensures forall i :: 0 <= i < r ==> !space(s[i])
    ensures r < |s| ==> space(s[r])
    decreases |s|
  {
    if |s| > 0 && !space(s[0]) then 1 + WordPrefix(s[1..], space) else 0
  }

  /** Maximal runs of characters outside `space`, in order (Python `str.split()`). */
  function Words(s: string, space: char -> bool): seq<string>
    decreases |s|
  {
    var t := DropLeading(s, space);
    if t == "" then []
    else
      var n := WordPrefix(t, space);
      [t[..n]] + Words(t[n..], space)
  }

  /** Every word is non-empty and holds no separator. */
  lemma {:induction false} WordsAreWords(s: string, space: char -> bool)
    ensures forall w :: w in Words(s, space) ==> |w| > 0 && forall i :: 0 <= i < |w| ==> !space(w[i])
    decreases |s|
  {
    var t := DropLeading(s, space);
    if t != "" {
      var n := WordPrefix(t, space);
      assert n > 0;
      var w0 := t[..n];
      assert forall i :: 0 <= i < |w0| ==> !space(w0[i]);
      var rest := Words(t[n..], space);
      WordsAreWords(t[n..], space);
      assert Words(s, space) == [w0] + rest;
      forall w | w in Words(s, space)
        ensures |w| > 0 && forall i :: 0 <= i < |w| ==> !space(w[i])
      {
        if w != w0 {
          assert w in rest;
        }
      }
    }
  }

  /** Every piece between occurrences of a delimiter; `|delimiters| + 1` pieces. */
  function Pieces(s: string, delim: char -> bool): (r: seq<string>)
    ensures |r| >= 1
    decreases |s|
  {
    if |s| == 0 then [""]
    else
      var tail := Pieces(s[1..], delim);
      if delim(s[0]) then [""] + tail else [[s[0]] + tail[0]] + tail[1..]
  }

  function DropTrailingEmpty(p: seq<string>): (r: seq<string>)
    ensures |r| <= |p| && r == p[..|r|]
    ensures |r| > 0 ==> r[|r| - 1] != ""
  {
    if |p| > 0 && p[|p| - 1] == "" then DropTrailingEmpty(p[..|p| - 1]) else p
  }

  predicate HasDelimiter(s: string, delim: char -> bool) {
    exists i :: 0 <= i < |s| && delim(s[i])
  }

  /** A string without a delimiter is a single piece. */
  lemma {:induction false} PiecesWithout(s: string, delim: char -> bool)
    requires forall i :: 0 <= i < |s| ==> !delim(s[i])
    ensures Pieces(s, delim) == [s]
    decreases |s|
  {
    if |s| > 0 {
      PiecesWithout(s[1..], delim);
      assert [s[0]] + s[1..] == s;
    }
  }

  /** The first delimiter ends the first piece. */
  lemma {:induction false} PiecesAt(a: string, d: char, b: string, delim: char -> bool)
    requires forall i :: 0 <= i < |a| ==> !delim(a[i])
    requires delim(d)
    ensures Pieces(a + [d] + b, delim) == [a] + Pieces(b, delim)
    decreases |a|
  {
    var s := a + [d] + b;
    if |a| == 0 {
      assert s == [d] + b;
      assert s[1..] == b;
    } else {
      assert s[1..] == a[1..] + [d] + b;
      PiecesAt(a[1..], d, b, delim);
      assert [a[0]] + a[1..] == a;
    }
  }

  /** Java `String.split` with a one-character-class pattern: without a match the
      whole string is the single piece; otherwise trailing empty pieces are dropped. */
  function JavaSplit(s: string, delim: char -> bool): seq<string> {
    if HasDelimiter(s, delim) then DropTrailingEmpty(Pieces(s, delim)) else [s]
  }

  /** Java `s.split("\\s+")`: a leading separator yields one leading empty piece,
      trailing separators yield nothing, and the empty string yields `[""]`. */
  function JavaSplitSpaces(s: string): seq<string> {
    if s == "" then [""]
    else
      var words := Words(s, IsRegexSpace);
      if words == [] then []
      else if IsRegexSpace(s[0]) then [""] + words
      else words
  }

  function Join(parts: seq<string>, sep: string): string {
    if |parts| == 0 then ""
    else if |parts| == 1 then parts[0]
    else parts[0] + sep + Join(parts[1..], sep)
  }

  predicate AllDigits(s: string) {
    forall i :: 0 <= i < |s| ==> IsDigit(s[i])
  }

  function DigitValue(c: char): nat
    requires IsDigit(c)
  {
    c as int - '0' as int
  }

  /** The decimal value of a digit string. */
  function DigitsValue(s: string): nat
    requires AllDigits(s)
  {
    if |s| == 0 then 0 else DigitsValue(s[..|s| - 1]) * 10 + DigitValue(s[|s| - 1])
  }

  /** The decimal spelling of a natural number, without leading zeros. */
  function Decimal(n: nat): (r: string)
    ensures |r| > 0 && AllDigits(r)
  {
    if n < 10 then [('0' as int + n) as char]
    else Decimal(n / 10) + [('0' as int + n % 10) as char]
  }

  lemma {:induction false} DecimalValue(n: nat)
    ensures DigitsValue(Decimal(n)) == n
  {
    if n >= 10 {
      var d := Decimal(n);
      assert d[..|d| - 1] == Decimal(n / 10);
      DecimalValue(n / 10);
    }
  }

  /** Java `Integer.parseInt` on ASCII digits: an optional sign, at least one digit,
      and a value inside the 32-bit range; anything else is a NumberFormatException. */
  function ParseInt(s: string): (r: Option<int>)
    ensures r.Some? ==> IsInt(r.value)
  {
    if |s| == 0 then None
    else
      var negative := s[0] == '-';
      var digits := if s[0] == '-' || s[0] == '+' then s[1..] else s;
      if |digits| == 0 || !AllDigits(digits) then None
      else
        var magnitude: int := DigitsValue(digits);
        var v := if negative then -magnitude else magnitude;
        if IsInt(v) then Some(v) else None
  }

  /** `Integer.parseInt` reads back the decimal spelling of any non-negative `int`. */
  lemma ParseDecimal(n: nat)
    requires IsInt(n)
    ensures ParseInt(Decimal(n)) == Some(n)
  {
    var d := Decimal(n);
    assert IsDigit(d[0]);
    DecimalValue(n);
  }
}

=== FILE: text_segment.dfy ===
/** A text overlay on the timeline: its font and colours, the shared validated
    style, placement and keyframes. */
module TextSegments {
  import opened Wrappers
  import opened Sorting
  import opened Keyframes
  import opened TextStyle

  datatype TextSegment = TextSegment(
    id: string,
    text: string,
    fontFamily: string,
    scale: Option<real>,
    fontColor: string,
    backgroundColor: string,
    backgroundBorderColor: string,
    textBorderColor: string,
    positionX: Option<int>,
    positionY: Option<int>,
    opacity: Option<real>,
    timelineStartTime: real,
    timelineEndTime: real,
    layer: int,
    rotation: real,
    isSubtitle: bool,
    style: Style,
    keyframes: KeyframeMap)

  /** A text segment's style defaults: left aligned, opaque, no borders or
      background box, line spacing 1.2. */
  const DefaultStyle: Style := Style("left", 1.0, 0, 0, 0, 0, 0, 1.0, 0.0, 1.2)

  /** What the text segment's setters store for a null argument. */
  const NullResets: Resets := Resets(1.0, 0, 0, 0, 0, 0, 1.0, 0.0, 1.2)

  function New(id: string): (t: TextSegment)
    ensures t.id == id && !t.isSubtitle && t.layer == 0
    ensures t.fontFamily == "ARIAL" && t.fontColor == "white" && t.backgroundColor == "transparent"
    ensures Valid(t.style) && t.style.alignment == "left" && t.style.lineSpacing == 1.2
  {
    TextSegment(id, "", "ARIAL", Some(1.0), "white", "transparent", "transparent", "transparent",
                Some(0), Some(0), Some(1.0), 0.0, 0.0, 0, 0.0, false, DefaultStyle, map[])
  }

  /** Every null reset lands on a valid value, so a fresh segment stays valid under
      any sequence of setter calls. */
  lemma SettersKeepDefaultsValid(cs: seq<Call>)
    ensures Valid(ApplyAll(DefaultStyle, cs, NullResets))
  {
    ApplyAllKeepsValid(DefaultStyle, cs, NullResets);
  }

  /** A null argument resets a field to its declared default, for every nullable setter. */
  lemma NullResetsAreDefaults(s: Style)
    ensures SetLineSpacing(s, None, NullResets) == Ok(s.(lineSpacing := DefaultStyle.lineSpacing))
    ensures SetLetterSpacing(s, None, NullResets) == Ok(s.(letterSpacing := DefaultStyle.letterSpacing))
    ensures SetBackgroundOpacity(s, None, NullResets) == Ok(s.(backgroundOpacity := DefaultStyle.backgroundOpacity))
    ensures SetTextBorderOpacity(s, None, NullResets) == Ok(s.(textBorderOpacity := DefaultStyle.textBorderOpacity))
    ensures SetBackgroundH(s, None, NullResets) == Ok(s.(backgroundH := DefaultStyle.backgroundH))
    ensures SetBackgroundW(s, None, NullResets) == Ok(s.(backgroundW := DefaultStyle.backgroundW))
    ensures SetBackgroundBorderRadius(s, None, NullResets) == Ok(s.(backgroundBorderRadius := DefaultStyle.backgroundBorderRadius))
    ensures SetBackgroundBorderWidth(s, None, NullResets) == Ok(s.(backgroundBorderWidth := DefaultStyle.backgroundBorderWidth))
    ensures SetTextBorderWidth(s, None, NullResets) == Ok(s.(textBorderWidth := DefaultStyle.textBorderWidth))
  {
  }

  /** Applies one setter to the segment's style; a rejected call leaves the segment unchanged. */
  function SetStyle(t: TextSegment, c: Call): (r: Result<TextSegment>)
    ensures r.Ok? <==> Apply(t.style, c, NullResets).Ok?
    ensures r.Ok? ==> r.value == t.(style := Apply(t.style, c, NullResets).value)
  {
    var s :- Apply(t.style, c, NullResets);
    Ok(t.(style := s))
  }

  function AddKeyframe(t: TextSegment, p: string, k: Keyframe): (r: TextSegment)
    ensures r == t.(keyframes := r.keyframes)
    ensures r.keyframes.Keys == t.keyframes.Keys + {p}
    ensures SortedBy(r.keyframes[p], Time) && k in r.keyframes[p]
    ensures forall j :: j in r.keyframes[p] && j != k ==> !Near(j.time, k.time)
    ensures forall j :: j in r.keyframes[p] <==> j == k || (j in ListOf(t.keyframes, p) && !Near(j.time, k.time))
    ensures forall q :: q in t.keyframes && q != p ==> r.keyframes[q] == t.keyframes[q]
  {
    t.(keyframes := Add(t.keyframes, p, k))
  }

  /** The corrected update: replaces the keyframe near the new time and re-sorts,
      holding the same keyframes as the in-place overwrite. */
  function UpdateKeyframe(t: TextSegment, p: string, k: Keyframe): (r: TextSegment)
    ensures r == t.(keyframes := r.keyframes)
    ensures r.keyframes.Keys == t.keyframes.Keys
    ensures forall q :: q in t.keyframes && q != p ==> r.keyframes[q] == t.keyframes[q]
    ensures p in t.keyframes ==> |r.keyframes[p]| == |t.keyframes[p]|
    ensures p in t.keyframes && FirstNear(t.keyframes[p], k.time).Some? ==>
              k in r.keyframes[p] && SortedBy(r.keyframes[p], Time)
    ensures p !in t.keyframes || FirstNear(t.keyframes[p], k.time).None? ==> r == t
    ensures p in t.keyframes ==> multiset(r.keyframes[p]) == multiset(UpdateInPlace(t.keyframes, p, k)[p])
  {
    t.(keyframes := Update(t.keyframes, p, k))
  }

  function RemoveKeyframe(t: TextSegment, p: string, time: real): (r: TextSegment)
    ensures r == t.(keyframes := r.keyframes)
    ensures r.keyframes.Keys == t.keyframes.Keys
    ensures forall q :: q in t.keyframes && q != p ==> r.keyframes[q] == t.keyframes[q]
    ensures p in t.keyframes ==> forall j :: j in r.keyframes[p] <==> j in t.keyframes[p] && !Near(j.time, time)
  {
    t.(keyframes := Remove(t.keyframes, p, time))
  }
}

=== FILE: text_style.dfy ===
/** The validated styling fields that text segments and subtitles share, and their
    setters. A setter either rejects its argument with an IllegalArgumentException
    and leaves the style as it was, or stores the argument, a null argument
    standing for the class's reset value. Text segments and subtitles differ only
    in those reset values, so each setter takes them as a `Resets` record. */
module TextStyle {
  import opened Wrappers

  datatype Style = Style(
    alignment: string,
    backgroundOpacity: real,
    backgroundBorderWidth: int,
    backgroundH: int,
    backgroundW: int,
    backgroundBorderRadius: int,
    textBorderWidth: int,
    textBorderOpacity: real,
    letterSpacing: real,
    lineSpacing: real)

  /** What a null argument resets each field to. */
  datatype Resets = Resets(
    backgroundOpacity: real,
    backgroundBorderWidth: int,
    backgroundH: int,
    backgroundW: int,
    backgroundBorderRadius: int,
    textBorderWidth: int,
    textBorderOpacity: real,
    letterSpacing: real,
    lineSpacing: real)

  predicate IsAlignment(a: string) {
    a == "left" || a == "right" || a == "center"
  }

  predicate IsOpacity(x: real) { 0.0 <= x <= 1.0 }

  /** Every value the setters can store. */
  predicate Valid(s: Style) {
    IsAlignment(s.alignment)
    && IsOpacity(s.backgroundOpacity) && IsOpacity(s.textBorderOpacity)
    && s.backgroundBorderWidth >= 0 && s.backgroundH >= 0 && s.backgroundW >= 0
    && s.backgroundBorderRadius >= 0 && s.textBorderWidth >= 0
    && s.letterSpacing >= 0.0 && s.lineSpacing >= 0.0
  }

  /** Reset values the setters themselves would accept. */
  predicate ValidResets(z: Resets) {
    IsOpacity(z.backgroundOpacity) && IsOpacity(z.textBorderOpacity)
    && z.backgroundBorderWidth >= 0 && z.backgroundH >= 0 && z.backgroundW >= 0
    && z.backgroundBorderRadius >= 0 && z.textBorderWidth >= 0
    && z.letterSpacing >= 0.0 && z.lineSpacing >= 0.0
  }

  /** A non-negative real argument, or the reset value for null. */
  function NonNegativeReal(v: Option<real>, reset: real, reason: string): (r: Result<real>)
    ensures r.Ok? <==> v.None? || v.value >= 0.0
    ensures r.Ok? ==> r.value == v.GetOr(reset)
    ensures r.Err? ==> r.error.kind == IllegalArgument
  {
    match v
    case None => Ok(reset)
    case Some(x) => if x < 0.0 then Throw(IllegalArgument, reason) else Ok(x)
  }

  /** A non-negative integer argument, or the reset value for null. */
  function NonNegativeInt(v: Option<int>, reset: int, reason: string): (r: Result<int>)
    ensures r.Ok? <==> v.None? || v.value >= 0
    ensures r.Ok? ==> r.value == v.GetOr(reset)
    ensures r.Err? ==> r.error.kind == IllegalArgument
  {
    match v
    case None => Ok(reset)
    case Some(x) => if x < 0 then Throw(IllegalArgument, reason) else Ok(x)
  }

  /** An opacity in [0, 1], or the reset value for null. */
  function Opacity(v: Option<real>, reset: real, reason: string): (r: Result<real>)
    ensures r.Ok? <==> v.None? || IsOpacity(v.value)
    ensures r.Ok? ==> r.value == v.GetOr(reset)
    ensures r.Err? ==> r.error.kind == IllegalArgument
  {
    match v
    case None => Ok(reset)
    case Some(x) => if x < 0.0 || x > 1.0 then Throw(IllegalArgument, reason) else Ok(x)
  }

  function SetAlignment(s: Style, a: Option<string>): (r: Result<Style>)
    ensures r.Ok? <==> a.Some? && IsAlignment(a.value)
    ensures r.Ok? ==> r.value == s.(alignment := a.value)
  {
    if a.None? || !IsAlignment(a.value) then Throw(IllegalArgument, "alignment")
    else Ok(s.(alignment := a.value))
  }

  function SetBackgroundOpacity(s: Style, v: Option<real>, z: Resets): (r: Result<Style>)
    ensures r.Ok? <==> v.None? || IsOpacity(v.value)
    ensures r.Ok? ==> r.value == s.(backgroundOpacity := v.GetOr(z.backgroundOpacity))
  {
    var x :- Opacity(v, z.backgroundOpacity, "backgroundOpacity");
    Ok(s.(backgroundOpacity := x))
  }

  function SetTextBorderOpacity(s: Style, v: Option<real>, z: Resets): (r: Result<Style>)
    ensures r.Ok? <==> v.None? || IsOpacity(v.value)
    ensures r.Ok? ==> r.value == s.(textBorderOpacity := v.GetOr(z.textBorderOpacity))
  {
    var x :- Opacity(v, z.textBorderOpacity, "textBorderOpacity");
    Ok(s.(textBorderOpacity := x))
  }

  function SetBackgroundBorderWidth(s: Style, v: Option<int>, z: Resets): (r: Result<Style>)
    ensures r.Ok? <==> v.None? || v.value >= 0
    ensures r.Ok? ==> r.value == s.(backgroundBorderWidth := v.GetOr(z.backgroundBorderWidth))
  {
    var x :- NonNegativeInt(v, z.backgroundBorderWidth, "backgroundBorderWidth");
    Ok(s.(backgroundBorderWidth := x))
  }

  function SetBackgroundH(s: Style, v: Option<int>, z: Resets): (r: Result<Style>)
    ensures r.Ok? <==> v.None? || v.value >= 0
    ensures r.Ok? ==> r.value == s.(backgroundH := v.GetOr(z.backgroundH))
  {
    var x :- NonNegativeInt(v, z.backgroundH, "backgroundH");
    Ok(s.(backgroundH := x))
  }

  function SetBackgroundW(s: Style, v: Option<int>, z: Resets): (r: Result<Style>)
    ensures r.Ok? <==> v.None? || v.value >= 0
    ensures r.Ok? ==> r.value == s.(backgroundW := v.GetOr(z.backgroundW))
  {
    var x :- NonNegativeInt(v, z.backgroundW, "backgroundW");
    Ok(s.(backgroundW := x))
  }

  function SetBackgroundBorderRadius(s: Style, v: Option<int>, z: Resets): (r: Result<Style>)
    ensures r.Ok? <==> v.None? || v.value >= 0
    ensures r.Ok? ==> r.value == s.(backgroundBorderRadius := v.GetOr(z.backgroundBorderRadius))
  {
    var x :- NonNegativeInt(v, z.backgroundBorderRadius, "backgroundBorderRadius");
    Ok(s.(backgroundBorderRadius := x))
  }

  function SetTextBorderWidth(s: Style, v: Option<int>, z: Resets): (r: Result<Style>)
    ensures r.Ok? <==> v.None? || v.value >= 0
    ensures r.Ok? ==> r.value == s.(textBorderWidth := v.GetOr(z.textBorderWidth))
  {
    var x :- NonNegativeInt(v, z.textBorderWidth, "textBorderWidth");
    Ok(s.(textBorderWidth := x))
  }

  function SetLetterSpacing(s: Style, v: Option<real>, z: Resets): (r: Result<Style>)
    ensures r.Ok? <==> v.None? || v.value >= 0.0
    ensures r.Ok? ==> r.value == s.(letterSpacing := v.GetOr(z.letterSpacing))
  {
    var x :- NonNegativeReal(v, z.letterSpacing, "letterSpacing");
    Ok(s.(letterSpacing := x))
  }

  function SetLineSpacing(s: Style, v: Option<real>, z: Resets): (r: Result<Style>)
    ensures r.Ok? <==> v.None? || v.value >= 0.0
    ensures r.Ok? ==> r.value == s.(lineSpacing := v.GetOr(z.lineSpacing))
  {
    var x :- NonNegativeReal(v, z.lineSpacing, "lineSpacing");
    Ok(s.(lineSpacing := x))
  }

  /** One named setter call, so that sequences of calls can be reasoned about. */
  datatype Call =
    | Alignment(a: Option<string>)
    | BackgroundOpacity(o: Option<real>)
    | TextBorderOpacity(o: Option<real>)
    | BackgroundBorderWidth(n: Option<int>)
    | BackgroundH(n: Option<int>)
    | BackgroundW(n: Option<int>)
    | BackgroundBorderRadius(n: Option<int>)
    | TextBorderWidth(n: Option<int>)
    | LetterSpacing(x: Option<real>)
    | LineSpacing(x: Option<real>)

  function Apply(s: Style, c: Call, z: Resets): Result<Style> {
    match c
    case Alignment(a) => SetAlignment(s, a)
    case BackgroundOpacity(o) => SetBackgroundOpacity(s, o, z)
    case TextBorderOpacity(o) => SetTextBorderOpacity(s, o, z)
    case BackgroundBorderWidth(n) => SetBackgroundBorderWidth(s, n, z)
    case BackgroundH(n) => SetBackgroundH(s, n, z)
    case BackgroundW(n) => SetBackgroundW(s, n, z)
    case BackgroundBorderRadius(n) => SetBackgroundBorderRadius(s, n, z)
    case TextBorderWidth(n) => SetTextBorderWidth(s, n, z)
    case LetterSpacing(x) => SetLetterSpacing(s, x, z)
    case LineSpacing(x) => SetLineSpacing(s, x, z)
  }

  /** Whether a setter accepts its argument. */
  predicate Accepts(c: Call) {
    match c
    case Alignment(a) => a.Some? && IsAlignment(a.value)
    case BackgroundOpacity(o) => o.None? || IsOpacity(o.value)
    case TextBorderOpacity(o) => o.None? || IsOpacity(o.value)
    case BackgroundBorderWidth(n) => n.None? || n.value >= 0
    case BackgroundH(n) => n.None? || n.value >= 0
    case BackgroundW(n) => n.None? || n.value >= 0
    case BackgroundBorderRadius(n) => n.None? || n.value >= 0
    case TextBorderWidth(n) => n.None? || n.value >= 0
    case LetterSpacing(x) => x.None? || x.value >= 0.0
    case LineSpacing(x) => x.None? || x.value >= 0.0
  }

  lemma ApplyOkIff(s: Style, c: Call, z: Resets)
    ensures Apply(s, c, z).Ok? <==> Accepts(c)
  {
  }

  /** A run of setter calls stops at the first exception, keeping the style reached. */
  function ApplyAll(s: Style, cs: seq<Call>, z: Resets): (r: Style)
    decreases |cs|
  {
    if |cs| == 0 then s
    else
      match Apply(s, cs[0], z)
      case Ok(t) => ApplyAll(t, cs[1..], z)
      case Err(_) => s
  }

  /** The invariant every setter keeps: a valid style stays valid whatever is passed. */
  lemma ApplyKeepsValid(s: Style, c: Call, z: Resets)
    requires Valid(s) && ValidResets(z)
    ensures Apply(s, c, z).Ok? ==> Valid(Apply(s, c, z).value)
  {
  }

  lemma {:induction false} ApplyAllKeepsValid(s: Style, cs: seq<Call>, z: Resets)
    requires Valid(s) && ValidResets(z)
    ensures Valid(ApplyAll(s, cs, z))
    decreases |cs|
  {
    if |cs| > 0 {
      ApplyKeepsValid(s, cs[0], z);
      match Apply(s, cs[0], z)
      case Ok(t) => ApplyAllKeepsValid(t, cs[1..], z);
      case Err(_) =>
    }
  }

  /** Repeating a call that succeeded changes nothing more. */
  lemma ApplyIdempotent(s: Style, c: Call, z: Resets)
    requires Apply(s, c, z).Ok?
    ensures Apply(Apply(s, c, z).value, c, z) == Apply(s, c, z)
  {
  }

  /** Whether a call succeeds depends only on its argument, never on the current style. */
  lemma ApplyAcceptanceIndependentOfStyle(s: Style, t: Style, c: Call, z: Resets)
    ensures Apply(s, c, z).Ok? <==> Apply(t, c, z).Ok?
  {
  }
}

=== FILE: timeline.dfy ===
/** The timeline of an editing session: video, text, audio and image segments,
    filters and transitions, and the per-layer placement rule. Two intervals
    overlap when each starts before the other ends, so touching intervals do not. */
module Timeline {
  import opened Wrappers
  import opened Lists
  import opened VideoSegments
  import opened TextSegments
  import opened AudioSegments
  import opened ImageSegments

  datatype Filter = Filter(filterId: string, segmentId: string, filterName: string, filterValue: string)

  /** A transition as the editing service handles it: attached to one segment, at its
      start, its end or both. */
  datatype Transition = Transition(
    id: string,
    transitionType: string,
    duration: real,
    segmentId: string,
    atStart: bool,
    atEnd: bool,
    layer: int,
    timelineStartTime: real,
    parameters: map<string, string>)

  datatype TimelineState = TimelineState(
    segments: seq<VideoSegment>,
    textSegments: seq<TextSegment>,
    audioSegments: seq<AudioSegment>,
    imageSegments: seq<ImageSegment>,
    filters: seq<Filter>,
    transitions: seq<Transition>,
    canvasWidth: Option<int>,
    canvasHeight: Option<int>)

  /** The outcome of an operation that may throw after it has already changed the
      timeline: the timeline as left behind, and the exception, if any. */
  datatype Effect = Effect(state: TimelineState, error: Option<Error>)

  /** The no-argument constructor: every list empty, no canvas size. */
  function Empty(): (t: TimelineState)
    ensures t.segments == [] && t.textSegments == [] && t.audioSegments == []
    ensures t.imageSegments == [] && t.filters == [] && t.transitions == []
  {
    TimelineState([], [], [], [], [], [], None, None)
  }

  /** A timeline as deserialized: the video, text and audio lists may be null. */
  datatype StoredTimeline = StoredTimeline(
    segments: Option<seq<VideoSegment>>,
    textSegments: Option<seq<TextSegment>>,
    audioSegments: Option<seq<AudioSegment>>,
    rest: TimelineState)

  /** What the lazy getters return: a null list reads as a new empty list, any other
      list as itself. */
  function Read(st: StoredTimeline): (t: TimelineState)
    ensures t.segments == st.segments.GetOr([])
    ensures t.textSegments == st.textSegments.GetOr([])
    ensures t.audioSegments == st.audioSegments.GetOr([])
    ensures t.imageSegments == st.rest.imageSegments && t.filters == st.rest.filters
    ensures t.transitions == st.rest.transitions
  {
    st.rest.(segments := st.segments.GetOr([]), textSegments := st.textSegments.GetOr([]),
             audioSegments := st.audioSegments.GetOr([]))
  }

  function Store(t: TimelineState): StoredTimeline {
    StoredTimeline(Some(t.segments), Some(t.textSegments), Some(t.audioSegments), t)
  }

  /** Reading back a stored timeline gives the timeline, and reading is idempotent. */
  lemma ReadStore(t: TimelineState, st: StoredTimeline)
    ensures Read(Store(t)) == t
    ensures Read(Store(Read(st))) == Read(st)
  {
  }

  /** The message of the placement check's exception. */
  const OverlapMessage: string := "Timeline position overlaps with an existing segment"

  predicate Overlaps(start: real, end: real, otherStart: real, otherEnd: real) {
    start < otherEnd && end > otherStart
  }

  lemma OverlapsSymmetric(a: real, b: real, c: real, d: real)
    ensures Overlaps(a, b, c, d) <==> Overlaps(c, d, a, b)
  {
  }

  predicate VideoBlocks(v: VideoSegment, start: real, end: real, layer: int) {
    v.layer == layer && Overlaps(start, end, v.timelineStartTime, v.timelineEndTime)
  }

  predicate TextBlocks(x: TextSegment, start: real, end: real, layer: int) {
    x.layer == layer && Overlaps(start, end, x.timelineStartTime, x.timelineEndTime)
  }

  /** Audio segments only compete for negative layers. */
  predicate AudioBlocks(a: AudioSegment, start: real, end: real, layer: int) {
    a.layer == layer && layer < 0 && Overlaps(start, end, a.timelineStartTime, a.timelineEndTime)
  }

  /** The placement rule: nothing on the layer overlaps the interval. Image segments
      are not consulted. */
  predicate PositionAvailable(t: TimelineState, start: real, end: real, layer: int) {
    (forall i :: 0 <= i < |t.segments| ==> !VideoBlocks(t.segments[i], start, end, layer))
    && (forall i :: 0 <= i < |t.textSegments| ==> !TextBlocks(t.textSegments[i], start, end, layer))
    && (forall i :: 0 <= i < |t.audioSegments| ==> !AudioBlocks(t.audioSegments[i], start, end, layer))
  }

  /** The three scans of `isTimelinePositionAvailable`, each returning on the first clash. */
  method IsTimelinePositionAvailable(t: TimelineState, start: real, end: real, layer: int)
    returns (available: bool)
    ensures available <==> PositionAvailable(t, start, end, layer)
  {
    var i := 0;
    while i < |t.segments|
      invariant 0 <= i <= |t.segments|
      invariant forall j :: 0 <= j < i ==> !VideoBlocks(t.segments[j], start, end, layer)
    {
      var v := t.segments[i];
      if v.layer == layer && start < v.timelineEndTime && end > v.timelineStartTime {
        return false;
      }
      i := i + 1;
    }
    i := 0;
    while i < |t.textSegments|
      invariant 0 <= i <= |t.textSegments|
      invariant forall j :: 0 <= j < i ==> !TextBlocks(t.textSegments[j], start, end, layer)
    {
      var x := t.textSegments[i];
      if x.layer == layer && start < x.timelineEndTime && end > x.timelineStartTime {
        return false;
      }
      i := i + 1;
    }
    i := 0;
    while i < |t.audioSegments|
      invariant 0 <= i <= |t.audioSegments|
      invariant forall j :: 0 <= j < i ==> !AudioBlocks(t.audioSegments[j], start, end, layer)
    {
      var a := t.audioSegments[i];
      if a.layer == layer && layer < 0 {
        if start < a.timelineEndTime && end > a.timelineStartTime {
          return false;
        }
      }
      i := i + 1;
    }
    return true;
  }

  /** Images never block a position, and audio never blocks a non-negative layer. */
  lemma AvailabilityIgnoresImagesAndUpperAudio(t: TimelineState, images: seq<ImageSegment>,
                                              audio: seq<AudioSegment>, start: real, end: real, layer: int)
    requires layer >= 0
    ensures PositionAvailable(t.(imageSegments := images, audioSegments := audio), start, end, layer)
            <==> PositionAvailable(t, start, end, layer)
  {
  }

  /** The video segments on one layer, in timeline-list order. */
  function SegmentsByLayer(segs: seq<VideoSegment>, layer: int): (r: seq<VideoSegment>)
    ensures |r| <= |segs|
    ensures forall v :: v in r <==> v in segs && v.layer == layer
  {
    Keep(segs, (v: VideoSegment) => v.layer == layer)
  }

  /** Segments of other layers are skipped and the rest keep their relative order. */
  lemma SegmentsByLayerAppend(a: seq<VideoSegment>, b: seq<VideoSegment>, layer: int)
    ensures SegmentsByLayer(a + b, layer) == SegmentsByLayer(a, layer) + SegmentsByLayer(b, layer)
  {
    KeepAppend(a, b, (v: VideoSegment) => v.layer == layer);
  }

  /** `getMaxLayer`: the highest video layer, starting from 0. */
  method GetMaxLayer(segs: seq<VideoSegment>) returns (maxLayer: int)
    ensures maxLayer >= 0
    ensures forall i :: 0 <= i < |segs| ==> segs[i].layer <= maxLayer
    ensures maxLayer == 0 || exists i :: 0 <= i < |segs| && segs[i].layer == maxLayer
  {
    maxLayer := 0;
    var i := 0;
    while i < |segs|
      invariant 0 <= i <= |segs|
      invariant maxLayer >= 0
      invariant forall j :: 0 <= j < i ==> segs[j].layer <= maxLayer
      invariant maxLayer == 0 || exists j :: 0 <= j < i && segs[j].layer == maxLayer
    {
      if segs[i].layer > maxLayer {
        maxLayer := segs[i].layer;
      }
      i := i + 1;
    }
  }

  /** The timeline invariant the placement checks keep: no two video segments, and no
      video and text segment, on the same layer overlap. */
  predicate LayersDisjoint(t: TimelineState) {
    (forall i, j :: 0 <= i < j < |t.segments| ==>
       !VideoBlocks(t.segments[j], t.segments[i].timelineStartTime, t.segments[i].timelineEndTime, t.segments[i].layer))
    && (forall i, j :: 0 <= i < |t.segments| && 0 <= j < |t.textSegments| ==>
       !TextBlocks(t.textSegments[j], t.segments[i].timelineStartTime, t.segments[i].timelineEndTime, t.segments[i].layer))
  }

  /** No video or text segment on `v`'s layer overlaps it: the placement rule without
      its audio part. */
  predicate Fits(t: TimelineState, v: VideoSegment) {
    (forall j :: 0 <= j < |t.segments| ==> !VideoBlocks(t.segments[j], v.timelineStartTime, v.timelineEndTime, v.layer))
    && (forall j :: 0 <= j < |t.textSegments| ==> !TextBlocks(t.textSegments[j], v.timelineStartTime, v.timelineEndTime, v.layer))
  }

  /** Whether a segment fits depends only on its layer and timeline span. */
  lemma FitsBySamePlacement(t: TimelineState, v: VideoSegment, w: VideoSegment)
    requires Fits(t, v)
    requires w.layer == v.layer && w.timelineStartTime == v.timelineStartTime && w.timelineEndTime == v.timelineEndTime
    ensures Fits(t, w)
  {
  }

  /** Appending a fitting video segment keeps the layers disjoint. */
  lemma AppendFittingKeepsDisjoint(t: TimelineState, v: VideoSegment)
    requires LayersDisjoint(t) && Fits(t, v)
    ensures LayersDisjoint(t.(segments := t.segments + [v]))
  {
    var s := t.segments + [v];
    forall i, j | 0 <= i < j < |s|
      ensures !VideoBlocks(s[j], s[i].timelineStartTime, s[i].timelineEndTime, s[i].layer)
    {
      assert s[i] == t.segments[i];
      if j == |s| - 1 {
        assert !VideoBlocks(t.segments[i], v.timelineStartTime, v.timelineEndTime, v.layer);
      } else {
        assert s[j] == t.segments[j];
      }
    }
    forall i, j | 0 <= i < |s| && 0 <= j < |t.textSegments|
      ensures !TextBlocks(t.textSegments[j], s[i].timelineStartTime, s[i].timelineEndTime, s[i].layer)
    {
      if i < |t.segments| {
        assert s[i] == t.segments[i];
      }
    }
  }

  /** Appending a video segment whose position was available keeps the layers disjoint. */
  lemma AppendAvailableKeepsDisjoint(t: TimelineState, v: VideoSegment)
    requires LayersDisjoint(t)
    requires PositionAvailable(t, v.timelineStartTime, v.timelineEndTime, v.layer)
    ensures LayersDisjoint(t.(segments := t.segments + [v]))
  {
    AppendFittingKeepsDisjoint(t, v);
  }

  /** Taking a video segment out keeps the layers disjoint, and the segment taken out
      fits among the rest. */
  lemma RemoveAtKeepsDisjoint(t: TimelineState, k: nat)
    requires k < |t.segments| && LayersDisjoint(t)
    ensures LayersDisjoint(t.(segments := RemoveAt(t.segments, k)))
    ensures Fits(t.(segments := RemoveAt(t.segments, k)), t.segments[k])
  {
    var s := RemoveAt(t.segments, k);
    var v := t.segments[k];
    forall i, j | 0 <= i < j < |s|
      ensures !VideoBlocks(s[j], s[i].timelineStartTime, s[i].timelineEndTime, s[i].layer)
    {
      var i' := if i < k then i else i + 1;
      var j' := if j < k then j else j + 1;
      assert s[i] == t.segments[i'] && s[j] == t.segments[j'];
    }
    forall j | 0 <= j < |s|
      ensures !VideoBlocks(s[j], v.timelineStartTime, v.timelineEndTime, v.layer)
    {
      if j < k {
        assert s[j] == t.segments[j];
        assert !VideoBlocks(v, s[j].timelineStartTime, s[j].timelineEndTime, s[j].layer);
      } else {
        assert s[j] == t.segments[j + 1];
      }
    }
    forall i, j | 0 <= i < |s| && 0 <= j < |t.textSegments|
      ensures !TextBlocks(t.textSegments[j], s[i].timelineStartTime, s[i].timelineEndTime, s[i].layer)
    {
      assert s[i] == t.segments[if i < k then i else i + 1];
    }
  }

  /** Disjointness depends only on where segments sit, not on their other fields. */
  lemma SamePlacementSameDisjoint(t: TimelineState, segs: seq<VideoSegment>)
    requires |segs| == |t.segments|
    requires forall i :: 0 <= i < |segs| ==>
               segs[i].layer == t.segments[i].layer
               && segs[i].timelineStartTime == t.segments[i].timelineStartTime
               && segs[i].timelineEndTime == t.segments[i].timelineEndTime
    ensures LayersDisjoint(t) <==> LayersDisjoint(t.(segments := segs))
  {
  }
}

=== FILE: timeline_add.dfy ===
/** Putting new clips on the timeline: `addVideoToTimeline` (with the audio track it
    may extract), `findAvailableAudioLayer`, `addAudioToTimeline` and
    `addImageToTimeline`. What the file system, ffprobe and the id generator would
    answer is passed in; rounding to three decimals is not modelled. */
module TimelineAdd {
  import opened Wrappers
  import opened VideoSegments
  import opened AudioSegments
  import opened ImageSegments
  import opened Timeline
  import JavaNum

  // ------------------------------------------------------------ audio layers

  /** Some audio segment on `layer` overlaps the interval. */
  predicate LayerTaken(audio: seq<AudioSegment>, layer: int, start: real, end: real) {
    exists i :: 0 <= i < |audio| && audio[i].layer == layer
                && Overlaps(start, end, audio[i].timelineStartTime, audio[i].timelineEndTime)
  }

  /** A lower bound on every audio layer in use, and at most -1. */
  function LowestLayer(audio: seq<AudioSegment>): (r: int)
    ensures r <= -1
    ensures forall i :: 0 <= i < |audio| ==> r <= audio[i].layer
    decreases |audio|
  {
    if |audio| == 0 then -1
    else
      var rest := LowestLayer(audio[1..]);
      if audio[0].layer < rest then audio[0].layer else rest
  }

  /** The search of `findAvailableAudioLayer`, from `layer` downwards. It ends because
      no layer below every used layer is taken. */
  function FreeLayerFrom(audio: seq<AudioSegment>, start: real, end: real, layer: int): (r: int)
    requires layer <= -1
    ensures r <= layer
    ensures !LayerTaken(audio, r, start, end)
    ensures forall l :: r < l <= layer ==> LayerTaken(audio, l, start, end)
    decreases layer - LowestLayer(audio) + 1
  {
    if !LayerTaken(audio, layer, start, end) then layer
    else FreeLayerFrom(audio, start, end, layer - 1)
  }

  /** `findAvailableAudioLayer`: the highest audio layer (-1, -2, ...) where the interval
      overlaps nothing; every layer between it and -1 is taken. */
  function AvailableAudioLayer(audio: seq<AudioSegment>, start: real, end: real): (r: int)
    ensures r <= -1
    ensures !LayerTaken(audio, r, start, end)
    ensures forall l :: r < l <= -1 ==> LayerTaken(audio, l, start, end)
  {
    FreeLayerFrom(audio, start, end, -1)
  }

  /** No two audio segments on the same layer overlap. */
  predicate AudioLayersDisjoint(audio: seq<AudioSegment>) {
    forall i, j :: 0 <= i < j < |audio| && audio[i].layer == audio[j].layer ==>
      !Overlaps(audio[i].timelineStartTime, audio[i].timelineEndTime,
                audio[j].timelineStartTime, audio[j].timelineEndTime)
  }

  /** A segment placed on the layer `findAvailableAudioLayer` chose keeps audio layers disjoint. */
  lemma AvailableLayerKeepsAudioDisjoint(audio: seq<AudioSegment>, a: AudioSegment)
    requires AudioLayersDisjoint(audio)
    requires a.layer == AvailableAudioLayer(audio, a.timelineStartTime, a.timelineEndTime)
    ensures AudioLayersDisjoint(audio + [a])
  {
    var s := audio + [a];
    forall i, j | 0 <= i < j < |s| && s[i].layer == s[j].layer
      ensures !Overlaps(s[i].timelineStartTime, s[i].timelineEndTime, s[j].timelineStartTime, s[j].timelineEndTime)
    {
      if j == |audio| {
        assert s[i] == audio[i];
        assert !(audio[i].layer == a.layer
                 && Overlaps(a.timelineStartTime, a.timelineEndTime, audio[i].timelineStartTime, audio[i].timelineEndTime));
      } else {
        assert s[i] == audio[i] && s[j] == audio[j];
      }
    }
  }

  // ------------------------------------------------------------ video

  /** The end of the latest video segment on the layer, or 0 when it has none. */
  function LastEndOnLayer(segs: seq<VideoSegment>, layer: int): (r: real)
    ensures r >= 0.0
    ensures forall i :: 0 <= i < |segs| && segs[i].layer == layer ==> segs[i].timelineEndTime <= r
    ensures r == 0.0 || exists i :: 0 <= i < |segs| && segs[i].layer == layer && segs[i].timelineEndTime == r
    decreases |segs|
  {
    if |segs| == 0 then 0.0
    else
      var init := segs[..|segs| - 1];
      var last := segs[|segs| - 1];
      var prev := LastEndOnLayer(init, layer);
      assert forall i :: 0 <= i < |init| ==> init[i] == segs[i];
      if last.layer == layer && last.timelineEndTime > prev then last.timelineEndTime else prev
  }

  /** The scan of `addVideoToTimeline` as written: it compares the segment's boxed
      layer with the boxed argument by identity, so on a layer outside the `Integer`
      cache no segment counts, and the default start is 0. */
  function LastEndOnLayerAsWritten(segs: seq<VideoSegment>, layer: int): (r: real)
    ensures JavaNum.InBoxCache(layer) ==> r == LastEndOnLayer(segs, layer)
    ensures !JavaNum.InBoxCache(layer) ==> r == 0.0
    decreases |segs|
  {
    if |segs| == 0 then 0.0
    else
      var last := segs[|segs| - 1];
      var prev := LastEndOnLayerAsWritten(segs[..|segs| - 1], layer);
      if JavaNum.BoxedSame(last.layer, layer) && last.timelineEndTime > prev then last.timelineEndTime else prev
  }

  /** The arguments of `addVideoToTimeline`; `None` stands for a null argument. */
  datatype AddVideoRequest = AddVideoRequest(
    videoPath: string,
    layer: Option<int>,
    timelineStartTime: Option<real>,
    timelineEndTime: Option<real>,
    startTime: Option<real>,
    endTime: Option<real>,
    createAudioSegment: bool)

  /** What ffprobe, the audio extraction and the id generator supply. */
  datatype AddVideoEnv = AddVideoEnv(
    fullDuration: real,
    videoId: string,
    audioId: string,
    audioPath: string,
    waveformJsonPath: Option<string>)

  /** The placement after the defaults are filled in. */
  datatype Placement = Placement(layer: int, timelineStartTime: real, timelineEndTime: real,
                                 startTime: real, endTime: real)

  /** The defaults of `addVideoToTimeline`: layer 0; the start right after the layer's last
      segment; the whole video; a timeline span as long as the clip. */
  function VideoPlacement(t: TimelineState, q: AddVideoRequest, fullDuration: real): (p: Placement)
    ensures p.layer == q.layer.GetOr(0)
    ensures q.timelineStartTime.Some? ==> p.timelineStartTime == q.timelineStartTime.value
    ensures q.timelineStartTime.None? ==>
              p.timelineStartTime >= 0.0
              && forall i :: 0 <= i < |t.segments| && t.segments[i].layer == p.layer ==>
                   t.segments[i].timelineEndTime <= p.timelineStartTime
    ensures p.startTime == q.startTime.GetOr(0.0) && p.endTime == q.endTime.GetOr(fullDuration)
    ensures q.timelineEndTime.Some? ==> p.timelineEndTime == q.timelineEndTime.value
    ensures q.timelineEndTime.None? ==>
              p.timelineEndTime - p.timelineStartTime == p.endTime - p.startTime
  {
    var layer := q.layer.GetOr(0);
    var tlStart := if q.timelineStartTime.Some? then q.timelineStartTime.value
                   else LastEndOnLayer(t.segments, layer);
    var start := q.startTime.GetOr(0.0);
    var end := q.endTime.GetOr(fullDuration);
    Placement(layer, tlStart, q.timelineEndTime.GetOr(tlStart + (end - start)), start, end)
  }

  /** `addVideoToTimeline`: the overlap check comes before the check of the clip range within the file; on
      success the segment (and, if asked for, its extracted audio on the first free audio
      layer) is appended. */
  function AddVideoToTimeline(t: TimelineState, q: AddVideoRequest, env: AddVideoEnv): (r: Result<TimelineState>)
    ensures var p := VideoPlacement(t, q, env.fullDuration);
            r.Ok? <==> PositionAvailable(t, p.timelineStartTime, p.timelineEndTime, p.layer)
                       && 0.0 <= p.startTime < p.endTime <= env.fullDuration
    ensures var p := VideoPlacement(t, q, env.fullDuration);
            r.Err? && !PositionAvailable(t, p.timelineStartTime, p.timelineEndTime, p.layer) ==>
              r.error == Error(Runtime, OverlapMessage)
    ensures r.Err? ==> r.error.kind == Runtime
    ensures r.Ok? ==>
              |r.value.segments| == |t.segments| + 1 && r.value.segments[..|t.segments|] == t.segments
    ensures r.Ok? ==>
              var v := r.value.segments[|t.segments|];
              var p := VideoPlacement(t, q, env.fullDuration);
              v.id == env.videoId && v.sourceVideoPath == q.videoPath
              && v.layer == p.layer && v.timelineStartTime == p.timelineStartTime
              && v.timelineEndTime == p.timelineEndTime
              && v.startTime == p.startTime && v.endTime == p.endTime
              && VideoSegments.CropsValid(v) && v.keyframes == map[]
    ensures r.Ok? && q.createAudioSegment ==>
              |r.value.audioSegments| == |t.audioSegments| + 1
              && r.value.audioSegments[..|t.audioSegments|] == t.audioSegments
    ensures r.Ok? && q.createAudioSegment ==>
              var v := r.value.segments[|t.segments|];
              var a := r.value.audioSegments[|t.audioSegments|];
              v.audioId == Some(a.id) && a.id == env.audioId && a.extracted
              && a.layer <= -1 && !LayerTaken(t.audioSegments, a.layer, v.timelineStartTime, v.timelineEndTime)
              && a.timelineStartTime == v.timelineStartTime && a.timelineEndTime == v.timelineEndTime
              && a.startTime == v.startTime && a.endTime == v.endTime && a.volume == Some(1.0)
    ensures r.Ok? && !q.createAudioSegment ==>
              r.value.audioSegments == t.audioSegments
              && r.value.segments[|t.segments|].audioId.None?
    ensures r.Ok? ==> r.value.textSegments == t.textSegments && r.value.imageSegments == t.imageSegments
                      && r.value.filters == t.filters && r.value.transitions == t.transitions
  {
    var p := VideoPlacement(t, q, env.fullDuration);
    if !PositionAvailable(t, p.timelineStartTime, p.timelineEndTime, p.layer) then
      Throw(Runtime, OverlapMessage)
    else if p.startTime < 0.0 || p.endTime > env.fullDuration || p.startTime >= p.endTime then
      Throw(Runtime, "Invalid startTime or endTime for video segment")
    else
      var audio := AudioSegments.New(env.audioId).(
        audioPath := env.audioPath, waveformJsonPath := env.waveformJsonPath,
        layer := AvailableAudioLayer(t.audioSegments, p.timelineStartTime, p.timelineEndTime),
        startTime := p.startTime, endTime := p.endTime,
        timelineStartTime := p.timelineStartTime, timelineEndTime := p.timelineEndTime,
        volume := Some(1.0), extracted := true);
      var v := VideoSegments.New(env.videoId).(
        sourceVideoPath := q.videoPath, startTime := p.startTime, endTime := p.endTime,
        layer := p.layer, timelineStartTime := p.timelineStartTime, timelineEndTime := p.timelineEndTime,
        audioId := if q.createAudioSegment then Some(env.audioId) else None);
      Ok(t.(segments := t.segments + [v],
            audioSegments := if q.createAudioSegment then t.audioSegments + [audio] else t.audioSegments))
  }

  /** `addVideoToTimeline` as written: the default start comes from the identity scan.
      It agrees with the corrected `AddVideoToTimeline` whenever a start is given or
      the layer lies inside the `Integer` cache. */
  function AddVideoAsWritten(t: TimelineState, q: AddVideoRequest, env: AddVideoEnv): (r: Result<TimelineState>)
    ensures q.timelineStartTime.Some? || JavaNum.InBoxCache(q.layer.GetOr(0)) ==> r == AddVideoToTimeline(t, q, env)
  {
    var start := if q.timelineStartTime.Some? then q.timelineStartTime.value
                 else LastEndOnLayerAsWritten(t.segments, q.layer.GetOr(0));
    var fixed := q.(timelineStartTime := Some(start));
    assert q.timelineStartTime.Some? || JavaNum.InBoxCache(q.layer.GetOr(0)) ==>
             VideoPlacement(t, fixed, env.fullDuration) == VideoPlacement(t, q, env.fullDuration);
    AddVideoToTimeline(t, fixed, env)
  }

  /** The identity comparison misplaces a clip: with a clip on layer 200 over [0, 5],
      a five-second clip for layer 200 with no start is put at 0 by the code as
      written, which then refuses it as an overlap, while comparing the layers by
      value puts it at 5 and adds it. */
  lemma BoxedLayerMisplaces(t: TimelineState, v: VideoSegment, q: AddVideoRequest, env: AddVideoEnv)
    requires t.segments == [v] && t.textSegments == []
    requires v.layer == 200 && v.timelineStartTime == 0.0 && v.timelineEndTime == 5.0
    requires q.layer == Some(200) && q.timelineStartTime.None? && q.timelineEndTime.None?
    requires q.startTime.None? && q.endTime.None? && env.fullDuration == 5.0
    ensures AddVideoAsWritten(t, q, env) == Throw(Runtime, OverlapMessage)
    ensures AddVideoToTimeline(t, q, env).Ok?
    ensures AddVideoToTimeline(t, q, env).value.segments[1].timelineStartTime == 5.0
  {
    assert LastEndOnLayer(t.segments, 200) == 5.0 by {
      assert t.segments[..0] == [];
    }
    assert LastEndOnLayerAsWritten(t.segments, 200) == 0.0;
    assert VideoBlocks(v, 0.0, 5.0, 200);
    assert !PositionAvailable(t, 0.0, 5.0, 200);
  }

  /** Adding a video keeps the layers disjoint, and the audio layers too. */
  lemma AddVideoKeepsDisjoint(t: TimelineState, q: AddVideoRequest, env: AddVideoEnv)
    requires LayersDisjoint(t) && AudioLayersDisjoint(t.audioSegments)
    requires AddVideoToTimeline(t, q, env).Ok?
    ensures LayersDisjoint(AddVideoToTimeline(t, q, env).value)
    ensures AudioLayersDisjoint(AddVideoToTimeline(t, q, env).value.audioSegments)
  {
    var r := AddVideoToTimeline(t, q, env).value;
    var v := r.segments[|t.segments|];
    assert r.segments == t.segments + [v];
    AppendAvailableKeepsDisjoint(t, v);
    if q.createAudioSegment {
      var a := r.audioSegments[|t.audioSegments|];
      assert r.audioSegments == t.audioSegments + [a];
      AvailableLayerKeepsAudioDisjoint(t.audioSegments, a);
    }
  }

  /** Without a start time, a clip on an empty layer starts at 0 and a second clip with
      no start time starts where the first ends. */
  lemma AppendsAfterLastOnLayer(t: TimelineState, q: AddVideoRequest, env: AddVideoEnv)
    requires q.timelineStartTime.None? && AddVideoToTimeline(t, q, env).Ok?
    ensures var r := AddVideoToTimeline(t, q, env).value;
            forall i :: 0 <= i < |t.segments| && t.segments[i].layer == q.layer.GetOr(0) ==>
              t.segments[i].timelineEndTime <= r.segments[|t.segments|].timelineStartTime
  {
  }

  // ------------------------------------------------------------ audio

  /** The arguments of `addAudioToTimeline`. */
  datatype AddAudioRequest = AddAudioRequest(
    audioPath: string,
    layer: int,
    startTime: real,
    endTime: real,
    timelineStartTime: real,
    timelineEndTime: Option<real>,
    isExtracted: bool)

  /** What the file system, ffprobe, the id generator and the project's audio lists supply. */
  datatype AddAudioEnv = AddAudioEnv(fileExists: bool, audioDuration: real, audioId: string,
                                     waveformJsonPath: Option<string>)

  /** `addAudioToTimeline`: the layer must be negative and the file present; the clip
      range is checked before the overlap. */
  function AddAudioToTimeline(t: TimelineState, q: AddAudioRequest, env: AddAudioEnv): (r: Result<TimelineState>)
    ensures var end := q.timelineEndTime.GetOr(q.timelineStartTime + (q.endTime - q.startTime));
            r.Ok? <==> q.layer < 0 && env.fileExists
                       && 0.0 <= q.startTime < q.endTime <= env.audioDuration
                       && PositionAvailable(t, q.timelineStartTime, end, q.layer)
    ensures r.Err? ==> r.error.kind == (if q.layer < 0 && !env.fileExists then IOFailure else Runtime)
    ensures r.Ok? ==> |r.value.audioSegments| == |t.audioSegments| + 1
    ensures r.Ok? ==>
              var a := r.value.audioSegments[|t.audioSegments|];
              r.value == t.(audioSegments := t.audioSegments + [a])
              && a.id == env.audioId && a.audioPath == q.audioPath && a.layer == q.layer
              && a.startTime == q.startTime && a.endTime == q.endTime
              && a.timelineStartTime == q.timelineStartTime
              && a.timelineEndTime == q.timelineEndTime.GetOr(q.timelineStartTime + (q.endTime - q.startTime))
              && a.volume == Some(1.0) && a.extracted == q.isExtracted && a.keyframes == map[]
  {
    var end := q.timelineEndTime.GetOr(q.timelineStartTime + (q.endTime - q.startTime));
    if q.layer >= 0 then Throw(Runtime, "Audio layers must be negative")
    else if !env.fileExists then Throw(IOFailure, "Audio file not found")
    else if q.startTime < 0.0 || q.endTime > env.audioDuration || q.startTime >= q.endTime then
      Throw(Runtime, "Invalid audio start/end times")
    else if !PositionAvailable(t, q.timelineStartTime, end, q.layer) then
      Throw(Runtime, "Timeline position overlaps with existing audio")
    else
      var a := AudioSegments.New(env.audioId).(
        audioPath := q.audioPath, layer := q.layer, startTime := q.startTime, endTime := q.endTime,
        timelineStartTime := q.timelineStartTime, timelineEndTime := end, volume := Some(1.0),
        extracted := q.isExtracted, waveformJsonPath := env.waveformJsonPath);
      Ok(t.(audioSegments := t.audioSegments + [a]))
  }

  /** An added audio segment overlaps no audio segment on its layer. */
  lemma AddAudioKeepsAudioDisjoint(t: TimelineState, q: AddAudioRequest, env: AddAudioEnv)
    requires AudioLayersDisjoint(t.audioSegments) && AddAudioToTimeline(t, q, env).Ok?
    ensures AudioLayersDisjoint(AddAudioToTimeline(t, q, env).value.audioSegments)
  {
    var s := AddAudioToTimeline(t, q, env).value.audioSegments;
    var a := s[|t.audioSegments|];
    forall i, j | 0 <= i < j < |s| && s[i].layer == s[j].layer
      ensures !Overlaps(s[i].timelineStartTime, s[i].timelineEndTime, s[j].timelineStartTime, s[j].timelineEndTime)
    {
      assert s[i] == t.audioSegments[i];
      if j == |t.audioSegments| {
        assert !AudioBlocks(t.audioSegments[i], a.timelineStartTime, a.timelineEndTime, a.layer);
      } else {
        assert s[j] == t.audioSegments[j];
      }
    }
  }

  // ------------------------------------------------------------ image

  /** The arguments of `addImageToTimeline`. */
  datatype AddImageRequest = AddImageRequest(
    imagePath: string,
    layer: int,
    timelineStartTime: real,
    timelineEndTime: Option<real>,
    positionX: Option<int>,
    positionY: Option<int>,
    scale: Option<real>,
    opacity: Option<real>,
    filters: seq<(string, string)>,
    isElement: bool)

  /** The image file's existence and size, and the fresh ids for the segment and each filter. */
  datatype AddImageEnv = AddImageEnv(fileExists: bool, width: int, height: int, imageId: string,
                                     filterIds: seq<string>)

  /** `addImageToTimeline`: a five-second default span, the placement check, then the
      segment and one filter per requested entry. */
  function AddImageToTimeline(t: TimelineState, q: AddImageRequest, env: AddImageEnv): (r: Result<TimelineState>)
    requires |env.filterIds| == |q.filters|
    ensures var end := q.timelineEndTime.GetOr(q.timelineStartTime + 5.0);
            r.Ok? <==> PositionAvailable(t, q.timelineStartTime, end, q.layer) && env.fileExists
    ensures r.Err? ==> r.error.kind == Runtime
    ensures r.Ok? ==>
              |r.value.imageSegments| == |t.imageSegments| + 1
              && r.value.imageSegments[..|t.imageSegments|] == t.imageSegments
    ensures r.Ok? ==>
              var m := r.value.imageSegments[|t.imageSegments|];
              m.id == env.imageId && m.layer == q.layer
              && m.timelineStartTime == q.timelineStartTime
              && m.timelineEndTime == q.timelineEndTime.GetOr(q.timelineStartTime + 5.0)
              && m.width == env.width && m.height == env.height && ImageSegments.CropsValid(m)
              && m.positionX == Some(q.positionX.GetOr(0)) && m.scale == Some(q.scale.GetOr(1.0))
    ensures r.Ok? ==>
              |r.value.filters| == |t.filters| + |q.filters|
              && r.value.filters[..|t.filters|] == t.filters
              && (forall i :: 0 <= i < |q.filters| ==>
                    r.value.filters[|t.filters| + i] == Filter(env.filterIds[i], env.imageId, q.filters[i].0, q.filters[i].1))
    ensures r.Ok? ==> r.value.segments == t.segments && r.value.textSegments == t.textSegments
                      && r.value.audioSegments == t.audioSegments && r.value.transitions == t.transitions
  {
    var end := q.timelineEndTime.GetOr(q.timelineStartTime + 5.0);
    if !PositionAvailable(t, q.timelineStartTime, end, q.layer) then
      Throw(Runtime, "Timeline position overlaps with existing segment")
    else if !env.fileExists then Throw(Runtime, "Image file does not exist")
    else
      var m := ImageSegments.New(env.imageId).(
        imagePath := q.imagePath, layer := q.layer,
        positionX := Some(q.positionX.GetOr(0)), positionY := Some(q.positionY.GetOr(0)),
        scale := Some(q.scale.GetOr(1.0)), opacity := Some(q.opacity.GetOr(1.0)),
        timelineStartTime := q.timelineStartTime, timelineEndTime := end,
        isElement := q.isElement, width := env.width, height := env.height);
      var fs := seq(|q.filters|, i requires 0 <= i < |q.filters| =>
                    Filter(env.filterIds[i], env.imageId, q.filters[i].0, q.filters[i].1));
      Ok(t.(imageSegments := t.imageSegments + [m], filters := t.filters + fs))
  }

  /** The placement rule does not look at images, so two images may share a layer and
      overlap: a second identical request succeeds too. */
  lemma ImagesMayOverlap(t: TimelineState, q: AddImageRequest, env: AddImageEnv)
    requires |env.filterIds| == |q.filters|
    requires AddImageToTimeline(t, q, env).Ok?
    ensures AddImageToTimeline(AddImageToTimeline(t, q, env).value, q, env).Ok?
  {
  }
}

=== FILE: transitions.dfy ===
/** Transitions attached to the start or end of a video, image or text segment:
    `findSegment`, `addTransition`, `updateTransition` (with its rollback),
    `removeTransition` and `updateAssociatedTransitions`. Rounding to three decimals
    is not modelled. */
module Transitions {
  import opened Wrappers
  import opened Lists
  import opened VideoSegments
  import opened ImageSegments
  import opened TextSegments
  import opened Timeline

  /** The placement part of the `Segment` interface. */
  datatype Span = Span(layer: int, timelineStartTime: real, timelineEndTime: real)

  function VideoSpan(v: VideoSegment): Span { Span(v.layer, v.timelineStartTime, v.timelineEndTime) }
  function ImageSpan(m: ImageSegment): Span { Span(m.layer, m.timelineStartTime, m.timelineEndTime) }
  function TextSpan(x: TextSegment): Span { Span(x.layer, x.timelineStartTime, x.timelineEndTime) }

  predicate HasId(t: TimelineState, id: string) {
    (exists i :: 0 <= i < |t.segments| && t.segments[i].id == id)
    || (exists i :: 0 <= i < |t.imageSegments| && t.imageSegments[i].id == id)
    || (exists i :: 0 <= i < |t.textSegments| && t.textSegments[i].id == id)
  }

  /** `findSegment`: videos are searched first, then images, then text. */
  function FindSegment(t: TimelineState, id: string): (r: Option<Span>)
    ensures r.Some? <==> HasId(t, id)
  {
    match FirstIndex(t.segments, (v: VideoSegment) => v.id == id)
    case Some(i) => Some(VideoSpan(t.segments[i]))
    case None =>
      match FirstIndex(t.imageSegments, (m: ImageSegment) => m.id == id)
      case Some(i) => Some(ImageSpan(t.imageSegments[i]))
      case None =>
        match FirstIndex(t.textSegments, (x: TextSegment) => x.id == id)
        case Some(i) => Some(TextSpan(t.textSegments[i]))
        case None => None
  }

  /** The span found is that of a segment with the id, and a video segment with the id
      wins over images and text. */
  lemma FindSegmentSpan(t: TimelineState, id: string)
    ensures (exists i :: 0 <= i < |t.segments| && t.segments[i].id == id) ==>
              exists i :: 0 <= i < |t.segments| && t.segments[i].id == id
                          && FindSegment(t, id) == Some(VideoSpan(t.segments[i]))
    ensures FindSegment(t, id).Some? ==>
              (exists i :: 0 <= i < |t.segments| && t.segments[i].id == id
                           && FindSegment(t, id).value == VideoSpan(t.segments[i]))
              || (exists i :: 0 <= i < |t.imageSegments| && t.imageSegments[i].id == id
                              && FindSegment(t, id).value == ImageSpan(t.imageSegments[i]))
              || (exists i :: 0 <= i < |t.textSegments| && t.textSegments[i].id == id
                              && FindSegment(t, id).value == TextSpan(t.textSegments[i]))
  {
  }

  function SpanDuration(s: Span): real { s.timelineEndTime - s.timelineStartTime }

  /** Where a transition starts: with its segment, or so that it ends with it. A
      transition at both ends is placed at the start. */
  function StartWithin(s: Span, atStart: bool, duration: real): real {
    if atStart then s.timelineStartTime else s.timelineEndTime - duration
  }

  /** The transition lies inside its segment's span. */
  predicate Within(x: Transition, s: Span) {
    s.timelineStartTime <= x.timelineStartTime && x.timelineStartTime + x.duration <= s.timelineEndTime
  }

  /** A transition no longer than its segment, placed by `StartWithin`, lies inside it. */
  lemma PlacedWithin(x: Transition, s: Span)
    requires x.duration <= SpanDuration(s)
    requires x.timelineStartTime == StartWithin(s, x.atStart, x.duration)
    ensures Within(x, s)
  {
  }

  /** The clash the add and update checks reject: same layer, segment and ends, and
      overlapping intervals. */
  predicate Clash(a: Transition, b: Transition) {
    a.layer == b.layer && a.segmentId == b.segmentId && a.atStart == b.atStart && a.atEnd == b.atEnd
    && Overlaps(a.timelineStartTime, a.timelineStartTime + a.duration,
                b.timelineStartTime, b.timelineStartTime + b.duration)
  }

  predicate ClashesWithAny(trs: seq<Transition>, x: Transition) {
    exists i :: 0 <= i < |trs| && Clash(trs[i], x)
  }

  /** The invariant the clash checks keep. */
  predicate TransitionsDisjoint(trs: seq<Transition>) {
    forall i, j :: 0 <= i < j < |trs| ==> !Clash(trs[i], trs[j])
  }

  /** Appending a transition that clashes with none keeps the list disjoint. */
  lemma AppendKeepsTransitionsDisjoint(trs: seq<Transition>, x: Transition)
    requires TransitionsDisjoint(trs) && !ClashesWithAny(trs, x)
    ensures TransitionsDisjoint(trs + [x])
  {
    var s := trs + [x];
    forall i, j | 0 <= i < j < |s|
      ensures !Clash(s[i], s[j])
    {
      assert s[i] == trs[i];
      if j < |trs| {
        assert s[j] == trs[j];
      }
    }
  }

  /** Removing one transition keeps the list disjoint. */
  lemma RemoveAtKeepsTransitionsDisjoint(trs: seq<Transition>, k: nat)
    requires k < |trs| && TransitionsDisjoint(trs)
    ensures TransitionsDisjoint(RemoveAt(trs, k))
  {
    var s := RemoveAt(trs, k);
    forall i, j | 0 <= i < j < |s|
      ensures !Clash(s[i], s[j])
    {
      var i' := if i < k then i else i + 1;
      var j' := if j < k then j else j + 1;
      assert s[i] == trs[i'] && s[j] == trs[j'];
    }
  }

  // ------------------------------------------------------------ add

  /** The arguments of `addTransition`; `None` parameters stand for null. */
  datatype AddTransitionRequest = AddTransitionRequest(
    transitionType: string,
    duration: real,
    segmentId: string,
    atStart: bool,
    atEnd: bool,
    layer: int,
    parameters: Option<map<string, string>>)

  /** The transition `addTransition` builds, before it is placed. */
  function Fresh(q: AddTransitionRequest, id: string): Transition {
    Transition(id, q.transitionType, q.duration, q.segmentId, q.atStart, q.atEnd, q.layer,
               0.0, q.parameters.GetOr(map[]))
  }

  /** The transition placed on a segment span by `StartWithin`. */
  function Place(y: Transition, s: Span): (x: Transition)
    ensures x == y.(timelineStartTime := x.timelineStartTime)
    ensures y.duration <= SpanDuration(s) ==> Within(x, s)
    ensures y.atStart ==> x.timelineStartTime == s.timelineStartTime
    ensures !y.atStart ==> x.timelineStartTime + x.duration == s.timelineEndTime
  {
    y.(timelineStartTime := StartWithin(s, y.atStart, y.duration))
  }

  /** `addTransition`: the segment must exist on the transition's layer, the transition
      must sit at an end, be positive and no longer than the segment, and clash with
      no existing transition. These are the checks of an update; `addTransition` makes
      them in a different order, which changes only the message. */
  function AddTransition(t: TimelineState, q: AddTransitionRequest, id: string): (r: Result<TimelineState>)
    ensures r.Ok? <==> CheckPlacement(t, Fresh(q, id)).Pass?
                       && !ClashesWithAny(t.transitions, Place(Fresh(q, id), FindSegment(t, q.segmentId).value))
    ensures r.Err? ==> r.error.kind == Runtime
    ensures r.Ok? ==>
              r.value == t.(transitions := t.transitions + [Place(Fresh(q, id), FindSegment(t, q.segmentId).value)])
  {
    var y := Fresh(q, id);
    var check := CheckPlacement(t, y);
    if check.Fail? then Err(check.error)
    else
      var x := Place(y, FindSegment(t, q.segmentId).value);
      if ClashesWithAny(t.transitions, x) then Throw(Runtime, "Transition overlaps with an existing transition")
      else Ok(t.(transitions := t.transitions + [x]))
  }

  /** An added transition lies inside its segment, and the transitions stay disjoint. */
  lemma AddTransitionKeepsDisjoint(t: TimelineState, q: AddTransitionRequest, id: string)
    requires TransitionsDisjoint(t.transitions) && AddTransition(t, q, id).Ok?
    ensures var trs := AddTransition(t, q, id).value.transitions;
            TransitionsDisjoint(trs) && Within(trs[|t.transitions|], FindSegment(t, q.segmentId).value)
  {
    AppendKeepsTransitionsDisjoint(t.transitions, Place(Fresh(q, id), FindSegment(t, q.segmentId).value));
  }

  /** The same request twice in a row is rejected the second time. */
  lemma AddTransitionTwiceClashes(t: TimelineState, q: AddTransitionRequest, id: string, id2: string)
    requires AddTransition(t, q, id).Ok?
    ensures AddTransition(AddTransition(t, q, id).value, q, id2).Err?
  {
    var t2 := AddTransition(t, q, id).value;
    var s := FindSegment(t, q.segmentId).value;
    var x := Place(Fresh(q, id), s);
    assert t2.transitions[|t.transitions|] == x;
    assert FindSegment(t2, q.segmentId) == FindSegment(t, q.segmentId);
    assert Clash(x, Place(Fresh(q, id2), s));
  }

  // ------------------------------------------------------------ update

  /** The arguments of `updateTransition`; `None` leaves a field as it is. */
  datatype TransitionChanges = TransitionChanges(
    transitionType: Option<string>,
    duration: Option<real>,
    segmentId: Option<string>,
    atStart: Option<bool>,
    atEnd: Option<bool>,
    layer: Option<int>,
    parameters: Option<map<string, string>>)

  function Changed(x: Transition, c: TransitionChanges): Transition {
    x.(transitionType := c.transitionType.GetOr(x.transitionType), duration := c.duration.GetOr(x.duration),
       segmentId := c.segmentId.GetOr(x.segmentId), atStart := c.atStart.GetOr(x.atStart),
       atEnd := c.atEnd.GetOr(x.atEnd), layer := c.layer.GetOr(x.layer),
       parameters := c.parameters.GetOr(x.parameters))
  }

  /** The checks `updateTransition` makes on the changed transition, in its order. */
  function CheckPlacement(t: TimelineState, y: Transition): (o: Outcome)
    ensures var s := FindSegment(t, y.segmentId);
            o.Pass? <==> (y.atStart || y.atEnd) && s.Some? && s.value.layer == y.layer
                         && 0.0 < y.duration <= SpanDuration(s.value)
    ensures o.Fail? ==> o.error.kind == Runtime
  {
    var found := FindSegment(t, y.segmentId);
    if !y.atStart && !y.atEnd then Fail(Error(Runtime, "Transition must be applied at start, end, or both"))
    else if found.None? then Fail(Error(Runtime, "Segment not found"))
    else if found.value.layer != y.layer then Fail(Error(Runtime, "Segment must be on the same layer as the transition"))
    else if y.duration <= 0.0 then Fail(Error(Runtime, "Invalid transition duration: Duration must be positive"))
    else if y.duration > SpanDuration(found.value) then
      Fail(Error(Runtime, "Invalid transition duration: Duration exceeds segment duration"))
    else Pass
  }

  /** The list with element `i` taken out and `x` put at the end. */
  function MovedToEnd(trs: seq<Transition>, i: nat, x: Transition): (r: seq<Transition>)
    requires i < |trs|
    ensures |r| == |trs| && r[|trs| - 1] == x && r[..|trs| - 1] == RemoveAt(trs, i)
  {
    RemoveAt(trs, i) + [x]
  }

  /** Moving an element to the end permutes the list. */
  lemma MovedToEndPermutes(trs: seq<Transition>, i: nat)
    requires i < |trs|
    ensures multiset(MovedToEnd(trs, i, trs[i])) == multiset(trs)
  {
    assert trs == trs[..i] + [trs[i]] + trs[i + 1..];
  }

  /** `updateTransition`. Every rejection rolls all fields back; the clash check runs
      with the transition taken out, and the transition goes back at the end of the
      list whether or not that check passes. */
  function UpdateTransition(t: TimelineState, id: string, c: TransitionChanges): (r: Effect)
    ensures r.state == t.(transitions := r.state.transitions)
    ensures |r.state.transitions| == |t.transitions|
    ensures r.error.Some? ==> r.error.value.kind == Runtime
    ensures (forall i :: 0 <= i < |t.transitions| ==> t.transitions[i].id != id) ==> r.state == t && r.error.Some?
  {
    match FirstIndex(t.transitions, (x: Transition) => x.id == id)
    case None => Effect(t, Some(Error(Runtime, "Transition not found")))
    case Some(i) =>
      var y := Changed(t.transitions[i], c);
      var check := CheckPlacement(t, y);
      if check.Fail? then Effect(t, Some(check.error))
      else
        var z := Place(y, FindSegment(t, y.segmentId).value);
        if ClashesWithAny(RemoveAt(t.transitions, i), z) then
          Effect(t.(transitions := MovedToEnd(t.transitions, i, t.transitions[i])),
                 Some(Error(Runtime, "Transition overlaps with an existing transition")))
        else
          Effect(t.(transitions := MovedToEnd(t.transitions, i, z)), None)
  }

  /** A rejected update leaves the same transitions, possibly reordered. */
  lemma UpdateTransitionRollsBack(t: TimelineState, id: string, c: TransitionChanges)
    requires UpdateTransition(t, id, c).error.Some?
    ensures multiset(UpdateTransition(t, id, c).state.transitions) == multiset(t.transitions)
  {
    match FirstIndex(t.transitions, (x: Transition) => x.id == id)
    case None =>
    case Some(i) => MovedToEndPermutes(t.transitions, i);
  }

  /** A successful update puts the transition, with its id, at the end of the list,
      inside its segment on the segment's layer, clashing with no other transition. */
  lemma UpdateTransitionPlaces(t: TimelineState, id: string, c: TransitionChanges)
    requires UpdateTransition(t, id, c).error.None?
    ensures var trs := UpdateTransition(t, id, c).state.transitions;
            var x := trs[|trs| - 1];
            var s := FindSegment(t, x.segmentId);
            x.id == id && s.Some? && s.value.layer == x.layer && (x.atStart || x.atEnd)
            && 0.0 < x.duration && Within(x, s.value) && !ClashesWithAny(trs[..|trs| - 1], x)
  {
    match FirstIndex(t.transitions, (x: Transition) => x.id == id)
    case None =>
    case Some(i) =>
      var y := Changed(t.transitions[i], c);
      var s := FindSegment(t, y.segmentId).value;
      assert Within(Place(y, s), s);
  }

  /** An update keeps the transitions disjoint, whether it succeeds or rolls back. */
  lemma UpdateTransitionKeepsDisjoint(t: TimelineState, id: string, c: TransitionChanges)
    requires TransitionsDisjoint(t.transitions)
    ensures TransitionsDisjoint(UpdateTransition(t, id, c).state.transitions)
  {
    match FirstIndex(t.transitions, (x: Transition) => x.id == id)
    case None =>
    case Some(i) =>
      var y := Changed(t.transitions[i], c);
      if CheckPlacement(t, y).Pass? {
        var z := Place(y, FindSegment(t, y.segmentId).value);
        if ClashesWithAny(RemoveAt(t.transitions, i), z) {
          MovedToEndKeepsDisjoint(t.transitions, i, t.transitions[i]);
        } else {
          MovedToEndKeepsDisjoint(t.transitions, i, z);
        }
      }
  }

  /** Moving a transition to the end keeps a disjoint list disjoint when it is the
      transition itself or clashes with none of the others. */
  lemma MovedToEndKeepsDisjoint(trs: seq<Transition>, i: nat, x: Transition)
    requires TransitionsDisjoint(trs) && i < |trs|
    requires x == trs[i] || !ClashesWithAny(RemoveAt(trs, i), x)
    ensures TransitionsDisjoint(MovedToEnd(trs, i, x))
  {
    RemoveAtKeepsTransitionsDisjoint(trs, i);
    if x == trs[i] {
      PutBackFits(trs, i);
    }
    AppendKeepsTransitionsDisjoint(RemoveAt(trs, i), x);
  }

  /** A transition of a disjoint list clashes with none of the others. */
  lemma PutBackFits(trs: seq<Transition>, i: nat)
    requires TransitionsDisjoint(trs) && i < |trs|
    ensures !ClashesWithAny(RemoveAt(trs, i), trs[i])
  {
    var others := RemoveAt(trs, i);
    forall j | 0 <= j < |others|
      ensures !Clash(others[j], trs[i])
    {
      if j >= i {
        assert !Clash(trs[i], trs[j + 1]);
      }
    }
  }

  /** `removeTransition`: every transition with the id goes; none is an error. */
  function RemoveTransition(t: TimelineState, id: string): (r: Result<TimelineState>)
    ensures r.Ok? <==> exists i :: 0 <= i < |t.transitions| && t.transitions[i].id == id
    ensures r.Ok? ==> r.value == t.(transitions := r.value.transitions)
    ensures r.Ok? ==> forall x :: x in r.value.transitions <==> x in t.transitions && x.id != id
  {
    if forall i :: 0 <= i < |t.transitions| ==> t.transitions[i].id != id then Throw(Runtime, "Transition not found")
    else Ok(t.(transitions := Keep(t.transitions, (x: Transition) => x.id != id)))
  }

  // ------------------------------------------------------------ retiming

  /** A transition moved along with its segment: its layer and its start follow the span. */
  function Retimed(x: Transition, s: Span): Transition {
    x.(layer := s.layer, timelineStartTime := StartWithin(s, x.atStart, x.duration))
  }

  /** The transitions as `updateAssociatedTransitions` leaves them, and its exception. */
  datatype RetimeRun = RetimeRun(transitions: seq<Transition>, error: Option<Error>)

  const RetimeMessage: string := "Transition duration exceeds segment duration after update"

  /** `updateAssociatedTransitions`: each transition of the segment, in list order, is
      moved to the new span and then checked against the span's duration. The first one
      that is too long throws, leaving the earlier ones and itself moved and the later
      ones as they were. */
  function RetimeTransitions(trs: seq<Transition>, segmentId: string, s: Span): (r: RetimeRun)
    ensures |r.transitions| == |trs|
    ensures forall i :: 0 <= i < |trs| && trs[i].segmentId != segmentId ==> r.transitions[i] == trs[i]
    ensures r.error.None? <==>
              forall i :: 0 <= i < |trs| && trs[i].segmentId == segmentId ==> trs[i].duration <= SpanDuration(s)
    ensures r.error.None? ==>
              forall i :: 0 <= i < |trs| && trs[i].segmentId == segmentId ==> r.transitions[i] == Retimed(trs[i], s)
    ensures r.error.Some? ==>
              r.error.value == Error(Runtime, RetimeMessage)
              && exists k :: 0 <= k < |trs| && trs[k].segmentId == segmentId && trs[k].duration > SpanDuration(s)
                             && r.transitions[k] == Retimed(trs[k], s)
                             && (forall i :: k < i < |trs| ==> r.transitions[i] == trs[i])
  {
    var stop := FirstIndex(trs, (x: Transition) => x.segmentId == segmentId && x.duration > SpanDuration(s));
    var last := if stop.Some? then stop.value else |trs|;
    var moved := seq(|trs|, i requires 0 <= i < |trs| =>
                       if trs[i].segmentId == segmentId && i <= last then Retimed(trs[i], s) else trs[i]);
    if stop.Some? then
      RetimeRun(moved, Some(Error(Runtime, RetimeMessage)))
    else
      RetimeRun(moved, None)
  }

  /** After a successful retiming every transition of the segment lies inside its new span. */
  lemma RetimedWithin(trs: seq<Transition>, segmentId: string, s: Span)
    requires RetimeTransitions(trs, segmentId, s).error.None?
    ensures var r := RetimeTransitions(trs, segmentId, s).transitions;
            forall i :: 0 <= i < |trs| && trs[i].segmentId == segmentId ==> Within(r[i], s) && r[i].layer == s.layer
  {
    var r := RetimeTransitions(trs, segmentId, s).transitions;
    forall i | 0 <= i < |trs| && trs[i].segmentId == segmentId
      ensures Within(r[i], s)
    {
      PlacedWithin(r[i], s);
    }
  }
}

=== FILE: valid_email.dfy ===
/** The `@ValidEmail` constraint: a local part of `[A-Za-z0-9+_.-]`, one `@`, and a
    domain of `[A-Za-z0-9.-]`, each non-empty. */
module ValidEmail {
  import opened Wrappers
  import opened Text

  predicate IsLocalChar(c: char) {
    IsAsciiLetter(c) || IsDigit(c) || c == '+' || c == '_' || c == '.' || c == '-'
  }

  predicate IsDomainChar(c: char) {
    IsAsciiLetter(c) || IsDigit(c) || c == '.' || c == '-'
  }

  predicate All(s: string, p: char -> bool) {
    forall i :: 0 <= i < |s| ==> p(s[i])
  }

  /** `^[A-Za-z0-9+_.-]+@[A-Za-z0-9.-]+$`, stated as: some `@` splits the input into
      a non-empty local part and a non-empty domain drawn from their classes. */
  predicate MatchesPattern(e: string) {
    exists i :: 0 < i < |e| - 1 && e[i] == '@' && All(e[..i], IsLocalChar) && All(e[i + 1..], IsDomainChar)
  }

  /** Splitting at the first `@`: a non-empty local part before it and a non-empty
      domain after it, each drawn from its class. */
  predicate SplitsAtFirstAt(e: string) {
    match IndexOf(e, '@')
    case None => false
    case Some(i) => 0 < i < |e| - 1 && All(e[..i], IsLocalChar) && All(e[i + 1..], IsDomainChar)
  }

  /** `isValid`: null or blank input is refused before the pattern is tried. The
      pattern is matched by splitting at the first `@`. */
  function IsValid(email: Option<string>): (r: bool)
    ensures r ==> email.Some? && Trim(email.value) != ""
  {
    if email.None? || Trim(email.value) == "" then false
    else SplitsAtFirstAt(email.value)
  }

  /** Splitting at the first `@` decides the pattern: the validator accepts exactly
      the non-null strings that match it. */
  lemma IsValidIffMatches(email: Option<string>)
    ensures IsValid(email) <==> email.Some? && MatchesPattern(email.value)
  {
    if email.Some? {
      if IsValid(email) {
        ValidMatches(email.value);
      }
      if MatchesPattern(email.value) {
        MatchesValid(email.value);
      }
    }
  }

  /** The split the validator finds witnesses the pattern. */
  lemma ValidMatches(e: string)
    requires SplitsAtFirstAt(e)
    ensures MatchesPattern(e)
  {
    var i := IndexOf(e, '@').value;
    assert 0 < i < |e| - 1 && e[i] == '@' && All(e[..i], IsLocalChar) && All(e[i + 1..], IsDomainChar);
  }

  /** A string matching the pattern has no `@` in its local part, so the first `@`
      is the one the pattern splits at. */
  lemma MatchesValid(e: string)
    requires MatchesPattern(e)
    ensures IsValid(Some(e))
  {
    var i :| 0 < i < |e| - 1 && e[i] == '@' && All(e[..i], IsLocalChar) && All(e[i + 1..], IsDomainChar);
    forall k | 0 <= k < i
      ensures e[..i][k] != '@'
    {
      LocalCharIsNotAt(e[..i][k]);
    }
    IndexOfAt(e, '@', i);
    assert SplitsAtFirstAt(e);
    PatternNotBlank(e, i);
  }

  /** A matching string has a letter, digit or symbol at its start, so it is not
      blank: the blank check only rules out null. */
  lemma PatternNotBlank(e: string, i: nat)
    requires 0 < i < |e| && All(e[..i], IsLocalChar)
    ensures Trim(e) != ""
  {
    assert e[..i][0] == e[0];
    StripEmptyIff(e, IsTrimmed);
  }

  lemma AcceptedParts(e: string)
    requires IsValid(Some(e))
    ensures '@' in e
    ensures var i := IndexOf(e, '@').value;
            0 < i < |e| - 1 && All(e[..i], IsLocalChar) && All(e[i + 1..], IsDomainChar)
  {
    assert SplitsAtFirstAt(e);
  }

  /** Every accepted address holds exactly one `@`, with non-empty parts on both
      sides, and its domain holds neither `+` nor `_`. */
  lemma AcceptedShape(e: string)
    requires IsValid(Some(e))
    ensures var i := IndexOf(e, '@').value;
            0 < i < |e| - 1 && '@' !in e[..i] && '@' !in e[i + 1..]
            && '+' !in e[i + 1..] && '_' !in e[i + 1..]
  {
    AcceptedParts(e);
    var i := IndexOf(e, '@').value;
    var d := e[i + 1..];
    forall k | 0 <= k < |d|
      ensures d[k] != '@' && d[k] != '+' && d[k] != '_'
    {
      DomainCharIsPlain(d[k]);
    }
  }

  lemma LocalCharIsNotAt(c: char)
    requires IsLocalChar(c)
    ensures c != '@'
  {
  }

  lemma DomainCharIsPlain(c: char)
    requires IsDomainChar(c)
    ensures c != '@' && c != '+' && c != '_'
  {
  }
}

=== FILE: video_filter_jobs.dfy ===
/** The video-filter job service: a job records twelve colour adjustments (or a
    preset that replaces them) for an uploaded video, and processing turns the
    adjustments into an ffmpeg filter chain. ffmpeg, the clock and the file system
    are parameters; the chain is kept as a list of filters rather than a string. */
module VideoFilterJobs {
  import opened Wrappers
  import opened Text

  datatype Status = Pending | Processing | Completed | Failed

  /** The twelve adjustment values of a job or a request; `None` is a Java null. */
  datatype Adjustments = Adjustments(
    brightness: Option<real>,
    contrast: Option<real>,
    saturation: Option<real>,
    temperature: Option<real>,
    gamma: Option<real>,
    shadows: Option<real>,
    highlights: Option<real>,
    vibrance: Option<real>,
    hue: Option<real>,
    exposure: Option<real>,
    tint: Option<real>,
    sharpness: Option<real>)

  /** A `VideoFilterJob` row. */
  datatype Job = Job(
    id: nat,
    owner: nat,
    upload: nat,
    filterName: Option<string>,
    adj: Adjustments,
    presetName: Option<string>,
    lutPath: Option<string>,
    status: Status,
    progress: int,
    output: Option<string>)

  /** A `VideoFilterJobRequest`. */
  datatype Request = Request(
    filterName: Option<string>,
    adj: Adjustments,
    presetName: Option<string>,
    lutPath: Option<string>)

  // ------------------------------------------------------------ the filter chain

  /** One entry of the `-vf` chain. Highlights and exposure are emitted as
      brightness filters, shadows as a per-channel gamma. */
  datatype Filter =
    | Brightness(v: real)
    | Contrast(v: real)
    | Saturation(v: real)
    | Gamma(v: real)
    | Hue(v: real)
    | RedShift(v: real)
    | BlueShift(v: real)
    | ShadowGamma(v: real)
    | VibranceSaturation(v: real)
    | GreenShift(v: real)
    | Unsharp(v: real)
    | BoxBlur(v: real)
    | Lut(path: string)

  const Epsilon: real := 0.001
  const NeutralTemperature: real := 6500.0
  const TemperatureBand: real := 1.0

  function Abs(x: real): real { if x < 0.0 then -x else x }
  function Min(a: real, b: real): real { if a <= b then a else b }
  function Max(a: real, b: real): real { if a >= b then a else b }

  /** `Math.max(lo, Math.min(hi, x))`. */
  function Clamp(lo: real, hi: real, x: real): (r: real)
    requires lo <= hi
    ensures lo <= r <= hi
    ensures lo <= x <= hi ==> r == x
  {
    Max(lo, Min(hi, x))
  }

  /** A value is applied when it is present and further than `band` from neutral. */
  predicate Differs(v: Option<real>, neutral: real, band: real) {
    v.Some? && Abs(v.value - neutral) > band
  }

  /** The bounds every emitted filter's parameter respects. */
  predicate Bounded(f: Filter) {
    match f
    case RedShift(v) => 0.0 < v <= 0.3
    case BlueShift(v) => 0.0 < v <= 0.3
    case ShadowGamma(v) => 0.5 <= v <= 2.0
    case VibranceSaturation(v) => 0.0 <= v <= 3.0
    case GreenShift(v) => -0.5 <= v <= 0.5
    case Unsharp(v) => 0.0 < v <= 2.0
    case BoxBlur(v) => 0.0 < v <= 5.0
    case _ => true
  }

  function When(c: bool, f: Filter): (r: seq<Filter>)
    ensures |r| <= 1 && (r != [] <==> c) && (c ==> r == [f])
  {
    if c then [f] else []
  }

  /** Colder than 6500 K shifts red, warmer shifts blue, at most 0.3 either way. */
  function TemperatureFilter(t: Option<real>): (r: seq<Filter>)
    ensures |r| <= 1 && (r != [] <==> Differs(t, NeutralTemperature, TemperatureBand))
    ensures forall f | f in r :: Bounded(f)
    ensures r != [] && t.value < NeutralTemperature ==> r[0].RedShift?
    ensures r != [] && t.value > NeutralTemperature ==> r[0].BlueShift?
  {
    if !Differs(t, NeutralTemperature, TemperatureBand) then []
    else if t.value < NeutralTemperature then [RedShift(Min(0.3, (NeutralTemperature - t.value) / 6500.0 * 0.3))]
    else [BlueShift(Min(0.3, (t.value - NeutralTemperature) / 3500.0 * 0.3))]
  }

  /** Positive sharpness sharpens by 1.5 per unit up to 2; negative blurs up to 5. */
  function SharpnessFilter(s: Option<real>): (r: seq<Filter>)
    ensures |r| <= 1 && (r != [] <==> Differs(s, 0.0, Epsilon))
    ensures forall f | f in r :: Bounded(f)
    ensures r != [] ==> (r[0].Unsharp? <==> s.value > 0.0)
  {
    if !Differs(s, 0.0, Epsilon) then []
    else if s.value > 0.0 then [Unsharp(Min(2.0, s.value * 1.5))]
    else [BoxBlur(Min(5.0, Abs(s.value)))]
  }

  /** Shadows darken or lift through a gamma of 1 − 0.2·shadows, kept in [0.5, 2]. */
  function ShadowsFilter(v: Option<real>): (r: seq<Filter>)
    ensures |r| <= 1 && (r != [] <==> Differs(v, 0.0, Epsilon))
    ensures forall f | f in r :: Bounded(f)
  {
    if Differs(v, 0.0, Epsilon) then [ShadowGamma(Clamp(0.5, 2.0, 1.0 - v.value * 0.2))] else []
  }

  /** Vibrance becomes a saturation of 1 + 0.3·vibrance, kept in [0, 3]. */
  function VibranceFilter(v: Option<real>): (r: seq<Filter>)
    ensures |r| <= 1 && (r != [] <==> Differs(v, 0.0, Epsilon))
    ensures forall f | f in r :: Bounded(f)
  {
    if Differs(v, 0.0, Epsilon) then [VibranceSaturation(Clamp(0.0, 3.0, 1.0 + v.value * 0.3))] else []
  }

  /** Tint becomes a green balance of 0.01·tint, kept in [−0.5, 0.5]. */
  function TintFilter(v: Option<real>): (r: seq<Filter>)
    ensures |r| <= 1 && (r != [] <==> Differs(v, 0.0, Epsilon))
    ensures forall f | f in r :: Bounded(f)
  {
    if Differs(v, 0.0, Epsilon) then [GreenShift(Clamp(-0.5, 0.5, v.value * 0.01))] else []
  }

  /** A LUT is applied when its path is non-empty and the file exists. */
  predicate LutApplied(lut: Option<string>, lutExists: bool) {
    lut.Some? && lut.value != "" && lutExists
  }

  /** The contribution of check `i` of the thirteen `buildFFmpegCommand` makes, in
      its order: brightness, contrast, saturation, gamma, hue, temperature,
      shadows, highlights, vibrance, exposure, tint, sharpness, LUT. */
  function Step(a: Adjustments, lut: Option<string>, lutExists: bool, i: nat): (r: seq<Filter>)
    requires i < 13
    ensures |r| <= 1 && forall f | f in r :: Bounded(f)
  {
    match i
    case 0 => When(Differs(a.brightness, 0.0, Epsilon), Brightness(a.brightness.GetOr(0.0)))
    case 1 => When(Differs(a.contrast, 1.0, Epsilon), Contrast(a.contrast.GetOr(1.0)))
    case 2 => When(Differs(a.saturation, 1.0, Epsilon), Saturation(a.saturation.GetOr(1.0)))
    case 3 => When(Differs(a.gamma, 1.0, Epsilon), Gamma(a.gamma.GetOr(1.0)))
    case 4 => When(Differs(a.hue, 0.0, Epsilon), Hue(a.hue.GetOr(0.0)))
    case 5 => TemperatureFilter(a.temperature)
    case 6 => ShadowsFilter(a.shadows)
    case 7 => When(Differs(a.highlights, 0.0, Epsilon), Brightness(a.highlights.GetOr(0.0) * 0.1))
    case 8 => VibranceFilter(a.vibrance)
    case 9 => When(Differs(a.exposure, 0.0, Epsilon), Brightness(a.exposure.GetOr(0.0)))
    case 10 => TintFilter(a.tint)
    case 11 => SharpnessFilter(a.sharpness)
    case _ => When(LutApplied(lut, lutExists), Lut(lut.GetOr("")))
  }

  function Steps(a: Adjustments, lut: Option<string>, lutExists: bool): (r: seq<seq<Filter>>)
    ensures |r| == 13
    ensures forall i | 0 <= i < 13 :: r[i] == Step(a, lut, lutExists, i)
  {
    seq(13, i requires 0 <= i < 13 => Step(a, lut, lutExists, i))
  }

  /** Every value sits at its neutral point (within the band) or is null. */
  predicate Neutral(a: Adjustments) {
    !Differs(a.brightness, 0.0, Epsilon) && !Differs(a.contrast, 1.0, Epsilon)
    && !Differs(a.saturation, 1.0, Epsilon) && !Differs(a.gamma, 1.0, Epsilon)
    && !Differs(a.hue, 0.0, Epsilon) && !Differs(a.temperature, NeutralTemperature, TemperatureBand)
    && !Differs(a.shadows, 0.0, Epsilon) && !Differs(a.highlights, 0.0, Epsilon)
    && !Differs(a.vibrance, 0.0, Epsilon) && !Differs(a.exposure, 0.0, Epsilon)
    && !Differs(a.tint, 0.0, Epsilon) && !Differs(a.sharpness, 0.0, Epsilon)
  }

  /** A step contributes nothing exactly when its value is neutral. */
  lemma StepsEmptyIff(a: Adjustments, lut: Option<string>, lutExists: bool)
    ensures (forall i | 0 <= i < 13 :: Steps(a, lut, lutExists)[i] == []) <==> Neutral(a) && !LutApplied(lut, lutExists)
  {
    var r := Steps(a, lut, lutExists);
    if forall i | 0 <= i < 13 :: r[i] == [] {
      assert r[0] == [] && r[1] == [] && r[2] == [] && r[3] == [] && r[4] == [] && r[5] == [] && r[6] == [];
      assert r[7] == [] && r[8] == [] && r[9] == [] && r[10] == [] && r[11] == [] && r[12] == [];
    }
    if Neutral(a) && !LutApplied(lut, lutExists) {
      forall i | 0 <= i < 13
        ensures r[i] == []
      {
      }
    }
  }

  function Concat(ps: seq<seq<Filter>>): (r: seq<Filter>)
    ensures |r| <= Sum(ps)
  {
    if ps == [] then [] else ps[0] + Concat(ps[1..])
  }

  function Sum(ps: seq<seq<Filter>>): nat {
    if ps == [] then 0 else |ps[0]| + Sum(ps[1..])
  }

  /** The concatenation is empty exactly when every part is, and holds nothing the
      parts do not. */
  lemma {:induction false} ConcatParts(ps: seq<seq<Filter>>)
    ensures Concat(ps) == [] <==> forall i | 0 <= i < |ps| :: ps[i] == []
    ensures forall f | f in Concat(ps) :: exists i | 0 <= i < |ps| :: f in ps[i]
  {
    if ps != [] {
      ConcatParts(ps[1..]);
      forall f | f in Concat(ps)
        ensures exists i | 0 <= i < |ps| :: f in ps[i]
      {
        if f !in ps[0] {
          var j :| 0 <= j < |ps[1..]| && f in ps[1..][j];
          assert f in ps[j + 1];
        }
      }
      if forall i | 0 <= i < |ps| :: ps[i] == [] {
        assert forall i | 0 <= i < |ps[1..]| :: ps[1..][i] == ps[i + 1];
      }
      if Concat(ps) == [] {
        assert forall i | 0 <= i < |ps[1..]| :: ps[1..][i] == [] by {
          forall i | 0 <= i < |ps[1..]| ensures ps[1..][i] == [] { assert ps[1..][i] == ps[i + 1]; }
        }
      }
    }
  }

  lemma {:induction false} SumBound(ps: seq<seq<Filter>>, k: nat)
    requires forall i | 0 <= i < |ps| :: |ps[i]| <= k
    ensures Sum(ps) <= k * |ps|
  {
    if ps != [] {
      SumBound(ps[1..], k);
    }
  }

  /** The filter chain `buildFFmpegCommand` assembles. */
  function Filters(a: Adjustments, lut: Option<string>, lutExists: bool): seq<Filter> {
    Concat(Steps(a, lut, lutExists))
  }

  /** Every emitted filter respects its clamp, at most thirteen are emitted, and the
      chain (and with it the `-vf` option) is absent exactly when every value is
      neutral and no LUT applies. */
  lemma FilterChain(a: Adjustments, lut: Option<string>, lutExists: bool)
    ensures forall f | f in Filters(a, lut, lutExists) :: Bounded(f)
    ensures |Filters(a, lut, lutExists)| <= 13
    ensures Filters(a, lut, lutExists) == [] <==> Neutral(a) && !LutApplied(lut, lutExists)
  {
    var r := Steps(a, lut, lutExists);
    assert forall i | 0 <= i < |r| :: |r[i]| <= 1 && forall f | f in r[i] :: Bounded(f);
    ConcatParts(r);
    SumBound(r, 1);
    StepsEmptyIff(a, lut, lutExists);
  }

  // ------------------------------------------------------------ presets

  /** A preset's value for `key`; a key the preset lacks reads as null. */
  function Lookup(values: map<string, real>, key: string): (r: Option<real>)
    ensures r.Some? <==> key in values
    ensures r.Some? ==> r.value == values[key]
  {
    if key in values then Some(values[key]) else None
  }

  function FromPreset(values: map<string, real>): Adjustments {
    Adjustments(Lookup(values, "brightness"), Lookup(values, "contrast"), Lookup(values, "saturation"),
                Lookup(values, "temperature"), Lookup(values, "gamma"), Lookup(values, "shadows"),
                Lookup(values, "highlights"), Lookup(values, "vibrance"), Lookup(values, "hue"),
                Lookup(values, "exposure"), Lookup(values, "tint"), Lookup(values, "sharpness"))
  }

  predicate KnownPreset(name: Option<string>, presets: map<string, map<string, real>>) {
    name.Some? && name.value != "" && name.value in presets
  }

  /** A known, non-empty preset name replaces all twelve values; otherwise the job's
      own values stand. */
  function ApplyPreset(a: Adjustments, name: Option<string>, presets: map<string, map<string, real>>): (r: Adjustments)
    ensures KnownPreset(name, presets) ==> r == FromPreset(presets[name.value])
    ensures !KnownPreset(name, presets) ==> r == a
  {
    if KnownPreset(name, presets) then FromPreset(presets[name.value]) else a
  }

  /** With a known preset the chain no longer depends on the job's own values, and
      applying the preset a second time changes nothing. */
  lemma PresetOverrides(a1: Adjustments, a2: Adjustments, name: Option<string>,
                        presets: map<string, map<string, real>>, lut: Option<string>, lutExists: bool)
    requires KnownPreset(name, presets)
    ensures Filters(ApplyPreset(a1, name, presets), lut, lutExists) == Filters(ApplyPreset(a2, name, presets), lut, lutExists)
    ensures ApplyPreset(ApplyPreset(a1, name, presets), name, presets) == ApplyPreset(a1, name, presets)
  {
  }

  // ------------------------------------------------------------ the job lifecycle

  /** A lookup by id filtered by owner: another user's job reads as missing. */
  function GetJob(row: Option<Job>, user: nat): (r: Result<Job>)
    ensures r.Ok? <==> row.Some? && row.value.owner == user
    ensures r.Ok? ==> r.value == row.value
    ensures r.Err? ==> r.error.kind == Runtime
  {
    if row.Some? && row.value.owner == user then Ok(row.value)
    else Throw(Runtime, "Job not found or not authorized")
  }

  /** A request value replaces the stored one only when it is not null. */
  function Or<T>(update: Option<T>, current: Option<T>): (r: Option<T>)
    ensures update.Some? ==> r == update
    ensures update.None? ==> r == current
  {
    if update.Some? then update else current
  }

  function Overlay(a: Adjustments, u: Adjustments): Adjustments {
    Adjustments(Or(u.brightness, a.brightness), Or(u.contrast, a.contrast), Or(u.saturation, a.saturation),
                Or(u.temperature, a.temperature), Or(u.gamma, a.gamma), Or(u.shadows, a.shadows),
                Or(u.highlights, a.highlights), Or(u.vibrance, a.vibrance), Or(u.hue, a.hue),
                Or(u.exposure, a.exposure), Or(u.tint, a.tint), Or(u.sharpness, a.sharpness))
  }

  /** `updateJob`: refused while processing; otherwise only the request's non-null
      fields are written, and id, owner, upload, status, progress and output stay. */
  function UpdateJob(row: Option<Job>, user: nat, req: Request): (r: Result<Job>)
    ensures r.Ok? <==> GetJob(row, user).Ok? && row.value.status != Processing
    ensures r.Err? ==> r.error.kind == Runtime
    ensures r.Ok? ==> r.value == row.value.(filterName := Or(req.filterName, row.value.filterName),
                                            adj := Overlay(row.value.adj, req.adj),
                                            presetName := Or(req.presetName, row.value.presetName),
                                            lutPath := Or(req.lutPath, row.value.lutPath))
  {
    var job :- GetJob(row, user);
    if job.status == Processing then Throw(Runtime, "Cannot update a job that is processing")
    else Ok(job.(filterName := Or(req.filterName, job.filterName), adj := Overlay(job.adj, req.adj),
                 presetName := Or(req.presetName, job.presetName), lutPath := Or(req.lutPath, job.lutPath)))
  }

  const NoChange: Request := Request(None, Adjustments(None, None, None, None, None, None, None, None, None, None, None, None), None, None)

  /** An all-null request leaves a job as it is, and sending the same request twice
      has the effect of sending it once. */
  lemma UpdateLaws(job: Job, req: Request)
    requires job.status != Processing
    ensures UpdateJob(Some(job), job.owner, NoChange) == Ok(job)
    ensures var once := UpdateJob(Some(job), job.owner, req).value;
            UpdateJob(Some(once), job.owner, req) == Ok(once)
  {
  }

  /** What processing's external steps report: whether the output folder could be
      made, whether the LUT file exists, and ffmpeg's exit code. */
  datatype FilterRun = FilterRun(folderCreated: bool, lutExists: bool, exitCode: int)

  /** What a call leaves in the repository and what it throws, if anything. */
  datatype Saved = Saved(row: Option<Job>, error: Option<Error>)

  /** The chain processing hands to ffmpeg for a job. */
  function Chain(job: Job, presets: map<string, map<string, real>>, lutExists: bool): seq<Filter> {
    Filters(ApplyPreset(job.adj, job.presetName, presets), job.lutPath, lutExists)
  }

  /** `processJob`: a missing, foreign or running job is refused untouched; otherwise
      the job restarts at PROCESSING/0 without output, a known preset is written
      into its values, and it ends COMPLETED/100 with an output path, or FAILED/0
      with the failure rethrown. */
  function ProcessJob(row: Option<Job>, user: nat, presets: map<string, map<string, real>>, run: FilterRun,
                      baseDir: string, clock: nat): (r: Saved)
    ensures GetJob(row, user).Err? || row.value.status == Processing ==> r.row == row && r.error.Some?
    ensures GetJob(row, user).Ok? && row.value.status != Processing ==>
              var job := row.value;
              r.row.Some? && r.row.value.status in {Completed, Failed}
              && (r.error.None? <==> r.row.value.status == Completed)
              && (r.error.None? <==> run.folderCreated && run.exitCode == 0)
              && (r.row.value.status == Completed ==> r.row.value.progress == 100 && r.row.value.output.Some?)
              && (r.row.value.status == Failed ==> r.row.value.progress == 0 && r.row.value.output.None?)
              && r.row.value.(status := job.status, progress := job.progress, output := job.output, adj := job.adj) == job
              && (run.folderCreated ==> r.row.value.adj == ApplyPreset(job.adj, job.presetName, presets))
    ensures r.error.Some? ==> r.error.value.kind == Runtime
  {
    match GetJob(row, user)
    case Err(e) => Saved(row, Some(Error(Runtime, "Job not found or unauthorized")))
    case Ok(job) =>
      if job.status == Processing then Saved(row, Some(Error(Runtime, "Job is already processing")))
      else
        var started := job.(output := None, status := Processing, progress := 0);
        if !run.folderCreated then
          Saved(Some(started.(status := Failed, progress := 0)), Some(Error(Runtime, "Processing failed")))
        else
          var built := started.(adj := ApplyPreset(job.adj, job.presetName, presets));
          if run.exitCode != 0 then
            Saved(Some(built.(status := Failed, progress := 0)), Some(Error(Runtime, "Processing failed")))
          else
            var output := baseDir + "/" + Decimal(user) + "/filtered/" + Decimal(clock) + "_filtered.mp4";
            Saved(Some(built.(output := Some(output), status := Completed, progress := 100)), None)
  }

  // ------------------------------------------------------------ job creation

  /** Every job belongs to the owner of the upload it filters. */
  predicate Linked(jobs: seq<Job>, uploads: map<nat, nat>) {
    forall i | 0 <= i < |jobs| :: jobs[i].upload in uploads && uploads[jobs[i].upload] == jobs[i].owner
  }

  /** The first PENDING job for an upload, if any. */
  function FirstPending(jobs: seq<Job>, upload: nat): (r: Option<nat>)
    ensures r.None? <==> forall i | 0 <= i < |jobs| :: !(jobs[i].upload == upload && jobs[i].status == Pending)
    ensures r.Some? ==> r.value < |jobs| && jobs[r.value].upload == upload && jobs[r.value].status == Pending
  {
    if jobs == [] then None
    else if jobs[0].upload == upload && jobs[0].status == Pending then Some(0)
    else
      match FirstPending(jobs[1..], upload)
      case None => None
      case Some(i) => Some(i + 1)
  }

  /** `createJobFromUpload`. As written (`ownerFirst` false) a PENDING job for the
      upload is returned before the upload's owner is checked; the corrected order
      checks the owner first. A new job copies the request, PENDING at 0. */
  function CreateJob(jobs: seq<Job>, uploads: map<nat, nat>, upload: nat, req: Request, user: nat, ownerFirst: bool)
    : (r: Result<(seq<Job>, Job)>)
    ensures r.Err? <==> (upload !in uploads || uploads[upload] != user)
                        && (ownerFirst || FirstPending(jobs, upload).None?)
    ensures r.Err? ==> r.error.kind == Runtime
    ensures r.Ok? && FirstPending(jobs, upload).Some? ==> r.value == (jobs, jobs[FirstPending(jobs, upload).value])
    ensures r.Ok? && FirstPending(jobs, upload).None? ==>
              var job := r.value.1;
              r.value.0 == jobs + [job] && job.id == |jobs| && job.owner == user && job.upload == upload
              && job.status == Pending && job.progress == 0 && job.output.None?
              && job.adj == req.adj && job.filterName == req.filterName
              && job.presetName == req.presetName && job.lutPath == req.lutPath
  {
    var owned := upload in uploads && uploads[upload] == user;
    if ownerFirst && !owned then Throw(Runtime, "Video not found or not authorized")
    else
      match FirstPending(jobs, upload)
      case Some(i) => Ok((jobs, jobs[i]))
      case None =>
        if !owned then Throw(Runtime, "Video not found or not authorized")
        else
          var job := Job(|jobs|, user, upload, req.filterName, req.adj, req.presetName, req.lutPath, Pending, 0, None);
          Ok((jobs + [job], job))
  }

  /** Creation keeps every job linked to its upload's owner; with the owner checked
      first, the job handed back always belongs to the caller. */
  lemma CreateOwned(jobs: seq<Job>, uploads: map<nat, nat>, upload: nat, req: Request, user: nat, ownerFirst: bool)
    requires Linked(jobs, uploads)
    ensures var r := CreateJob(jobs, uploads, upload, req, user, ownerFirst);
            r.Ok? ==> Linked(r.value.0, uploads)
    ensures var r := CreateJob(jobs, uploads, upload, req, user, true);
            r.Ok? ==> r.value.1.owner == user
  {
    var r := CreateJob(jobs, uploads, upload, req, user, ownerFirst);
    if r.Ok? && FirstPending(jobs, upload).None? {
      assert forall i | 0 <= i < |jobs| :: r.value.0[i] == jobs[i];
    }
    var i := FirstPending(jobs, upload);
    if CreateJob(jobs, uploads, upload, req, user, true).Ok? && i.Some? {
      assert jobs[i.value].upload == upload;
    }
  }

  /** As written, a caller who does not own upload 7 is handed its owner's PENDING
      job. */
  lemma ForeignPendingJob(req: Request)
    ensures var job := Job(0, 1, 7, None, req.adj, None, None, Pending, 0, None);
            var r := CreateJob([job], map[7 := 1], 7, req, 2, false);
            r == Ok(([job], job)) && r.value.1.owner != 2
            && CreateJob([job], map[7 := 1], 7, req, 2, true).Err?
  {
    var job := Job(0, 1, 7, None, req.adj, None, None, Pending, 0, None);
    assert FirstPending([job], 7) == Some(0);
  }
}

=== FILE: video_segment.dfy ===
/** A video clip placed on the timeline: the range of the file it plays, where it sits,
    how it is transformed and cropped, and its per-property keyframes. Fields the
    editor nulls out when keyframes take over (position, scale, opacity) are
    options. */
module VideoSegments {
  import opened Wrappers
  import opened Sorting
  import opened Keyframes

  datatype VideoSegment = VideoSegment(
    id: string,
    sourceVideoPath: string,
    startTime: real,
    endTime: real,
    positionX: Option<int>,
    positionY: Option<int>,
    scale: Option<real>,
    opacity: Option<real>,
    layer: int,
    timelineStartTime: real,
    timelineEndTime: real,
    audioId: Option<string>,
    cropL: real,
    cropR: real,
    cropT: real,
    cropB: real,
    speed: real,
    keyframes: KeyframeMap)

  /** Crop percentages as the update operations keep them: each in [0, 100] and
      less than 100 per axis. */
  predicate CropsValid(s: VideoSegment) {
    0.0 <= s.cropL <= 100.0 && 0.0 <= s.cropR <= 100.0
    && 0.0 <= s.cropT <= 100.0 && 0.0 <= s.cropB <= 100.0
    && s.cropL + s.cropR < 100.0 && s.cropT + s.cropB < 100.0
  }

  /** The no-argument constructor, with the fresh UUID passed in. */
  function New(id: string): (s: VideoSegment)
    ensures s.id == id && s.layer == 0 && s.speed == 1.0
    ensures s.positionX == Some(0) && s.positionY == Some(0)
    ensures s.scale == Some(1.0) && s.opacity == Some(1.0)
    ensures CropsValid(s) && s.cropL + s.cropR + s.cropT + s.cropB == 0.0
    ensures s.keyframes == map[] && s.audioId.None?
  {
    VideoSegment(id, "", 0.0, 0.0, Some(0), Some(0), Some(1.0), Some(1.0), 0, 0.0, 0.0,
                 None, 0.0, 0.0, 0.0, 0.0, 1.0, map[])
  }

  /** After adding, the property's list is sorted by time, holds `k`, and holds no
      other keyframe within `Epsilon` of it; other properties keep their lists. */
  function AddKeyframe(s: VideoSegment, p: string, k: Keyframe): (r: VideoSegment)
    ensures r == s.(keyframes := r.keyframes)
    ensures r.keyframes.Keys == s.keyframes.Keys + {p}
    ensures SortedBy(r.keyframes[p], Time) && k in r.keyframes[p]
    ensures forall j :: j in r.keyframes[p] && j != k ==> !Near(j.time, k.time)
    ensures forall j :: j in r.keyframes[p] <==> j == k || (j in ListOf(s.keyframes, p) && !Near(j.time, k.time))
    ensures forall q :: q in s.keyframes && q != p ==> r.keyframes[q] == s.keyframes[q]
  {
    s.(keyframes := Add(s.keyframes, p, k))
  }

  /** Replaces the keyframe at (within `Epsilon` of) the new time and re-sorts: the
      corrected update, holding the same keyframes as the in-place overwrite. */
  function UpdateKeyframe(s: VideoSegment, p: string, k: Keyframe): (r: VideoSegment)
    ensures r == s.(keyframes := r.keyframes)
    ensures r.keyframes.Keys == s.keyframes.Keys
    ensures forall q :: q in s.keyframes && q != p ==> r.keyframes[q] == s.keyframes[q]
    ensures p in s.keyframes ==> |r.keyframes[p]| == |s.keyframes[p]|
    ensures p in s.keyframes && FirstNear(s.keyframes[p], k.time).Some? ==>
              k in r.keyframes[p] && SortedBy(r.keyframes[p], Time)
    ensures p !in s.keyframes || FirstNear(s.keyframes[p], k.time).None? ==> r == s
    ensures p in s.keyframes ==> multiset(r.keyframes[p]) == multiset(UpdateInPlace(s.keyframes, p, k)[p])
  {
    s.(keyframes := Update(s.keyframes, p, k))
  }

  /** Drops every keyframe of the property within `Epsilon` of `t`. */
  function RemoveKeyframe(s: VideoSegment, p: string, t: real): (r: VideoSegment)
    ensures r == s.(keyframes := r.keyframes)
    ensures r.keyframes.Keys == s.keyframes.Keys
    ensures forall q :: q in s.keyframes && q != p ==> r.keyframes[q] == s.keyframes[q]
    ensures p in s.keyframes ==> forall j :: j in r.keyframes[p] <==> j in s.keyframes[p] && !Near(j.time, t)
  {
    s.(keyframes := Remove(s.keyframes, p, t))
  }
}

=== FILE: video_speed_service.dfy ===
/** The video-speed service: an upload records a speed factor, the speed may be
    changed while no export is running, and an export re-encodes the video with
    ffmpeg. The clock, the file system and ffmpeg are parameters. */
module VideoSpeedService {
  import opened Wrappers
  import opened Text

  datatype Status = Uploaded | Pending | Processing | Completed | Failed

  /** A `VideoSpeed` row. */
  datatype VideoSpeed = VideoSpeed(
    owner: nat,
    originalFilePath: string,
    speed: real,
    status: Status,
    progress: real,
    outputFilePath: Option<string>,
    cdnUrl: Option<string>)

  const MinSpeed: real := 0.5
  const MaxSpeed: real := 15.0

  predicate ValidSpeed(s: real) {
    MinSpeed <= s <= MaxSpeed
  }

  /** A row is busy while an export is pending or running. */
  predicate Busy(v: VideoSpeed) {
    v.status == Pending || v.status == Processing
  }

  // ------------------------------------------------------------ file names

  /** A character `sanitizeFilename` keeps: `[a-z0-9._-]`. */
  predicate SafeChar(c: char) {
    IsLowerLetter(c) || IsDigit(c) || c == '.' || c == '_' || c == '-'
  }

  predicate Safe(s: string) {
    forall i :: 0 <= i < |s| ==> SafeChar(s[i])
  }

  function SanitizeChar(c: char): (r: char)
    ensures SafeChar(r)
    ensures SafeChar(LowerChar(c)) ==> r == LowerChar(c)
    ensures !SafeChar(LowerChar(c)) ==> r == '_'
  {
    var l := LowerChar(c);
    if SafeChar(l) then l else '_'
  }

  /** `sanitizeFilename`: a null name becomes `video_<clock>.mp4`; otherwise the name
      is lower-cased and every character outside `[a-z0-9._-]` becomes `_`. */
  function SanitizeFilename(name: Option<string>, clock: nat): (r: string)
    ensures Safe(r)
    ensures name.None? ==> r == "video_" + Decimal(clock) + ".mp4"
    ensures name.Some? ==> |r| == |name.value|
                           && forall i :: 0 <= i < |r| ==> r[i] == SanitizeChar(name.value[i])
  {
    match name
    case None =>
      var r := "video_" + Decimal(clock) + ".mp4";
      DecimalIsSafe(clock);
      assert forall i :: 6 <= i < 6 + |Decimal(clock)| ==> r[i] == Decimal(clock)[i - 6];
      r
    case Some(s) => seq(|s|, i requires 0 <= i < |s| => SanitizeChar(s[i]))
  }

  lemma DecimalIsSafe(n: nat)
    ensures Safe(Decimal(n))
  {
    DecimalValue(n);
  }

  /** A name that is already safe comes back unchanged, so sanitising twice is the
      same as sanitising once. */
  lemma SanitizeKeepsSafe(s: string, clock: nat)
    requires Safe(s)
    ensures SanitizeFilename(Some(s), clock) == s
  {
    var r := SanitizeFilename(Some(s), clock);
    assert forall i :: 0 <= i < |s| ==> LowerChar(s[i]) == s[i];
  }

  lemma SanitizeIdempotent(s: string, c1: nat, c2: nat)
    ensures SanitizeFilename(Some(SanitizeFilename(Some(s), c1)), c2) == SanitizeFilename(Some(s), c1)
  {
    SanitizeKeepsSafe(SanitizeFilename(Some(s), c1), c2);
  }

  /** `isValidVideoType`: exactly `video/mp4`, `video/mov` and `video/avi`. */
  predicate IsValidVideoType(contentType: Option<string>) {
    contentType.Some? && contentType.value in {"video/mp4", "video/mov", "video/avi"}
  }

  // ------------------------------------------------------------ the status machine

  /** What every stored row satisfies: a valid speed, a progress in [0, 100], and
      an output path (mirrored in the CDN URL) exactly when the last export
      completed. */
  predicate Sound(v: VideoSpeed) {
    ValidSpeed(v.speed) && 0.0 <= v.progress <= 100.0
    && (v.status == Completed <==> v.outputFilePath.Some?)
    && v.cdnUrl == v.outputFilePath
  }

  /** The uploaded file as the controller passes it. */
  datatype Part = Part(contentType: Option<string>, size: nat, name: Option<string>)

  /** `uploadVideo`: the file, its type and the speed are checked in that order;
      then the user's folder is created and the file written there, `stored`
      saying whether both succeeded. */
  function Upload(owner: nat, file: Option<Part>, speed: Option<real>, baseDir: string, clock: nat,
                  stored: bool)
    : (r: Result<VideoSpeed>)
    ensures r.Ok? <==> file.Some? && file.value.size > 0 && IsValidVideoType(file.value.contentType)
                       && (speed.None? || ValidSpeed(speed.value)) && stored
    ensures r.Err? ==> r.error.kind == (if stored || !(file.Some? && file.value.size > 0
                                                       && IsValidVideoType(file.value.contentType)
                                                       && (speed.None? || ValidSpeed(speed.value)))
                                        then IllegalArgument else IOFailure)
    ensures r.Ok? ==> Sound(r.value) && r.value.owner == owner && r.value.status == Uploaded
                      && r.value.progress == 0.0 && r.value.speed == speed.GetOr(1.0)
                      && EndsWith(r.value.originalFilePath, SanitizeFilename(file.value.name, clock))
  {
    if file.None? || file.value.size == 0 then Throw(IllegalArgument, "Video file cannot be empty")
    else if !IsValidVideoType(file.value.contentType) then Throw(IllegalArgument, "Invalid file type")
    else if speed.Some? && !ValidSpeed(speed.value) then Throw(IllegalArgument, "Speed must be between 0.5 and 15.0")
    else if !stored then Throw(IOFailure, "could not store the upload")
    else
      var name := SanitizeFilename(file.value.name, clock);
      var path := baseDir + "/" + Decimal(owner) + "/" + name;
      EndsWithAppend(baseDir + "/" + Decimal(owner) + "/", name);
      Ok(VideoSpeed(owner, path, speed.GetOr(1.0), Uploaded, 0.0, None, None))
  }

  /** `findByIdAndUser`: a row is found only for its owner. */
  function Find(row: Option<VideoSpeed>, user: nat): (r: Result<VideoSpeed>)
    ensures r.Ok? <==> row.Some? && row.value.owner == user
    ensures r.Ok? ==> r.value == row.value
    ensures r.Err? ==> r.error.kind == Runtime
  {
    if row.Some? && row.value.owner == user then Ok(row.value)
    else Throw(Runtime, "Video not found or unauthorized")
  }

  /** `updateSpeed`: the lookup, then the speed, then the status gate. Only the speed
      changes. */
  function UpdateSpeed(row: Option<VideoSpeed>, user: nat, speed: Option<real>): (r: Result<VideoSpeed>)
    ensures r.Ok? <==> row.Some? && row.value.owner == user && speed.Some? && ValidSpeed(speed.value)
                       && !Busy(row.value)
    ensures r.Ok? ==> r.value == row.value.(speed := speed.value)
    ensures r.Err? && row.Some? && row.value.owner == user ==>
              r.error.kind == (if speed.None? || !ValidSpeed(speed.value) then IllegalArgument else IllegalState)
  {
    var v :- Find(row, user);
    if speed.None? || !ValidSpeed(speed.value) then Throw(IllegalArgument, "Speed must be between 0.5 and 15.0")
    else if Busy(v) then Throw(IllegalState, "Cannot update speed while video is being processed")
    else Ok(v.(speed := speed.value))
  }

  /** What the export's external steps report: whether the original is on disk,
      whether the output folder could be created, whether ffmpeg exists and is
      executable, whether it finished within the timeout, its exit code, and
      whether the output file appeared. */
  datatype ExportRun = ExportRun(
    originalExists: bool,
    folderCreated: bool,
    toolReady: bool,
    finished: bool,
    exitCode: int,
    outputExists: bool)

  predicate Succeeds(run: ExportRun) {
    run.toolReady && run.finished && run.exitCode == 0 && run.outputExists
  }

  /** What a call leaves in the repository and what it throws, if anything. */
  datatype Saved = Saved(row: Option<VideoSpeed>, error: Option<Error>)

  /** `initiateExport` followed by `processVideoWithFFmpeg`. The reset clears the
      previous output; a failure to create the output folder escapes after the
      PENDING row was saved; every failure of ffmpeg itself ends FAILED. */
  function InitiateExport(row: Option<VideoSpeed>, user: nat, run: ExportRun, baseDir: string, clock: nat)
    : (r: Saved)
    ensures Find(row, user).Err? || Busy(row.value) || !run.originalExists ==> r.row == row && r.error.Some?
    ensures r.error.None? <==> Find(row, user).Ok? && !Busy(row.value) && run.originalExists && run.folderCreated
    ensures r.row.Some? && r.error.None? ==>
              r.row.value == row.value.(status := r.row.value.status, progress := r.row.value.progress,
                                        outputFilePath := r.row.value.outputFilePath, cdnUrl := r.row.value.cdnUrl)
              && (r.row.value.status == Completed <==> Succeeds(run))
              && (r.row.value.status == Completed ==> r.row.value.progress == 100.0 && r.row.value.outputFilePath.Some?)
              && (r.row.value.status != Completed ==> r.row.value.status == Failed && r.row.value.progress == 0.0
                                                      && r.row.value.outputFilePath.None?)
  {
    match Find(row, user)
    case Err(e) => Saved(row, Some(e))
    case Ok(v) =>
      if Busy(v) then Saved(row, Some(Error(IllegalState, "Video is already being processed")))
      else if !run.originalExists then Saved(row, Some(Error(IllegalState, "Original video file not found")))
      else
        var pending := v.(status := Pending, progress := 10.0, cdnUrl := None, outputFilePath := None);
        if !run.folderCreated then Saved(Some(pending), Some(Error(IOFailure, "Failed to create output directory")))
        else
          var output := baseDir + "/" + Decimal(v.owner) + "/output_" + Decimal(clock) + ".mp4";
          if Succeeds(run) then
            Saved(Some(pending.(status := Completed, progress := 100.0, outputFilePath := Some(output), cdnUrl := Some(output))), None)
          else
            Saved(Some(pending.(status := Failed, progress := 0.0)), None)
  }

  /** Every operation keeps a stored row sound. */
  lemma UploadSound(owner: nat, file: Option<Part>, speed: Option<real>, baseDir: string, clock: nat, stored: bool)
    ensures Upload(owner, file, speed, baseDir, clock, stored).Ok? ==>
              Sound(Upload(owner, file, speed, baseDir, clock, stored).value)
  {
  }

  lemma UpdateSpeedSound(v: VideoSpeed, speed: Option<real>)
    requires Sound(v)
    ensures UpdateSpeed(Some(v), v.owner, speed).Ok? ==> Sound(UpdateSpeed(Some(v), v.owner, speed).value)
  {
  }

  lemma ExportSound(v: VideoSpeed, user: nat, run: ExportRun, baseDir: string, clock: nat)
    requires Sound(v)
    ensures Sound(InitiateExport(Some(v), user, run, baseDir, clock).row.value)
  {
  }

  /** The export saves PENDING before creating the output folder, and PENDING counts
      as busy: a row whose folder creation fails keeps PENDING, and the speed and
      export operations refuse busy rows. */
  lemma StuckAfterFolderFailure(v: VideoSpeed, run: ExportRun, baseDir: string, clock: nat,
                                 speed: Option<real>, run2: ExportRun)
    requires !Busy(v) && run.originalExists && !run.folderCreated
    ensures var stuck := InitiateExport(Some(v), v.owner, run, baseDir, clock).row;
            stuck.value.status == Pending
            && UpdateSpeed(stuck, v.owner, speed).Err?
            && InitiateExport(stuck, v.owner, run2, baseDir, clock).error.Some?
  {
  }
}

=== FILE: whisper_subtitle.dfy ===
/** The chunking of `whisper_subtitle.py`: each transcription segment is split into
    chunks of three words that share the segment's time in proportion to their word
    count; a single word left at the end joins the chunk before it. The speech model
    itself is left out: its segments are the input. */
module WhisperSubtitle {
  import opened Text

  /** One segment of the transcription. */
  datatype RawSegment = RawSegment(start: real, end: real, text: string)

  /** One emitted subtitle; its text is its words joined by single spaces. */
  datatype Chunk = Chunk(start: real, end: real, words: seq<string>)

  function ChunkText(c: Chunk): string {
    Join(c.words, " ")
  }

  const ChunkSize: nat := 3

  function Max(a: real, b: real): real { if a >= b then a else b }

  /** `start_time + (duration * i / len(words))`: the time at word boundary `i` of `n`. */
  function Point(s: real, d: real, i: nat, n: nat): real {
    if n == 0 then s else s + d * i as real / n as real
  }

  /** Later word boundaries lie later when the segment has a positive duration. */
  lemma PointIncreases(s: real, d: real, i: nat, j: nat, n: nat)
    requires n > 0 && d > 0.0 && i < j
    ensures Point(s, d, i, n) < Point(s, d, j, n)
  {
    assert d * j as real - d * i as real == d * (j - i) as real;
    assert d * (j - i) as real > 0.0;
    assert (d * j as real - d * i as real) / n as real > 0.0;
  }

  /** The first boundary is the start and the last one the start plus the duration. */
  lemma PointEnds(s: real, d: real, n: nat)
    requires n > 0
    ensures Point(s, d, 0, n) == s && Point(s, d, n, n) == s + d
  {
  }

  /** Boundaries `0..n` strictly increase. */
  predicate Increasing(at: nat -> real, n: nat) {
    forall i, j :: 0 <= i < j <= n ==> at(i) < at(j)
  }

  /** The previous chunk with one more word: as written its end stays where it was;
      with `extend` it reaches the boundary after the word, when that lies later. */
  function Merged(c: Chunk, word: string, newEnd: real, extend: bool): (r: Chunk)
    ensures r.start == c.start && r.words == c.words + [word]
    ensures c.end <= r.end
    ensures !extend ==> r.end == c.end
    ensures extend && newEnd > c.end ==> r.end == newEnd
  {
    Chunk(c.start, if extend && newEnd > c.end then newEnd else c.end, c.words + [word])
  }

  /** The chunking loop over one segment's words from word `i` on, appending to the
      subtitles emitted so far; `at(i)` is the time of word boundary `i`. `extend`
      selects the merge: `false` is the code as written. */
  function ChunkLoop(words: seq<string>, at: nat -> real, i: nat, acc: seq<Chunk>, extend: bool): (r: seq<Chunk>)
    requires 0 < |words| && i <= |words|
    ensures (forall k :: 0 <= k < |acc| ==> acc[k].start < acc[k].end) ==>
              forall k :: 0 <= k < |r| ==> r[k].start < r[k].end
    decreases |words| - i
  {
    var n := |words|;
    if i == n then acc
    else
      var size := if n - i < ChunkSize then n - i else ChunkSize;
      if size == 1 && i > 0 && |acc| > 0 && acc[|acc| - 1].end == at(i) then
        var last := Merged(acc[|acc| - 1], words[i], at(i + 1), extend);
        ChunkLoop(words, at, i + 1, acc[..|acc| - 1] + [last], extend)
      else if at(i + size) <= at(i) then ChunkLoop(words, at, i + size, acc, extend)
      else ChunkLoop(words, at, i + size, acc + [Chunk(at(i), at(i + size), words[i..i + size])], extend)
  }

  /** The words of a list of chunks, in order. */
  function Flatten(cs: seq<Chunk>): seq<string>
    decreases |cs|
  {
    if |cs| == 0 then [] else Flatten(cs[..|cs| - 1]) + cs[|cs| - 1].words
  }

  lemma FlattenSnoc(cs: seq<Chunk>, c: Chunk)
    ensures Flatten(cs + [c]) == Flatten(cs) + c.words
  {
    assert (cs + [c])[..|cs|] == cs;
  }

  /** Contiguous chunks of three words (the last one excepted), each of positive length. */
  predicate Chained(cs: seq<Chunk>) {
    (forall k :: 0 <= k < |cs| - 1 ==> cs[k].end == cs[k + 1].start && |cs[k].words| == ChunkSize)
    && (forall k :: 0 <= k < |cs| ==> cs[k].start < cs[k].end)
  }

  /** What one segment's chunks look like when they start a fresh list: every word in
      order, contiguous times from the first boundary, three words a chunk except the
      last, and the last ending at the last boundary unless a lone trailing word was
      merged as written. */
  predicate Fresh(words: seq<string>, at: nat -> real, r: seq<Chunk>, extend: bool) {
    var n := |words|;
    |r| > 0 && Flatten(r) == words && r[0].start == at(0) && Chained(r)
    && |r[|r| - 1].words| == n - 3 * (|r| - 1) && 1 <= |r[|r| - 1].words| <= 4
    && (n > 1 ==> |r[|r| - 1].words| >= 2)
    && r[|r| - 1].end == (if n % 3 == 1 && n > 1 && !extend then at(n - 1) else at(n))
  }

  /** The loop's invariant over the chunks of the current segment, at word `i`. */
  predicate Partial(words: seq<string>, at: nat -> real, i: nat, acc: seq<Chunk>)
    requires i <= |words|
  {
    i == 3 * |acc| && Flatten(acc) == words[..i] && Chained(acc)
    && (|acc| > 0 ==> acc[0].start == at(0) && acc[|acc| - 1].end == at(i)
                      && |acc[|acc| - 1].words| == ChunkSize)
  }

  /** A lone last word joins the chunk before it. */
  lemma MergeStep(words: seq<string>, at: nat -> real, acc: seq<Chunk>, extend: bool)
    requires 1 < |words| && Increasing(at, |words|)
    requires Partial(words, at, |words| - 1, acc)
    ensures Fresh(words, at, ChunkLoop(words, at, |words| - 1, acc, extend), extend)
  {
    var n := |words|;
    var init := acc[..|acc| - 1];
    var last := Merged(acc[|acc| - 1], words[n - 1], at(n), extend);
    MergeUnfold(words, at, acc, extend);
    MergeWords(words, at, acc, extend);
    MergeChained(acc, last);
    assert at(n - 1) < at(n);
  }

  /** The loop merges the last word and stops. */
  lemma MergeUnfold(words: seq<string>, at: nat -> real, acc: seq<Chunk>, extend: bool)
    requires 1 < |words| && Partial(words, at, |words| - 1, acc)
    ensures ChunkLoop(words, at, |words| - 1, acc, extend)
            == acc[..|acc| - 1] + [Merged(acc[|acc| - 1], words[|words| - 1], at(|words|), extend)]
  {
    var n := |words|;
    var next := acc[..|acc| - 1] + [Merged(acc[|acc| - 1], words[n - 1], at(n), extend)];
    assert ChunkLoop(words, at, n - 1, acc, extend) == ChunkLoop(words, at, n, next, extend);
  }

  lemma MergeWords(words: seq<string>, at: nat -> real, acc: seq<Chunk>, extend: bool)
    requires 1 < |words| && Partial(words, at, |words| - 1, acc)
    ensures Flatten(acc[..|acc| - 1] + [Merged(acc[|acc| - 1], words[|words| - 1], at(|words|), extend)]) == words
  {
    var n := |words|;
    var init := acc[..|acc| - 1];
    var last := Merged(acc[|acc| - 1], words[n - 1], at(n), extend);
    FlattenSnoc(init, last);
    FlattenSnoc(init, acc[|acc| - 1]);
    assert init + [acc[|acc| - 1]] == acc;
    assert words == words[..n - 1] + [words[n - 1]];
  }

  /** Replacing the last chunk by one with the same start and a later end keeps the chain. */
  lemma MergeChained(acc: seq<Chunk>, last: Chunk)
    requires |acc| > 0 && Chained(acc)
    requires last.start == acc[|acc| - 1].start && acc[|acc| - 1].end <= last.end
    ensures Chained(acc[..|acc| - 1] + [last])
  {
    var next := acc[..|acc| - 1] + [last];
    assert forall k :: 0 <= k < |acc| - 1 ==> next[k] == acc[k];
  }

  /** A chunk of `size` words appended at word `i`. */
  lemma AppendStep(words: seq<string>, at: nat -> real, i: nat, size: nat, acc: seq<Chunk>)
    requires 0 < size <= 3 && i + size <= |words| && Increasing(at, |words|)
    requires Partial(words, at, i, acc)
    ensures var next := acc + [Chunk(at(i), at(i + size), words[i..i + size])];
            Flatten(next) == words[..i + size] && next[0].start == at(0) && Chained(next)
  {
    var c := Chunk(at(i), at(i + size), words[i..i + size]);
    FlattenSnoc(acc, c);
    assert words[..i + size] == words[..i] + words[i..i + size];
  }

  /** A full chunk keeps the loop's invariant. */
  lemma AppendPartial(words: seq<string>, at: nat -> real, i: nat, acc: seq<Chunk>)
    requires i + 3 <= |words| && Increasing(at, |words|)
    requires Partial(words, at, i, acc)
    ensures Partial(words, at, i + 3, acc + [Chunk(at(i), at(i + 3), words[i..i + 3])])
  {
    AppendStep(words, at, i, 3, acc);
  }

  /** The last chunk, of one to three words, ends the segment. */
  lemma FinalStep(words: seq<string>, at: nat -> real, i: nat, acc: seq<Chunk>, extend: bool)
    requires i < |words| <= i + 3 && Increasing(at, |words|) && (i + 1 == |words| ==> i == 0)
    requires Partial(words, at, i, acc)
    ensures Fresh(words, at, ChunkLoop(words, at, i, acc, extend), extend)
  {
    var n := |words|;
    var c := Chunk(at(i), at(n), words[i..n]);
    FinalUnfold(words, at, i, acc, extend);
    AppendStep(words, at, i, n - i, acc);
    assert words[..n] == words;
    var r := acc + [c];
    assert r[|r| - 1] == c;
    assert |c.words| == n - 3 * (|r| - 1);
    assert n % 3 == 1 && n > 1 ==> false;
  }

  /** The loop takes the remaining words as one chunk. */
  lemma FinalUnfold(words: seq<string>, at: nat -> real, i: nat, acc: seq<Chunk>, extend: bool)
    requires i < |words| <= i + 3 && Increasing(at, |words|) && (i + 1 == |words| ==> i == 0)
    ensures ChunkLoop(words, at, i, acc, extend) == acc + [Chunk(at(i), at(|words|), words[i..|words|])]
  {
    var n := |words|;
    assert at(i) < at(n);
    assert ChunkLoop(words, at, i, acc, extend)
        == ChunkLoop(words, at, n, acc + [Chunk(at(i), at(n), words[i..n])], extend);
  }

  lemma {:induction false} ChunkLoopFresh(words: seq<string>, at: nat -> real, i: nat, acc: seq<Chunk>, extend: bool)
    requires i < |words| && Increasing(at, |words|)
    requires Partial(words, at, i, acc)
    ensures Fresh(words, at, ChunkLoop(words, at, i, acc, extend), extend)
    decreases |words| - i
  {
    var n := |words|;
    if n - i == 1 && i > 0 {
      MergeStep(words, at, acc, extend);
    } else if n - i <= 3 {
      FinalStep(words, at, i, acc, extend);
    } else {
      var c := Chunk(at(i), at(i + 3), words[i..i + 3]);
      AppendPartial(words, at, i, acc);
      ChunkLoopFresh(words, at, i + 3, acc + [c], extend);
      AppendUnfold(words, at, i, acc, extend);
    }
  }

  /** Before the last three words, the loop appends a full chunk and goes on. */
  lemma AppendUnfold(words: seq<string>, at: nat -> real, i: nat, acc: seq<Chunk>, extend: bool)
    requires i + 3 < |words| && Increasing(at, |words|)
    ensures ChunkLoop(words, at, i, acc, extend)
            == ChunkLoop(words, at, i + 3, acc + [Chunk(at(i), at(i + 3), words[i..i + 3])], extend)
  {
    assert at(i) < at(i + 3);
  }

  /** Whatever came before a non-empty list of this segment's chunks is left alone. */
  lemma {:induction false} ChunkLoopPrefix(words: seq<string>, at: nat -> real, i: nat, pre: seq<Chunk>,
                                           acc: seq<Chunk>, extend: bool)
    requires 0 < |words| && i <= |words| && |acc| > 0
    ensures ChunkLoop(words, at, i, pre + acc, extend) == pre + ChunkLoop(words, at, i, acc, extend)
    decreases |words| - i, 1
  {
    var n := |words|;
    if i < n {
      var size := if n - i < ChunkSize then n - i else ChunkSize;
      if size == 1 && i > 0 && acc[|acc| - 1].end == at(i) {
        PrefixMerge(words, at, i, pre, acc, extend);
      } else if at(i + size) <= at(i) {
        PrefixSkip(words, at, i, pre, acc, extend);
      } else {
        PrefixAppend(words, at, i, pre, acc, extend);
      }
    }
  }

  /** The merging step of `ChunkLoopPrefix`. */
  lemma {:induction false} PrefixMerge(words: seq<string>, at: nat -> real, i: nat, pre: seq<Chunk>, acc: seq<Chunk>,
                                       extend: bool)
    requires 0 < i && i + 1 == |words| && |acc| > 0 && acc[|acc| - 1].end == at(i)
    ensures ChunkLoop(words, at, i, pre + acc, extend) == pre + ChunkLoop(words, at, i, acc, extend)
    decreases |words| - i, 0
  {
    var all := pre + acc;
    var last := Merged(acc[|acc| - 1], words[i], at(i + 1), extend);
    var next := acc[..|acc| - 1] + [last];
    ChunkLoopPrefix(words, at, i + 1, pre, next, extend);
    assert all[|all| - 1] == acc[|acc| - 1];
    assert all[..|all| - 1] + [last] == pre + next;
  }

  /** The skipping step of `ChunkLoopPrefix`. */
  lemma {:induction false} PrefixSkip(words: seq<string>, at: nat -> real, i: nat, pre: seq<Chunk>, acc: seq<Chunk>,
                                      extend: bool)
    requires 0 < |words| && i < |words| && |acc| > 0
    requires var size := if |words| - i < ChunkSize then |words| - i else ChunkSize;
             !(size == 1 && i > 0 && acc[|acc| - 1].end == at(i)) && at(i + size) <= at(i)
    ensures ChunkLoop(words, at, i, pre + acc, extend) == pre + ChunkLoop(words, at, i, acc, extend)
    decreases |words| - i, 0
  {
    var size := if |words| - i < ChunkSize then |words| - i else ChunkSize;
    ChunkLoopPrefix(words, at, i + size, pre, acc, extend);
    var all := pre + acc;
    assert all[|all| - 1] == acc[|acc| - 1];
  }

  /** The appending step of `ChunkLoopPrefix`. */
  lemma {:induction false} PrefixAppend(words: seq<string>, at: nat -> real, i: nat, pre: seq<Chunk>, acc: seq<Chunk>,
                                        extend: bool)
    requires 0 < |words| && i < |words| && |acc| > 0
    requires var size := if |words| - i < ChunkSize then |words| - i else ChunkSize;
             !(size == 1 && i > 0 && acc[|acc| - 1].end == at(i)) && at(i) < at(i + size)
    ensures ChunkLoop(words, at, i, pre + acc, extend) == pre + ChunkLoop(words, at, i, acc, extend)
    decreases |words| - i, 0
  {
    var size := if |words| - i < ChunkSize then |words| - i else ChunkSize;
    var c := Chunk(at(i), at(i + size), words[i..i + size]);
    ChunkLoopPrefix(words, at, i + size, pre, acc + [c], extend);
    var all := pre + acc;
    assert all[|all| - 1] == acc[|acc| - 1];
    assert all + [c] == pre + (acc + [c]);
  }

  /** With increasing boundaries the first chunk is always emitted, so a segment's
      chunks follow the earlier subtitles unchanged. */
  lemma ChunkLoopFromStart(words: seq<string>, at: nat -> real, acc: seq<Chunk>, extend: bool)
    requires 0 < |words| && Increasing(at, |words|)
    ensures ChunkLoop(words, at, 0, acc, extend) == acc + ChunkLoop(words, at, 0, [], extend)
  {
    var n := |words|;
    var size := if n < ChunkSize then n else ChunkSize;
    var c := Chunk(at(0), at(size), words[0..size]);
    assert at(0) < at(size);
    assert ChunkLoop(words, at, 0, acc, extend) == ChunkLoop(words, at, size, acc + [c], extend);
    assert [] + [c] == [c];
    assert ChunkLoop(words, at, 0, [], extend) == ChunkLoop(words, at, size, [c], extend);
    ChunkLoopPrefix(words, at, size, acc, [c], extend);
  }

  /** The words of a segment: `text.strip().split()`. */
  function SegmentWords(seg: RawSegment): seq<string> {
    Words(PyStrip(seg.text), IsWhitespace)
  }

  /** A segment the script does not skip: some text, a positive span, some words. */
  predicate Usable(seg: RawSegment) {
    PyStrip(seg.text) != "" && seg.start < seg.end && SegmentWords(seg) != []
  }

  /** The word-boundary times of a segment: its start clamped at zero, then equal
      shares of the time up to its end. */
  function Boundaries(seg: RawSegment): nat -> real {
    var s := Max(0.0, seg.start);
    var n := |SegmentWords(seg)|;
    (k: nat) => Point(s, seg.end - s, k, n)
  }

  /** One pass of the outer loop: the segment's chunks, appended to (or merged into)
      the subtitles so far. */
  function SegmentChunks(seg: RawSegment, acc: seq<Chunk>, extend: bool): (r: seq<Chunk>)
    ensures (forall k :: 0 <= k < |acc| ==> acc[k].start < acc[k].end) ==>
              forall k :: 0 <= k < |r| ==> r[k].start < r[k].end
  {
    if !Usable(seg) then acc else ChunkLoop(SegmentWords(seg), Boundaries(seg), 0, acc, extend)
  }

  /** `generate_subtitles` after transcription: the segments in order. Every subtitle
      it returns has a positive duration. */
  function Subtitles(segments: seq<RawSegment>, extend: bool): (r: seq<Chunk>)
    ensures forall k :: 0 <= k < |r| ==> r[k].start < r[k].end
    decreases |segments|
  {
    if |segments| == 0 then []
    else SegmentChunks(segments[|segments| - 1], Subtitles(segments[..|segments| - 1], extend), extend)
  }

  /** The chunks one segment yields on its own. */
  function Own(seg: RawSegment, extend: bool): seq<Chunk>
    requires Usable(seg)
  {
    ChunkLoop(SegmentWords(seg), Boundaries(seg), 0, [], extend)
  }

  /** A segment that ends after time zero has increasing boundaries from its clamped
      start to its end. */
  lemma BoundariesIncrease(seg: RawSegment)
    requires Usable(seg) && seg.end > 0.0
    ensures Increasing(Boundaries(seg), |SegmentWords(seg)|)
    ensures Boundaries(seg)(0) == Max(0.0, seg.start)
    ensures Boundaries(seg)(|SegmentWords(seg)|) == seg.end
  {
    var n := |SegmentWords(seg)|;
    SpanIncreases(Max(0.0, seg.start), seg.end, n);
    SpanEnds(Max(0.0, seg.start), seg.end, n);
  }

  lemma SpanIncreases(s: real, e: real, n: nat)
    requires n > 0 && s < e
    ensures Increasing((k: nat) => Point(s, e - s, k, n), n)
  {
    var at := (k: nat) => Point(s, e - s, k, n);
    forall i, j | 0 <= i < j <= n
      ensures at(i) < at(j)
    {
      PointIncreases(s, e - s, i, j, n);
    }
  }

  lemma SpanEnds(s: real, e: real, n: nat)
    requires n > 0
    ensures var at := (k: nat) => Point(s, e - s, k, n); at(0) == s && at(n) == e
  {
    PointEnds(s, e - s, n);
  }

  /** Such a segment's chunks follow the earlier subtitles, which stay as they were,
      and have the shape `Fresh` describes. */
  lemma SegmentAppends(seg: RawSegment, acc: seq<Chunk>, extend: bool)
    requires Usable(seg) && seg.end > 0.0
    ensures SegmentChunks(seg, acc, extend) == acc + Own(seg, extend)
    ensures Fresh(SegmentWords(seg), Boundaries(seg), Own(seg, extend), extend)
  {
    var words := SegmentWords(seg);
    BoundariesIncrease(seg);
    ChunkLoopFromStart(words, Boundaries(seg), acc, extend);
    ChunkLoopFresh(words, Boundaries(seg), 0, [], extend);
  }

  /** With the merged chunk extended to the end of its last word, a segment's chunks
      hold all its words in order, in groups of three with a last group of two to four
      (one only for a one-word segment), and tile its span from the clamped start to
      the end without gap or overlap. */
  lemma OwnTiles(seg: RawSegment)
    requires Usable(seg) && seg.end > 0.0
    ensures var r := Own(seg, true);
            |r| > 0 && Flatten(r) == SegmentWords(seg) && Chained(r)
            && r[0].start == Max(0.0, seg.start) && r[|r| - 1].end == seg.end
            && 1 <= |r[|r| - 1].words| <= 4
            && (|SegmentWords(seg)| > 1 ==> |r[|r| - 1].words| >= 2)
  {
    var words := SegmentWords(seg);
    var at := Boundaries(seg);
    BoundariesIncrease(seg);
    ChunkLoopFresh(words, at, 0, [], true);
    var r := ChunkLoop(words, at, 0, [], true);
    assert r[|r| - 1].end == at(|words|);
  }

  /** As written, when a lone last word is merged (a segment of 4, 7, 10, ... words),
      the merged chunk keeps its old end: the subtitle ends before the segment does,
      at the start of its last word. */
  lemma AsWrittenEndsEarly(seg: RawSegment)
    requires Usable(seg) && seg.end > 0.0
    requires |SegmentWords(seg)| % 3 == 1 && |SegmentWords(seg)| > 1
    ensures var r := Own(seg, false);
            |r| > 0 && Flatten(r) == SegmentWords(seg)
            && r[|r| - 1].end == Boundaries(seg)(|SegmentWords(seg)| - 1) < seg.end
  {
    var words := SegmentWords(seg);
    var at := Boundaries(seg);
    BoundariesIncrease(seg);
    ChunkLoopFresh(words, at, 0, [], false);
    assert at(|words| - 1) < at(|words|);
  }

  /** The merged text is the old text, a space and the word (`text += " " + word`). */
  lemma MergedText(c: Chunk, word: string, newEnd: real, extend: bool)
    requires |c.words| > 0
    ensures ChunkText(Merged(c, word, newEnd, extend)) == ChunkText(c) + " " + word
  {
    JoinSnoc(c.words, word);
  }

  lemma {:induction false} JoinSnoc(parts: seq<string>, w: string)
    requires |parts| > 0
    ensures Join(parts + [w], " ") == Join(parts, " ") + " " + w
    decreases |parts|
  {
    if |parts| == 1 {
      assert parts + [w] == [parts[0], w];
      assert [parts[0], w][1..] == [w];
    } else {
      assert (parts + [w])[1..] == parts[1..] + [w];
      JoinSnoc(parts[1..], w);
    }
  }

  /** What a segment contributes on its own: nothing when it is skipped. */
  function Contribution(seg: RawSegment, extend: bool): seq<Chunk> {
    if Usable(seg) then Own(seg, extend) else []
  }

  /** The segments' own chunks, concatenated in order. */
  function Contributions(segments: seq<RawSegment>, extend: bool): seq<Chunk>
    decreases |segments|
  {
    if |segments| == 0 then []
    else Contributions(segments[..|segments| - 1], extend) + Contribution(segments[|segments| - 1], extend)
  }

  /** A segment that is skipped or ends after time zero; the speech model produces
      no other kind. */
  predicate Audible(seg: RawSegment) {
    Usable(seg) ==> seg.end > 0.0
  }

  /** The subtitles are each segment's chunks in segment order: no merge crosses
      from one segment into another. */
  lemma {:induction false} SubtitlesConcatenate(segments: seq<RawSegment>, extend: bool)
    requires forall k :: 0 <= k < |segments| ==> Audible(segments[k])
    ensures Subtitles(segments, extend) == Contributions(segments, extend)
    decreases |segments|
  {
    if |segments| > 0 {
      var init := segments[..|segments| - 1];
      var seg := segments[|segments| - 1];
      assert forall k :: 0 <= k < |init| ==> init[k] == segments[k];
      SubtitlesConcatenate(init, extend);
      if Usable(seg) {
        SegmentAppends(seg, Subtitles(init, extend), extend);
      }
    }
  }

  /** Four words over four seconds, one second each: as written the single subtitle
      ends at 3.0 while its last word is spoken until 4.0; extended it ends at 4.0. */
  lemma FourWords()
    ensures ChunkLoop(["a", "b", "c", "d"], (k: nat) => k as real, 0, [], false)
            == [Chunk(0.0, 3.0, ["a", "b", "c", "d"])]
    ensures ChunkLoop(["a", "b", "c", "d"], (k: nat) => k as real, 0, [], true)
            == [Chunk(0.0, 4.0, ["a", "b", "c", "d"])]
  {
    var w := ["a", "b", "c", "d"];
    var at := (k: nat) => k as real;
    var first := [Chunk(0.0, 3.0, w[0..3])];
    assert ChunkLoop(w, at, 0, [], false) == ChunkLoop(w, at, 3, first, false);
    assert ChunkLoop(w, at, 0, [], true) == ChunkLoop(w, at, 3, first, true);
    assert w[0..3] + [w[3]] == w;
  }
}

=== FILE: wrappers.dfy ===
/** Failure-compatible result types shared by every module of the model.
    A Java or Python exception becomes an `Err` carrying the exception's kind and a
    short tag naming the check that failed. */
module Wrappers {

  datatype Option<T> = None | Some(value: T) {
    predicate IsFailure() { None? }

    function PropagateFailure<U>(): Option<U>
      requires None?
    {
      None
    }

    function Extract(): T
      requires Some?
    {
      value
    }

    function GetOr(default: T): T {
      match this
      case Some(v) => v
      case None => default
    }
  }

  /** The exception class a failing operation raises. */
  datatype ErrorKind =
    | IllegalArgument   // java.lang.IllegalArgumentException, Python ValueError
    | IllegalState      // java.lang.IllegalStateException
    | Runtime           // java.lang.RuntimeException, Python RuntimeError
    | IOFailure         // java.io.IOException, Python PermissionError

  datatype Error = Error(kind: ErrorKind, reason: string)

  datatype Result<T> = Ok(value: T) | Err(error: Error) {
    predicate IsFailure() { Err? }

    function PropagateFailure<U>(): Result<U>
      requires Err?
    {
      Err(error)
    }

    function Extract(): T
      requires Ok?
    {
      value
    }
  }

  function Throw<T>(kind: ErrorKind, reason: string): Result<T> {
    Err(Error(kind, reason))
  }

  /** A failure without a value, for checks that either pass or throw. */
  datatype Outcome = Pass | Fail(error: Error) {
    predicate IsFailure() { Fail? }

    function PropagateFailure<U>(): Result<U>
      requires Fail?
    {
      Err(error)
    }
  }

  function Need(cond: bool, kind: ErrorKind, reason: string): (r: Outcome)
    ensures r.Pass? <==> cond
  {
    if cond then Pass else Fail(Error(kind, reason))
  }
}
